=== FILE: README.md ===
# A Dafny model of the resumable DSD-to-FLAC album pipeline

This project models the core of a music catalog manager that converts DSD albums (`.dsf`, `.dff`, SACD `.iso`) to FLAC one album at a time. Each album is processed in stages: PREPARING, CONVERTING, ARCHIVING, FINALIZING, COMPLETED. A run can be paused and resumed from a JSON session file. An album already processed is recognised by its content-derived identity and skipped.

The modules follow the program's own files:

- `AlbumMetadata` and `Hashing` model the `.album_metadata` sidecar, the order-independent audio checksum and the version-5 UUID derived from it (section 4.3 of RFC 4122). SHA-256, SHA-1 and MD5 are parameters: every property holds for any digest functions.
- `Deduplication` models the first-match "already processed?" verdict, over the sidecar and an abstract catalog (`Catalog`).
- `WorkingDirectory`, `Archiver` and `CopyVerification` model the per-album working directories, the disk-space gate, the verified copies and the refuse-to-overwrite copy and move rules. They work over an abstract file tree (`FileSystem`, `Paths`): a map from path to file or directory.
- `StateManager` models the session store: records, status updates, the attempt counter, the pending filter, statistics, the pause flag, and saving and loading as an encode/decode pair over JSON values (`Json`).
- `Orchestrator` models the per-album stage machine. `Batch` models the album loop and the choice of albums on resume. `TrackMetadata` models the per-track metadata merge. What the collaborators report (disk check, copies, each converter attempt, archive, move) is an input, and a run is observed as the ordered list of actions it issues.
- `Converter` models the ffmpeg argument lists, the mode and extension dispatch, and how an exit status becomes a result. The subprocess is a parameter.
- `Scanner` models album discovery and file classification.
- `Config` models dot-path get/set, command-line overrides and validation on the configuration tree.
- `MetadataEnricher` models the deterministic parts of the tag enricher. The catalogue services' answers are parameters.
- `Ordering` and `Text` give Python's string and path ordering, sorting, and the `str` helpers the program relies on.

The clock is a parameter wherever the program reads it. So are the network, the subprocesses, the available disk space and the outcome of each copy or move.

## Model

| member | source | states |
|---|---|---|
| AlbumMetadata.Read | src/album_metadata.py:45-68 | for a sidecar holding a JSON object: a record reads back exactly when the object holds `album_id`, `created_at` and `audio_checksum`, and the record is the whole object; other documents read as no record (see Left out) |
| AlbumMetadata.ReadAsWritten | src/album_metadata.py:45-68 | for any document: it is returned exactly when each field name is `in` it (a key, a list element or a substring); a number, boolean or `null` document raises, uncaught |
| AlbumMetadata.ReadAgreesOnObjects | src/album_metadata.py:52-65 | on a missing or unparsable file and on a JSON object, `Read` gives what `read()` gives |
| AlbumMetadata.ListSidecarPasses | src/album_metadata.py:61-65 | a list of the three field names is returned as the record by `read()`, though it is no record |
| AlbumMetadata.StringSidecarPasses | src/album_metadata.py:61-65 | so is a string that contains the three field names |
| AlbumMetadata.Write | src/album_metadata.py:70-119 | a successful write leaves a readable record with the given id and checksum, the creation time or `now` when it is falsy, `last_processed` = `now` unless the extra fields set it, and exactly the extra keys besides; a failed write leaves the old file untouched |
| AlbumMetadata.Update | src/album_metadata.py:121-149 | fails without touching the file when there is no valid record; otherwise succeeds exactly when the write does, and the new record is the old one merged with the fields and a fresh `last_processed` |
| AlbumMetadata.UpdateKeepsIdentity | src/album_metadata.py:131-149 | an update that does not name `album_id`, `audio_checksum` or `created_at` keeps the id and checksum, and keeps a truthy creation time |
| AlbumMetadata.GetAlbumId | src/album_metadata.py:151-159 | the stored id, present exactly when a valid record exists |
| AlbumMetadata.GetChecksum | src/album_metadata.py:161-169 | the stored checksum, present exactly when a valid record exists, and so exactly when the id is |
| AlbumMetadata.GetProcessedAlbumId | src/album_metadata.py:171-179 | present exactly when a valid record carries `processed_album_id` |
| AlbumMetadata.SetProcessedAlbumId | src/album_metadata.py:181-191 | succeeds exactly when a record exists and the write works; afterwards the processed id reads back and the id and checksum are unchanged |
| AlbumMetadata.ReadBackWrite | src/album_metadata.py:89-111 | what `write` stores, `get_album_id` and `get_checksum` read back |
| AlbumMetadata.ValidateRefusesExactlyMixed | src/album_metadata.py:194-215 | validation raises exactly when the list holds both an ISO image and a FLAC/DSF/DFF file (extensions compared lower-cased) |
| AlbumMetadata.AudioChecksum | src/album_metadata.py:246-305 | mixed formats are refused and nothing else is; every checksum is 64 hex characters |
| AlbumMetadata.IsoAlbumChecksum | src/album_metadata.py:280-287 | an ISO album's checksum is 64 characters; it fails only when the image cannot be read |
| AlbumMetadata.TrackAlbumChecksum | src/album_metadata.py:289-305 | a track album's checksum is 64 characters; it fails only with an unreadable file |
| AlbumMetadata.ChecksumOrderInvariant | src/album_metadata.py:277-278 | the checksum does not depend on the order the files are passed in |
| AlbumMetadata.ChecksumDependsOnlyOnContents | src/album_metadata.py:289-305 | two trees that agree on the bytes of the listed files give the same checksum |
| AlbumMetadata.IsoChecksumReadsPrefixOnly | src/album_metadata.py:325-347 | two images of the same size that agree on their first 20 MiB get the same checksum |
| AlbumMetadata.HashFile | src/album_metadata.py:364-371 | the loop of 8 MiB reads computes SHA-256 of the whole file |
| AlbumMetadata.HashIsoImage | src/album_metadata.py:325-347 | the bounded read loop hashes exactly the first min(20 MiB, size) bytes followed by the decimal size |
| AlbumMetadata.CalculateAudioChecksum | src/album_metadata.py:274-305 | the imperative checksum equals the functional definition, including its errors |
| AlbumMetadata.HashTracks | src/album_metadata.py:289-305 | the loop over sorted tracks concatenates their digests and hashes the result, stopping at the first unreadable file |
| AlbumMetadata.GenerateAlbumId | src/album_metadata.py:218-243 | the id exists exactly when the checksum does, is a well-formed version-5 UUID under the fixed namespace (line 24), and carries the checksum's error otherwise |
| AlbumMetadata.SameAudioSameId | src/album_metadata.py:218-243 | the same audio bytes, listed in any order and stored anywhere, get the same album id |
| AlbumMetadata.CreateForAlbum | src/album_metadata.py:374-414 | returns an id exactly when the checksum succeeds, the extra fields do not name `audio_checksum` (a duplicate keyword for `write`) and the write works; a given id is kept, otherwise the generated one is used; the record then holds that id and the checksum, a truthy `created_at` among the extra fields as its creation time (otherwise now) and every other extra field; on failure the file is unchanged |
| AlbumMetadata.WriteCreated | src/album_metadata.py:405-409 | the record written for `create_for_album` holds the id, the checksum, a truthy `created_at` from the extra fields or else now, and exactly the required fields, `last_processed` and the extra fields, each extra field but `created_at` as given |
| AlbumMetadata.VerifyChecksum | src/album_metadata.py:417-439 | false without a truthy stored checksum; true exactly when the stored checksum equals the recomputed one; raises exactly when a truthy checksum is stored and the recomputation raises |
| AlbumMetadata.CreatedRecordVerifies | src/album_metadata.py:374-439 | whenever the checksum can be computed and the extra fields do not clash, a successful `create_for_album` writes a record that verifies against the files it was created from |
| Hashing.Hex | src/album_metadata.py:305 | a hex digest has two characters per digest byte |
| Hashing.HexAt | src/album_metadata.py:305 | byte `i` of the digest is spelt, high nibble first, at characters `2i` and `2i+1` |
| Hashing.HexPairInjective | src/album_metadata.py:305 | different bytes spell different hex pairs |
| Hashing.HexInjective | src/album_metadata.py:305 | equal hex digests come from equal digests, so comparing checksums as text compares the digests |
| Hashing.Utf8Char | src/album_metadata.py:303 | a character encodes to one to four bytes, and to one exactly when it is ASCII |
| Hashing.Utf8 | src/album_metadata.py:303 | the encoding has at least one byte per character |
| Hashing.Utf8Ascii | src/album_metadata.py:303 | ASCII text encodes to one byte per character, the byte being the code point |
| Hashing.Uuid5Bytes | src/album_metadata.py:241 | a version-5 UUID has version nibble 5 and variant bits `10` |
| Hashing.FormatUuid | src/album_metadata.py:243 | the text form is 36 characters, with dashes at exactly positions 8, 13, 18 and 23 and hex digits elsewhere |
| Hashing.VersionAndVariantDigits | src/album_metadata.py:241-243 | the version digit shows the high nibble of byte 6 and the variant digit that of byte 8 |
| Hashing.VariantDigit | src/album_metadata.py:241-243 | variant bits `10` show as `8`, `9`, `a` or `b` |
| Hashing.Uuid5 | src/album_metadata.py:218-243 | an album id has the textual shape of a version-5 UUID: `5` as version digit, `8`–`b` as variant digit |
| Catalog.CreateAlbum | src/database.py:164-228 | inserting succeeds exactly when the id is new; a duplicate id leaves the catalog unchanged |
| Catalog.UpdateAlbum | src/database.py:230-265 | only the row with that id changes: the given non-`None` columns take their values, every other column and every other row keeps its value |
| Catalog.UpdateOneColumn | src/database.py:230-265 | setting one column changes that column of that row and nothing else |
| Catalog.AddHistory | src/database.py:550-594 | the new entry becomes the newest; the albums are unchanged |
| Catalog.Filter | src/database.py:612-628 | the selected entries are exactly those of the album (and of the operation, when one is given) |
| Catalog.AddHistoryIsNewest | src/database.py:550-628 | the entry just added heads that album's history for its operation, followed by the older entries unchanged |
| Catalog.AddHistoryOther | src/database.py:550-628 | an entry for another album or another operation leaves a history unchanged |
| Deduplication.CatalogVerdict | src/deduplication.py:109-161 | the album is in the database exactly when the catalog has its row, and processed exactly when that row has both an archive and a playback path and a successful conversion is recorded |
| Deduplication.CheckAlbumStatusChain | src/deduplication.py:45-106 | no sidecar, an unreadable sidecar and a missing id or checksum each give not-processed with their own reason; only a failed checksum computation under verification fails the call |
| Deduplication.ChangedAudioIsNotProcessed | src/deduplication.py:91-103 | under verification changed audio gives not-processed with the mismatch reason, whatever the catalog holds |
| Deduplication.ProcessedExactly | src/deduplication.py:45-161 | processed exactly when the sidecar has an id and checksum, the checksum still matches when verified, and the catalog row has both paths and a successful conversion |
| Deduplication.ProcessedReportsMatch | src/deduplication.py:104-161 | a processed verdict reports a matching checksum and a catalog row; without verification the check cannot fail |
| Deduplication.UnverifiedChecksumMatches | src/deduplication.py:104-106 | without verification the checksum counts as matching and the audio files are not read |
| Deduplication.UnknownAlbumNotInDatabase | src/deduplication.py:109-120 | an id the catalog does not know gives not-processed, outside the database |
| Deduplication.ShouldSkip | src/deduplication.py:179-204 | forcing never skips; otherwise the album is skipped exactly when it is processed, with the matching message |
| Deduplication.ForceIgnoresEverything | src/deduplication.py:196-197 | when forced the answer depends on nothing about the album or the catalog |
| Deduplication.GetOrCreateAlbumId | src/deduplication.py:206-243 | an existing truthy id is returned as is; otherwise the content-derived id is returned and, when the write succeeds, stored in the sidecar with the checksum |
| Deduplication.GetOrCreateIsStable | src/deduplication.py:206-243 | asking again gives the same id, whether or not the first write succeeded |
| Deduplication.ReconcileMovedAlbum | src/deduplication.py:245-286 | true exactly when the album is known; no other row and no history changes |
| Deduplication.ReconcileMovesOneColumn | src/deduplication.py:268-283 | the first of the source, archive and playback columns holding the old path is set to the new path, and only that one |
| Deduplication.RegisterAlbumLocation | src/deduplication.py:303-333 | a location type is accepted exactly when it names a column (in full or without `_path`), and only that column of that row is set |
| Deduplication.LocationTypesAccepted | src/deduplication.py:320-325 | the accepted types are exactly the three column names and their three short names |
| Deduplication.FindAlbumLocations | src/deduplication.py:335-361 | an unknown album has no locations; a known one reports its three columns |
| Deduplication.RegisterThenFind | src/deduplication.py:303-361 | a registered location is found again in its column |
| WorkingDirectory.SanitizeName | src/working_directory.py:553-574 | every unsafe character (`/ \ : * ? " < > \|`) becomes `_` and every other one is kept in place; the result is cut to 200 characters |
| WorkingDirectory.SanitizeIdempotent | src/working_directory.py:553-574 | sanitising a sanitised name changes nothing |
| WorkingDirectory.SanitizeKeepsSafeNames | src/working_directory.py:553-574 | a name of safe characters within 200 characters is kept as it is |
| WorkingDirectory.CreateWorkingDirs | src/working_directory.py:36-73 | succeeds exactly when neither `<name>_<timestamp>_source` nor `..._processed` exists, creating both as directories; otherwise reports that they exist and changes nothing; no other entry changes |
| WorkingDirectory.WorkingDirNamesShape | src/working_directory.py:52-60 | the two directories are distinct, directly below the working root, and share one base followed by `_source` and `_processed` |
| WorkingDirectory.ListWorkingDirectories | src/working_directory.py:371-395 | every listed pair is a `_source` directory below the root with an existing `_processed` sibling |
| WorkingDirectory.CreatedPairIsListed | src/working_directory.py:36-73 | a freshly created pair is found again by `list_working_directories` |
| WorkingDirectory.WalkFiles | src/working_directory.py:436-445 | the walk sums the sizes of the files and notes whether any has the `.iso` extension |
| WorkingDirectory.EstimateRequiredSpace | src/working_directory.py:410-449 | a missing album needs nothing; otherwise its bytes times 5 with an ISO image and times 3 without |
| WorkingDirectory.CheckDiskSpace | src/working_directory.py:451-484 | passes exactly when the free space covers the estimate plus the margin; a failure starts with `Insufficient disk space. Required: ` |
| WorkingDirectory.DiskCheckMonotone | src/working_directory.py:466-481 | more free space never turns a pass into a failure |
| WorkingDirectory.VerifiedBySize | src/working_directory.py:106-110 | the verification step passes exactly when counts and sizes match, and otherwise reports `Verification failed: ` and the first problem |
| WorkingDirectory.CopyToSource | src/working_directory.py:75-115 | a missing album or source directory is refused with its message; a plain-file album fails as `iterdir` does; otherwise every entry is copied below the source directory and the result passes exactly when verification is off or the copy matches by count and size |
| WorkingDirectory.CreateProcessedStructure | src/working_directory.py:117-174 | a missing album or processed directory is refused; otherwise every subdirectory is mirrored, every non-music file is copied when asked, anything new is such a mirror, and nothing outside the processed directory changes |
| WorkingDirectory.CleanupWorkingDirs | src/working_directory.py:197-233 | only removes entries; succeeds exactly when every existing directory it was given was removed, and then nothing at or below them is left |
| WorkingDirectory.Relocate | src/working_directory.py:235-369 | the four move and copy operations refuse a missing source and an existing destination without changing anything; a move renames the whole tree to the destination; a copy needs a directory and duplicates its tree below the destination, keeping the source |
| Paths.NameIsLastComponent | src/archiver.py:97 | `p.name` is the text after the last `/`: it holds no `/`, ends the path, and a `/` precedes it whenever it is not the whole path |
| Paths.NameOfJoin | src/working_directory.py:100 | the name of `dir / name` is `name` when `name` holds no `/` |
| Paths.Suffix | src/scanner.py:24 | `Path.suffix` is empty or starts at the last `.` of the name, is at least two characters, is shorter than the name and holds no other `.` |
| FileSystem.CopyTree | src/archiver.py:62-67 | `copytree` makes the destination a directory and changes nothing outside it |
| FileSystem.CopyTreeCopies | src/archiver.py:62-67 | every entry below the source reappears, with the same contents, at its relative place below the destination |
| FileSystem.CopyTreeOrigin | src/archiver.py:62-67 | every new entry below the destination is the copy of the entry at its relative place below the source |
| FileSystem.CopyBelow | src/working_directory.py:99-104 | copying the album's entries into an existing directory puts each below it at its relative place and changes nothing outside the destination's subtree |
| FileSystem.RemoveTree | src/archiver.py:74 | `rmtree` removes the directory and everything below it and nothing else |
| FileSystem.MoveTree | src/working_directory.py:262 | `shutil.move` to a fresh destination outside the source: the source disappears, the destination takes its node, and entries outside both are unchanged |
| FileSystem.SortedFiles | src/working_directory.py:537-551 | the regular files below a directory, each once, strictly increasing in Python's path order |
| Archiver.ArchivePath | src/archiver.py:86-103 | the archive path lies directly below the archive root and is named `<album name>_<timestamp>` |
| Archiver.ArchiveAlbum | src/archiver.py:34-84 | an existing archive path counts as done; a missing album or a plain file gives the `OSError` text; otherwise the tree is copied and the result is success exactly when verification is off or the copy passes it; a failed verification removes the copy and reports the first problem |
| Archiver.FreshArchiveSucceeds | src/archiver.py:54-77 | archiving a directory to a fresh place outside it (and not around it) succeeds even with verification on, leaves a directory at the archive path and changes no existing entry |
| Archiver.FailedArchiveLeavesNothing | src/archiver.py:70-75 | a failed archive leaves nothing at or below the archive path and every other entry as it was |
| Archiver.ListArchives | src/archiver.py:215-228 | the listing holds exactly the directories directly below an existing root, strictly sorted as paths |
| Archiver.DeleteArchive | src/archiver.py:230-251 | a missing path and a path outside the root are refused with their messages and nothing changes; deletion succeeds exactly for a directory at or below the root, and removes exactly that subtree |
| Archiver.ArchiveIsListed | src/archiver.py:86-103 | a successful archive shows up in `list_archives`, unless a regular file already held its name |
| Archiver.DeletedArchiveUnlisted | src/archiver.py:215-251 | deleting a listed archive succeeds and takes it off the list |
| CopyVerification.CopyProblemNoneIffMatches | src/archiver.py:105-163 | the verifier reports no problem exactly when the counts agree and every source file's copy passes |
| CopyVerification.VerifyCopy | src/working_directory.py:486-535 | the loop returns success exactly when the copy matches; a count mismatch is reported first, and otherwise the message names the first source file, in sorted order, whose copy fails |
| CopyVerification.CopyTreeVerifies | src/archiver.py:62-75 | whatever `copytree` produces into a fresh destination passes verification, so the archive step never fails its own check |
| StateManager.ParseStatus | src/state_manager.py:18-27 | a status string parses only to the enum member whose value it is |
| StateManager.ParseStatusValue | src/state_manager.py:18-27 | every album status survives a round trip through its stored value |
| StateManager.EncodeFiles | src/state_manager.py:228-238 | the saved file list has one entry per file record, in order |
| StateManager.EncodeAlbums | src/state_manager.py:219-241 | the saved album list has one entry per album record, in order |
| StateManager.DecodeFiles | src/state_manager.py:170-172 | a file list that loads has one record per saved entry |
| StateManager.DecodeAlbums | src/state_manager.py:164-178 | an album list that loads has one record per saved entry |
| StateManager.DecodeEncodeFile | src/state_manager.py:171 | a saved file record loads back unchanged |
| StateManager.DecodeEncodeFiles | src/state_manager.py:170-172 | a saved file list loads back unchanged |
| StateManager.DecodeEncodeAlbum | src/state_manager.py:165-176 | a saved album record, with its files, loads back unchanged |
| StateManager.DecodeEncodeAlbums | src/state_manager.py:164-178 | a saved album list loads back unchanged |
| StateManager.DecodeEncodeNames | src/state_manager.py:180-189 | the session's id, directories, mode and start time load back as saved |
| StateManager.DecodeEncodeSession | src/state_manager.py:149-250 | what `save_state` writes, `load_session` reads back as the same session |
| StateManager.MissingIdDoesNotLoad | src/state_manager.py:159-199 | a state document without `session_id` is malformed and loads no session |
| StateManager.Save | src/state_manager.py:201-250 | saving writes the in-memory session to the state file and changes nothing else; with no session nothing is written |
| StateManager.LoadSession | src/state_manager.py:149-199 | a missing or unreadable state file loads nothing and leaves the manager as it was; a loaded session becomes the current one (ill-typed fields: see Left out) |
| StateManager.SavedSessionLoads | src/state_manager.py:149-250 | after any save, loading returns the session that was in memory |
| StateManager.CreateSession | src/state_manager.py:107-147 | a new session has the given id and start time, no albums, is not paused or completed, and is already saved so that it loads back |
| StateManager.AddAlbum | src/state_manager.py:252-287 | without a session it fails with "No active session"; otherwise exactly one album is appended after the existing ones, pending, with one pending zero-attempt file record per `(source, output)` pair, and the rest of the session is unchanged and saved |
| StateManager.AddedAlbumIsPendingLast | src/state_manager.py:252-369 | an added album becomes the last pending album, after the previously pending ones |
| StateManager.FindAlbum | src/state_manager.py:305-307 | the index found is the first album under the path; -1 means no album has that path |
| StateManager.FindFile | src/state_manager.py:340-343 | the index found is the first file record with that source; -1 means none has it |
| StateManager.UpdateAlbumStatus | src/state_manager.py:289-319 | only the first album under the path changes: its status is set, the archive path and error are replaced only when given, its name, files and start time stay; every other album and session field stays; with no session nothing happens |
| StateManager.OnlyFinalStatusStamps | src/state_manager.py:315-316 | an album's completion time changes only for COMPLETED, FAILED or SKIPPED, and those stamp the current time |
| StateManager.UpdateFileStatus | src/state_manager.py:321-354 | only the first matching file of the first matching album changes; everything else in the session is kept and the session is saved; with no session nothing happens |
| StateManager.MarkIn | src/state_manager.py:340-352 | within one album, only the first record with the source path is marked: status set, one more attempt on `'converting'`, error replaced only when given, `completed_at` stamped only for `'completed'`/`'failed'` |
| StateManager.ConvertingCountsOneAttempt | src/state_manager.py:345-346 | each `'converting'` mark raises that file's attempt count by exactly one |
| StateManager.UnmatchedFileChangesNothing | src/state_manager.py:337-352 | marking a file that is not recorded leaves the session as it was |
| StateManager.PendingOf | src/state_manager.py:366-369 | the filter keeps exactly the pending and failed albums |
| StateManager.PendingOfAppend | src/state_manager.py:366-369 | the filter keeps session order: filtering a concatenation concatenates the filtered parts |
| StateManager.GetPendingAlbums | src/state_manager.py:356-369 | with no session the list is empty; otherwise an album is listed iff it is in the session with status pending or failed |
| StateManager.CreatePauseSignal | src/state_manager.py:380-385 | afterwards the pause signal is present and the session, if any, is marked paused with nothing else changed |
| StateManager.ClearPauseSignal | src/state_manager.py:387-393 | afterwards the pause signal is absent and the session, if any, is marked not paused with nothing else changed |
| StateManager.PauseThenClear | src/state_manager.py:380-393 | pausing and then resuming an unpaused session gives back the same session, and the saved state loads as that session |
| StateManager.MarkCompleted | src/state_manager.py:395-404 | the session gains a completion time, nothing else changes, and the saved state loads as the updated session |
| StateManager.ClearState | src/state_manager.py:452-461 | the state file is gone and the session is forgotten, so nothing loads afterwards; the pause signal is untouched |
| StateManager.GetStatistics | src/state_manager.py:406-450 | empty without a session; otherwise the album total is the album count, and the pending album and file counts are the records not in an end state, never negative |
| StateManager.OpenAlbumsCount | src/state_manager.py:413-430 | total minus completed, failed and skipped albums is the number of albums still open |
| StateManager.OpenFilesOfAlbum | src/state_manager.py:431-440 | within one album, file total minus completed and failed files is the number still open |
| StateManager.OpenFilesCount | src/state_manager.py:431-440 | over the session, file total minus completed and failed files is the number still open |
| Orchestrator.OriginalSourcePath | src/main.py:375-388 | without a matching session album the root is its own original; otherwise the first matching album decides: its stored path when it matched as working source, else the root |
| Orchestrator.Prepare | src/main.py:429-502 | PREPARING fails exactly when the disk check, directory creation, copy or processed structure fails; every failure ends marked `failed_prepare`, after removing both working directories once they exist |
| Orchestrator.Attempts | src/main.py:561-730 | the attempts only mark this file or call the converter, a file fails at most once and never after converting, and a converted file raised nothing |
| Orchestrator.AttemptsCallBound | src/main.py:562-576 | the converter is called at most `max_retries` times per file |
| Orchestrator.CallsFollowMarks | src/main.py:562-576 | every converter call converts this file's input to its output, right after the file is marked `converting` |
| Orchestrator.AttemptsSucceedIff | src/main.py:562-730 | a file converts exactly when some attempt within the budget succeeds after all earlier ones failed |
| Orchestrator.AttemptsStopAtSuccess | src/main.py:577-717 | after a success the file is marked `completed` once, right after the call, and no further attempt follows |
| Orchestrator.AttemptsExhausted | src/main.py:718-730 | when every attempt fails the converter is called `max_retries` times and the file ends marked `failed` with the last error |
| Orchestrator.LastAttemptFails | src/main.py:718-730 | a failed last attempt is one mark, one call and the `failed` mark |
| Orchestrator.AttemptFailedStep | src/main.py:718-722 | a failed attempt with attempts left is one mark and one call before the next attempt |
| Orchestrator.DryRunAttempt | src/main.py:731-736 | a dry run marks the file once, calls nothing and counts it converted |
| Orchestrator.NoRetriesNoAttempt | src/main.py:562 | with `max_retries` at most zero nothing is called and the file counts neither way |
| Orchestrator.ConvertFiles | src/main.py:534-765 | the loop only marks files and calls the converter, stops early on a failed file only under `skip_album_on_error`, and then no file failed if it ran to its end |
| Orchestrator.PrepareStages | src/main.py:429-502 | PREPARING records `converting` when it succeeds and `failed_prepare` when it fails |
| Orchestrator.CompleteStages | src/main.py:1007-1013 | completing records `completed` last |
| Orchestrator.FinalizeStages | src/main.py:860-902 | FINALIZING records `finalizing`, then `failed_finalize` or `completed` as the move went |
| Orchestrator.ArchiveStages | src/main.py:782-902 | ARCHIVING records `archiving`, then `failed_archive` or the stages of FINALIZING |
| Orchestrator.CrashStages | src/main.py:1028-1036 | an exception records `failed_convert` last |
| Orchestrator.ConvertStageStopped | src/main.py:738-765 | a loop stopped early ends the album in `failed_convert` |
| Orchestrator.ConvertStageDry | src/main.py:990-1013 | a dry run whose loop ran to its end completes without archiving |
| Orchestrator.ConvertStageDone | src/main.py:780-1013 | a real run whose loop ran to its end goes on to ARCHIVING |
| Orchestrator.ProcessAlbumStageList | src/main.py:345-1052 | the stages a run records are those of the furthest stage it reaches and how that stage ended |
| Orchestrator.ProcessAlbumStages | src/main.py:345-1052 | stages only move forward in the pipeline's order, a failure is the last stage recorded, and a run that returns true ends `completed` |
| Orchestrator.ExpectedProgression | src/main.py:345-1052 | every possible stage list is such a progression, ending `completed` exactly when the run got through to the end |
| Orchestrator.RealProgressions | src/main.py:345-1052 | the five stage lists a real run can record are progressions |
| Orchestrator.RunAlbum | src/main.py:390-403 | `_process_album` raises before its `try`, with no effect and no status recorded, exactly when the audio checksum raises; otherwise it runs the rest of the method |
| Orchestrator.MixedAlbumRaises | src/main.py:390-403 | an album listing an ISO image next to FLAC, DSF or DFF files raises before its `try`, whatever its collaborators would report |
| Orchestrator.ProcessAlbumResult | src/main.py:345-1052 | once the album's id and checksum are computed, the album succeeds exactly when every stage it runs succeeds and no file failed |
| Orchestrator.PrepareFailureStops | src/main.py:429-502 | a failure while PREPARING returns false, records `failed_prepare` last, and converts, archives, moves and removes nothing |
| Orchestrator.ConvertOnlyAfterPrepare | src/main.py:429-576 | the converter is only called in a real run whose PREPARING succeeded |
| Orchestrator.DryRunCallsNothing | src/main.py:429-1013 | a dry run only records statuses: no copy, conversion, archive, move or removal |
| Orchestrator.ArchiveIff | src/main.py:738-828 | the archive copy happens exactly when PREPARING succeeded and the file loop ran to its end |
| Orchestrator.TailArchives | src/main.py:738-828 | after the loop the archive copy happens exactly when the loop ran to its end in a real run |
| Orchestrator.SkipOnErrorStopsBeforeArchive | src/main.py:738-765 | a file failing under `skip_album_on_error` ends the album in `failed_convert` with no archive, move or removal |
| Orchestrator.ConvertStageShape | src/main.py:534-1052 | after the loop come exactly the steps its stop reason leads to |
| Orchestrator.ProcessAlbumShape | src/main.py:418-1052 | a real run that got through PREPARING is the opening marks, the loop and the steps after it |
| Orchestrator.PreparedEvents | src/main.py:418-1052 | in such a run every archive, move, removal and clean-up comes from the steps after the loop, and all of those happen |
| Orchestrator.TailMoves | src/main.py:858-988 | after the loop the move happens exactly when the archive copy succeeded in a real run, always to the output named after the original, and the removal exactly when the move succeeded and removal is allowed |
| Orchestrator.TailWithoutFinalize | src/main.py:738-828 | a run that does not reach FINALIZING neither moves nor removes |
| Orchestrator.TailHoldsFinalize | src/main.py:858-988 | a run that reaches FINALIZING moves and removes only as FINALIZING says, and does all of it |
| Orchestrator.PrepareFailedMovesNothing | src/main.py:429-493 | a failed PREPARING only records, copies and cleans up |
| Orchestrator.MoveIff | src/main.py:858-880 | the move to the output happens exactly when the archive copy succeeded; it moves the processed working directory to the output named after the original source |
| Orchestrator.PreparedMoves | src/main.py:858-880 | the same for a real run that got through PREPARING |
| Orchestrator.RemovalIff | src/main.py:953-988 | the original source is removed exactly when the run got through FINALIZING, removal is configured, the path exists and does not end `_source` or `_processed`; nothing else is removed |
| Orchestrator.FinalizeFailureCleanup | src/main.py:880-902 | a failed move returns false, records `failed_finalize`, removes only the working source when configured, and removes no source |
| Orchestrator.ArchiveFailureCleanup | src/main.py:806-828 | a failed archive copy returns false, records `failed_archive` and removes both working directories when configured |
| TrackMetadata.FindTrack | src/main.py:1094-1098 | the search finds nothing exactly when every entry is a dict whose `track_number` differs from the one asked for (Python equality, so `True == 1`); a found track is the first entry that matches, after only dicts that do not; the search raises exactly when a non-dict entry comes before any match |
| TrackMetadata.FromSacdTrack | src/main.py:1101-1108 | a matched sidecar track sets the track number and takes its title, artist and `duration_seconds` when it has those keys, keeping the earlier values otherwise, and leaves album, date, genre and musicians alone |
| TrackMetadata.FromSacdInfo | src/main.py:1111-1118 | the album part of the sidecar never replaces an artist already found and never touches title or track number |
| TrackMetadata.PyInt | src/main.py:1136 | `int()` on a tag value: a string of digits after stripping parses to exactly the number it spells, which is non-negative, and any accepted string holds a digit |
| TrackMetadata.PyIntRoundTrip | src/main.py:1136 | `int(str(n)) == n` for every integer, negative ones included |
| TrackMetadata.PyIntGroupingExample | src/main.py:1136 | `int()` reads a single underscore between digits as grouping: `1_2` is 12 |
| TrackMetadata.PyIntBadGroupingExample | src/main.py:1136 | a doubled, leading or trailing underscore makes `int()` raise |
| TrackMetadata.RoleEntries | src/main.py:1149-1155 | one `{role, name}` entry per tag value, in tag order |
| TrackMetadata.StripTrackPrefix | src/main.py:1174 | the anchored substitution leaves a suffix of the stem: the whole stem when it does not start with a digit, and a strictly shorter one when it does |
| TrackMetadata.PrefixEnd | src/main.py:1174 | the substitution removes something exactly when the stem starts with a digit |
| TrackMetadata.StripTrackPrefixRemovesNumber | src/main.py:1174 | what is removed is matched in full by `^\d+\s*[-.]?\s*`: at least one digit, blanks, at most one `-` or `.`, blanks |
| TrackMetadata.StripTrackPrefixLongest | src/main.py:1174 | no longer prefix of the stem matches that pattern, so the greedy match removes the longest number prefix there is |
| TrackMetadata.PrefixDigitsEnd | src/main.py:1174 | within any match that reaches past the stem's leading digits, `\d+` takes all of those digits |
| TrackMetadata.FromTagsKeepsTruthy | src/main.py:1126-1158 | the FLAC tags only fill fields that are still falsy: every truthy value found earlier survives, and the duration is never read from tags |
| TrackMetadata.TagStepKeepsTruthy | src/main.py:1131-1158 | each single tag read keeps every truthy field and keeps it truthy |
| TrackMetadata.FromTagsFillsTitle | src/main.py:1131-1132 | a missing title takes the first value of the `title` tag |
| TrackMetadata.FromTagsEmptyTitleReadsNothing | src/main.py:1127-1161 | a `title` tag with no value raises inside the `try`, so no tag at all is taken |
| TrackMetadata.FromNameTitle | src/main.py:1163-1175 | with `re` bound, the file-name fallback always yields a title and keeps one already found |
| TrackMetadata.FromNameTitleIsSuffix | src/main.py:1170-1175 | a title taken from the name is the stem without its leading number, or the whole stem when nothing else is left, and is non-empty for a non-empty stem |
| TrackMetadata.FromNameTrackNumber | src/main.py:1164-1168 | a track number already found is kept; a missing one comes from the leading digits of the stem |
| TrackMetadata.FromNameKeepsTitle | src/main.py:1170 | a title already set is never replaced by the name fallback |
| TrackMetadata.AsWrittenFailsIff | src/main.py:1163-1175 | the function as written raises exactly when the track number is known and no title was found |
| TrackMetadata.AsWrittenAgreesElsewhere | src/main.py:1163-1175 | whenever the code as written does not raise, it gives the same result as the corrected version |
| TrackMetadata.FromSacdTitle | src/main.py:1091-1118 | the title of a matched sidecar track, and its number, survive the sidecar's album part |
| TrackMetadata.MergeKeepsSacdTitle | src/main.py:1079-1187 | a truthy sidecar title is the final title, whatever the tags and the file name say |
| TrackMetadata.SacdTitleWins | src/main.py:1079-1187 | sidecar metadata has the highest priority: its title beats the tags and the file name |
| TrackMetadata.NameOnly | src/main.py:1123-1175 | with no sidecar match and no FLAC file to read, the title comes from the file name |
| TrackMetadata.UnboundReExample | src/main.py:1163-1175 | a FLAC file with a track-number tag and no title tag makes the code as written raise, while the corrected merge titles the track after its file |
| Batch.ResumePathPrefersWorkingSource | src/main.py:241-279 | two albums that differ only in their processed working directory are rescanned from the same path; a surviving working source is rescanned, else the original path if it exists, else the album is skipped |
| Batch.FromResumable | src/main.py:240-281 | every rescanned album's path exists, and no album is added |
| Batch.FromPending | src/main.py:284-295 | every rescanned pending album's path exists, and no album is added |
| Batch.AlbumsFromSession | src/main.py:227-295 | every album handed to the loop exists on disk |
| Batch.FromResumableRoots | src/main.py:240-281 | the rescanned roots are exactly the resume paths, in the session's order, each album the scan of its root |
| Batch.FromPendingRoots | src/main.py:284-295 | the pending albums keep their order and exactly the ones whose path exists are scanned |
| Batch.PendingRootsIff | src/main.py:288-293 | a path is rescanned exactly when it is a pending album's path and exists |
| Batch.StandardResume | src/main.py:232-295 | without resumable albums, a path is rescanned exactly when it exists and belongs to a pending or failed album of the session |
| Batch.Runs | src/main.py:333 | each album is run by `_process_album`, including the part before its `try` |
| Batch.StopIndex | src/main.py:311-333 | the first album at which the loop ends, because the pause sentinel is seen there, because its deduplication check raises, or because the album is run and raises; or the end of the list |
| Batch.StartedIff | src/main.py:311-333 | an album is run exactly when it comes no later than the album where the loop ends, is not the one where the sentinel is seen, its deduplication check does not raise, and it is not skipped as already processed |
| Batch.StartedInOrder | src/main.py:311 | the albums are run in list order |
| Batch.PausedIff | src/main.py:313-317 | the loop reports a pause exactly when it ended at the sentinel |
| Batch.RaisedIff | src/main.py:311-333 | an exception leaves the loop exactly when it ended at an album, not at the sentinel: the album was run and raised, or its deduplication check raised |
| Batch.CountsAddUp | src/main.py:320-338 | every album before the one where the loop ends is counted once: processed, skipped or already processed; an album that raises is run but not counted, and one whose deduplication check raises is neither run nor counted |
| Batch.AllSuccessIff | src/main.py:309-343 | the loop returns true exactly when no exception left it and every album it ran returned true |
| Batch.EventsConcatenate | src/main.py:311-341 | the loop's effects are those of the albums it ran, one after another |
| Batch.ProcessAlbumsSummary | src/main.py:297-343 | the albums run, the pause, the exception that ends the loop (from an album or from its deduplication check), the counters and the result of the whole loop |
| Batch.MixedAlbumEndsLoop | src/main.py:311-333 | an album listing an ISO image next to track files ends the loop when it is reached: no later album is run, and the loop either paused earlier or raised and does not return true |
| Batch.CheckRaiseEndsLoop | src/main.py:319-323 | an album whose `should_skip_album` call raises (a sidecar with an id and checksum whose audio cannot be hashed under verification) ends the loop before it is run: no album from it on is run, and the loop either paused earlier or raised and does not return true |
| Converter.PairsFlatten | src/converter.py:176-201 | reading the flag/value pairs back out of a flattened option list gives the options |
| Converter.FlattenPairs | src/converter.py:176-201 | and an even-length argument list is the flattening of its pairs |
| Converter.CommandLine | src/converter.py:176-201 | every command is `ffmpeg`, two words per option, then `-y` and the output path |
| Converter.ParseCommandLineInverts | src/converter.py:176-201 | the command line determines the options and the output: parsing recovers them |
| Converter.CommandLineOfParsed | src/converter.py:176-201 | any argument list of the command shape is the command line of what it parses to |
| Converter.Lookup | src/converter.py:176-201 | a flag has a value exactly when some option carries it, and the value is one of that flag's |
| Converter.LookupAppend | src/converter.py:182-198 | extending a command with a further option group does not change a flag already present |
| Converter.SoxrParts | src/converter.py:161-167 | the SoX parameters start with the resampler, include the precision exactly when it is non-zero, and end with the dither method exactly when one other than `none` is set |
| Converter.Filters | src/converter.py:158-173 | the filter chain has the `soxr` or `swr` resampler when one is chosen, none for any other resampler, and ends with the low-pass filter exactly when the cut-off is positive |
| Converter.SoxrFilterParameters | src/converter.py:161-167 | with a dither method free of `:`, the `aresample` parameters split back into exactly the SoX parts |
| Converter.ThreadOptionsLookup | src/converter.py:182-183 | `-threads` is passed, with the count, exactly when the thread count is positive |
| Converter.FilterOptionsLookup | src/converter.py:186-187 | `-af` is passed, with the comma-joined chain, exactly when the chain is non-empty |
| Converter.FlacOptionsLookup | src/converter.py:190-198 | sample format, rate and compression level are always passed; `-map_metadata 0` exactly when metadata is preserved |
| Converter.FlacLookup | src/converter.py:141-271 | every flag of a FLAC command comes from the input, the image's stream selection, or one option group |
| Converter.FlacCommandShape | src/converter.py:176-201 | a FLAC command line starts `ffmpeg -i <input>` and ends `-y <output>` |
| Converter.FlacCommandOptions | src/converter.py:141-271 | a FLAC command reads the input, selects the first stream of an image only, passes threads, filters and metadata exactly when configured, always the configured sample format, rate and level, and never a codec |
| Converter.IsoToFlacInsertsMap | src/converter.py:205-271 | the image-to-FLAC command is the DSF-to-FLAC command with `-map 0:a:0` inserted right after the input |
| Converter.DsfCommandShape | src/converter.py:288-292 | an image-to-DSF command line starts `ffmpeg -i <input> -map 0:a:0` |
| Converter.DsfLookup | src/converter.py:273-304 | every flag of an image-to-DSF command is the input, the stream selection, the thread count or the DSD codec |
| Converter.DsfCommandOptions | src/converter.py:273-304 | an image-to-DSF command writes the DSD codec and passes no filter, rate, sample format or metadata option |
| Converter.LastLines | src/converter.py:330-333 | the kept lines are a suffix of stderr's lines of length at most ten, and all of them when there are at most ten |
| Converter.NonBlank | src/converter.py:332-335 | a line is kept exactly when it occurs and is not blank |
| Converter.RunFfmpeg | src/converter.py:306-343 | the run succeeds exactly when ffmpeg exits with status 0 |
| Converter.ErrorTailSplits | src/converter.py:330-336 | the error text splits at newlines back into the kept lines |
| Converter.FfmpegErrorLines | src/converter.py:326-336 | a non-zero exit reports `ffmpeg error:` and at most ten lines, exactly the non-blank ones among the last ten of stderr |
| Converter.DispatchChoosesConversion | src/converter.py:107-127 | dispatch succeeds exactly on the supported mode and lower-cased extension pairs, and selects a stream exactly for an image |
| Converter.DispatchDsf | src/converter.py:120-124 | in `iso_to_dsf` mode the command reads the input, selects the stream, writes the DSD codec and the given output |
| Converter.DispatchFlac | src/converter.py:112-118 | in `iso_dsf_to_flac` mode the command reads the input, selects a stream only for an image, picks no codec and writes the given output |
| Converter.FlacCore | src/converter.py:205-271 | a FLAC command selects a stream exactly for an image, names no codec and reads the input |
| Converter.ConvertFile | src/converter.py:78-139 | a missing input or an existing output without overwrite fails before anything runs; a command runs exactly when the pair is supported; success exactly when that command exits 0 and the output then exists |
| Converter.UnsupportedRunsNothing | src/converter.py:117-127 | an unsupported format or mode fails with the dispatcher's message and runs no command |
| Scanner.NewScanner | src/scanner.py:66-86 | a missing or empty extension list falls back to the defaults; every extension is kept lower-cased |
| Scanner.SortedMusicPaths | src/scanner.py:183-214 | the music files are exactly the files below the album with a music extension, sorted by path without repeats |
| Scanner.SortedCopiedPaths | src/scanner.py:192-215 | the files to copy are exactly those below the album with a copy extension or none, sorted by path without repeats |
| Scanner.SubdirectoriesOf | src/scanner.py:186-189 | the subdirectories are exactly the distinct first components of the directories below the album, sorted |
| Scanner.FirstComponent | src/scanner.py:189 | a first component holds no separator |
| Scanner.MusicFilesOf | src/scanner.py:197-202 | one music file per path, in order, with its path relative to the album and its lower-cased extension |
| Scanner.NonMusicFilesOf | src/scanner.py:203-209 | one copied file per path, in order, with its relative path and extension |
| Scanner.TotalSizeIsSumOfSizes | src/scanner.py:18-22 | `total_size` is the sum of the sizes the files had on disk when found |
| Scanner.ClassificationDisjoint | src/scanner.py:197-209 | no file is both converted and copied |
| Scanner.SortedAlbumRoots | src/scanner.py:117-149 | the roots the walk stops at are exactly the walked directories with music of their own and no walked ancestor with music of its own |
| Scanner.FoundAlbumsAreRoots | src/scanner.py:130-147 | every album the walk finds is such a root and holds a music file |
| Scanner.AlbumRootsAreFound | src/scanner.py:130-147 | every such root is found |
| Scanner.ScannedRoot | src/scanner.py:141 | each album found is the scan of its root |
| Scanner.ScanAllFinds | src/scanner.py:141-143 | every root yields an album |
| Scanner.OwnMusicIsCounted | src/scanner.py:139-143 | a directory with music of its own scans to an album with at least one file, so the `file_count > 0` test never drops it |
| Scanner.AlbumsNeverNest | src/scanner.py:145-147 | albums found by the walk never lie inside one another |
| Scanner.MusicFileBelongsToAlbum | src/scanner.py:130-147 | every music file directly in a walked directory belongs to one of the albums found |
| Scanner.NoMusicNoAlbums | src/scanner.py:151-165 | without music below the root the walk finds nothing |
| Scanner.Scan | src/scanner.py:88-115 | a missing root or a file raises; otherwise at most one album is reported: the root itself as soon as any music lies anywhere below it |
| Scanner.TwoAlbumLibraryScannedAsOne | src/scanner.py:107-110 | an input directory holding two album folders is reported as a single album, the input directory itself |
| Scanner.ScanAlbums | src/scanner.py:88-149 | the corrected scan raises as before and otherwise reports exactly the albums the walk finds |
| Scanner.ScanAlbumsPartitionsMusic | src/scanner.py:117-149 | the corrected scan's albums never nest and every music file directly in a walked directory belongs to one of them |
| Scanner.TwoAlbumLibraryScannedAsTwo | src/scanner.py:117-149 | the corrected scan reports exactly the two album folders |
| Scanner.Bump | src/scanner.py:236 | counting an extension appends it only when it is new, keeping earlier keys in place |
| Scanner.BumpCounts | src/scanner.py:236 | counting an extension adds one to its count and to the total, and changes no other count |
| Scanner.HistogramOfCounts | src/scanner.py:232-236 | the extension histogram has distinct keys, counts every extension's occurrences and totals the number of files |
| Scanner.GetStatistics | src/scanner.py:219-244 | the statistics count the albums, the histogram counts each extension's occurrences, and the file total equals the histogram's total |
| Scanner.AllExtensionsCount | src/scanner.py:229-236 | there is one extension per music file |
| Config.Load | src/config.py:28-36 | a missing file raises `FileNotFoundError` naming the path; otherwise the parsed document is kept, and an empty or falsy one becomes `{}` |
| Config.GetIn | src/config.py:38-58 | the walk gives the default as soon as the value reached is not a mapping or lacks the next segment |
| Config.SetIn | src/config.py:60-78 | a successful write keeps the top level a mapping, adds only the first segment to its keys and leaves every other top-level entry alone |
| Config.GetSetIn | src/config.py:60-78 | reading back a path just written gives the value written |
| Config.GetAfterSet | src/config.py:38-78 | `get(key_path)` after `set(key_path, value)` returns `value` |
| Config.GetSetOther | src/config.py:60-78 | writing one path leaves every path that parts ways with it unchanged |
| Config.MissingStaysMissing | src/config.py:72-75 | below a freshly created empty mapping every path reads the default |
| Config.SetSucceedsIff | src/config.py:60-78 | `set` succeeds exactly when every value met on the way is a mapping or missing (anything else raises `TypeError`) |
| Config.ArgMapping | src/config.py:89-98 | the eight argument names, each with its `section.key` path |
| Config.OnlyMappedArgsMatter | src/config.py:100-102 | arguments outside the mapping, and mapped ones passed as `None`, make no difference |
| Config.ArgMappingSeparate | src/config.py:89-98 | the eight mapped paths part ways pairwise, so no two arguments override the same setting |
| Config.UpdateFromArgsWrites | src/config.py:80-102 | every mapped argument given a non-`None` value is written at its path, and every other mapped path keeps its value |
| Config.ApplyArgsKeepsOthers | src/config.py:100-102 | a setting whose path parts ways with every mapped path keeps its value |
| Config.Validate | src/config.py:104-172 | valid exactly when there is no complaint; at most seven complaints |
| Config.ValidateReports | src/config.py:104-172 | valid exactly when every rule holds, and each rule is complained about exactly when it fails, the complaint carrying the value read |
| Config.PlainQuoted | src/config.py:126-129 | `repr` of a text without quotes, backslashes or control characters is the text between single quotes |
| Config.ShowSingleton | src/config.py:126-129 | a one-element list is printed as its element's `repr` in brackets |
| Config.PlainStrRepr | src/config.py:126-129 | such a text inside a list is printed as itself between single quotes and brackets |
| Config.ShowListExample | src/config.py:148-152 | a list value in a complaint is printed as Python prints it: `['flac', 2]` |
| Config.ErrorsEmptyIffAcceptable | src/config.py:111-172 | no complaint exactly when every rule holds |
| Config.BehaviorReported | src/config.py:131-143 | the higher-quality behaviour is complained about exactly when standardisation is enabled and the behaviour is neither `skip` nor `downsample` |
| Config.RulesReported | src/config.py:113-170 | each of the other six rules is complained about exactly when it fails |
| Config.MissingLogLevelIsInfo | src/config.py:163-170 | without a `logging` section the level reads `INFO` and no level is complained about |
| Config.LevelComplaint | src/config.py:163-170 | a complaint about the log level names the level that was read, and that level is not one of the five valid ones |
| MetadataEnricher.FirstYearLead | src/metadata_enricher.py:150 | the first position at or after `k` where `(dddd)` stands and `(.+?)\s*` covers the text up to it, and none when there is no such position |
| MetadataEnricher.LineEnd | src/metadata_enricher.py:157 | a greedy `.+` stops at the first newline or at the end, and crosses no newline |
| MetadataEnricher.FirstLeadDash | src/metadata_enricher.py:157 | the first hyphen at or after `k` that `(.+?)\s*` reaches from the start of the name, and none when there is none |
| MetadataEnricher.ParseName | src/metadata_enricher.py:147-163 | an album is always reported, and a year only with an artist and only as four digits |
| MetadataEnricher.ParseNameParts | src/metadata_enricher.py:147-163 | the year is the four digits of a `(dddd)` standing in the name, the artist is the stripped text before a hyphen the artist group reaches, and a name without an artist is reported whole as the album with no year |
| MetadataEnricher.YearGroupsYear | src/metadata_enricher.py:150-154 | the third group of the first pattern is the four digits of a `(dddd)` that stands in the name itself |
| MetadataEnricher.YearParenIff | src/metadata_enricher.py:150 | the position reported for the remainder after the hyphen exists exactly when `\s*(.+?)\s*\((\d{4})\)` matches there: blanks, a group of at least one character without a newline, blanks, then `(dddd)` |
| MetadataEnricher.ReportedYearIsInName | src/metadata_enricher.py:150-154 | a reported year is four digits in parentheses standing after a hyphen that is not the name's first character |
| MetadataEnricher.YearInNameIsReported | src/metadata_enricher.py:150-154 | a hyphen reached by the artist group, followed by a remainder matching the album and year groups, makes the first pattern match |
| MetadataEnricher.ParseNameYearIff | src/metadata_enricher.py:150-163 | a year is reported exactly when `(.+?)\s*-\s*(.+?)\s*\((\d{4})\)` matches at the start of the name, no group crossing a newline |
| MetadataEnricher.NoDashWithYear | src/metadata_enricher.py:150 | the lazy artist group never passes a hyphen after which the rest of the pattern can match |
| MetadataEnricher.ParseNameArtistIff | src/metadata_enricher.py:150-163 | an artist is reported exactly when the artist group `(.+?)\s*`, which crosses no newline, reaches a hyphen after which a character other than a newline stands |
| MetadataEnricher.YearDashInside | src/metadata_enricher.py:150-154 | the hyphen before a year has text on both sides, so a year always comes with an artist |
| MetadataEnricher.NoDashAlbumOnly | src/metadata_enricher.py:161-163 | a name without a hyphen is read as the album alone |
| MetadataEnricher.ParseNameAlbumOnly | src/metadata_enricher.py:161-163 | without an artist the album is the whole directory name |
| MetadataEnricher.StripAround | src/metadata_enricher.py:152-153 | the blanks the patterns leave around a group are exactly what `strip()` removes |
| MetadataEnricher.ParseNameWithYear | src/metadata_enricher.py:150-154 | `Artist - Album (Year)` with a hyphen-free artist, a parenthesis-free album and no newline in either is read back as exactly those three parts |
| MetadataEnricher.ParseNameWithoutYear | src/metadata_enricher.py:157-160 | `Artist - Album` with a hyphen-free artist, no parenthesis and no newline is read back as those two parts |
| MetadataEnricher.DashGroupsAt | src/metadata_enricher.py:157-160 | once the artist group's hyphen is known and text follows it, the artist is the stripped text before the hyphen and the album the stripped line after it |
| MetadataEnricher.ParseNameWithYearExample | src/metadata_enricher.py:150-154 | `Miles Davis - Kind of Blue (1959)` gives artist, album and year |
| MetadataEnricher.ParseNameWithoutYearExample | src/metadata_enricher.py:157-160 | `The Beatles - Abbey Road` gives artist and album, no year |
| MetadataEnricher.ParseNameAlbumOnlyExample | src/metadata_enricher.py:161-163 | a name without a hyphen is the album |
| MetadataEnricher.NewlineInArtistExample | src/metadata_enricher.py:150-163 | `a\nb - c` matches neither pattern, since `.` does not match the newline: no artist, and the whole name is the album |
| MetadataEnricher.NewlineInAlbumExample | src/metadata_enricher.py:157-160 | in `A - B\nC` the album group stops at the newline: artist `A`, album `B` |
| MetadataEnricher.FillFromTags | src/metadata_enricher.py:166-178 | a field the name already gave is never replaced, and a year taken from the tags has at most four characters |
| MetadataEnricher.ExtractAlbumInfo | src/metadata_enricher.py:138-180 | the artist and album read from the directory name win over the tags |
| MetadataEnricher.FillFromTagsFills | src/metadata_enricher.py:171-176 | each field the name left empty is taken from the first file's tag, the year cut to four characters |
| MetadataEnricher.FillFromTagsStopsAtEmptyList | src/metadata_enricher.py:169-178 | an empty tag list raises inside the bare `except`, so nothing is taken |
| MetadataEnricher.LeadingNumber | src/metadata_enricher.py:426 | the first pattern captures a digit run at the start of the name |
| MetadataEnricher.StripZeros | src/metadata_enricher.py:435 | `lstrip('0')` removes exactly the leading zeros |
| MetadataEnricher.TrackDigitsIsDecimal | src/metadata_enricher.py:435 | `lstrip('0') or '0'` is the captured number written in canonical decimal |
| MetadataEnricher.TrackNumberValue | src/metadata_enricher.py:414-437 | a track number is the first matching pattern's digits, in canonical decimal |
| MetadataEnricher.LeadingNumberFirst | src/metadata_enricher.py:432-435 | the leading-number pattern wins whenever it matches |
| MetadataEnricher.TrackDigitsDropsZero | src/metadata_enricher.py:435 | `0n` becomes `n` |
| MetadataEnricher.TrackDigitsKeepsLoneZero | src/metadata_enricher.py:435 | all zeros become `0` |
| MetadataEnricher.TrackNumberDashExample | src/metadata_enricher.py:426 | `01 - Track Title` gives `1` |
| MetadataEnricher.TrackNumberDotExample | src/metadata_enricher.py:426 | `01. Track Title` gives `1` |
| MetadataEnricher.TrackNumberWordExample | src/metadata_enricher.py:427 | `Track 01` gives `1` |
| MetadataEnricher.TrackNumberLeadingZerosExample | src/metadata_enricher.py:426 | `05 - Track` gives `5` |
| MetadataEnricher.NoDigitsNoNumber | src/metadata_enricher.py:425-437 | a name without digits has no track number |
| MetadataEnricher.TrackNumberNoMatchExample | src/metadata_enricher.py:437 | `Some Title` has no track number |
| MetadataEnricher.NewEnricher | src/metadata_enricher.py:48-50 | an empty or missing source list becomes MusicBrainz then Discogs; any other list is kept |
| MetadataEnricher.Ask | src/metadata_enricher.py:223-227 | a search yields an answer exactly when the service has one and both artist and album are set |
| MetadataEnricher.SearchNothingIff | src/metadata_enricher.py:195-205 | nothing is found exactly when no source answers, and then every searchable source was consulted |
| MetadataEnricher.SearchFindsFirst | src/metadata_enricher.py:195-205 | a found answer is that of the first source that answers, and the sources consulted are the searchable ones up to it |
| MetadataEnricher.FirstAnswer | src/metadata_enricher.py:195-205 | the index of that first answering source |
| MetadataEnricher.SearchSkipsHead | src/metadata_enricher.py:195-203 | a source that does not answer hands the search to the rest of the list |
| MetadataEnricher.SearchConsultsOnlyConsultable | src/metadata_enricher.py:196-200 | only MusicBrainz, and Discogs when it has a client, are ever consulted |
| MetadataEnricher.MusicBrainzAnswerStopsSearch | src/metadata_enricher.py:196-199 | with the default sources, a MusicBrainz answer is returned without asking Discogs |
| MetadataEnricher.NoTokenNoDiscogs | src/metadata_enricher.py:62-73 | without a token Discogs is never consulted |
| MetadataEnricher.MatchingTrack | src/metadata_enricher.py:398-405 | the track found carries the file's number, and none is found only when no track does |
| MetadataEnricher.MatchingTrackIsFirst | src/metadata_enricher.py:399-405 | the track used is the first one carrying the number |
| MetadataEnricher.PutFieldsKeeps | src/metadata_enricher.py:372-395 | the field writes never remove a tag |
| MetadataEnricher.ApplyField | src/metadata_enricher.py:372-395 | each album field ends in its tag: written when truthy and either overwriting or the tag is missing, else unchanged |
| MetadataEnricher.ApplyTouchesOnlyWritable | src/metadata_enricher.py:365-405 | only the eight tags the method names can change, and no tag is removed |
| MetadataEnricher.FillMissingKeepsExisting | src/metadata_enricher.py:372-405 | `fill_missing` never changes a tag the file already has |
| MetadataEnricher.OverwriteWritesTruthyFields | src/metadata_enricher.py:372-395 | `overwrite` writes every truthy field |
| MetadataEnricher.FalsyFieldNotWritten | src/metadata_enricher.py:373-393 | a falsy field never reaches the file |
| MetadataEnricher.UnknownBehaviorWritesNothing | src/metadata_enricher.py:372 | any behaviour but `overwrite` and `fill_missing` writes nothing |
| MetadataEnricher.OverwriteWritesMatchingTrack | src/metadata_enricher.py:398-405 | under `overwrite` the first matching track gives the title and the number is written |
| MetadataEnricher.ApplyToFile | src/metadata_enricher.py:363-412 | a file succeeds exactly when it opens and saves; no other file changes |
| MetadataEnricher.ApplyStep | src/metadata_enricher.py:112-116 | a blocked FLAC file fails the loop naming it; any other file hands on to the rest |
| MetadataEnricher.ApplyAllOkIff | src/metadata_enricher.py:112-118 | the loop succeeds exactly when no FLAC file of the list is blocked |
| MetadataEnricher.ApplyAllFailNamesFirst | src/metadata_enricher.py:112-116 | a failure names the first blocked FLAC file |
| MetadataEnricher.FirstFailure | src/metadata_enricher.py:112-116 | the index of that first blocked FLAC file |
| MetadataEnricher.ApplyAllLeavesOthers | src/metadata_enricher.py:112-114 | files outside the list or not FLAC keep their tags |
| MetadataEnricher.ApplyAllFillMissingKeeps | src/metadata_enricher.py:112-116 | under `fill_missing` no file loses or changes a tag it had |
| MetadataEnricher.EnrichAlbum | src/metadata_enricher.py:86-121 | enrichment adds or removes no file |
| MetadataEnricher.EnrichWithoutAnswer | src/metadata_enricher.py:106-109 | without an answer the album fails with `No metadata found for album` and nothing is written |
| MetadataEnricher.EnrichOkIff | src/metadata_enricher.py:86-121 | the album succeeds exactly when some source answers and no FLAC file of the list is blocked |
| MetadataEnricher.EnrichFillMissingKeeps | src/metadata_enricher.py:86-121 | enrichment under `fill_missing` never changes an existing tag |
| MetadataEnricher.EnrichLeavesOthers | src/metadata_enricher.py:112-114 | enrichment touches only the FLAC files of the list |
| Ordering.StrLeIsTotalOrder | src/album_metadata.py:278 | Python's comparison of `str` values, code point by code point, is a total order |
| Ordering.PathLeIsTotalOrder | src/working_directory.py:551 | Python's comparison of paths, part by part, is a total order |
| Ordering.Sort | src/scanner.py:214-215 | `sorted` gives an ordered permutation of its input |
| Ordering.SortPermutationInvariant | src/album_metadata.py:278 | sorting forgets the input order: two permutations of one list sort to the same list |
| Ordering.SortedUnique | src/album_metadata.py:278 | an ordered permutation is unique, so any correct sort gives the same list |
| Ordering.SortSet | src/scanner.py:216 | sorting a set lists each member exactly once, in strictly increasing order |
| Ordering.SortStrings | src/album_metadata.py:278 | sorting by path string gives an ordered permutation of the paths |
| Ordering.SortStringsOrderInvariant | src/album_metadata.py:278 | the files' order of discovery does not matter once they are sorted by path string |
| Text.ParseNatToString | src/album_metadata.py:346 | the decimal text of a size, hashed after an ISO prefix, reads back as the same number |
| Json.AsOptStrOptStr | src/state_manager.py:169-175 | an optional string stored as a string or `null` reads back as the same optional value |

## Left out

- Hashing: SHA-256, SHA-1 and MD5 are supplied as functions, so nothing here claims collision resistance or sensitivity to single bytes; reading a file in chunks is modelled as hashing the concatenation.
- JSON and YAML text: sidecars, the state file and the configuration are modelled as parsed values; `json.dump`/`json.load` and `yaml.safe_load` on text are not modelled, and floating-point values are not represented.
- The atomic write of the state file (temporary file plus rename), `mkstemp`, `copytree`, `rmtree` and `disk_usage`: the model applies their effects to the file-tree map in one step, and the free space is an input.
- AlbumMetadata.Read: the rest of the model reads a sidecar through `Read`, which treats a document that is not a JSON object as no record. As written, `read()` returns a list or string naming the three fields and raises an uncaught `TypeError` on a number, boolean or `null`; `AlbumMetadata.ReadAsWritten` states that behaviour, but what its callers then do with a non-dict (`.get` raising `AttributeError`) is not modelled.
- StateManager.LoadSession: a field holding a JSON value of another type than the record declares (`"paused": 0`, `"sample_rate": "44100"`, `"attempts": "2"`, `"session_id": 5`) makes the model load no session, while Python's dataclasses store such values unchecked. The model's records are typed, so such a session has no representation.
- Deduplication.ReconcileMovedAlbum: the `commit()` call at src/deduplication.py:280 is left out. The catalog class in src/database.py defines no `commit`, so as written the `AttributeError` is caught at src/deduplication.py:284-286 and every real update reports False, although the row was already changed. The model reports the update's own result.
- Deduplication.RegisterAlbumLocation: the `commit()` call at src/deduplication.py:332 is left out. As written it raises `AttributeError` for every accepted location type, after the update has been applied, since nothing catches it. The model reports the update's own result.
- Orchestrator.ProcessAlbumResult, Orchestrator.RemovalIff, Orchestrator.TailMoves: the enricher branch (`World.enricher`, the `Enrich` action) models the evidently intended calls. As written, src/main.py:116-121 passes `database=` to a constructor that takes no such argument (src/metadata_enricher.py:34-39), and the resulting `TypeError` is not the `ImportError` caught there. So with `metadata.enabled` the orchestrator cannot be built. Even with an enricher, the `album_id=` argument at src/main.py:919-923 is rejected by `enrich_album` (src/metadata_enricher.py:86-90), which would send the album to `failed_convert` after the move. With the source as written, `World.enricher` is always false.
- Config.Show: a mapping value is printed as `{...}`, because the model's mappings do not keep the insertion order Python prints them in. Non-ASCII characters that Python's `repr` escapes as unprintable are kept as they are.
- Text.Lower: only ASCII letters are lower-cased, while Python's `str.lower()` covers all of Unicode. It feeds the extension tests (`Paths.Ext`, the scanner's classification, the converter's dispatch), so a suffix with non-ASCII capitals is classified differently.
- Text.IsDigit: only `0`-`9` count as digits, while Python's `\d` and `int()` accept every Unicode decimal digit. This affects `TrackMetadata.StripTrackPrefix`, `TrackMetadata.PyInt`, `MetadataEnricher.LeadingNumber` and the year in `MetadataEnricher.ParseName`.
- `StateManager.sync_with_database` (src/state_manager.py:463-492): it copies statuses from the catalog's convert history and needs the catalog's query layer, which is not part of this model.
- `get_resumable_albums`, called at src/main.py:234, is not defined by the state manager; `Batch.AlbumsFromSession` takes the list of resumable albums as an input.
- Orchestrator.PrepareStages, Orchestrator.CompleteStages, Orchestrator.FinalizeStages, Orchestrator.ArchiveStages, Orchestrator.CrashStages, Orchestrator.ProcessAlbumStageList, Orchestrator.ProcessAlbumStages, Orchestrator.ExpectedProgression, Orchestrator.RealProgressions: these state the stage records the orchestrator evidently intends; the stage and working paths travel in the `MarkAlbum` actions. As written, every status update of `_process_album` passes `processing_stage=` to `update_album_status`, which takes no such argument (src/state_manager.py:289-295). The first update (src/main.py:423-427) raises `TypeError`, and the handler's own update (src/main.py:1030-1035) raises it again. The exception leaves `_process_album` before any stage is recorded or any file touched, ends the album loop, and makes `run()` return False (src/main.py:197-199). The `failed_convert` record and false result of `Orchestrator.CrashStages` are therefore the intended handler's, not the written one's.
- Orchestrator.OriginalSourcePath: it models the evidently intended lookup, reading the working source the orchestrator keeps beside each session album (`Resume.workingSource`). As written, src/main.py:379 reads `album_state.working_source_path`, which `AlbumConversionState` (src/state_manager.py:40-50) does not declare. So with any album in the session the lookup raises `AttributeError` before the `try`, the exception leaves the album loop, and `run()` returns False.
- Batch.Runs: each run is `Orchestrator.RunAlbum`, the intended `_process_album`, which raises only when the audio checksum does. With the source as written, every album the loop runs raises, for the two reasons above. The loop then ends at the first album it runs, with `raised` set.
- WorkingDirectory.Relocate: the `mkdir(parents=True, exist_ok=True)` of the destination's parent before each archive or output move or copy (src/working_directory.py:259, 293, 327, 361) is not applied. The file map needs no parent entries, so no outcome changes, but missing ancestor directories are not added to the resulting map, and a parent that exists as a file (where `mkdir` raises and the call reports an error) is not modelled.
- Orchestrator.MoveIff, Orchestrator.TailMoves, Orchestrator.PreparedMoves: the finalize move always targets the configured output directory joined with the original album name (`Orchestrator.OutputAlbumPath`), and whether the move succeeds is an input (`World.move`). As written, when a catalog is configured and a real run converts an `.iso` file that the converter does not report as skipped, src/main.py:632 rebinds `output_dir` to that file's output parent, which lies inside the processed working directory (src/main.py:542-551). The target built at src/main.py:872 then lies inside the directory being moved, the move refuses it (src/working_directory.py:318-335, the into-itself case of `WorkingDirectory.Relocate`), and the album ends `failed_finalize` with result False. The model keeps the evidently intended target; the rebinding only serves the SACD metadata lookup after it. As the code stands the branch is not reached, since every real converter call raises (see the line on src/main.py:571-575).
- The catalog writes of `_process_album`: album rows, processing history, track records and the sidecar rewrites (src/main.py:392-420, 506-527, 592-700, 750-1045). They are bookkeeping and decide no stage transition, with one exception: the rebinding of `output_dir` at src/main.py:632, inside the track-record branch, changes the finalize target (see the line starting `Orchestrator.MoveIff`). The album id computed before the `try` (src/main.py:390-399), and the sidecar `get_or_create_album_id` may write then, are used only by these writes and are left out with them (the dedup manager's code is not part of this model, so an exception it might raise there is not modelled); the audio checksum computed there (src/main.py:402) is modelled only through whether it raises (`World.checksum`, `Orchestrator.RunAlbum`), as is the `album_id` attribute set on a rescanned album at src/main.py:271.
- `_extract_track_metadata` duration: the ffprobe lookup (src/main.py:1177-1185) is float arithmetic on a subprocess result and is not modelled.
- The converter call at src/main.py:571-575 passes `skip_existing=True` to `convert_file(input_path, output_path, overwrite=False)` (src/converter.py:78-83), which has no such parameter, so as written every real attempt raises `TypeError` before anything is unpacked (and the call would otherwise unpack four values from a function that returns three). Each attempt's outcome (converted, already converted, failed, raised) is an input to `Orchestrator.Attempts` instead; as written it is always raised.
- The logger, progress messages, the pause messages and the command-line entry point (src/main.py:1189-1292) are presentation.
- `to_dict` (src/config.py:174-176): configuration values are immutable here, so a copy handed out cannot be changed back into the configuration, and there is no aliasing to state; the source's copy is shallow, so nested sections would be shared.
- Config loading from text: `Config.Load` starts from the parsed document.
- Converter: `get_file_info`, `estimate_output_size`, the ffmpeg availability check in the constructor, subprocess timeouts and the timing of a conversion are subprocess I/O or float arithmetic.
- Metadata enricher: the MusicBrainz and Discogs queries, `_rate_limit` (a sleep) and reading and saving FLAC tags; their answers are parameters.
- Deduplication: `verify_album_locations` and `find_duplicate_by_checksum` are catalog queries outside the decision chain.
- Archiver: `get_archive_size` sums file sizes for display only.
- Working directory: `get_converted_tracks` and `get_disk_space` wrap a glob and `disk_usage`.
- Scanner: `os.walk` visits directories in an order the operating system chooses; the model walks them in path order, so albums are listed by path. `total_size_gb` is float formatting.
- The `single_album` argument passed to `scan` at src/main.py:209 is not accepted by src/scanner.py:88. As written, a run that scans (no `--resume`, or no saved session) therefore raises `TypeError` there, and `run()` returns False before anything is scanned; the scan is modelled as the scanner defines it.
- src/database.py is not part of this model: the catalog is an abstract map (`Catalog`), with `update_album` skipping `None` values as src/database.py:246-249 does.

## Findings

| source | as written | input that shows it | evidently intended | confidence | as-written member | corrected member |
|---|---|---|---|---|---|---|
| src/scanner.py:107-113 | `scan` first asks `_is_album(root_dir)`, which walks the whole tree, so any library with music anywhere below the root is scanned as one album rooted at the input directory, and `_scan_for_albums` is reached only when there is no music at all | an input directory `in` holding `in/Album 1/track1.iso` and `in/Album 2/track1.dsf`: one album, `in`, is reported | each directory that directly holds music is an album, as `_scan_for_albums` finds them and as tests/test_scanner.py:192-200 expects (two albums) | not executed | Scanner.Scan, Scanner.TwoAlbumLibraryScannedAsOne | Scanner.ScanAlbums, Scanner.TwoAlbumLibraryScannedAsTwo |
| src/main.py:1163-1175 | `import re` inside the function makes `re` a local name that is bound only when the track number is still missing, so the title fallback at line 1174 raises `UnboundLocalError` whenever a track number was already found but no title | a FLAC source `a/Intro.flac` whose only tag is `tracknumber = 3` and no sidecar: the merge raises | the file name is the title fallback for every track without a title | not executed | TrackMetadata.ExtractAsWritten, TrackMetadata.UnboundReExample | TrackMetadata.Extract, TrackMetadata.FromNameTitle |

=== FILE: album_metadata.dfy ===
/** The `.album_metadata` sidecar that gives an album a stable identity:
    its record (id, creation time, last processing time, audio checksum),
    the audio checksum itself, and the content-derived album id. */
module AlbumMetadata {
  import opened Wrappers
  import opened Text
  import opened Paths
  import opened Ordering
  import opened Json
  import opened FileSystem
  import opened Hashing

  const MetadataFileName: string := ".album_metadata"

  /** ISO checksums cover at most this many leading bytes. */
  const IsoPrefixBytes: nat := 20 * 1024 * 1024

  /** Files are read in chunks of this size. */
  const ReadChunkBytes: nat := 8192 * 1024

  const RequiredFields: set<string> := {"album_id", "created_at", "audio_checksum"}

  /** The keys `write` sets itself; the rest of a record passes through. */
  const IdentityFields: set<string> := {"album_id", "audio_checksum", "created_at"}

  datatype ChecksumError =
    | MixedFormats        // `validate_audio_files` raised `ValueError`
    | Unreadable(path: string)  // `stat`/`open` raised `OSError`

  // ---------------------------------------------------------------------------
  // The sidecar record

  /** `read()`: the parsed record, or `None` when the file is missing, is
      not JSON, or lacks one of the three required fields. */
  function Read(f: JsonFile): (r: Option<map<string, Json>>)
    ensures r.Some? <==> f.Parsed? && f.value.JObj? && RequiredFields <= f.value.fields.Keys
    ensures r.Some? ==> r.value == f.value.fields
  {
    match f
    case Parsed(JObj(fields)) => if RequiredFields <= fields.Keys then Some(fields) else None
    case _ => None
  }

  /** `read()` as written, for every document `json.load` can return: the
      `all(field in data ...)` test runs on a list or a string as well, so
      such a document is returned when it names the three fields, and on a
      number, a boolean or `null` it raises a `TypeError` that the
      `except` clause does not catch. */
  function ReadAsWritten(f: JsonFile): (r: Result<Option<Json>, string>)
    ensures r.Failure? <==> f.Parsed? && (f.value.JNull? || f.value.JBool? || f.value.JInt?)
    ensures r.Success? && r.value.Some? ==> f.Parsed? && r.value.value == f.value
  {
    match f
    case Parsed(v) =>
      var hasId :- Contains(v, "album_id");
      var hasCreated :- Contains(v, "created_at");
      var hasChecksum :- Contains(v, "audio_checksum");
      Success(if hasId && hasCreated && hasChecksum then Some(v) else None)
    case _ => Success(None)
  }

  /** On a missing or unparsable file and on a JSON object, `Read` is
      `read()` as written. */
  lemma ReadAgreesOnObjects(f: JsonFile)
    requires !f.Parsed? || f.value.JObj?
    ensures ReadAsWritten(f) == Success(if Read(f).Some? then Some(JObj(Read(f).value)) else None)
  {
  }

  /** A list naming the three fields passes `read()`'s test and is returned
      as the record, where `Read` finds no record. */
  lemma ListSidecarPasses()
    ensures var f := Parsed(JArr([JStr("album_id"), JStr("created_at"), JStr("audio_checksum")]));
            ReadAsWritten(f) == Success(Some(f.value)) && Read(f).None?
  {
    var items := [JStr("album_id"), JStr("created_at"), JStr("audio_checksum")];
    assert items[0] == JStr("album_id") && items[1] == JStr("created_at") && items[2] == JStr("audio_checksum");
  }

  /** So does a string that contains the three field names. */
  lemma StringSidecarPasses()
    ensures var f := Parsed(JStr("album_id created_at audio_checksum"));
            ReadAsWritten(f) == Success(Some(f.value)) && Read(f).None?
  {
    var s := "album_id created_at audio_checksum";
    assert StartsWith(s[0..], "album_id");
    assert StartsWith(s[9..], "created_at");
    assert StartsWith(s[20..], "audio_checksum");
  }

  /** The dictionary `write` serialises: the given identity fields, `now`
      as creation time when none (or a falsy one) is given, `now` as last
      processing time, then the extra fields, which win on a clash. */
  function Record(albumId: Json, checksum: Json, createdAt: Json, extra: map<string, Json>, now: string): map<string, Json>
  {
    map["album_id" := albumId,
        "created_at" := if Truthy(createdAt) then createdAt else JStr(now),
        "last_processed" := JStr(now),
        "audio_checksum" := checksum] + extra
  }

  datatype WriteResult = WriteResult(ok: bool, file: JsonFile)

  /** `write(album_id, audio_checksum, created_at, **extra)`. The file is
      replaced atomically, so a failed write (`writeOk` false: the directory
      is missing or not writable) leaves the old file as it was. */
  function Write(f: JsonFile, albumId: Json, checksum: Json, createdAt: Json, extra: map<string, Json>,
                 now: string, writeOk: bool): (r: WriteResult)
    requires extra.Keys !! IdentityFields
    ensures r.ok == writeOk
    ensures !r.ok ==> r.file == f
    ensures r.ok ==> Read(r.file).Some?
    ensures r.ok ==> var d := Read(r.file).value;
      && d["album_id"] == albumId && d["audio_checksum"] == checksum
      && d["created_at"] == (if Truthy(createdAt) then createdAt else JStr(now))
      && d.Keys == IdentityFields + {"last_processed"} + extra.Keys
      && (forall k | k in extra :: d[k] == extra[k])
      && ("last_processed" !in extra ==> d["last_processed"] == JStr(now))
  {
    if writeOk then WriteResult(true, Parsed(JObj(Record(albumId, checksum, createdAt, extra, now))))
    else WriteResult(false, f)
  }

  /** `update(**fields)`: merges `fields` and a fresh `last_processed` into
      the existing record and writes it back; fails without touching the
      file when there is no valid record. */
  function Update(f: JsonFile, fields: map<string, Json>, now: string, writeOk: bool): (r: WriteResult)
    ensures Read(f).None? ==> r == WriteResult(false, f)
    ensures !r.ok ==> r.file == f
    ensures r.ok <==> Read(f).Some? && writeOk
    ensures r.ok ==> Read(r.file).Some?
    ensures r.ok ==>
      var old_ := Read(f).value;
      var d := Read(r.file).value;
      var merged := old_ + fields;
      && d.Keys == old_.Keys + fields.Keys + {"last_processed"}
      && d["last_processed"] == JStr(now)
      && d["album_id"] == merged["album_id"] && d["audio_checksum"] == merged["audio_checksum"]
      && d["created_at"] == (if Truthy(merged["created_at"]) then merged["created_at"] else JStr(now))
      && (forall k | k in merged && k !in IdentityFields && k != "last_processed" :: d[k] == merged[k])
  {
    match Read(f)
    case None => WriteResult(false, f)
    case Some(existing) =>
      var merged := existing + fields + map["last_processed" := JStr(now)];
      var extra := map k | k in merged && k !in IdentityFields :: merged[k];
      Write(f, merged["album_id"], merged["audio_checksum"], merged["created_at"], extra, now, writeOk)
  }

  /** An update that does not name the identity fields keeps them, apart
      from a falsy creation time, which becomes `now`. */
  lemma UpdateKeepsIdentity(f: JsonFile, fields: map<string, Json>, now: string, writeOk: bool)
    requires fields.Keys !! IdentityFields
    requires Update(f, fields, now, writeOk).ok
    ensures var before := Read(f).value;
            var after := Read(Update(f, fields, now, writeOk).file).value;
            after["album_id"] == before["album_id"] && after["audio_checksum"] == before["audio_checksum"]
            && (Truthy(before["created_at"]) ==> after["created_at"] == before["created_at"])
  {
  }

  /** A required field of the record, `None` when there is no valid record. */
  function GetField(f: JsonFile, key: string): (r: Option<Json>)
    requires key in RequiredFields
    ensures r.Some? <==> Read(f).Some?
    ensures r.Some? ==> r.value == Read(f).value[key]
  {
    match Read(f)
    case Some(d) => Some(d[key])
    case None => None
  }

  /** `get_album_id()`. */
  function GetAlbumId(f: JsonFile): (r: Option<Json>)
    ensures r.Some? <==> Read(f).Some?
    ensures r.Some? ==> r.value == Read(f).value["album_id"]
  {
    GetField(f, "album_id")
  }

  /** `get_checksum()`. Both fields are required of a valid record, so the
      checksum is there exactly when the id is. */
  function GetChecksum(f: JsonFile): (r: Option<Json>)
    ensures r.Some? <==> Read(f).Some?
    ensures r.Some? <==> GetAlbumId(f).Some?
    ensures r.Some? ==> r.value == Read(f).value["audio_checksum"]
  {
    GetField(f, "audio_checksum")
  }

  /** `get_processed_album_id()`: `None` without a record or without the field. */
  function GetProcessedAlbumId(f: JsonFile): (r: Option<Json>)
    ensures r.Some? <==> Read(f).Some? && "processed_album_id" in Read(f).value
  {
    match Read(f)
    case Some(d) => if "processed_album_id" in d then Some(d["processed_album_id"]) else None
    case None => None
  }

  /** `set_processed_album_id(id)`. */
  function SetProcessedAlbumId(f: JsonFile, id: string, now: string, writeOk: bool): (r: WriteResult)
    ensures r.ok <==> Read(f).Some? && writeOk
    ensures r.ok ==> GetProcessedAlbumId(r.file) == Some(JStr(id))
    ensures r.ok ==> GetAlbumId(r.file) == GetAlbumId(f) && GetChecksum(r.file) == GetChecksum(f)
  {
    Update(f, map["processed_album_id" := JStr(id)], now, writeOk)
  }

  /** Writing a record and reading it back gives the identity it was
      written with. */
  lemma ReadBackWrite(f: JsonFile, albumId: string, checksum: string, extra: map<string, Json>, now: string)
    requires extra.Keys !! IdentityFields
    ensures var w := Write(f, JStr(albumId), JStr(checksum), JNull, extra, now, true);
            GetAlbumId(w.file) == Some(JStr(albumId)) && GetChecksum(w.file) == Some(JStr(checksum))
  {
  }

  // ---------------------------------------------------------------------------
  // Format validation and the audio checksum

  predicate IsIso(p: string) { Ext(p) == ".iso" }

  predicate IsTrackFormat(p: string) { Ext(p) in {".flac", ".dsf", ".dff"} }

  const TrackExtensions: set<string> := {".flac", ".dsf", ".dff"}

  /** `{f.suffix.lower() for f in files}`. */
  function Extensions(files: seq<string>): set<string> {
    set f | f in files :: Ext(f)
  }

  /** `validate_audio_files`: true when it returns, false when it raises
      because the list mixes an ISO image with FLAC/DSF/DFF tracks. */
  function ValidateAudioFiles(files: seq<string>): bool {
    var exts := Extensions(files);
    |files| == 0 || !(".iso" in exts && exts * TrackExtensions != {})
  }

  lemma ExtensionMember(files: seq<string>, e: string)
    ensures e in Extensions(files) <==> exists i :: 0 <= i < |files| && Ext(files[i]) == e
  {
    if e in Extensions(files) {
      var f :| f in files && Ext(f) == e;
      var i :| 0 <= i < |files| && files[i] == f;
    }
  }

  /** Validation refuses exactly the lists holding both an ISO image and a
      FLAC/DSF/DFF track. */
  lemma ValidateRefusesExactlyMixed(files: seq<string>)
    ensures !ValidateAudioFiles(files) <==>
              (exists i :: 0 <= i < |files| && IsIso(files[i]))
              && (exists j :: 0 <= j < |files| && IsTrackFormat(files[j]))
  {
    ExtensionMember(files, ".iso");
    ExtensionMember(files, ".flac");
    ExtensionMember(files, ".dsf");
    ExtensionMember(files, ".dff");
    var exts := Extensions(files);
    assert exts * TrackExtensions != {} <==> ".flac" in exts || ".dsf" in exts || ".dff" in exts by {
      if exts * TrackExtensions != {} {
        var e :| e in exts * TrackExtensions;
      }
      if ".flac" in exts { assert ".flac" in exts * TrackExtensions; }
      if ".dsf" in exts { assert ".dsf" in exts * TrackExtensions; }
      if ".dff" in exts { assert ".dff" in exts * TrackExtensions; }
    }
  }

  lemma ExtensionsOrderInvariant(a: seq<string>, b: seq<string>)
    requires multiset(a) == multiset(b)
    ensures Extensions(a) == Extensions(b) && |a| == |b|
  {
    forall f | f in a ensures f in b { assert f in multiset(b); }
    forall f | f in b ensures f in a { assert f in multiset(a); }
    assert |a| == |multiset(a)| == |multiset(b)| == |b|;
  }

  /** The bytes `open(p, 'rb')` reads. */
  function Content(fs: Fs, p: string): Result<seq<bv8>, ChecksumError> {
    if IsFile(fs, p) then Success(fs[p].data) else Failure(Unreadable(p))
  }

  /** `_calculate_file_checksum`: SHA-256 over the whole file. */
  function FileDigestHex(crypto: Crypto, data: seq<bv8>): string {
    Hex(crypto.sha256(data))
  }

  /** `_calculate_iso_checksum`: SHA-256 over the first 20 MiB followed by
      the decimal file size. */
  function IsoDigestHex(crypto: Crypto, data: seq<bv8>): string {
    var n := if |data| < IsoPrefixBytes then |data| else IsoPrefixBytes;
    Hex(crypto.sha256(data[..n] + Utf8(NatToString(|data|))))
  }

  /** The per-file hex digests of `files`, concatenated in order. */
  function ConcatDigests(crypto: Crypto, fs: Fs, files: seq<string>): (r: Result<string, ChecksumError>)
    ensures r.Failure? ==> r.error.Unreadable?
  {
    if |files| == 0 then Success("")
    else
      var data :- Content(fs, files[0]);
      var rest :- ConcatDigests(crypto, fs, files[1..]);
      Success(FileDigestHex(crypto, data) + rest)
  }

  /** `calculate_audio_checksum`: mixed formats are refused; an album whose
      first file (in `str` order) is an ISO image is identified by that image
      alone; otherwise by SHA-256 over the concatenated per-file digests. */
  function AudioChecksum(crypto: Crypto, fs: Fs, files: seq<string>): (r: Result<string, ChecksumError>)
    ensures r == Failure(MixedFormats) <==> !ValidateAudioFiles(files)
    ensures r.Success? ==> |r.value| == 64
  {
    if !ValidateAudioFiles(files) then Failure(MixedFormats)
    else
      var sorted := SortStrings(files);
      if |sorted| > 0 && IsIso(sorted[0]) then IsoAlbumChecksum(crypto, fs, sorted[0])
      else TrackAlbumChecksum(crypto, fs, sorted)
  }

  /** The checksum of an album identified by its ISO image. */
  function IsoAlbumChecksum(crypto: Crypto, fs: Fs, image: string): (r: Result<string, ChecksumError>)
    ensures r.Success? ==> |r.value| == 64
    ensures r.Failure? ==> r.error == Unreadable(image)
  {
    var data :- Content(fs, image);
    Success(IsoDigestHex(crypto, data))
  }

  /** The checksum of an album of tracks, listed in sorted order. */
  function TrackAlbumChecksum(crypto: Crypto, fs: Fs, sorted: seq<string>): (r: Result<string, ChecksumError>)
    ensures r.Success? ==> |r.value| == 64
    ensures r.Failure? ==> r.error.Unreadable?
  {
    var combined :- ConcatDigests(crypto, fs, sorted);
    Success(Hex(crypto.sha256(Utf8(combined))))
  }

  /** The checksum does not depend on the order the files are listed in. */
  lemma ChecksumOrderInvariant(crypto: Crypto, fs: Fs, a: seq<string>, b: seq<string>)
    requires multiset(a) == multiset(b)
    ensures AudioChecksum(crypto, fs, a) == AudioChecksum(crypto, fs, b)
  {
    SortStringsOrderInvariant(a, b);
    ExtensionsOrderInvariant(a, b);
  }

  /** Files whose bytes agree in two trees. */
  predicate SameContents(fs1: Fs, fs2: Fs, files: seq<string>) {
    forall i :: 0 <= i < |files| ==> Content(fs1, files[i]) == Content(fs2, files[i])
  }

  lemma {:induction false} ConcatDigestsDependOnContents(crypto: Crypto, fs1: Fs, fs2: Fs, files: seq<string>)
    requires SameContents(fs1, fs2, files)
    ensures ConcatDigests(crypto, fs1, files) == ConcatDigests(crypto, fs2, files)
  {
    if |files| > 0 {
      assert Content(fs1, files[0]) == Content(fs2, files[0]);
      ConcatDigestsDependOnContents(crypto, fs1, fs2, files[1..]);
    }
  }

  /** The checksum depends on nothing but the bytes of the listed files:
      not on their place in the tree, and not on any other file. */
  lemma ChecksumDependsOnlyOnContents(crypto: Crypto, fs1: Fs, fs2: Fs, files: seq<string>)
    requires SameContents(fs1, fs2, files)
    ensures AudioChecksum(crypto, fs1, files) == AudioChecksum(crypto, fs2, files)
  {
    var sorted := SortStrings(files);
    forall i | 0 <= i < |sorted| ensures Content(fs1, sorted[i]) == Content(fs2, sorted[i]) {
      assert sorted[i] in multiset(files);
      var j :| 0 <= j < |files| && files[j] == sorted[i];
    }
    ConcatDigestsDependOnContents(crypto, fs1, fs2, sorted);
  }

  /** For an ISO album only the image's size and its first 20 MiB count. */
  lemma IsoChecksumReadsPrefixOnly(crypto: Crypto, a: seq<bv8>, b: seq<bv8>)
    requires |a| == |b|
    requires a[..if |a| < IsoPrefixBytes then |a| else IsoPrefixBytes] == b[..if |b| < IsoPrefixBytes then |b| else IsoPrefixBytes]
    ensures IsoDigestHex(crypto, a) == IsoDigestHex(crypto, b)
  {
  }

  /** `_calculate_file_checksum` as the program runs it: 8 MiB reads fed to
      one hash object until a read comes back empty. */
  method HashFile(crypto: Crypto, data: seq<bv8>) returns (hex: string)
    ensures hex == FileDigestHex(crypto, data)
  {
    var fed: seq<bv8> := [];
    var pos := 0;
    while true
      invariant 0 <= pos <= |data| && fed == data[..pos]
      decreases |data| - pos
    {
      var end := if pos + ReadChunkBytes < |data| then pos + ReadChunkBytes else |data|;
      var chunk := data[pos..end];
      if |chunk| == 0 {
        break;
      }
      fed := fed + chunk;
      pos := end;
    }
    assert fed == data;
    hex := Hex(crypto.sha256(fed));
  }

  /** `_calculate_iso_checksum` as the program runs it: reads of at most
      8 MiB up to 20 MiB in all, then the decimal size. */
  method HashIsoImage(crypto: Crypto, data: seq<bv8>) returns (hex: string)
    ensures hex == IsoDigestHex(crypto, data)
  {
    var size := |data|;
    var toRead := if IsoPrefixBytes < size then IsoPrefixBytes else size;
    var fed: seq<bv8> := [];
    var bytesRead := 0;
    while bytesRead < toRead
      invariant 0 <= bytesRead <= toRead && fed == data[..bytesRead]
    {
      var want := if ReadChunkBytes < toRead - bytesRead then ReadChunkBytes else toRead - bytesRead;
      var chunk := data[bytesRead..bytesRead + want];
      if |chunk| == 0 {
        break;
      }
      fed := fed + chunk;
      bytesRead := bytesRead + |chunk|;
    }
    hex := Hex(crypto.sha256(fed + Utf8(NatToString(size))));
  }

  /** The concatenated digests of readable files, accumulated from the front. */
  function DigestsOf(crypto: Crypto, fs: Fs, files: seq<string>): string {
    if |files| == 0 then ""
    else DigestsOf(crypto, fs, files[..|files| - 1]) + FileDigestHex(crypto, DataOf(fs, files[|files| - 1]))
  }

  lemma {:induction false} DigestsOfFront(crypto: Crypto, fs: Fs, files: seq<string>)
    requires |files| > 0
    ensures DigestsOf(crypto, fs, files) == FileDigestHex(crypto, DataOf(fs, files[0])) + DigestsOf(crypto, fs, files[1..])
    decreases |files|
  {
    if |files| > 1 {
      var init := files[..|files| - 1];
      DigestsOfFront(crypto, fs, init);
      assert init[1..] == files[1..][..|files[1..]| - 1];
      assert init[0] == files[0];
    }
  }

  lemma {:induction false} ConcatAllReadable(crypto: Crypto, fs: Fs, files: seq<string>)
    requires forall j :: 0 <= j < |files| ==> IsFile(fs, files[j])
    ensures ConcatDigests(crypto, fs, files) == Success(DigestsOf(crypto, fs, files))
    decreases |files|
  {
    if |files| > 0 {
      ConcatAllReadable(crypto, fs, files[1..]);
      DigestsOfFront(crypto, fs, files);
    }
  }

  lemma {:induction false} ConcatFirstUnreadable(crypto: Crypto, fs: Fs, files: seq<string>, i: nat)
    requires i < |files| && !IsFile(fs, files[i])
    requires forall j :: 0 <= j < i ==> IsFile(fs, files[j])
    ensures ConcatDigests(crypto, fs, files) == Failure(Unreadable(files[i]))
    decreases i
  {
    if i > 0 {
      ConcatFirstUnreadable(crypto, fs, files[1..], i - 1);
    }
  }

  /** `calculate_audio_checksum` as the program runs it. */
  method CalculateAudioChecksum(crypto: Crypto, fs: Fs, files: seq<string>) returns (r: Result<string, ChecksumError>)
    ensures r == AudioChecksum(crypto, fs, files)
  {
    if !ValidateAudioFiles(files) {
      return Failure(MixedFormats);
    }
    var sorted := SortStrings(files);
    if |sorted| > 0 && IsIso(sorted[0]) {
      if !IsFile(fs, sorted[0]) {
        return Failure(Unreadable(sorted[0]));
      }
      var hex := HashIsoImage(crypto, fs[sorted[0]].data);
      return Success(hex);
    }
    r := HashTracks(crypto, fs, sorted);
  }

  /** The loop over the sorted track files. */
  method HashTracks(crypto: Crypto, fs: Fs, sorted: seq<string>) returns (r: Result<string, ChecksumError>)
    ensures r == TrackAlbumChecksum(crypto, fs, sorted)
  {
    var combined := "";
    var i := 0;
    while i < |sorted|
      invariant 0 <= i <= |sorted|
      invariant forall j :: 0 <= j < i ==> IsFile(fs, sorted[j])
      invariant combined == DigestsOf(crypto, fs, sorted[..i])
    {
      if !IsFile(fs, sorted[i]) {
        ConcatFirstUnreadable(crypto, fs, sorted, i);
        return Failure(Unreadable(sorted[i]));
      }
      var hex := HashFile(crypto, fs[sorted[i]].data);
      assert sorted[..i + 1][..i] == sorted[..i];
      combined := combined + hex;
      i := i + 1;
    }
    assert sorted[..i] == sorted;
    ConcatAllReadable(crypto, fs, sorted);
    return Success(Hex(crypto.sha256(Utf8(combined))));
  }

  // ---------------------------------------------------------------------------
  // Album identity

  /** `generate_album_id`: the version-5 UUID of the audio checksum under
      the fixed namespace. */
  function GenerateAlbumId(crypto: Crypto, fs: Fs, files: seq<string>): (r: Result<string, ChecksumError>)
    ensures r.Success? <==> AudioChecksum(crypto, fs, files).Success?
    ensures r.Success? ==> IsUuid5Text(r.value)
    ensures r.Success? ==> r.value == Uuid5(crypto, AlbumIdNamespace, AudioChecksum(crypto, fs, files).value)
    ensures r.Failure? ==> r.error == AudioChecksum(crypto, fs, files).error
  {
    var checksum :- AudioChecksum(crypto, fs, files);
    Success(Uuid5(crypto, AlbumIdNamespace, checksum))
  }

  /** The same audio, wherever it lives and however it is listed, gets the
      same album id. */
  lemma SameAudioSameId(crypto: Crypto, fs1: Fs, fs2: Fs, a: seq<string>, b: seq<string>)
    requires multiset(a) == multiset(b) && SameContents(fs1, fs2, a)
    ensures GenerateAlbumId(crypto, fs1, a) == GenerateAlbumId(crypto, fs2, b)
  {
    ChecksumDependsOnlyOnContents(crypto, fs1, fs2, a);
    ChecksumOrderInvariant(crypto, fs2, a, b);
  }

  datatype CreateResult = CreateResult(albumId: Option<string>, file: JsonFile)

  /** `create_for_album(album_path, audio_files, album_id, **extra)`: uses
      the given id or derives one, computes the checksum and writes a fresh
      record; `None` when anything fails (the exception is swallowed).
      `extra` is passed on to `write`: a `created_at` in it becomes the
      record's creation time, and an `audio_checksum` in it clashes with the
      computed one (`TypeError`, so `None`). It cannot hold `album_id`,
      which Python binds to the parameter of that name. */
  function CreateForAlbum(crypto: Crypto, f: JsonFile, fs: Fs, files: seq<string>, albumId: Option<string>,
                          extra: map<string, Json>, now: string, writeOk: bool): (r: CreateResult)
    requires "album_id" !in extra
    ensures r.albumId.Some? <==> writeOk && AudioChecksum(crypto, fs, files).Success? && "audio_checksum" !in extra
    ensures r.albumId.None? ==> r.file == f
    ensures r.albumId.Some? ==>
              (albumId.Some? ==> r.albumId == albumId)
              && (albumId.None? ==> r.albumId.value == GenerateAlbumId(crypto, fs, files).value)
              && GetAlbumId(r.file) == Some(JStr(r.albumId.value))
              && GetChecksum(r.file) == Some(JStr(AudioChecksum(crypto, fs, files).value))
    ensures r.albumId.Some? ==> var d := Read(r.file).value;
              && d["created_at"] == (if "created_at" in extra && Truthy(extra["created_at"]) then extra["created_at"] else JStr(now))
              && d.Keys == RequiredFields + {"last_processed"} + extra.Keys
              && (forall k | k in extra && k != "created_at" :: d[k] == extra[k])
  {
    var checksum := AudioChecksum(crypto, fs, files);
    if checksum.Failure? || "audio_checksum" in extra then CreateResult(None, f)
    else
      var id := if albumId.Some? then albumId.value else Uuid5(crypto, AlbumIdNamespace, checksum.value);
      var w := WriteCreated(f, id, checksum.value, extra, now, writeOk);
      if w.ok then CreateResult(Some(id), w.file) else CreateResult(None, f)
  }

  /** The `write` call of `create_for_album`: a `created_at` among the extra
      fields binds to `write`'s parameter of that name. */
  function WriteCreated(f: JsonFile, id: string, checksum: string, extra: map<string, Json>, now: string,
                        writeOk: bool): (r: WriteResult)
    requires "album_id" !in extra && "audio_checksum" !in extra
    ensures r.ok == writeOk
    ensures !r.ok ==> r.file == f
    ensures r.ok ==> Read(r.file).Some?
    ensures r.ok ==> var d := Read(r.file).value;
              && d["album_id"] == JStr(id) && d["audio_checksum"] == JStr(checksum)
              && d["created_at"] == (if "created_at" in extra && Truthy(extra["created_at"]) then extra["created_at"] else JStr(now))
              && d.Keys == RequiredFields + {"last_processed"} + extra.Keys
              && (forall k | k in extra && k != "created_at" :: d[k] == extra[k])
  {
    var createdAt := if "created_at" in extra then extra["created_at"] else JNull;
    var rest := extra - {"created_at"};
    assert rest.Keys == extra.Keys - {"created_at"};
    Write(f, JStr(id), JStr(checksum), createdAt, rest, now, writeOk)
  }

  /** `verify_checksum(album_path, audio_files)`: false without a stored
      (truthy) checksum; otherwise whether it equals the recomputed one. The
      recomputation may raise. */
  function VerifyChecksum(crypto: Crypto, f: JsonFile, fs: Fs, files: seq<string>): (r: Result<bool, ChecksumError>)
    ensures GetChecksum(f).None? || !Truthy(GetChecksum(f).value) ==> r == Success(false)
    ensures r == Success(true) <==>
              GetChecksum(f).Some? && AudioChecksum(crypto, fs, files).Success?
              && GetChecksum(f).value == JStr(AudioChecksum(crypto, fs, files).value)
    ensures r.Failure? <==>
              GetChecksum(f).Some? && Truthy(GetChecksum(f).value) && AudioChecksum(crypto, fs, files).Failure?
  {
    var stored := GetChecksum(f);
    if stored.None? || !Truthy(stored.value) then Success(false)
    else
      var current :- AudioChecksum(crypto, fs, files);
      Success(stored.value == JStr(current))
  }

  /** A record written by `create_for_album` verifies against the audio it
      was created from. */
  lemma CreatedRecordVerifies(crypto: Crypto, f: JsonFile, fs: Fs, files: seq<string>, albumId: Option<string>,
                              extra: map<string, Json>, now: string)
    requires "album_id" !in extra && "audio_checksum" !in extra
    requires AudioChecksum(crypto, fs, files).Success?
    ensures VerifyChecksum(crypto, CreateForAlbum(crypto, f, fs, files, albumId, extra, now, true).file, fs, files) == Success(true)
  {
  }
}

=== FILE: archiver.dfy ===
/** Backing up an album directory under the archive root before
    conversion, with a verified copy, and listing or deleting archives. */
module Archiver {
  import opened Wrappers
  import opened Paths
  import opened Ordering
  import opened FileSystem
  import opened Hashing
  import opened CopyVerification

  /** Files smaller than this are also compared by MD5 digest. */
  const DigestLimitBytes: nat := 100 * 1024 * 1024

  /** `_get_archive_path(album_path)`: `archive_root / "<name>_<timestamp>"`. */
  function ArchivePath(root: string, album: string, timestamp: string): (r: string)
    ensures IsUnder(root, r) && Rel(root, r) == Name(album) + "_" + timestamp
  {
    RelJoin(root, Name(album) + "_" + timestamp);
    JoinPath(root, Name(album) + "_" + timestamp)
  }

  datatype Archived = Archived(fs: Fs, ok: bool, path: Option<string>, error: Option<string>)

  /** `archive_album(album_path)` with the archiver's `verify_copies` flag;
      `md5` hashes file contents and `timestamp` is the clock's
      `%Y%m%d_%H%M%S`. An existing archive path is taken as a finished
      archive; a copy that fails verification is removed again. */
  function ArchiveAlbum(fs: Fs, root: string, album: string, timestamp: string, verify: bool,
                        md5: seq<bv8> -> Digest16): (r: Archived)
    ensures var path := ArchivePath(root, album, timestamp);
      && (path in fs ==> r == Archived(fs, true, Some(path), None))
      && (r.ok <==> r.error.None?)
      && (r.ok ==> r.path == Some(path))
      && (!r.ok ==> r.path.None?)
      && (path !in fs && album !in fs ==>
            r == Archived(fs, false, None, Some("OS error during archiving: [Errno 2] No such file or directory: '" + album + "'")))
      && (path !in fs && IsFile(fs, album) ==>
            r == Archived(fs, false, None, Some("OS error during archiving: [Errno 20] Not a directory: '" + album + "'")))
      && (path !in fs && IsDir(fs, album) ==>
            && (r.ok <==> !verify || CopyMatches(CopyTree(fs, album, path), album, path, DigestBelow(DigestLimitBytes, md5)))
            && (r.ok ==> r.fs == CopyTree(fs, album, path))
            && (!r.ok ==> r.fs == RemoveTree(CopyTree(fs, album, path), path)
                          && r.error == CopyProblem(CopyTree(fs, album, path), album, path, DigestBelow(DigestLimitBytes, md5))))
  {
    var path := ArchivePath(root, album, timestamp);
    if path in fs then Archived(fs, true, Some(path), None)
    else if album !in fs then
      Archived(fs, false, None, Some("OS error during archiving: [Errno 2] No such file or directory: '" + album + "'"))
    else if fs[album].File? then
      Archived(fs, false, None, Some("OS error during archiving: [Errno 20] Not a directory: '" + album + "'"))
    else
      var copied := CopyTree(fs, album, path);
      var check := DigestBelow(DigestLimitBytes, md5);
      CopyProblemNoneIffMatches(copied, album, path, check);
      if verify && CopyProblem(copied, album, path, check).Some? then
        Archived(RemoveTree(copied, path), false, None, CopyProblem(copied, album, path, check))
      else Archived(copied, true, Some(path), None)
  }

  /** Archiving a directory to a fresh place outside it (and not around it)
      succeeds, verification included, and leaves every other entry alone. */
  lemma FreshArchiveSucceeds(fs: Fs, root: string, album: string, timestamp: string, verify: bool, md5: seq<bv8> -> Digest16)
    requires IsDir(fs, album)
    requires var path := ArchivePath(root, album, timestamp);
             !UnderOrEq(album, path) && !UnderOrEq(path, album) && forall p | p in fs :: !UnderOrEq(path, p)
    ensures var r := ArchiveAlbum(fs, root, album, timestamp, verify, md5);
            var path := ArchivePath(root, album, timestamp);
            r.ok && IsDir(r.fs, path) && forall p | p in fs :: p in r.fs && r.fs[p] == fs[p]
  {
    var path := ArchivePath(root, album, timestamp);
    CopyTreeVerifies(fs, album, path, DigestBelow(DigestLimitBytes, md5));
  }

  /** A failed archive leaves nothing at or below the archive path, and the
      rest of the tree as the copy found it. */
  lemma FailedArchiveLeavesNothing(fs: Fs, root: string, album: string, timestamp: string, verify: bool, md5: seq<bv8> -> Digest16)
    requires IsDir(fs, album) && ArchivePath(root, album, timestamp) !in fs
    requires !ArchiveAlbum(fs, root, album, timestamp, verify, md5).ok
    ensures var r := ArchiveAlbum(fs, root, album, timestamp, verify, md5);
            var path := ArchivePath(root, album, timestamp);
            && (forall p | p in r.fs :: !UnderOrEq(path, p))
            && (forall p | p in fs && !UnderOrEq(path, p) :: p in r.fs && r.fs[p] == fs[p])
  {
  }

  /** `list_archives()`: the directories directly below the archive root,
      sorted as paths. */
  function ListArchives(fs: Fs, root: string): (r: seq<string>)
    ensures forall p :: p in r <==> root in fs && p in Children(fs, root) && IsDir(fs, p)
    ensures StrictlySorted(r, PathLe)
  {
    PathLeIsTotalOrder();
    var dirs := set p | p in Children(fs, root) && IsDir(fs, p);
    if root in fs then SortSet(dirs, PathLe) else []
  }

  /** `delete_archive(archive_path)`: refuses a missing path or one outside
      the archive root (the root itself counts as inside). */
  function DeleteArchive(fs: Fs, root: string, path: string): (r: (Fs, Outcome))
    ensures path !in fs ==> r == (fs, Fail("Archive does not exist"))
    ensures path in fs && !UnderOrEq(root, path) ==> r == (fs, Fail("Archive path is not within archive root"))
    ensures r.1.Ok? <==> IsDir(fs, path) && UnderOrEq(root, path)
    ensures r.1.Ok? ==> forall p :: p in r.0 <==> p in fs && !UnderOrEq(path, p)
    ensures r.1.Fail? ==> r.0 == fs
  {
    if path !in fs then (fs, Fail("Archive does not exist"))
    else if !UnderOrEq(root, path) then (fs, Fail("Archive path is not within archive root"))
    else if fs[path].File? then (fs, Fail("Error deleting archive: [Errno 20] Not a directory: '" + path + "'"))
    else (RemoveTree(fs, path), Ok)
  }

  lemma ChildDirListed(fs: Fs, root: string, p: string)
    requires root in fs && IsDir(fs, p) && IsUnder(root, p) && '/' !in Rel(root, p)
    ensures p in ListArchives(fs, root)
  {
    assert p in Children(fs, root);
  }

  /** An archive name has no `/` in it, so the archive is a direct child of
      the root. */
  lemma ArchiveNameIsOneComponent(root: string, album: string, timestamp: string)
    requires '/' !in timestamp
    ensures '/' !in Rel(root, ArchivePath(root, album, timestamp))
  {
    var name := Name(album) + "_" + timestamp;
    NameIsLastComponent(album);
    assert forall i | 0 <= i < |Name(album)| :: name[i] == Name(album)[i];
    assert forall i | |Name(album)| + 1 <= i < |name| :: name[i] == timestamp[i - |Name(album)| - 1];
  }

  /** A successful archive is listed, unless the name was already taken by
      a regular file. */
  lemma ArchiveIsListed(fs: Fs, root: string, album: string, timestamp: string, verify: bool, md5: seq<bv8> -> Digest16)
    requires root in fs && '/' !in timestamp
    requires !IsFile(fs, ArchivePath(root, album, timestamp))
    requires ArchiveAlbum(fs, root, album, timestamp, verify, md5).ok
    ensures ArchivePath(root, album, timestamp) in ListArchives(ArchiveAlbum(fs, root, album, timestamp, verify, md5).fs, root)
  {
    var r := ArchiveAlbum(fs, root, album, timestamp, verify, md5);
    var path := ArchivePath(root, album, timestamp);
    ArchiveNameIsOneComponent(root, album, timestamp);
    if path !in fs {
      assert IsDir(fs, album);
      assert r.fs == CopyTree(fs, album, path);
      assert !UnderOrEq(path, root);
      assert root in r.fs;
      ChildDirListed(r.fs, root, path);
    } else {
      ChildDirListed(fs, root, path);
    }
  }

  /** Deleting a listed archive succeeds and takes it off the list. */
  lemma DeletedArchiveUnlisted(fs: Fs, root: string, path: string)
    requires path in ListArchives(fs, root)
    ensures DeleteArchive(fs, root, path).1.Ok?
    ensures path !in ListArchives(DeleteArchive(fs, root, path).0, root)
  {
  }
}

=== FILE: batch.dfy ===
/** The album-level loop of `ConversionOrchestrator` (`src/main.py`): which
    albums a resumed run picks up (`_get_albums_from_session`) and how the
    albums are run one after another, with the pause sentinel and the
    already-processed skip (`_process_albums`). */
module Batch {
  import opened Wrappers
  import opened FileSystem
  import StateManager
  import Scanner
  import Orchestrator
  import AlbumMetadata
  import Hashing

  // ---------------------------------------------------------------------
  // Albums of a resumed session
  // ---------------------------------------------------------------------

  /** Truthiness of an optional working path, the test the loop applies
      before looking at the disk. */
  predicate Exists(fs: Fs, p: Option<string>) {
    Orchestrator.Truthy(p) && p.value in fs
  }

  /** The path a resumable album is rescanned from, decided the way the
      loop does: first whether any working directory survives, then which
      path to scan. `None` is the skip with a warning. */
  function ResumePath(fs: Fs, r: Orchestrator.Resume): Option<string> {
    var hasWorking := Exists(fs, r.workingSource) || Exists(fs, r.workingProcessed);
    if hasWorking then
      if Exists(fs, r.workingSource) then Some(r.workingSource.value)
      else if r.album.albumPath in fs then Some(r.album.albumPath)
      else None
    else if r.album.albumPath in fs then Some(r.album.albumPath)
    else None
  }

  /** The surviving working source wins, then the original path; the
      processed working directory never decides what is scanned. */
  lemma ResumePathPrefersWorkingSource(fs: Fs, r: Orchestrator.Resume, processed: Option<string>)
    ensures ResumePath(fs, r.(workingProcessed := processed)) == ResumePath(fs, r)
    ensures ResumePath(fs, r) == (if Exists(fs, r.workingSource) then Some(r.workingSource.value)
                                  else if r.album.albumPath in fs then Some(r.album.albumPath)
                                  else None)
  {
  }

  /** The resumable albums, rescanned in order; the ones with nothing left
      on disk are dropped. */
  function FromResumable(fs: Fs, sc: Scanner.Scanner, rs: seq<Orchestrator.Resume>): (albums: seq<Scanner.Album>)
    ensures |albums| <= |rs|
    ensures forall a | a in albums :: a.rootPath in fs
  {
    if |rs| == 0 then []
    else
      var rest := FromResumable(fs, sc, rs[1..]);
      match ResumePath(fs, rs[0])
      case Some(p) => [Scanner.ScanAlbum(fs, sc, p)] + rest
      case None => rest
  }

  /** The pending albums whose path still exists, rescanned in order. */
  function FromPending(fs: Fs, sc: Scanner.Scanner, pending: seq<StateManager.AlbumState>): (albums: seq<Scanner.Album>)
    ensures |albums| <= |pending|
    ensures forall a | a in albums :: a.rootPath in fs
  {
    if |pending| == 0 then []
    else
      var rest := FromPending(fs, sc, pending[1..]);
      if pending[0].albumPath in fs then [Scanner.ScanAlbum(fs, sc, pending[0].albumPath)] + rest else rest
  }

  /** `_get_albums_from_session`: the resumable albums when resuming from
      working directories is on and there are any, otherwise the pending
      ones. The list of resumable albums is an input (the state manager has
      no query for it). */
  function AlbumsFromSession(fs: Fs, sc: Scanner.Scanner, resumeFromWorking: bool,
                             resumable: seq<Orchestrator.Resume>, m: StateManager.Manager): (albums: seq<Scanner.Album>)
    ensures forall a | a in albums :: a.rootPath in fs
  {
    if resumeFromWorking && |resumable| > 0 then FromResumable(fs, sc, resumable)
    else FromPending(fs, sc, StateManager.GetPendingAlbums(m))
  }

  /** The roots a reference filter picks: the resume path of each album
      that has one, in order. */
  function ResumeRoots(fs: Fs, rs: seq<Orchestrator.Resume>): seq<string> {
    if |rs| == 0 then []
    else if ResumePath(fs, rs[0]).Some? then [ResumePath(fs, rs[0]).value] + ResumeRoots(fs, rs[1..])
    else ResumeRoots(fs, rs[1..])
  }

  function Roots(albums: seq<Scanner.Album>): seq<string> {
    if |albums| == 0 then [] else [albums[0].rootPath] + Roots(albums[1..])
  }

  /** Each rescanned album is the scan of its root, and the roots are
      exactly the resume paths, in the session's order. */
  lemma {:induction false} FromResumableRoots(fs: Fs, sc: Scanner.Scanner, rs: seq<Orchestrator.Resume>)
    ensures Roots(FromResumable(fs, sc, rs)) == ResumeRoots(fs, rs)
    ensures forall a | a in FromResumable(fs, sc, rs) :: a == Scanner.ScanAlbum(fs, sc, a.rootPath)
  {
    if |rs| > 0 {
      FromResumableRoots(fs, sc, rs[1..]);
      var rest := FromResumable(fs, sc, rs[1..]);
      if ResumePath(fs, rs[0]).Some? {
        var a := Scanner.ScanAlbum(fs, sc, ResumePath(fs, rs[0]).value);
        assert ([a] + rest)[1..] == rest;
      }
    }
  }

  function PendingRoots(fs: Fs, pending: seq<StateManager.AlbumState>): seq<string> {
    if |pending| == 0 then []
    else if pending[0].albumPath in fs then [pending[0].albumPath] + PendingRoots(fs, pending[1..])
    else PendingRoots(fs, pending[1..])
  }

  /** The pending albums keep their order, and exactly the ones whose path
      exists are scanned. */
  lemma {:induction false} FromPendingRoots(fs: Fs, sc: Scanner.Scanner, pending: seq<StateManager.AlbumState>)
    ensures Roots(FromPending(fs, sc, pending)) == PendingRoots(fs, pending)
    ensures forall a | a in FromPending(fs, sc, pending) :: a == Scanner.ScanAlbum(fs, sc, a.rootPath)
  {
    if |pending| > 0 {
      FromPendingRoots(fs, sc, pending[1..]);
      var rest := FromPending(fs, sc, pending[1..]);
      if pending[0].albumPath in fs {
        var a := Scanner.ScanAlbum(fs, sc, pending[0].albumPath);
        assert ([a] + rest)[1..] == rest;
      }
    }
  }

  /** A path is among the pending roots exactly when it is the path of a
      pending album and exists. */
  lemma {:induction false} PendingRootsIff(fs: Fs, pending: seq<StateManager.AlbumState>, p: string)
    ensures p in PendingRoots(fs, pending) <==> p in fs && exists a | a in pending :: a.albumPath == p
  {
    if |pending| > 0 {
      PendingRootsIff(fs, pending[1..], p);
      assert forall a | a in pending[1..] :: a in pending;
      assert forall a | a in pending :: a == pending[0] || a in pending[1..];
    }
  }

  /** Without resumable albums (or with resuming from working directories
      off), the session is resumed from its pending and failed albums
      whose path still exists. */
  lemma StandardResume(fs: Fs, sc: Scanner.Scanner, resumeFromWorking: bool,
                       resumable: seq<Orchestrator.Resume>, m: StateManager.Manager, p: string)
    requires !resumeFromWorking || |resumable| == 0
    requires m.session.Some?
    ensures p in Roots(AlbumsFromSession(fs, sc, resumeFromWorking, resumable, m)) <==>
      p in fs && exists a | a in m.session.value.albums :: a.albumPath == p && StateManager.Resumable(a)
  {
    var pending := StateManager.GetPendingAlbums(m);
    FromPendingRoots(fs, sc, pending);
    PendingRootsIff(fs, pending, p);
  }

  // ---------------------------------------------------------------------
  // The album loop
  // ---------------------------------------------------------------------

  /** The loop's settings: `processing.check_pause`, `--skip-processed`,
      and whether a deduplication manager exists. */
  datatype LoopConfig = LoopConfig(checkPause: bool, skipProcessed: bool, dedup: bool)

  /** One album of the loop: the album, what its collaborators report, what
      `check_pause_signal` returns when the loop reaches it, and what
      `should_skip_album` comes to for it (`Deduplication.ShouldSkip`): a
      skip flag with its reason, or the exception its checksum raises. */
  datatype Job = Job(album: Scanner.Album, world: Orchestrator.World, pauseSignal: bool,
                     verdict: Result<(bool, string), AlbumMetadata.ChecksumError>)

  /** The counters `_process_albums` keeps, the albums it ran (by index),
      whether it stopped on the pause sentinel, whether an album's
      exception left it (which makes `run()` return False), and what it
      returns when it returns. */
  datatype Loop = Loop(
    events: seq<Orchestrator.Event>,
    started: seq<nat>,
    processed: nat,
    skipped: nat,
    alreadyProcessed: nat,
    paused: bool,
    raised: bool,
    allSuccess: bool)

  predicate Pauses(cfg: LoopConfig, j: Job) { cfg.checkPause && j.pauseSignal }

  /** The deduplication check is made for every album the loop reaches. */
  predicate Checks(cfg: LoopConfig) { cfg.skipProcessed && cfg.dedup }

  predicate SkipsJob(cfg: LoopConfig, j: Job) { Checks(cfg) && j.verdict.Success? && j.verdict.value.0 }

  /** The deduplication check raises; nothing in the loop catches it. */
  predicate CheckRaises(cfg: LoopConfig, j: Job) { Checks(cfg) && j.verdict.Failure? }

  /** The album is handed to `_process_album`. */
  predicate StartsJob(cfg: LoopConfig, j: Job) { !Pauses(cfg, j) && !CheckRaises(cfg, j) && !SkipsJob(cfg, j) }

  /** The loop ends at this album: the sentinel is seen there, the
      deduplication check raises, or the album is run and its exception
      leaves the loop. */
  predicate Stops(cfg: LoopConfig, j: Job, run: Orchestrator.AlbumRun) {
    Pauses(cfg, j) || CheckRaises(cfg, j) || (StartsJob(cfg, j) && run.raised)
  }

  /** `_process_albums` from album `i` on, given what each album's run
      would come to; only the runs of the albums the loop reaches are
      looked at. */
  function LoopFrom(cfg: LoopConfig, jobs: seq<Job>, runs: seq<Orchestrator.AlbumRun>, i: nat): (r: Loop)
    requires i <= |jobs| == |runs|
    decreases |jobs| - i
  {
    if i == |jobs| then Loop([], [], 0, 0, 0, false, false, true)
    else if Pauses(cfg, jobs[i]) then Loop([], [], 0, 0, 0, true, false, true)
    else if CheckRaises(cfg, jobs[i]) then Loop([], [], 0, 0, 0, false, true, false)
    else if SkipsJob(cfg, jobs[i]) then
      var rest := LoopFrom(cfg, jobs, runs, i + 1);
      rest.(alreadyProcessed := rest.alreadyProcessed + 1)
    else if runs[i].raised then Loop(runs[i].events, [i], 0, 0, 0, false, true, false)
    else
      var run := runs[i];
      var rest := LoopFrom(cfg, jobs, runs, i + 1);
      Loop(run.events + rest.events, [i] + rest.started,
           rest.processed + (if run.result then 1 else 0),
           rest.skipped + (if run.result then 0 else 1),
           rest.alreadyProcessed, rest.paused, rest.raised, run.result && rest.allSuccess)
  }

  /** `_process_album` for every album of the list. */
  function Runs(s: Orchestrator.Settings, jobs: seq<Job>, session: Option<seq<Orchestrator.Resume>>): (runs: seq<Orchestrator.AlbumRun>)
    ensures |runs| == |jobs|
    ensures forall j | 0 <= j < |jobs| :: runs[j] == Orchestrator.RunAlbum(s, jobs[j].world, jobs[j].album, session)
  {
    seq(|jobs|, j requires 0 <= j < |jobs| => Orchestrator.RunAlbum(s, jobs[j].world, jobs[j].album, session))
  }

  /** `_process_albums`. */
  function ProcessAlbums(s: Orchestrator.Settings, cfg: LoopConfig, jobs: seq<Job>,
                         session: Option<seq<Orchestrator.Resume>>): Loop {
    LoopFrom(cfg, jobs, Runs(s, jobs, session), 0)
  }

  /** The first album, from `i` on, at which the loop ends, or the end of
      the list. */
  function StopIndex(cfg: LoopConfig, jobs: seq<Job>, runs: seq<Orchestrator.AlbumRun>, i: nat): (p: nat)
    requires i <= |jobs| == |runs|
    ensures i <= p <= |jobs|
    ensures forall j | i <= j < p :: !Stops(cfg, jobs[j], runs[j])
    ensures p < |jobs| ==> Stops(cfg, jobs[p], runs[p])
    decreases |jobs| - i
  {
    if i == |jobs| || Stops(cfg, jobs[i], runs[i]) then i else StopIndex(cfg, jobs, runs, i + 1)
  }

  /** The albums run are those up to the album where the loop ends, minus
      the ones skipped as already processed and the one where the sentinel
      is seen or the deduplication check raises. */
  lemma {:induction false} StartedIff(cfg: LoopConfig, jobs: seq<Job>, runs: seq<Orchestrator.AlbumRun>, i: nat)
    requires i <= |jobs| == |runs|
    ensures forall j :: j in LoopFrom(cfg, jobs, runs, i).started <==>
      i <= j < |jobs| && j <= StopIndex(cfg, jobs, runs, i) && StartsJob(cfg, jobs[j])
    decreases |jobs| - i
  {
    if i < |jobs| && !Stops(cfg, jobs[i], runs[i]) {
      StartedIff(cfg, jobs, runs, i + 1);
    }
  }

  /** The albums are run in list order. */
  lemma {:induction false} StartedInOrder(cfg: LoopConfig, jobs: seq<Job>, runs: seq<Orchestrator.AlbumRun>, i: nat)
    requires i <= |jobs| == |runs|
    ensures forall a, b | 0 <= a < b < |LoopFrom(cfg, jobs, runs, i).started| ::
      LoopFrom(cfg, jobs, runs, i).started[a] < LoopFrom(cfg, jobs, runs, i).started[b]
    decreases |jobs| - i
  {
    if i < |jobs| && !Stops(cfg, jobs[i], runs[i]) {
      StartedInOrder(cfg, jobs, runs, i + 1);
      StartedIff(cfg, jobs, runs, i + 1);
      var rest := LoopFrom(cfg, jobs, runs, i + 1);
      if !SkipsJob(cfg, jobs[i]) {
        var st := [i] + rest.started;
        assert forall k | 1 <= k < |st| :: st[k] == rest.started[k - 1];
        assert forall k | 0 <= k < |rest.started| :: rest.started[k] in rest.started;
      }
    }
  }

  /** The loop reports a pause exactly when it ended at the sentinel. */
  lemma {:induction false} PausedIff(cfg: LoopConfig, jobs: seq<Job>, runs: seq<Orchestrator.AlbumRun>, i: nat)
    requires i <= |jobs| == |runs|
    ensures LoopFrom(cfg, jobs, runs, i).paused <==>
      StopIndex(cfg, jobs, runs, i) < |jobs| && Pauses(cfg, jobs[StopIndex(cfg, jobs, runs, i)])
    decreases |jobs| - i
  {
    if i < |jobs| && !Stops(cfg, jobs[i], runs[i]) {
      PausedIff(cfg, jobs, runs, i + 1);
    }
  }

  /** An exception leaves the loop exactly when it did not end at the
      sentinel or at the end of the list: the album it ended at was run, or
      its deduplication check raised. */
  lemma {:induction false} RaisedIff(cfg: LoopConfig, jobs: seq<Job>, runs: seq<Orchestrator.AlbumRun>, i: nat)
    requires i <= |jobs| == |runs|
    ensures LoopFrom(cfg, jobs, runs, i).raised <==>
      StopIndex(cfg, jobs, runs, i) < |jobs| && !Pauses(cfg, jobs[StopIndex(cfg, jobs, runs, i)])
    decreases |jobs| - i
  {
    if i < |jobs| && !Stops(cfg, jobs[i], runs[i]) {
      RaisedIff(cfg, jobs, runs, i + 1);
    }
  }

  /** Every album before the one where the loop ends is counted once: as
      processed, as failed ("skipped" in the statistics) or as already
      processed; an album whose exception ends the loop is run but not
      counted, and one whose deduplication check raises is neither. */
  lemma {:induction false} CountsAddUp(cfg: LoopConfig, jobs: seq<Job>, runs: seq<Orchestrator.AlbumRun>, i: nat)
    requires i <= |jobs| == |runs|
    ensures var r := LoopFrom(cfg, jobs, runs, i);
      var p := StopIndex(cfg, jobs, runs, i);
      r.processed + r.skipped + (if p < |jobs| && r.raised && !CheckRaises(cfg, jobs[p]) then 1 else 0) == |r.started|
      && r.processed + r.skipped + r.alreadyProcessed == p - i
    decreases |jobs| - i
  {
    if i < |jobs| && !Stops(cfg, jobs[i], runs[i]) {
      CountsAddUp(cfg, jobs, runs, i + 1);
    }
  }

  /** The loop returns true exactly when no exception left it and every
      album it ran returned true; albums after the end and albums skipped
      as processed do not matter. */
  lemma {:induction false} AllSuccessIff(cfg: LoopConfig, jobs: seq<Job>, runs: seq<Orchestrator.AlbumRun>, i: nat)
    requires i <= |jobs| == |runs|
    ensures LoopFrom(cfg, jobs, runs, i).allSuccess <==>
      !LoopFrom(cfg, jobs, runs, i).raised
      && forall j | i <= j < StopIndex(cfg, jobs, runs, i) && StartsJob(cfg, jobs[j]) :: runs[j].result
    decreases |jobs| - i
  {
    if i < |jobs| && !Stops(cfg, jobs[i], runs[i]) {
      AllSuccessIff(cfg, jobs, runs, i + 1);
    }
  }

  /** The events of the runs listed, one album after another. */
  function RunEvents(runs: seq<Orchestrator.AlbumRun>, started: seq<nat>): seq<Orchestrator.Event> {
    if |started| == 0 then []
    else if started[0] < |runs| then runs[started[0]].events + RunEvents(runs, started[1..])
    else RunEvents(runs, started[1..])
  }

  /** The loop's events are the runs' events, one album after another. */
  lemma {:induction false} EventsConcatenate(cfg: LoopConfig, jobs: seq<Job>, runs: seq<Orchestrator.AlbumRun>, i: nat)
    requires i <= |jobs| == |runs|
    ensures LoopFrom(cfg, jobs, runs, i).events == RunEvents(runs, LoopFrom(cfg, jobs, runs, i).started)
    decreases |jobs| - i
  {
    if i < |jobs| && !Stops(cfg, jobs[i], runs[i]) {
      EventsConcatenate(cfg, jobs, runs, i + 1);
      var rest := LoopFrom(cfg, jobs, runs, i + 1);
      if !SkipsJob(cfg, jobs[i]) {
        assert ([i] + rest.started)[1..] == rest.started;
      }
    } else if i < |jobs| && StartsJob(cfg, jobs[i]) {
      assert [i][1..] == [];
    }
  }

  /** The whole loop: the albums run are those up to the album where the
      sentinel is seen or an exception leaves the loop, minus the ones
      skipped as already processed and one whose deduplication check raised; the counters add up; the result is true
      exactly when no exception left the loop and every run returned true.
      Each run is `_process_album` of its album, by the contract of `Runs`. */
  lemma ProcessAlbumsSummary(s: Orchestrator.Settings, cfg: LoopConfig, jobs: seq<Job>,
                             session: Option<seq<Orchestrator.Resume>>)
    ensures var r := ProcessAlbums(s, cfg, jobs, session);
      var runs := Runs(s, jobs, session);
      var stop := StopIndex(cfg, jobs, runs, 0);
      (forall j :: j in r.started <==> 0 <= j < |jobs| && j <= stop && StartsJob(cfg, jobs[j]))
      && (r.paused <==> stop < |jobs| && Pauses(cfg, jobs[stop]))
      && (r.raised <==> stop < |jobs| && !Pauses(cfg, jobs[stop]))
      && r.processed + r.skipped + r.alreadyProcessed == stop
      && (r.allSuccess <==> !r.raised && forall j | 0 <= j < stop && StartsJob(cfg, jobs[j]) :: runs[j].result)
  {
    var runs := Runs(s, jobs, session);
    StartedIff(cfg, jobs, runs, 0);
    PausedIff(cfg, jobs, runs, 0);
    RaisedIff(cfg, jobs, runs, 0);
    CountsAddUp(cfg, jobs, runs, 0);
    AllSuccessIff(cfg, jobs, runs, 0);
  }

  /** An album of the list that mixes an ISO image with track files ends the
      loop when it is reached: no later album is run, and the loop does not
      return. */
  lemma MixedAlbumEndsLoop(s: Orchestrator.Settings, cfg: LoopConfig, jobs: seq<Job>,
                           session: Option<seq<Orchestrator.Resume>>,
                           crypto: Hashing.Crypto, fs: FileSystem.Fs, k: nat, a: nat, b: nat)
    requires k < |jobs| && !Pauses(cfg, jobs[k]) && !SkipsJob(cfg, jobs[k])
    requires jobs[k].world.checksum == AlbumMetadata.AudioChecksum(crypto, fs, Orchestrator.AudioFiles(jobs[k].album))
    requires a < |jobs[k].album.musicFiles| && AlbumMetadata.IsIso(jobs[k].album.musicFiles[a].path)
    requires b < |jobs[k].album.musicFiles| && AlbumMetadata.IsTrackFormat(jobs[k].album.musicFiles[b].path)
    ensures var r := ProcessAlbums(s, cfg, jobs, session);
      (forall j | j in r.started :: j <= k) && (r.paused || (r.raised && !r.allSuccess))
  {
    var runs := Runs(s, jobs, session);
    Orchestrator.MixedAlbumRaises(s, jobs[k].world, jobs[k].album, session, crypto, fs, a, b);
    assert Stops(cfg, jobs[k], runs[k]);
    ProcessAlbumsSummary(s, cfg, jobs, session);
  }

  /** An album whose deduplication check raises ends the loop when it is
      reached, before it is run: neither it nor any later album is run, and
      the loop either paused earlier or raised and does not return true. */
  lemma CheckRaiseEndsLoop(s: Orchestrator.Settings, cfg: LoopConfig, jobs: seq<Job>,
                           session: Option<seq<Orchestrator.Resume>>, k: nat)
    requires k < |jobs| && CheckRaises(cfg, jobs[k])
    ensures var r := ProcessAlbums(s, cfg, jobs, session);
      (forall j | j in r.started :: j < k) && (r.paused || (r.raised && !r.allSuccess))
  {
    var runs := Runs(s, jobs, session);
    assert Stops(cfg, jobs[k], runs[k]);
    ProcessAlbumsSummary(s, cfg, jobs, session);
  }
}

=== FILE: catalog.dfy ===
/** The album catalog as the pipeline sees it: album rows by id and the
    processing history. Only the text columns the pipeline reads or writes
    are represented; a column holding SQL `NULL` is absent from its row. */
module Catalog {
  import opened Wrappers

  /** An album row: its non-`NULL` columns by name. */
  type Row = map<string, string>

  /** One `processing_history` row. */
  datatype HistoryEntry = HistoryEntry(albumId: string, operation: string, status: string, error: Option<string>)

  /** `history` is kept newest first, the order `get_processing_history`
      returns (`ORDER BY processed_at DESC`). */
  datatype Catalog = Catalog(albums: map<string, Row>, history: seq<HistoryEntry>)

  /** `get_album_by_id(album_id)`. */
  function GetAlbumById(c: Catalog, id: string): Option<Row> {
    if id in c.albums then Some(c.albums[id]) else None
  }

  /** `record.get(column)` on a row. */
  function Column(row: Row, column: string): Option<string> {
    if column in row then Some(row[column]) else None
  }

  /** A column is truthy: present and not the empty string. */
  predicate HasValue(row: Row, column: string) {
    column in row && row[column] != ""
  }

  /** The columns of `updates` that carry a value. */
  function Assigned(updates: map<string, Option<string>>): map<string, string> {
    map k | k in updates && updates[k].Some? :: updates[k].value
  }

  /** `create_album(album_id, album_name, source_path, checksum, **kwargs)`:
      inserts a row; a second row with the same id violates the primary key
      and the call reports false, leaving the catalog as it was. */
  function CreateAlbum(c: Catalog, id: string, name: string, sourcePath: string, checksum: string,
                       extra: map<string, Option<string>>): (r: (bool, Catalog))
    ensures r.0 <==> id !in c.albums
    ensures !r.0 ==> r.1 == c
    ensures r.0 ==> r.1.history == c.history && r.1.albums.Keys == c.albums.Keys + {id}
    ensures r.0 ==> {"album_id", "album_name", "source_path", "audio_files_checksum"} <= r.1.albums[id].Keys
    ensures r.0 ==> var row := r.1.albums[id];
              row["album_id"] == id && row["album_name"] == name
              && row["source_path"] == sourcePath && row["audio_files_checksum"] == checksum
    ensures forall k | k in c.albums :: k in r.1.albums && r.1.albums[k] == c.albums[k]
  {
    if id in c.albums then (false, c)
    else
      var row := Assigned(extra) + map["album_id" := id, "album_name" := name,
                                       "source_path" := sourcePath, "audio_files_checksum" := checksum];
      (true, c.(albums := c.albums[id := row]))
  }

  /** `update_album(album_id, **kwargs)`: sets the columns whose value is not
      `None` (a `None` never clears a column) on the row with that id, if
      there is one. The call reports true either way. */
  function UpdateAlbum(c: Catalog, id: string, updates: map<string, Option<string>>): (r: Catalog)
    ensures r.history == c.history && r.albums.Keys == c.albums.Keys
    ensures forall k | k in c.albums && k != id :: r.albums[k] == c.albums[k]
    ensures id in c.albums ==>
              var before := c.albums[id];
              var after := r.albums[id];
              after.Keys == before.Keys + (set k | k in updates && updates[k].Some?)
              && (forall k | k in updates && updates[k].Some? :: after[k] == updates[k].value)
              && (forall k | k in before && (k !in updates || updates[k].None?) :: after[k] == before[k])
  {
    if id in c.albums then c.(albums := c.albums[id := c.albums[id] + Assigned(updates)]) else c
  }

  /** Setting one column to a value. */
  lemma UpdateOneColumn(c: Catalog, id: string, column: string, value: string)
    requires id in c.albums
    ensures UpdateAlbum(c, id, map[column := Some(value)]).albums == c.albums[id := c.albums[id][column := value]]
  {
    assert Assigned(map[column := Some(value)]) == map[column := value];
    assert c.albums[id] + map[column := value] == c.albums[id][column := value];
  }

  /** `add_processing_history(...)`: the new entry is the newest. */
  function AddHistory(c: Catalog, id: string, operation: string, status: string, error: Option<string>): (r: Catalog)
    ensures r.albums == c.albums
    ensures r.history == [HistoryEntry(id, operation, status, error)] + c.history
  {
    c.(history := [HistoryEntry(id, operation, status, error)] + c.history)
  }

  predicate Selected(e: HistoryEntry, id: string, operation: Option<string>) {
    e.albumId == id && (operation.None? || operation.value == "" || e.operation == operation.value)
  }

  /** `get_processing_history(album_id, operation_type)`: the album's entries,
      newest first, restricted to one operation when one (non-empty) is named. */
  function History(c: Catalog, id: string, operation: Option<string>): (r: seq<HistoryEntry>)
  {
    Filter(c.history, id, operation)
  }

  function Filter(h: seq<HistoryEntry>, id: string, operation: Option<string>): (r: seq<HistoryEntry>)
    ensures forall e | e in r :: e in h && Selected(e, id, operation)
    ensures forall e | e in h && Selected(e, id, operation) :: e in r
    ensures |r| <= |h|
  {
    if |h| == 0 then []
    else if Selected(h[0], id, operation) then [h[0]] + Filter(h[1..], id, operation)
    else Filter(h[1..], id, operation)
  }

  /** Adding an entry for an album shows up first in that album's history
      for its operation, and the older entries follow unchanged. */
  lemma AddHistoryIsNewest(c: Catalog, id: string, operation: string, status: string, error: Option<string>)
    ensures History(AddHistory(c, id, operation, status, error), id, Some(operation))
            == [HistoryEntry(id, operation, status, error)] + History(c, id, Some(operation))
  {
    var c' := AddHistory(c, id, operation, status, error);
    assert c'.history[1..] == c.history;
  }

  /** Entries for other albums or other operations do not change a history. */
  lemma AddHistoryOther(c: Catalog, id: string, operation: string, status: string, error: Option<string>,
                        id': string, operation': string)
    requires id' != id || (operation' != operation && operation' != "")
    ensures History(AddHistory(c, id, operation, status, error), id', Some(operation')) == History(c, id', Some(operation'))
  {
    var c' := AddHistory(c, id, operation, status, error);
    assert c'.history[1..] == c.history;
  }
}

=== FILE: config.dfy ===
/** The configuration: a YAML document read into a tree of values, read and
    written by dot-separated key paths, overridden from command-line
    arguments and checked by `validate`. */
module Config {
  import opened Wrappers
  import opened Text
  import opened Json

  /** Why loading fails: the file is missing, or it is not valid YAML. */
  datatype LoadError = NotFound(path: string) | Malformed(path: string)

  /** `Config(config_path)`: the parsed document, or `{}` when it is empty
      or otherwise falsy. */
  function Load(path: string, file: JsonFile): (r: Result<Json, LoadError>)
    ensures file.Absent? <==> r == Failure(NotFound(path))
    ensures r.Success? ==> file.Parsed? && Truthy(r.value) == Truthy(file.value)
    ensures r.Success? && Truthy(file.value) ==> r.value == file.value
  {
    match file
    case Absent => Failure(NotFound(path))
    case Unparsable => Failure(Malformed(path))
    case Parsed(v) => Success(if Truthy(v) then v else JObj(map[]))
  }

  /** `key_path.split('.')`. */
  function Keys(keyPath: string): (r: seq<string>)
    ensures |r| >= 1
  {
    Split(keyPath, '.')
  }

  // ---------------------------------------------------------------------
  // get / set
  // ---------------------------------------------------------------------

  /** Walking `keys` down from `v`: the default as soon as a segment is
      missing or the value reached is not a mapping. */
  function GetIn(v: Json, keys: seq<string>, default: Json): (r: Json)
    ensures |keys| > 0 && !v.JObj? ==> r == default
    ensures |keys| > 0 && v.JObj? && keys[0] !in v.fields ==> r == default
    decreases |keys|
  {
    if |keys| == 0 then v
    else if v.JObj? && keys[0] in v.fields then GetIn(v.fields[keys[0]], keys[1..], default)
    else default
  }

  /** `config.get(key_path, default)`. */
  function Get(config: Json, keyPath: string, default: Json): Json {
    GetIn(config, Keys(keyPath), default)
  }

  /** Writing `value` at `keys` below `v`: missing mappings on the way are
      created; any other value on the way makes Python raise `TypeError`. */
  function SetIn(v: Json, keys: seq<string>, value: Json): (r: Option<Json>)
    requires |keys| >= 1
    ensures r.Some? ==> r.value.JObj? && v.JObj? && r.value.fields.Keys == v.fields.Keys + {keys[0]}
    ensures r.Some? ==> forall k | k in v.fields && k != keys[0] :: r.value.fields[k] == v.fields[k]
    decreases |keys|
  {
    if !v.JObj? then None
    else if |keys| == 1 then Some(JObj(v.fields[keys[0] := value]))
    else
      var child := if keys[0] in v.fields then v.fields[keys[0]] else JObj(map[]);
      var sub :- SetIn(child, keys[1..], value);
      Some(JObj(v.fields[keys[0] := sub]))
  }

  /** `config.set(key_path, value)`. */
  function Set(config: Json, keyPath: string, value: Json): Option<Json> {
    SetIn(config, Keys(keyPath), value)
  }

  /** Reading back what was written gives the value written. */
  lemma {:induction false} GetSetIn(v: Json, keys: seq<string>, value: Json, default: Json)
    requires |keys| >= 1 && SetIn(v, keys, value).Some?
    ensures GetIn(SetIn(v, keys, value).value, keys, default) == value
    decreases |keys|
  {
    if |keys| > 1 {
      var child := if keys[0] in v.fields then v.fields[keys[0]] else JObj(map[]);
      GetSetIn(child, keys[1..], value, default);
    }
  }

  lemma GetAfterSet(config: Json, keyPath: string, value: Json, default: Json)
    requires Set(config, keyPath, value).Some?
    ensures Get(Set(config, keyPath, value).value, keyPath, default) == value
  {
    GetSetIn(config, Keys(keyPath), value, default);
  }

  /** Two key paths part ways: at some position both have a segment and
      the segments differ. */
  predicate Diverge(a: seq<string>, b: seq<string>) {
    exists i | 0 <= i < |a| && i < |b| :: a[i] != b[i] && a[..i] == b[..i]
  }

  /** Writing one path leaves every value at a path that parts ways with
      it as it was. */
  lemma {:induction false} GetSetOther(v: Json, keys: seq<string>, value: Json, other: seq<string>, default: Json)
    requires |keys| >= 1 && SetIn(v, keys, value).Some?
    requires Diverge(keys, other)
    ensures GetIn(SetIn(v, keys, value).value, other, default) == GetIn(v, other, default)
    decreases |keys|
  {
    var i :| 0 <= i < |keys| && i < |other| && keys[i] != other[i] && keys[..i] == other[..i];
    if i > 0 {
      assert keys[0] == other[0] by { assert keys[..i][0] == other[..i][0]; }
      assert keys[1..][..i - 1] == other[1..][..i - 1];
      assert Diverge(keys[1..], other[1..]);
      GetSetOtherBelow(v, keys, value, other, default);
    }
  }

  /** The step below the shared first segment. */
  lemma {:induction false} GetSetOtherBelow(v: Json, keys: seq<string>, value: Json, other: seq<string>, default: Json)
    requires |keys| >= 2 && |other| >= 1 && SetIn(v, keys, value).Some?
    requires keys[0] == other[0] && Diverge(keys[1..], other[1..])
    ensures GetIn(SetIn(v, keys, value).value, other, default) == GetIn(v, other, default)
    decreases |keys|, 0
  {
    var child := if keys[0] in v.fields then v.fields[keys[0]] else JObj(map[]);
    var sub := SetIn(child, keys[1..], value).value;
    assert SetIn(v, keys, value).value == JObj(v.fields[keys[0] := sub]);
    GetSetOther(child, keys[1..], value, other[1..], default);
    if keys[0] !in v.fields {
      MissingStaysMissing(other[1..], default);
    }
  }

  /** Below a fresh empty mapping every path reads the default. */
  lemma MissingStaysMissing(keys: seq<string>, default: Json)
    requires |keys| >= 1
    ensures GetIn(JObj(map[]), keys, default) == default
  {
  }

  /** The mapping reached at every proper prefix of `keys`, counting a
      missing one as a fresh empty mapping. */
  predicate MappingsAlong(v: Json, keys: seq<string>) {
    forall i | 0 <= i < |keys| :: GetIn(v, keys[..i], JObj(map[])).JObj?
  }

  /** Writing succeeds exactly when nothing on the way is a non-mapping. */
  lemma {:induction false} SetSucceedsIff(v: Json, keys: seq<string>, value: Json)
    requires |keys| >= 1
    ensures SetIn(v, keys, value).Some? <==> MappingsAlong(v, keys)
    decreases |keys|
  {
    assert keys[..0] == [];
    if v.JObj? && |keys| > 1 {
      var child := if keys[0] in v.fields then v.fields[keys[0]] else JObj(map[]);
      SetSucceedsIff(child, keys[1..], value);
      forall i | 1 <= i < |keys|
        ensures GetIn(v, keys[..i], JObj(map[])) == GetIn(child, keys[1..][..i - 1], JObj(map[]))
      {
        assert keys[..i][1..] == keys[1..][..i - 1];
        if keys[0] !in v.fields && i > 1 {
          MissingStaysMissing(keys[1..][..i - 1], JObj(map[]));
        }
      }
      if MappingsAlong(child, keys[1..]) {
        forall i | 0 <= i < |keys| ensures GetIn(v, keys[..i], JObj(map[])).JObj? {
          if i >= 1 {
            assert GetIn(child, keys[1..][..i - 1], JObj(map[])).JObj?;
          }
        }
      } else {
        var j :| 0 <= j < |keys[1..]| && !GetIn(child, keys[1..][..j], JObj(map[])).JObj?;
        assert !GetIn(v, keys[..j + 1], JObj(map[])).JObj?;
      }
    }
  }

  // ---------------------------------------------------------------------
  // update_from_args
  // ---------------------------------------------------------------------

  /** The command-line arguments that override settings: the argument's
      name, then the section and key of the setting it overrides. */
  const ArgTable: seq<(string, string, string)> := [
    ("input_dir", "paths", "input_dir"),
    ("output_dir", "paths", "output_dir"),
    ("archive_dir", "paths", "archive_dir"),
    ("mode", "conversion", "mode"),
    ("sample_rate", "conversion", "sample_rate"),
    ("bit_depth", "conversion", "bit_depth"),
    ("enrich_metadata", "metadata", "enabled"),
    ("log_level", "logging", "level")]

  /** `arg_mapping`: each argument name with its dotted key path. */
  function ArgMapping(): (r: seq<(string, string)>)
    ensures |r| == |ArgTable|
    ensures forall k | 0 <= k < |r| :: r[k] == (ArgTable[k].0, ArgTable[k].1 + "." + ArgTable[k].2)
  {
    seq(|ArgTable|, k requires 0 <= k < |ArgTable| => (ArgTable[k].0, ArgTable[k].1 + "." + ArgTable[k].2))
  }

  /** An argument given with a value other than `None`. */
  predicate Given(args: map<string, Json>, name: string) {
    name in args && !args[name].JNull?
  }

  /** The writes of `update_from_args` in mapping order; `args` maps
      keyword names to values, `JNull` standing for `None`. */
  function ApplyArgs(config: Json, mapping: seq<(string, string)>, args: map<string, Json>): Option<Json>
    decreases |mapping|
  {
    if |mapping| == 0 then Some(config)
    else
      var name := mapping[0].0;
      var next :- if Given(args, name) then Set(config, mapping[0].1, args[name]) else Some(config);
      ApplyArgs(next, mapping[1..], args)
  }

  /** `config.update_from_args(**args)`. */
  function UpdateFromArgs(config: Json, args: map<string, Json>): Option<Json> {
    ApplyArgs(config, ArgMapping(), args)
  }

  /** Two argument sets that give the same value, or none, to `name`. */
  predicate Agree(args: map<string, Json>, args': map<string, Json>, name: string) {
    Given(args, name) == Given(args', name) && (Given(args, name) ==> args[name] == args'[name])
  }

  /** Arguments outside the mapping make no difference. */
  lemma {:induction false} OnlyMappedArgsMatter(config: Json, mapping: seq<(string, string)>, args: map<string, Json>, args': map<string, Json>)
    requires forall k | 0 <= k < |mapping| :: Agree(args, args', mapping[k].0)
    ensures ApplyArgs(config, mapping, args) == ApplyArgs(config, mapping, args')
    decreases |mapping|
  {
    if |mapping| > 0 {
      var name := mapping[0].0;
      var next := if Given(args, name) then Set(config, mapping[0].1, args[name]) else Some(config);
      if next.Some? {
        OnlyMappedArgsMatter(next.value, mapping[1..], args, args');
      }
    }
  }

  /** The key paths of a mapping part ways pairwise. */
  predicate Separate(mapping: seq<(string, string)>) {
    forall i, j | 0 <= i < j < |mapping| :: Diverge(Keys(mapping[i].1), Keys(mapping[j].1))
  }

  lemma DivergeSymmetric(a: seq<string>, b: seq<string>)
    requires Diverge(a, b)
    ensures Diverge(b, a)
  {
    var i :| 0 <= i < |a| && i < |b| && a[i] != b[i] && a[..i] == b[..i];
    assert b[i] != a[i] && b[..i] == a[..i];
  }

  /** A path that parts ways with every mapped path keeps its value. */
  lemma {:induction false} ApplyArgsKeepsOthers(config: Json, mapping: seq<(string, string)>, args: map<string, Json>,
                                                 other: seq<string>, default: Json)
    requires ApplyArgs(config, mapping, args).Some?
    requires forall k | 0 <= k < |mapping| :: Diverge(Keys(mapping[k].1), other)
    ensures GetIn(ApplyArgs(config, mapping, args).value, other, default) == GetIn(config, other, default)
    decreases |mapping|
  {
    if |mapping| > 0 {
      var name := mapping[0].0;
      var next := (if Given(args, name) then Set(config, mapping[0].1, args[name]) else Some(config)).value;
      if Given(args, name) {
        GetSetOther(config, Keys(mapping[0].1), args[name], other, default);
      }
      ApplyArgsKeepsOthers(next, mapping[1..], args, other, default);
    }
  }

  /** Every mapped argument given a value is written at its path; every
      other mapped path keeps its value. */
  lemma {:induction false} ApplyArgsWrites(config: Json, mapping: seq<(string, string)>, args: map<string, Json>,
                                            k: nat, default: Json)
    requires Separate(mapping) && ApplyArgs(config, mapping, args).Some?
    requires k < |mapping|
    ensures GetIn(ApplyArgs(config, mapping, args).value, Keys(mapping[k].1), default) ==
              if Given(args, mapping[k].0) then args[mapping[k].0] else GetIn(config, Keys(mapping[k].1), default)
    decreases |mapping|
  {
    var name := mapping[0].0;
    var next := (if Given(args, name) then Set(config, mapping[0].1, args[name]) else Some(config)).value;
    assert Separate(mapping[1..]) by {
      forall i, j | 0 <= i < j < |mapping[1..]|
        ensures Diverge(Keys(mapping[1..][i].1), Keys(mapping[1..][j].1))
      {
        assert mapping[1..][i] == mapping[i + 1] && mapping[1..][j] == mapping[j + 1];
      }
    }
    if k == 0 {
      forall j | 0 <= j < |mapping[1..]| ensures Diverge(Keys(mapping[1..][j].1), Keys(mapping[0].1)) {
        assert mapping[1..][j] == mapping[j + 1];
        DivergeSymmetric(Keys(mapping[0].1), Keys(mapping[j + 1].1));
      }
      ApplyArgsKeepsOthers(next, mapping[1..], args, Keys(mapping[0].1), default);
      if Given(args, name) {
        GetSetIn(config, Keys(mapping[0].1), args[name], default);
      }
    } else {
      ApplyArgsWrites(next, mapping[1..], args, k - 1, default);
      assert mapping[1..][k - 1] == mapping[k];
      if Given(args, name) {
        GetSetOther(config, Keys(mapping[0].1), args[name], Keys(mapping[k].1), default);
      }
    }
  }

  /** No section or key of the table holds a dot. */
  lemma ArgTableHasNoDots(k: nat)
    requires k < |ArgTable|
    ensures '.' !in ArgTable[k].1 && '.' !in ArgTable[k].2
  {
  }

  /** The split form of each mapped path is its section and key. */
  lemma ArgMappingKeys(k: nat)
    requires k < |ArgMapping()|
    ensures Keys(ArgMapping()[k].1) == [ArgTable[k].1, ArgTable[k].2]
  {
    ArgTableHasNoDots(k);
    TwoSegments(ArgTable[k].1, ArgTable[k].2);
  }

  /** No two arguments override the same setting. */
  lemma ArgTableDistinct(i: nat, j: nat)
    requires i < j < |ArgTable|
    ensures ArgTable[i].1 != ArgTable[j].1 || ArgTable[i].2 != ArgTable[j].2
  {
  }

  lemma TwoSegments(a: string, b: string)
    requires '.' !in a && '.' !in b
    ensures Keys(a + "." + b) == [a, b]
  {
    var s := a + "." + b;
    assert s[|a|] == '.' && s[..|a|] == a && s[|a| + 1..] == b;
    assert '.' in s;
    var i := IndexOf(s, '.');
    assert i == |a| by {
      if i != |a| {
        assert false;
      }
    }
    assert Split(s, '.') == [a] + Split(b, '.');
  }

  lemma ArgMappingSeparate()
    ensures Separate(ArgMapping())
  {
    forall i, j | 0 <= i < j < |ArgMapping()| ensures Diverge(Keys(ArgMapping()[i].1), Keys(ArgMapping()[j].1)) {
      ArgMappingKeys(i);
      ArgMappingKeys(j);
      ArgTableDistinct(i, j);
      var a := Keys(ArgMapping()[i].1);
      var b := Keys(ArgMapping()[j].1);
      if a[0] != b[0] {
        assert a[..0] == b[..0];
      } else {
        assert a[..1] == b[..1];
      }
    }
  }

  /** `update_from_args` writes exactly the mapped arguments given a value,
      each at its own path, and leaves the other mapped paths alone. */
  lemma UpdateFromArgsWrites(config: Json, args: map<string, Json>, k: nat, default: Json)
    requires UpdateFromArgs(config, args).Some? && k < |ArgMapping()|
    ensures var path := ArgMapping()[k].1;
            Get(UpdateFromArgs(config, args).value, path, default) ==
              if Given(args, ArgMapping()[k].0) then args[ArgMapping()[k].0] else Get(config, path, default)
  {
    ArgMappingSeparate();
    ApplyArgsWrites(config, ArgMapping(), args, k, default);
  }

  // ---------------------------------------------------------------------
  // validate
  // ---------------------------------------------------------------------

  /** One complaint of `validate`, with the offending value. */
  datatype ConfigError =
    | MissingInputDir
    | MissingArchiveDir
    | InvalidMode(mode: Json)
    | InvalidBehavior(behavior: Json)
    | InvalidSampleRate(rate: Json)
    | InvalidBitDepth(depth: Json)
    | InvalidLogLevel(level: Json)

  /** The quote `repr` puts around a `str`: a double quote when the text
      holds a single quote and no double quote, else a single quote. */
  function QuoteOf(s: string): char {
    if '\'' in s && '"' !in s then '"' else '\''
  }

  function HexDigit(n: nat): char
    requires n < 16
  {
    if n < 10 then ('0' as int + n) as char else ('a' as int + n - 10) as char
  }

  /** One character of a `str`'s `repr` between quotes `q`: the quote and
      the backslash escaped, tab, newline and carriage return by name, other
      ASCII control characters as `\xhh`. Other characters are kept. */
  function EscapeChar(c: char, q: char): string {
    if c == q || c == '\\' then ['\\', c]
    else if c == '\t' then "\\t"
    else if c == '\n' then "\\n"
    else if c == '\r' then "\\r"
    else if c < ' ' || c == '\U{7f}' then ['\\', 'x', HexDigit(c as int / 16), HexDigit(c as int % 16)]
    else [c]
  }

  function Escaped(s: string, q: char): string {
    if |s| == 0 then "" else EscapeChar(s[0], q) + Escaped(s[1..], q)
  }

  /** `repr(s)` for a `str`. */
  function StrRepr(s: string): string {
    var q := QuoteOf(s);
    [q] + Escaped(s, q) + [q]
  }

  /** `repr(v)`, which is how a value inside a list is printed. */
  function Repr(v: Json): string
    decreases v
  {
    match v
    case JNull => "None"
    case JBool(b) => if b then "True" else "False"
    case JInt(i) => IntToString(i)
    case JStr(s) => StrRepr(s)
    case JArr(items) => "[" + Join(seq(|items|, k requires 0 <= k < |items| => Repr(items[k])), ", ") + "]"
    case JObj(_) => "{...}"
  }

  /** `str(v)`, which an f-string prints: a `str` as it is, anything else
      as its `repr`. */
  function Show(v: Json): string {
    if v.JStr? then v.s else Repr(v)
  }

  /** A character printed unchanged between either quote. */
  predicate Plain(c: char) {
    c != '\'' && c != '"' && c != '\\' && ' ' <= c && c != '\U{7f}'
  }

  lemma {:induction false} PlainEscaped(s: string, q: char)
    requires q == '\'' || q == '"'
    requires forall i | 0 <= i < |s| :: Plain(s[i])
    ensures Escaped(s, q) == s
  {
    if |s| > 0 {
      PlainEscaped(s[1..], q);
      assert EscapeChar(s[0], q) == [s[0]];
      assert s == [s[0]] + s[1..];
    }
  }

  /** A one-element list is printed as its element's `repr` in brackets. */
  lemma ShowSingleton(x: Json)
    ensures Show(JArr([x])) == "[" + Repr(x) + "]"
  {
    var parts := seq(1, k requires 0 <= k < 1 => Repr([x][k]));
    assert parts == [Repr(x)];
  }

  /** A text without quotes, backslashes or control characters is printed
      between single quotes. */
  lemma PlainQuoted(s: string)
    requires forall i | 0 <= i < |s| :: Plain(s[i])
    ensures Repr(JStr(s)) == "'" + s + "'"
  {
    PlainEscaped(s, '\'');
    assert QuoteOf(s) == '\'';
  }

  /** Such a text is printed inside a list as itself between single
      quotes. */
  lemma PlainStrRepr(s: string)
    requires forall i | 0 <= i < |s| :: Plain(s[i])
    ensures Show(JArr([JStr(s)])) == "['" + s + "']"
  {
    ShowSingleton(JStr(s));
    PlainQuoted(s);
  }

  /** A list value is printed as Python prints it. */
  lemma ShowListExample()
    ensures Show(JArr([JStr("flac"), JInt(2)])) == "['flac', 2]"
  {
    var items := [JStr("flac"), JInt(2)];
    PlainQuoted("flac");
    assert Repr(JInt(2)) == "2" by {
      assert IntToString(2) == NatToString(2) == [DigitChar(2)];
    }
    var parts := seq(2, k requires 0 <= k < 2 => Repr(items[k]));
    assert parts[0] == "'flac'" && parts[1] == "2";
    assert parts == ["'flac'", "2"];
    assert Join(parts, ", ") == "'flac'" + ", " + "2";
  }

  /** The text `validate` reports for each complaint. */
  function Message(e: ConfigError): string {
    match e
    case MissingInputDir => "Input directory is required (paths.input_dir)"
    case MissingArchiveDir => "Archive directory is required (paths.archive_dir)"
    case InvalidMode(v) => "Invalid conversion mode: " + Show(v) + ". Must be one of ['iso_dsf_to_flac', 'iso_to_dsf']"
    case InvalidBehavior(v) => "Invalid higher_quality_behavior: " + Show(v) + ". Must be one of ['skip', 'downsample']"
    case InvalidSampleRate(v) => "Invalid sample rate: " + Show(v) + ". Must be one of [88200, 96000, 176400, 192000]"
    case InvalidBitDepth(v) => "Invalid bit depth: " + Show(v) + ". Must be one of [16, 24, 32]"
    case InvalidLogLevel(v) => "Invalid log level: " + Show(v) + ". Must be one of ['DEBUG', 'INFO', 'WARNING', 'ERROR', 'CRITICAL']"
  }

  predicate ValidMode(v: Json) { v == JStr("iso_dsf_to_flac") || v == JStr("iso_to_dsf") }
  predicate ValidBehavior(v: Json) { v == JStr("skip") || v == JStr("downsample") }
  predicate ValidSampleRate(v: Json) { v.JInt? && v.i in {88200, 96000, 176400, 192000} }
  predicate ValidBitDepth(v: Json) { v.JInt? && v.i in {16, 24, 32} }
  predicate ValidLogLevel(v: Json) { v.JStr? && v.s in {"DEBUG", "INFO", "WARNING", "ERROR", "CRITICAL"} }

  function Check(ok: bool, e: ConfigError): seq<ConfigError> {
    if ok then [] else [e]
  }

  /** The settings `validate` reads, each with the default it reads it with. */
  datatype Checked = Checked(
    inputDir: Json,
    archiveDir: Json,
    mode: Json,
    standardize: Json,
    behavior: Json,
    sampleRate: Json,
    bitDepth: Json,
    logLevel: Json)

  /** The dotted key path `a.b.c` of a list of segments. */
  function Dotted(segments: seq<string>): string
    requires |segments| >= 1
  {
    if |segments| == 1 then segments[0] else segments[0] + "." + Dotted(segments[1..])
  }

  function Lookups(config: Json): Checked {
    Checked(
      Get(config, Dotted(["paths", "input_dir"]), JNull),
      Get(config, Dotted(["paths", "archive_dir"]), JNull),
      Get(config, Dotted(["conversion", "mode"]), JNull),
      Get(config, Dotted(["conversion", "flac_standardization", "enabled"]), JBool(false)),
      Get(config, Dotted(["conversion", "flac_standardization", "higher_quality_behavior"]), JStr("skip")),
      Get(config, Dotted(["conversion", "sample_rate"]), JNull),
      Get(config, Dotted(["conversion", "bit_depth"]), JNull),
      Get(config, Dotted(["logging", "level"]), JStr("INFO")))
  }

  /** The complaints about the values read, in the order they are checked;
      the standardisation behaviour is checked only when it is enabled. */
  function Errors(s: Checked): seq<ConfigError> {
    Check(Truthy(s.inputDir), MissingInputDir)
    + Check(Truthy(s.archiveDir), MissingArchiveDir)
    + Check(ValidMode(s.mode), InvalidMode(s.mode))
    + (if Truthy(s.standardize) then Check(ValidBehavior(s.behavior), InvalidBehavior(s.behavior)) else [])
    + Check(ValidSampleRate(s.sampleRate), InvalidSampleRate(s.sampleRate))
    + Check(ValidBitDepth(s.bitDepth), InvalidBitDepth(s.bitDepth))
    + Check(ValidLogLevel(s.logLevel), InvalidLogLevel(s.logLevel))
  }

  /** `config.validate()`. */
  function Validate(config: Json): (r: (bool, seq<ConfigError>))
    ensures r.0 <==> r.1 == []
    ensures |r.1| <= 7
  {
    var errors := Errors(Lookups(config));
    (|errors| == 0, errors)
  }

  /** What valid settings are, setting by setting. */
  predicate Acceptable(s: Checked) {
    && Truthy(s.inputDir)
    && Truthy(s.archiveDir)
    && ValidMode(s.mode)
    && (Truthy(s.standardize) ==> ValidBehavior(s.behavior))
    && ValidSampleRate(s.sampleRate)
    && ValidBitDepth(s.bitDepth)
    && ValidLogLevel(s.logLevel)
  }

  /** Valid exactly when every rule holds, and each broken rule is reported
      with the value that broke it. */
  lemma ValidateReports(config: Json)
    ensures var s := Lookups(config);
            var errors := Validate(config).1;
            && (Validate(config).0 <==> Acceptable(s))
            && (MissingInputDir in errors <==> !Truthy(s.inputDir))
            && (MissingArchiveDir in errors <==> !Truthy(s.archiveDir))
            && (InvalidMode(s.mode) in errors <==> !ValidMode(s.mode))
            && ((exists v :: InvalidBehavior(v) in errors) <==> Truthy(s.standardize) && !ValidBehavior(s.behavior))
            && (InvalidSampleRate(s.sampleRate) in errors <==> !ValidSampleRate(s.sampleRate))
            && (InvalidBitDepth(s.bitDepth) in errors <==> !ValidBitDepth(s.bitDepth))
            && (InvalidLogLevel(s.logLevel) in errors <==> !ValidLogLevel(s.logLevel))
  {
    var s := Lookups(config);
    ErrorsEmptyIffAcceptable(s);
    BehaviorReported(s);
    RulesReported(s);
  }

  /** The complaints of each rule, in order. */
  function Parts(s: Checked): seq<seq<ConfigError>> {
    [Check(Truthy(s.inputDir), MissingInputDir),
     Check(Truthy(s.archiveDir), MissingArchiveDir),
     Check(ValidMode(s.mode), InvalidMode(s.mode)),
     if Truthy(s.standardize) then Check(ValidBehavior(s.behavior), InvalidBehavior(s.behavior)) else [],
     Check(ValidSampleRate(s.sampleRate), InvalidSampleRate(s.sampleRate)),
     Check(ValidBitDepth(s.bitDepth), InvalidBitDepth(s.bitDepth)),
     Check(ValidLogLevel(s.logLevel), InvalidLogLevel(s.logLevel))]
  }

  lemma ErrorsAreParts(s: Checked, e: ConfigError)
    ensures var p := Parts(s);
            e in Errors(s) <==> e in p[0] || e in p[1] || e in p[2] || e in p[3] || e in p[4] || e in p[5] || e in p[6]
    ensures var p := Parts(s);
            Errors(s) == [] <==> p[0] == [] && p[1] == [] && p[2] == [] && p[3] == [] && p[4] == [] && p[5] == [] && p[6] == []
  {
    var p := Parts(s);
    assert Errors(s) == p[0] + p[1] + p[2] + p[3] + p[4] + p[5] + p[6];
  }

  /** No complaint exactly when every rule holds. */
  lemma ErrorsEmptyIffAcceptable(s: Checked)
    ensures Errors(s) == [] <==> Acceptable(s)
  {
    ErrorsAreParts(s, MissingInputDir);
  }

  /** The behaviour is complained about exactly when standardisation is
      enabled and the behaviour is not one of the two known ones. */
  lemma BehaviorReported(s: Checked)
    ensures (exists v :: InvalidBehavior(v) in Errors(s)) <==> Truthy(s.standardize) && !ValidBehavior(s.behavior)
  {
    ErrorsAreParts(s, InvalidBehavior(s.behavior));
    forall v | InvalidBehavior(v) in Errors(s) ensures Truthy(s.standardize) && !ValidBehavior(s.behavior) {
      ErrorsAreParts(s, InvalidBehavior(v));
    }
  }

  /** Each of the other rules is complained about exactly when it fails. */
  lemma RulesReported(s: Checked)
    ensures MissingInputDir in Errors(s) <==> !Truthy(s.inputDir)
    ensures MissingArchiveDir in Errors(s) <==> !Truthy(s.archiveDir)
    ensures InvalidMode(s.mode) in Errors(s) <==> !ValidMode(s.mode)
    ensures InvalidSampleRate(s.sampleRate) in Errors(s) <==> !ValidSampleRate(s.sampleRate)
    ensures InvalidBitDepth(s.bitDepth) in Errors(s) <==> !ValidBitDepth(s.bitDepth)
    ensures InvalidLogLevel(s.logLevel) in Errors(s) <==> !ValidLogLevel(s.logLevel)
  {
    ErrorsAreParts(s, MissingInputDir);
    ErrorsAreParts(s, MissingArchiveDir);
    ErrorsAreParts(s, InvalidMode(s.mode));
    ErrorsAreParts(s, InvalidSampleRate(s.sampleRate));
    ErrorsAreParts(s, InvalidBitDepth(s.bitDepth));
    ErrorsAreParts(s, InvalidLogLevel(s.logLevel));
  }

  /** A configuration without a `logging` section reads the level `INFO`,
      and no level is complained about. */
  lemma MissingLogLevelIsInfo(config: Json)
    requires config.JObj? && "logging" !in config.fields
    ensures Lookups(config).logLevel == JStr("INFO")
    ensures forall v :: InvalidLogLevel(v) !in Errors(Lookups(config))
  {
    LogLevelDefault(config);
    InfoIsNotComplainedAbout(Lookups(config));
  }

  lemma InfoIsNotComplainedAbout(s: Checked)
    requires s.logLevel == JStr("INFO")
    ensures forall v :: InvalidLogLevel(v) !in Errors(s)
  {
    forall v ensures InvalidLogLevel(v) !in Errors(s) {
      if InvalidLogLevel(v) in Errors(s) {
        LevelComplaint(s, v);
      }
    }
  }

  lemma LogLevelDefault(config: Json)
    requires config.JObj? && "logging" !in config.fields
    ensures Get(config, Dotted(["logging", "level"]), JStr("INFO")) == JStr("INFO")
  {
    assert Dotted(["logging", "level"]) == "logging" + "." + "level" by {
      assert ["logging", "level"][1..] == ["level"];
    }
    TwoSegments("logging", "level");
  }

  /** A complaint about the level names the level read. */
  lemma LevelComplaint(s: Checked, v: Json)
    requires InvalidLogLevel(v) in Errors(s)
    ensures v == s.logLevel && !ValidLogLevel(v)
  {
    ErrorsAreParts(s, InvalidLogLevel(v));
  }
}

=== FILE: converter.dfy ===
/** The DSD converter: which ffmpeg command a conversion runs, given the
    converter's settings, the input's extension and the mode, and how the
    run's exit status and error output become the `(success, error)`
    result. The subprocess itself is a parameter: its exit, and whether it
    left an output file behind. */
module Converter {
  import opened Wrappers
  import opened Text
  import opened Paths
  import opened FileSystem

  /** The settings of an `AudioConverter`. A `dither_method` of `""` stands
      for any falsy value. */
  datatype Settings = Settings(
    sampleRate: int,
    bitDepth: int,
    mode: string,
    resampler: string,
    soxrPrecision: int,
    ditherMethod: string,
    lowpassFreq: int,
    flacCompressionLevel: int,
    preserveMetadata: bool,
    ffmpegThreads: int)

  /** The constructor's defaults. */
  const Defaults: Settings :=
    Settings(88200, 24, "iso_dsf_to_flac", "soxr", 28, "triangular", 40000, 8, true, 0)

  // ---------------------------------------------------------------------
  // Command lines
  // ---------------------------------------------------------------------

  /** Every command the converter builds is `ffmpeg`, then flag/value pairs,
      then `-y` and the output path. */
  datatype Invocation = Invocation(options: seq<(string, string)>, output: string)

  function Flatten(opts: seq<(string, string)>): (r: seq<string>)
    ensures |r| == 2 * |opts|
    ensures forall k | 0 <= k < |opts| :: r[2 * k] == opts[k].0 && r[2 * k + 1] == opts[k].1
  {
    if |opts| == 0 then [] else [opts[0].0, opts[0].1] + Flatten(opts[1..])
  }

  function Pairs(args: seq<string>): (r: seq<(string, string)>)
    requires |args| % 2 == 0
    ensures |r| == |args| / 2
  {
    if |args| == 0 then [] else [(args[0], args[1])] + Pairs(args[2..])
  }

  lemma {:induction false} PairsFlatten(opts: seq<(string, string)>)
    ensures Pairs(Flatten(opts)) == opts
  {
    if |opts| > 0 {
      PairsFlatten(opts[1..]);
      assert Flatten(opts)[2..] == Flatten(opts[1..]);
    }
  }

  lemma {:induction false} FlattenPairs(args: seq<string>)
    requires |args| % 2 == 0
    ensures Flatten(Pairs(args)) == args
  {
    if |args| > 0 {
      FlattenPairs(args[2..]);
      assert args == [args[0], args[1]] + args[2..];
    }
  }

  /** The argument list handed to `subprocess.run`. */
  function CommandLine(inv: Invocation): (r: seq<string>)
    ensures |r| == 2 * |inv.options| + 3
    ensures r[0] == "ffmpeg" && r[|r| - 2] == "-y" && r[|r| - 1] == inv.output
  {
    ["ffmpeg"] + Flatten(inv.options) + ["-y", inv.output]
  }

  /** Reads an argument list of that shape back into its options and output. */
  function ParseCommandLine(args: seq<string>): Option<Invocation> {
    if |args| < 3 || |args| % 2 == 0 || args[0] != "ffmpeg" || args[|args| - 2] != "-y" then None
    else Some(Invocation(Pairs(args[1..|args| - 2]), args[|args| - 1]))
  }

  /** Parsing inverts printing: the argument list determines the options. */
  lemma ParseCommandLineInverts(inv: Invocation)
    ensures ParseCommandLine(CommandLine(inv)) == Some(inv)
  {
    var args := CommandLine(inv);
    assert args[1..|args| - 2] == Flatten(inv.options);
    PairsFlatten(inv.options);
  }

  /** And printing inverts parsing. */
  lemma CommandLineOfParsed(args: seq<string>)
    requires ParseCommandLine(args).Some?
    ensures CommandLine(ParseCommandLine(args).value) == args
  {
    FlattenPairs(args[1..|args| - 2]);
    assert args == [args[0]] + args[1..|args| - 2] + [args[|args| - 2], args[|args| - 1]];
  }

  /** The value given to the first occurrence of `flag`. */
  function Lookup(opts: seq<(string, string)>, flag: string): (r: Option<string>)
    ensures r.Some? <==> exists k | 0 <= k < |opts| :: opts[k].0 == flag
    ensures r.Some? ==> exists k | 0 <= k < |opts| :: opts[k] == (flag, r.value)
  {
    if |opts| == 0 then None
    else if opts[0].0 == flag then Some(opts[0].1)
    else
      assert forall k | 1 <= k < |opts| :: opts[k] == opts[1..][k - 1];
      Lookup(opts[1..], flag)
  }

  lemma {:induction false} LookupAppend(a: seq<(string, string)>, b: seq<(string, string)>, flag: string)
    ensures Lookup(a + b, flag) == if Lookup(a, flag).Some? then Lookup(a, flag) else Lookup(b, flag)
  {
    if |a| > 0 {
      assert (a + b)[1..] == a[1..] + b;
      LookupAppend(a[1..], b, flag);
    } else {
      assert a + b == b;
    }
  }

  // ---------------------------------------------------------------------
  // Filters and option groups
  // ---------------------------------------------------------------------

  /** The `:`-separated parameters of the SoX resampler. */
  function SoxrParts(c: Settings): (r: seq<string>)
    ensures |r| >= 1 && r[0] == "resampler=" + c.resampler
    ensures ("precision=" + IntToString(c.soxrPrecision) in r) <==> c.soxrPrecision != 0
    ensures (c.ditherMethod != "" && c.ditherMethod != "none") <==> |r| == (if c.soxrPrecision != 0 then 3 else 2)
    ensures c.ditherMethod != "" && c.ditherMethod != "none" ==> r[|r| - 1] == "dither_method=" + c.ditherMethod
  {
    var precision := if c.soxrPrecision != 0 then ["precision=" + IntToString(c.soxrPrecision)] else [];
    var dither := if c.ditherMethod != "" && c.ditherMethod != "none" then ["dither_method=" + c.ditherMethod] else [];
    assert "precision=" + IntToString(c.soxrPrecision) != "resampler=" + c.resampler by {
      assert ("precision=" + IntToString(c.soxrPrecision))[0] == 'p';
    }
    assert forall d :: "precision=" + IntToString(c.soxrPrecision) != "dither_method=" + d by {
      forall d ensures "precision=" + IntToString(c.soxrPrecision) != "dither_method=" + d {
        assert ("dither_method=" + d)[0] == 'd';
      }
    }
    ["resampler=" + c.resampler] + precision + dither
  }

  /** The `-af` filter chain: a resampler (for `soxr` or `swr` only), then
      a low-pass filter when a positive cut-off is configured. */
  function Filters(c: Settings): (r: seq<string>)
    ensures |r| <= 2
    ensures c.resampler == "soxr" ==> |r| >= 1 && r[0] == "aresample=" + Join(SoxrParts(c), ":")
    ensures c.resampler == "swr" ==> |r| >= 1 && r[0] == "aresample=resampler=swr"
    ensures c.lowpassFreq > 0 <==> |r| >= 1 && r[|r| - 1] == "lowpass=" + IntToString(c.lowpassFreq)
    ensures c.resampler != "soxr" && c.resampler != "swr" ==> |r| <= 1
  {
    var resample :=
      if c.resampler == "soxr" then ["aresample=" + Join(SoxrParts(c), ":")]
      else if c.resampler == "swr" then ["aresample=resampler=swr"]
      else [];
    var lowpass := if c.lowpassFreq > 0 then ["lowpass=" + IntToString(c.lowpassFreq)] else [];
    assert forall x :: ("aresample=" + x)[0] == 'a';
    assert forall x :: ("lowpass=" + x)[0] == 'l';
    resample + lowpass
  }

  function ThreadOptions(c: Settings): seq<(string, string)> {
    if c.ffmpegThreads > 0 then [("-threads", IntToString(c.ffmpegThreads))] else []
  }

  function FilterOptions(c: Settings): seq<(string, string)> {
    var filters := Filters(c);
    if |filters| > 0 then [("-af", Join(filters, ","))] else []
  }

  /** Sample format, rate, compression and metadata of a FLAC output. */
  function FlacOptions(c: Settings): seq<(string, string)> {
    [("-sample_fmt", "s" + IntToString(c.bitDepth)),
     ("-ar", IntToString(c.sampleRate)),
     ("-compression_level", IntToString(c.flacCompressionLevel))]
    + (if c.preserveMetadata then [("-map_metadata", "0")] else [])
  }

  /** `_convert_dsf_to_flac`. */
  function DsfToFlac(c: Settings, input: string, output: string): Invocation {
    Invocation([("-i", input)] + ThreadOptions(c) + FilterOptions(c) + FlacOptions(c), output)
  }

  /** `_convert_iso_to_flac`: the first audio stream of the image. */
  function IsoToFlac(c: Settings, input: string, output: string): Invocation {
    Invocation([("-i", input), ("-map", "0:a:0")] + ThreadOptions(c) + FilterOptions(c) + FlacOptions(c), output)
  }

  /** `_convert_iso_to_dsf`: the first audio stream, re-muxed as DSD. */
  function IsoToDsf(c: Settings, input: string, output: string): Invocation {
    Invocation([("-i", input), ("-map", "0:a:0")] + ThreadOptions(c) + [("-c:a", "dsd_lsbf_planar")], output)
  }

  lemma LookupCons(p: (string, string), rest: seq<(string, string)>, flag: string)
    ensures Lookup([p] + rest, flag) == if p.0 == flag then Some(p.1) else Lookup(rest, flag)
  {
    assert ([p] + rest)[1..] == rest;
  }

  /** The flags of each option group, with their values. */
  lemma ThreadOptionsLookup(c: Settings, flag: string)
    ensures Lookup(ThreadOptions(c), flag) ==
              if flag == "-threads" && c.ffmpegThreads > 0 then Some(IntToString(c.ffmpegThreads)) else None
  {
    if c.ffmpegThreads > 0 {
      LookupCons(("-threads", IntToString(c.ffmpegThreads)), [], flag);
    }
  }

  lemma FilterOptionsLookup(c: Settings, flag: string)
    ensures Lookup(FilterOptions(c), flag) ==
              if flag == "-af" && Filters(c) != [] then Some(Join(Filters(c), ",")) else None
  {
    if Filters(c) != [] {
      LookupCons(("-af", Join(Filters(c), ",")), [], flag);
    }
  }

  lemma FlacOptionsLookup(c: Settings, flag: string)
    ensures Lookup(FlacOptions(c), flag) ==
              if flag == "-sample_fmt" then Some("s" + IntToString(c.bitDepth))
              else if flag == "-ar" then Some(IntToString(c.sampleRate))
              else if flag == "-compression_level" then Some(IntToString(c.flacCompressionLevel))
              else if flag == "-map_metadata" && c.preserveMetadata then Some("0")
              else None
  {
    var meta: seq<(string, string)> := if c.preserveMetadata then [("-map_metadata", "0")] else [];
    var ar := ("-ar", IntToString(c.sampleRate));
    var level := ("-compression_level", IntToString(c.flacCompressionLevel));
    assert FlacOptions(c) == [("-sample_fmt", "s" + IntToString(c.bitDepth))] + ([ar] + ([level] + meta));
    LookupCons(("-sample_fmt", "s" + IntToString(c.bitDepth)), [ar] + ([level] + meta), flag);
    LookupCons(ar, [level] + meta, flag);
    LookupCons(level, meta, flag);
    if c.preserveMetadata {
      LookupCons(("-map_metadata", "0"), [], flag);
    }
  }

  /** A lookup in a FLAC command's options, group by group. */
  lemma FlacLookup(c: Settings, input: string, output: string, iso: bool, flag: string)
    ensures var inv := if iso then IsoToFlac(c, input, output) else DsfToFlac(c, input, output);
            Lookup(inv.options, flag) ==
              if flag == "-i" then Some(input)
              else if flag == "-map" && iso then Some("0:a:0")
              else if flag == "-map" then None
              else if flag == "-threads" then Lookup(ThreadOptions(c), flag)
              else if flag == "-af" then Lookup(FilterOptions(c), flag)
              else Lookup(FlacOptions(c), flag)
  {
    var head: seq<(string, string)> := if iso then [("-i", input), ("-map", "0:a:0")] else [("-i", input)];
    var inv := if iso then IsoToFlac(c, input, output) else DsfToFlac(c, input, output);
    assert inv.options == head + ThreadOptions(c) + FilterOptions(c) + FlacOptions(c);
    LookupAppend(head + ThreadOptions(c) + FilterOptions(c), FlacOptions(c), flag);
    LookupAppend(head + ThreadOptions(c), FilterOptions(c), flag);
    LookupAppend(head, ThreadOptions(c), flag);
    LookupCons(("-i", input), head[1..], flag);
    if iso {
      LookupCons(("-map", "0:a:0"), [], flag);
    }
    ThreadOptionsLookup(c, flag);
    FilterOptionsLookup(c, flag);
    FlacOptionsLookup(c, flag);
  }

  /** A FLAC command line starts with the input and ends with the output. */
  lemma FlacCommandShape(c: Settings, input: string, output: string, iso: bool)
    ensures var args := CommandLine(if iso then IsoToFlac(c, input, output) else DsfToFlac(c, input, output));
            args[..3] == ["ffmpeg", "-i", input] && args[|args| - 2..] == ["-y", output]
  {
    var inv := if iso then IsoToFlac(c, input, output) else DsfToFlac(c, input, output);
    assert inv.options[0] == ("-i", input);
    var args := CommandLine(inv);
    assert args[1] == "-i" && args[2] == input;
  }

  /** What a FLAC command line says, option by option: threads, filters and
      metadata appear exactly when configured, and the output format is the
      configured one. */
  lemma FlacCommandOptions(c: Settings, input: string, output: string, iso: bool)
    ensures var opts := (if iso then IsoToFlac(c, input, output) else DsfToFlac(c, input, output)).options;
            && Lookup(opts, "-i") == Some(input)
            && (Lookup(opts, "-map") == if iso then Some("0:a:0") else None)
            && (Lookup(opts, "-threads").Some? <==> c.ffmpegThreads > 0)
            && (c.ffmpegThreads > 0 ==> Lookup(opts, "-threads") == Some(IntToString(c.ffmpegThreads)))
            && (Lookup(opts, "-af").Some? <==> Filters(c) != [])
            && (Filters(c) != [] ==> Lookup(opts, "-af") == Some(Join(Filters(c), ",")))
            && Lookup(opts, "-sample_fmt") == Some("s" + IntToString(c.bitDepth))
            && Lookup(opts, "-ar") == Some(IntToString(c.sampleRate))
            && Lookup(opts, "-compression_level") == Some(IntToString(c.flacCompressionLevel))
            && (Lookup(opts, "-map_metadata").Some? <==> c.preserveMetadata)
            && Lookup(opts, "-c:a") == None
  {
    FlacLookup(c, input, output, iso, "-i");
    FlacLookup(c, input, output, iso, "-map");
    FlacLookup(c, input, output, iso, "-threads");
    ThreadOptionsLookup(c, "-threads");
    FlacLookup(c, input, output, iso, "-af");
    FilterOptionsLookup(c, "-af");
    FlacLookup(c, input, output, iso, "-sample_fmt");
    FlacLookup(c, input, output, iso, "-ar");
    FlacLookup(c, input, output, iso, "-compression_level");
    FlacLookup(c, input, output, iso, "-map_metadata");
    FlacLookup(c, input, output, iso, "-c:a");
    FlacOptionsLookup(c, "-sample_fmt");
    FlacOptionsLookup(c, "-ar");
    FlacOptionsLookup(c, "-compression_level");
    FlacOptionsLookup(c, "-map_metadata");
    FlacOptionsLookup(c, "-c:a");
  }

  /** ISO to FLAC is DSF to FLAC with the stream selection inserted right
      after the input. */
  lemma IsoToFlacInsertsMap(c: Settings, input: string, output: string)
    ensures var dsf := DsfToFlac(c, input, output).options;
            IsoToFlac(c, input, output).options == dsf[..1] + [("-map", "0:a:0")] + dsf[1..]
  {
    var t, f, o := ThreadOptions(c), FilterOptions(c), FlacOptions(c);
    Regroup([("-i", input)], t, f, o);
    Regroup([("-i", input), ("-map", "0:a:0")], t, f, o);
    InsertAfterFirst(("-i", input), ("-map", "0:a:0"), t + f + o);
  }

  lemma Regroup<T>(h: seq<T>, a: seq<T>, b: seq<T>, c: seq<T>)
    ensures h + a + b + c == h + (a + b + c)
  {
  }

  lemma InsertAfterFirst<T>(x: T, y: T, rest: seq<T>)
    ensures ([x] + rest)[..1] + [y] + ([x] + rest)[1..] == [x, y] + rest
  {
    assert ([x] + rest)[..1] == [x] && ([x] + rest)[1..] == rest;
  }

  /** An ISO to DSF command line reads the image's first audio stream. */
  lemma DsfCommandShape(c: Settings, input: string, output: string)
    ensures CommandLine(IsoToDsf(c, input, output))[..5] == ["ffmpeg", "-i", input, "-map", "0:a:0"]
  {
    var args := CommandLine(IsoToDsf(c, input, output));
    assert IsoToDsf(c, input, output).options[..2] == [("-i", input), ("-map", "0:a:0")];
    assert args[1] == "-i" && args[2] == input && args[3] == "-map" && args[4] == "0:a:0";
  }

  /** An ISO to DSF command line has no filters and no PCM output options:
      the DSD stream is written with the DSD codec. */
  lemma DsfCommandOptions(c: Settings, input: string, output: string)
    ensures var opts := IsoToDsf(c, input, output).options;
            && Lookup(opts, "-c:a") == Some("dsd_lsbf_planar")
            && (Lookup(opts, "-threads").Some? <==> c.ffmpegThreads > 0)
            && Lookup(opts, "-af") == None
            && Lookup(opts, "-ar") == None
            && Lookup(opts, "-sample_fmt") == None
            && Lookup(opts, "-map_metadata") == None
  {
    DsfLookup(c, input, output, "-c:a");
    DsfLookup(c, input, output, "-threads");
    ThreadOptionsLookup(c, "-threads");
    DsfLookup(c, input, output, "-af");
    DsfLookup(c, input, output, "-ar");
    DsfLookup(c, input, output, "-sample_fmt");
    DsfLookup(c, input, output, "-map_metadata");
  }

  lemma DsfLookup(c: Settings, input: string, output: string, flag: string)
    ensures Lookup(IsoToDsf(c, input, output).options, flag) ==
              if flag == "-i" then Some(input)
              else if flag == "-map" then Some("0:a:0")
              else if flag == "-threads" then Lookup(ThreadOptions(c), flag)
              else if flag == "-c:a" then Some("dsd_lsbf_planar")
              else None
  {
    var head := [("-i", input), ("-map", "0:a:0")];
    var tail := [("-c:a", "dsd_lsbf_planar")];
    LookupAppend(head + ThreadOptions(c), tail, flag);
    LookupAppend(head, ThreadOptions(c), flag);
    LookupCons(("-i", input), head[1..], flag);
    LookupCons(("-map", "0:a:0"), [], flag);
    LookupCons(("-c:a", "dsd_lsbf_planar"), [], flag);
    ThreadOptionsLookup(c, flag);
  }

  /** The soxr filter splits back into its parameters whenever the dither
      method holds no `:`. */
  lemma SoxrFilterParameters(c: Settings)
    requires c.resampler == "soxr" && ':' !in c.ditherMethod
    ensures Filters(c)[0] == "aresample=" + Join(SoxrParts(c), ":")
    ensures Split(Join(SoxrParts(c), ":"), ':') == SoxrParts(c)
  {
    var parts := SoxrParts(c);
    forall i | 0 <= i < |parts| ensures ':' !in parts[i] {
      assert ':' !in "resampler=soxr";
      if i >= 1 && parts[i] == "precision=" + IntToString(c.soxrPrecision) {
        NoColonInNumber(c.soxrPrecision);
      }
    }
    SplitJoin(parts, ':');
  }

  lemma NoColonInNumber(i: int)
    ensures ':' !in "precision=" + IntToString(i)
  {
    var s := IntToString(i);
    if i < 0 {
      assert s[1..] == NatToString(-i);
      assert forall k | 1 <= k < |s| :: s[k] == NatToString(-i)[k - 1];
    }
    assert forall k | 0 <= k < |s| :: s[k] != ':';
  }

  // ---------------------------------------------------------------------
  // Running ffmpeg
  // ---------------------------------------------------------------------

  /** How the subprocess ended: an exit with its status and standard error,
      the one-hour timeout, a missing executable, or another exception. */
  datatype RunOutcome = Exited(returnCode: int, stderr: string) | TimedOut | NotFound | Crashed(reason: string)

  function LastLines(lines: seq<string>, n: nat): (r: seq<string>)
    ensures |r| <= n && |r| <= |lines|
    ensures r == lines[|lines| - |r|..]
    ensures |lines| <= n ==> r == lines
  {
    if |lines| <= n then lines else lines[|lines| - n..]
  }

  /** The lines that are not blank, in order. */
  function NonBlank(lines: seq<string>): (r: seq<string>)
    ensures |r| <= |lines|
    ensures forall l :: l in r <==> l in lines && Strip(l) != ""
  {
    if |lines| == 0 then []
    else (if Strip(lines[0]) != "" then [lines[0]] else []) + NonBlank(lines[1..])
  }

  /** The error text: the non-blank lines among the last ten of stderr. */
  function ErrorTail(stderr: string): string {
    Join(NonBlank(LastLines(Split(stderr, '\n'), 10)), "\n")
  }

  /** `_run_ffmpeg`'s result mapping. */
  function RunFfmpeg(run: RunOutcome): (r: Outcome)
    ensures r.Ok? <==> run.Exited? && run.returnCode == 0
  {
    match run
    case Exited(code, stderr) =>
      if code == 0 then Ok else Fail("ffmpeg error: " + ErrorTail(stderr))
    case TimedOut => Fail("Conversion timeout (exceeded 1 hour)")
    case NotFound => Fail("ffmpeg not found")
    case Crashed(reason) => Fail("Error running ffmpeg: " + reason)
  }

  /** The error text splits back into the lines it was made of. */
  lemma ErrorTailSplits(stderr: string)
    requires NonBlank(LastLines(Split(stderr, '\n'), 10)) != []
    ensures Split(ErrorTail(stderr), '\n') == NonBlank(LastLines(Split(stderr, '\n'), 10))
  {
    KeptLinesHaveNoNewline(stderr);
    SplitJoin(NonBlank(LastLines(Split(stderr, '\n'), 10)), '\n');
  }

  lemma KeptLinesHaveNoNewline(stderr: string)
    ensures forall i | 0 <= i < |NonBlank(LastLines(Split(stderr, '\n'), 10))| ::
      '\n' !in NonBlank(LastLines(Split(stderr, '\n'), 10))[i]
  {
    var lines := Split(stderr, '\n');
    var tail := LastLines(lines, 10);
    var kept := NonBlank(tail);
    forall i | 0 <= i < |kept| ensures '\n' !in kept[i] {
      assert kept[i] in tail;
      var j :| 0 <= j < |tail| && tail[j] == kept[i];
      assert tail[j] == lines[|lines| - |tail| + j];
    }
  }

  /** A failed exit reports at most ten lines, each a non-blank line from
      the end of stderr, and every non-blank line of the last ten. */
  lemma FfmpegErrorLines(code: int, stderr: string)
    requires code != 0
    requires NonBlank(LastLines(Split(stderr, '\n'), 10)) != []
    ensures var tail := LastLines(Split(stderr, '\n'), 10);
            var reported := Split(ErrorTail(stderr), '\n');
            && RunFfmpeg(Exited(code, stderr)) == Fail("ffmpeg error: " + ErrorTail(stderr))
            && |reported| <= 10
            && (forall l :: l in reported <==> l in tail && Strip(l) != "")
  {
    ErrorTailSplits(stderr);
  }

  // ---------------------------------------------------------------------
  // convert_file
  // ---------------------------------------------------------------------

  /** The mode/extension pairs the converter supports. */
  predicate Supported(mode: string, ext: string) {
    (mode, ext) in {("iso_dsf_to_flac", ".iso"), ("iso_dsf_to_flac", ".dsf"),
                    ("iso_dsf_to_flac", ".dff"), ("iso_to_dsf", ".iso")}
  }

  /** The conversion chosen by mode and input extension. */
  function Dispatch(c: Settings, input: string, output: string): (r: Result<Invocation, string>) {
    var ext := Ext(input);
    if c.mode == "iso_dsf_to_flac" then
      if ext == ".iso" then Success(IsoToFlac(c, input, output))
      else if ext == ".dsf" || ext == ".dff" then Success(DsfToFlac(c, input, output))
      else Failure("Unsupported input format: " + ext)
    else if c.mode == "iso_to_dsf" then
      if ext == ".iso" then Success(IsoToDsf(c, input, output))
      else Failure("Unsupported input format for iso_to_dsf: " + ext)
    else Failure("Unknown conversion mode: " + c.mode)
  }

  /** Dispatch succeeds exactly on the supported pairs; a FLAC mode reads
      the first stream of an image only, and only the DSF mode picks the
      DSD codec. */
  lemma DispatchChoosesConversion(c: Settings, input: string, output: string)
    ensures Dispatch(c, input, output).Success? <==> Supported(c.mode, Ext(input))
    ensures Dispatch(c, input, output).Success? ==>
              var opts := Dispatch(c, input, output).value.options;
              && (Lookup(opts, "-map").Some? <==> Ext(input) == ".iso")
              && (Lookup(opts, "-c:a").Some? <==> c.mode == "iso_to_dsf")
              && Lookup(opts, "-i") == Some(input)
              && Dispatch(c, input, output).value.output == output
  {
    if Dispatch(c, input, output).Success? {
      if c.mode == "iso_to_dsf" {
        DispatchDsf(c, input, output);
      } else {
        DispatchFlac(c, input, output);
      }
    }
  }

  lemma DispatchDsf(c: Settings, input: string, output: string)
    requires Dispatch(c, input, output).Success? && c.mode == "iso_to_dsf"
    ensures var opts := Dispatch(c, input, output).value.options;
      && (Lookup(opts, "-map").Some? <==> Ext(input) == ".iso")
      && Lookup(opts, "-c:a").Some?
      && Lookup(opts, "-i") == Some(input)
      && Dispatch(c, input, output).value.output == output
  {
    DsfCommandOptions(c, input, output);
    LookupAppend([("-i", input), ("-map", "0:a:0")] + ThreadOptions(c), [("-c:a", "dsd_lsbf_planar")], "-map");
    LookupAppend([("-i", input), ("-map", "0:a:0")] + ThreadOptions(c), [("-c:a", "dsd_lsbf_planar")], "-i");
  }

  lemma DispatchFlac(c: Settings, input: string, output: string)
    requires Dispatch(c, input, output).Success? && c.mode != "iso_to_dsf"
    ensures var opts := Dispatch(c, input, output).value.options;
      && (Lookup(opts, "-map").Some? <==> Ext(input) == ".iso")
      && Lookup(opts, "-c:a").None?
      && Lookup(opts, "-i") == Some(input)
      && Dispatch(c, input, output).value.output == output
  {
    var iso := Ext(input) == ".iso";
    assert Dispatch(c, input, output).value == if iso then IsoToFlac(c, input, output) else DsfToFlac(c, input, output);
    FlacCore(c, input, output, iso);
  }

  /** The three options the dispatch is judged by, for a FLAC command. */
  lemma FlacCore(c: Settings, input: string, output: string, iso: bool)
    ensures var opts := (if iso then IsoToFlac(c, input, output) else DsfToFlac(c, input, output)).options;
      && (Lookup(opts, "-map").Some? <==> iso)
      && Lookup(opts, "-c:a").None?
      && Lookup(opts, "-i") == Some(input)
  {
    FlacLookup(c, input, output, iso, "-i");
    FlacLookup(c, input, output, iso, "-map");
    FlacLookup(c, input, output, iso, "-c:a");
    FlacOptionsLookup(c, "-c:a");
  }

  /** What `convert_file` returned, plus the ffmpeg command it ran (if any). */
  datatype Conversion = Conversion(outcome: Outcome, command: Option<seq<string>>)

  /** `convert_file(input, output, overwrite)`. `run` is how the ffmpeg
      subprocess ended and `produced` whether the output then exists. */
  function ConvertFile(c: Settings, fs: Fs, input: string, output: string, overwrite: bool,
                       run: RunOutcome, produced: bool): (r: Conversion)
    ensures input !in fs ==> r == Conversion(Fail("Input file not found: " + input), None)
    ensures input in fs && output in fs && !overwrite ==>
              r == Conversion(Fail("Output file already exists: " + output), None)
    ensures r.command.Some? <==>
              input in fs && (output !in fs || overwrite) && Supported(c.mode, Ext(input))
    ensures r.command.Some? ==> r.command.value == CommandLine(Dispatch(c, input, output).value)
    ensures r.outcome.Ok? <==> r.command.Some? && run.Exited? && run.returnCode == 0 && produced
  {
    DispatchChoosesConversion(c, input, output);
    if input !in fs then Conversion(Fail("Input file not found: " + input), None)
    else if output in fs && !overwrite then Conversion(Fail("Output file already exists: " + output), None)
    else
      match Dispatch(c, input, output)
      case Failure(e) => Conversion(Fail(e), None)
      case Success(inv) =>
        var result := RunFfmpeg(run);
        var command := Some(CommandLine(inv));
        if result.Ok? && !produced then
          Conversion(Fail("Conversion completed but output file not found"), command)
        else Conversion(result, command)
  }

  /** An unsupported input or mode fails with the dispatcher's message and
      runs nothing. */
  lemma UnsupportedRunsNothing(c: Settings, fs: Fs, input: string, output: string, overwrite: bool,
                               run: RunOutcome, produced: bool)
    requires input in fs && (output !in fs || overwrite) && !Supported(c.mode, Ext(input))
    ensures var r := ConvertFile(c, fs, input, output, overwrite, run, produced);
            r.command == None && r.outcome == Fail(Dispatch(c, input, output).error)
  {
    DispatchChoosesConversion(c, input, output);
  }
}

=== FILE: copy_verification.dfy ===
/** Post-copy verification shared by the working-directory manager and the
    archiver: both list the regular files of source and destination in
    sorted order, compare the counts, then check each source file's copy,
    stopping at the first problem. The archiver additionally compares MD5
    digests of files below a size limit. */
module CopyVerification {
  import opened Wrappers
  import opened Text
  import opened Paths
  import opened Ordering
  import opened FileSystem
  import opened Hashing

  datatype ContentCheck = SizeOnly | DigestBelow(limit: nat, md5: seq<bv8> -> Digest16)

  /** `p.relative_to(src)` as a string, for a path below `src`. */
  function RelOf(src: string, p: string): string {
    if IsUnder(src, p) then Rel(src, p) else p
  }

  /** What is wrong with the copy of source file `p`, if anything. */
  function FileProblem(fs: Fs, src: string, dst: string, p: string, check: ContentCheck): Option<string> {
    var rel := RelOf(src, p);
    var d := JoinPath(dst, rel);
    if d !in fs then Some(MissingMessage(rel))
    else if SizeOf(fs, p) != SizeOf(fs, d) then Some(SizeMessage(rel, SizeOf(fs, p), SizeOf(fs, d)))
    else if check.DigestBelow? && SizeOf(fs, p) < check.limit then
      if !IsFile(fs, d) then Some(DirectoryMessage(d))
      else if Hex(check.md5(DataOf(fs, p))) != Hex(check.md5(DataOf(fs, d))) then Some(ChecksumMessage(rel))
      else None
    else None
  }

  function MissingMessage(rel: string): string {
    "Missing file in destination: " + rel
  }

  function SizeMessage(rel: string, n: nat, m: nat): string {
    "Size mismatch for " + rel + ": source=" + NatToString(n) + ", dest=" + NatToString(m)
  }

  function DirectoryMessage(d: string): string {
    "Verification error: [Errno 21] Is a directory: '" + d + "'"
  }

  function ChecksumMessage(rel: string): string {
    "Checksum mismatch for " + rel
  }

  function CountMismatch(n: nat, m: nat): string {
    "File count mismatch: source=" + NatToString(n) + ", dest=" + NatToString(m)
  }

  /** The destination holds as many files as the source, and every source
      file has a matching copy. */
  predicate CopyMatches(fs: Fs, src: string, dst: string, check: ContentCheck) {
    |FilesBelow(fs, src)| == |FilesBelow(fs, dst)|
    && forall p | p in FilesBelow(fs, src) :: FileProblem(fs, src, dst, p, check).None?
  }

  /** The first problem among `sources`, in order. */
  function FirstProblem(fs: Fs, src: string, dst: string, sources: seq<string>, check: ContentCheck): Option<string> {
    if |sources| == 0 then None
    else if FileProblem(fs, src, dst, sources[0], check).Some? then FileProblem(fs, src, dst, sources[0], check)
    else FirstProblem(fs, src, dst, sources[1..], check)
  }

  /** The verdict of the verification as a value: the count mismatch, else
      the first problem in sorted order, else none. */
  function CopyProblem(fs: Fs, src: string, dst: string, check: ContentCheck): Option<string> {
    if |FilesBelow(fs, src)| != |FilesBelow(fs, dst)| then
      Some(CountMismatch(|FilesBelow(fs, src)|, |FilesBelow(fs, dst)|))
    else FirstProblem(fs, src, dst, SortedFiles(fs, src), check)
  }

  lemma {:induction false} FirstProblemNone(fs: Fs, src: string, dst: string, sources: seq<string>, check: ContentCheck)
    ensures FirstProblem(fs, src, dst, sources, check).None? <==>
              forall j | 0 <= j < |sources| :: FileProblem(fs, src, dst, sources[j], check).None?
  {
    if |sources| > 0 {
      FirstProblemNone(fs, src, dst, sources[1..], check);
      assert forall j | 1 <= j < |sources| :: sources[j] == sources[1..][j - 1];
    }
  }

  /** The verdict reports no problem exactly when the copy matches. */
  lemma CopyProblemNoneIffMatches(fs: Fs, src: string, dst: string, check: ContentCheck)
    ensures CopyProblem(fs, src, dst, check).None? <==> CopyMatches(fs, src, dst, check)
  {
    var sources := SortedFiles(fs, src);
    FirstProblemNone(fs, src, dst, sources, check);
    if FirstProblem(fs, src, dst, sources, check).None? && |FilesBelow(fs, src)| == |FilesBelow(fs, dst)| {
      AllInOrder(fs, src, dst, check, sources);
    }
  }

  /** `_verify_copy(src, dst)`: compares the counts, then the source files in
      sorted order, stopping at the first problem. */
  method VerifyCopy(fs: Fs, src: string, dst: string, check: ContentCheck) returns (ok: bool, message: Option<string>)
    ensures ok <==> message.None?
    ensures ok <==> CopyMatches(fs, src, dst, check)
    ensures message == CopyProblem(fs, src, dst, check)
    ensures |FilesBelow(fs, src)| != |FilesBelow(fs, dst)| ==>
              message == Some(CountMismatch(|FilesBelow(fs, src)|, |FilesBelow(fs, dst)|))
    ensures |FilesBelow(fs, src)| == |FilesBelow(fs, dst)| && !ok ==>
              var sources := SortedFiles(fs, src);
              exists i | 0 <= i < |sources| ::
                message == FileProblem(fs, src, dst, sources[i], check)
                && forall j | 0 <= j < i :: FileProblem(fs, src, dst, sources[j], check).None?
  {
    var sources := SortedFiles(fs, src);
    var dests := SortedFiles(fs, dst);
    if |sources| != |dests| {
      return false, Some(CountMismatch(|sources|, |dests|));
    }
    var i := 0;
    while i < |sources|
      invariant 0 <= i <= |sources|
      invariant forall j :: 0 <= j < i ==> FileProblem(fs, src, dst, sources[j], check).None?
      invariant FirstProblem(fs, src, dst, sources, check) == FirstProblem(fs, src, dst, sources[i..], check)
    {
      var problem := FileProblem(fs, src, dst, sources[i], check);
      if problem.Some? {
        assert sources[i] in FilesBelow(fs, src);
        assert !CopyMatches(fs, src, dst, check);
        return false, problem;
      }
      assert sources[i..][1..] == sources[i + 1..];
      i := i + 1;
    }
    AllInOrder(fs, src, dst, check, sources);
    assert CopyMatches(fs, src, dst, check);
    return true, None;
  }

  lemma AllInOrder(fs: Fs, src: string, dst: string, check: ContentCheck, sources: seq<string>)
    requires forall p :: p in sources <==> p in FilesBelow(fs, src)
    requires forall j :: 0 <= j < |sources| ==> FileProblem(fs, src, dst, sources[j], check).None?
    ensures forall p | p in FilesBelow(fs, src) :: FileProblem(fs, src, dst, p, check).None?
  {
    forall p | p in FilesBelow(fs, src) ensures FileProblem(fs, src, dst, p, check).None? {
      var j :| 0 <= j < |sources| && sources[j] == p;
    }
  }

  /** Sets in one-to-one correspondence have the same size. */
  lemma {:induction false} BijectionSameSize(a: set<string>, b: set<string>, f: string -> string, g: string -> string)
    requires forall x | x in a :: f(x) in b && g(f(x)) == x
    requires forall y | y in b :: g(y) in a && f(g(y)) == y
    ensures |a| == |b|
    decreases |a|
  {
    if a != {} {
      var x :| x in a;
      var a' := a - {x};
      var b' := b - {f(x)};
      BijectionSameSize(a', b', f, g);
    }
  }

  lemma SourceFilesUntouched(fs: Fs, src: string, dst: string)
    requires !UnderOrEq(src, dst) && !UnderOrEq(dst, src)
    ensures var r := CopyTree(fs, src, dst);
            FilesBelow(r, src) == FilesBelow(fs, src) && forall p | p in FilesBelow(r, src) :: r[p] == fs[p]
  {
    var r := CopyTree(fs, src, dst);
    forall p | p in r && IsUnder(src, p) ensures p in fs && r[p] == fs[p] {
      DisjointTrees(src, dst, p);
    }
    forall p | p in fs && IsUnder(src, p) ensures p in r {
      DisjointTrees(src, dst, p);
    }
  }

  /** What `copytree(src, dst)` produces into a fresh destination passes the
      verification. */
  lemma CopyTreeVerifies(fs: Fs, src: string, dst: string, check: ContentCheck)
    requires !UnderOrEq(src, dst) && !UnderOrEq(dst, src)
    requires forall p | p in fs :: !UnderOrEq(dst, p)
    ensures var r := CopyTree(fs, src, dst);
            CopyMatches(r, src, dst, check)
  {
    var r := CopyTree(fs, src, dst);
    SourceFilesUntouched(fs, src, dst);
    CopiedForward(fs, src, dst);
    CopiedBackward(fs, src, dst);
    BijectionSameSize(FilesBelow(r, src), FilesBelow(r, dst), p => Reroot(src, dst, p), q => Reroot(dst, src, q));
    forall p | p in FilesBelow(r, src) ensures FileProblem(r, src, dst, p, check).None? {
      CopyTreeCopies(fs, src, dst, p);
      assert r[JoinPath(dst, Rel(src, p))] == r[p];
      IdenticalCopyPasses(r, src, dst, p, check);
    }
  }

  /** A source file whose copy holds the same node passes every check. */
  lemma IdenticalCopyPasses(fs: Fs, src: string, dst: string, p: string, check: ContentCheck)
    requires IsUnder(src, p) && IsFile(fs, p)
    requires JoinPath(dst, Rel(src, p)) in fs && fs[JoinPath(dst, Rel(src, p))] == fs[p]
    ensures FileProblem(fs, src, dst, p, check).None?
  {
  }

  /** Where a path below `from` lands when `from` is copied to `to`. */
  function Reroot(from: string, to: string, p: string): string {
    if IsUnder(from, p) then JoinPath(to, Rel(from, p)) else p
  }

  /** Each source file has its copy, and the copy leads back to it. */
  lemma CopiedForward(fs: Fs, src: string, dst: string)
    requires !UnderOrEq(src, dst) && !UnderOrEq(dst, src)
    requires forall p | p in fs :: !UnderOrEq(dst, p)
    requires FilesBelow(CopyTree(fs, src, dst), src) == FilesBelow(fs, src)
    ensures var r := CopyTree(fs, src, dst);
      forall p | p in FilesBelow(r, src) :: Reroot(src, dst, p) in FilesBelow(r, dst) && Reroot(dst, src, Reroot(src, dst, p)) == p
  {
    var r := CopyTree(fs, src, dst);
    forall p | p in FilesBelow(r, src) ensures Reroot(src, dst, p) in FilesBelow(r, dst) && Reroot(dst, src, Reroot(src, dst, p)) == p {
      CopyTreeCopies(fs, src, dst, p);
      RelJoin(dst, Rel(src, p));
      JoinRel(src, p);
    }
  }

  /** Each copied file comes from a source file, and that file leads back
      to the copy. */
  lemma CopiedBackward(fs: Fs, src: string, dst: string)
    requires !UnderOrEq(src, dst) && !UnderOrEq(dst, src)
    requires forall p | p in fs :: !UnderOrEq(dst, p)
    requires FilesBelow(CopyTree(fs, src, dst), src) == FilesBelow(fs, src)
    ensures var r := CopyTree(fs, src, dst);
      forall q | q in FilesBelow(r, dst) :: Reroot(dst, src, q) in FilesBelow(r, src) && Reroot(src, dst, Reroot(dst, src, q)) == q
  {
    var r := CopyTree(fs, src, dst);
    forall q | q in FilesBelow(r, dst) ensures Reroot(dst, src, q) in FilesBelow(r, src) && Reroot(src, dst, Reroot(dst, src, q)) == q {
      assert q !in fs;
      CopyTreeOrigin(fs, src, dst, q);
      JoinRel(dst, q);
      RelJoin(src, Rel(dst, q));
    }
  }
}

=== FILE: deduplication.dfy ===
/** Deciding whether an album has already been processed, from its sidecar,
    its audio checksum and the catalog, and keeping the catalog's record of
    where an album lives up to date. */
module Deduplication {
  import opened Wrappers
  import opened Json
  import opened FileSystem
  import opened Hashing
  import opened AlbumMetadata
  import opened Catalog

  /** `ProcessingStatus`; `albumId` is whatever the sidecar holds (`JNull`
      for Python's `None`). */
  datatype ProcessingStatus = ProcessingStatus(
    isProcessed: bool,
    albumId: Json,
    checksumMatches: bool,
    inDatabase: bool,
    record: Option<Row>,
    reason: string)

  function NotProcessed(albumId: Json, checksumMatches: bool, inDatabase: bool, record: Option<Row>, reason: string): ProcessingStatus {
    ProcessingStatus(false, albumId, checksumMatches, inDatabase, record, reason)
  }

  /** The catalog row for a sidecar's album id; an id that is not a string
      matches no row. */
  function RecordFor(c: Catalog, albumId: Json): Option<Row> {
    if albumId.JStr? then GetAlbumById(c, albumId.s) else None
  }

  /** Some `convert` history entry of the album has status `success`. */
  predicate HasSuccessfulConversion(c: Catalog, id: string) {
    exists e | e in History(c, id, Some("convert")) :: e.status == "success"
  }

  /** `check_album_status(album_path, audio_files)` with the manager's
      `verify_checksums` flag. The checksum, when verified, may raise. */
  function CheckAlbumStatus(crypto: Crypto, sidecar: JsonFile, fs: Fs, files: seq<string>, c: Catalog,
                            verifyChecksums: bool): (r: Result<ProcessingStatus, ChecksumError>)
  {
    if sidecar.Absent? then Success(NotProcessed(JNull, false, false, None, "No metadata file found"))
    else if Read(sidecar).None? then Success(NotProcessed(JNull, false, false, None, "Invalid metadata file"))
    else
      var d := Read(sidecar).value;
      var albumId := d["album_id"];
      var stored := d["audio_checksum"];
      if !Truthy(albumId) || !Truthy(stored) then
        Success(NotProcessed(albumId, false, false, None, "Missing required metadata fields"))
      else
        var current := if verifyChecksums then AudioChecksum(crypto, fs, files) else Success("");
        if current.Failure? then Failure(current.error)
        else if verifyChecksums && JStr(current.value) != stored then
          Success(NotProcessed(albumId, false, false, None, "Audio files changed (checksum mismatch)"))
        else
          Success(CatalogVerdict(c, albumId))
  }

  /** The catalog part of the verdict, reached once the sidecar is valid
      and the checksum (if verified) matches. */
  function CatalogVerdict(c: Catalog, albumId: Json): (r: ProcessingStatus)
    ensures r.albumId == albumId && r.checksumMatches
    ensures r.inDatabase <==> RecordFor(c, albumId).Some?
    ensures r.record.Some? ==> r.record == RecordFor(c, albumId)
    ensures r.isProcessed <==> (RecordFor(c, albumId).Some? && HasValue(RecordFor(c, albumId).value, "archive_path")
                                && HasValue(RecordFor(c, albumId).value, "playback_path") && HasSuccessfulConversion(c, albumId.s))
    ensures r.isProcessed ==> r.record.Some?
  {
    var record := RecordFor(c, albumId);
    if record.None? then
      NotProcessed(albumId, true, false, None, "Album not found in database")
    else if !HasValue(record.value, "archive_path") || !HasValue(record.value, "playback_path") then
      NotProcessed(albumId, true, true, record, "Processing incomplete (missing archive or playback path)")
    else if !HasSuccessfulConversion(c, albumId.s) then
      NotProcessed(albumId, true, true, record, "No successful conversion in history")
    else
      ProcessingStatus(true, albumId, true, true, record, "Album already processed")
  }

  /** The verdict, stated rule by rule in the order the checks are made. */
  lemma CheckAlbumStatusChain(crypto: Crypto, sidecar: JsonFile, fs: Fs, files: seq<string>, c: Catalog, verify: bool)
    ensures var r := CheckAlbumStatus(crypto, sidecar, fs, files, c, verify);
      && (sidecar.Absent? ==> r == Success(NotProcessed(JNull, false, false, None, "No metadata file found")))
      && (!sidecar.Absent? && Read(sidecar).None? ==> r == Success(NotProcessed(JNull, false, false, None, "Invalid metadata file")))
      && (Read(sidecar).Some? && (!Truthy(Read(sidecar).value["album_id"]) || !Truthy(Read(sidecar).value["audio_checksum"])) ==>
            r.Success? && !r.value.isProcessed && r.value.reason == "Missing required metadata fields"
            && r.value.albumId == Read(sidecar).value["album_id"])
      && (r.Failure? <==> verify && Read(sidecar).Some? && Truthy(Read(sidecar).value["album_id"])
                          && Truthy(Read(sidecar).value["audio_checksum"]) && AudioChecksum(crypto, fs, files).Failure?)
      && (r.Failure? ==> r.error == AudioChecksum(crypto, fs, files).error)
  {
  }

  /** With verification on, a checksum that differs from the stored one
      decides the verdict before the catalog is consulted. */
  lemma ChangedAudioIsNotProcessed(crypto: Crypto, sidecar: JsonFile, fs: Fs, files: seq<string>, c: Catalog, c': Catalog)
    requires Read(sidecar).Some? && Truthy(Read(sidecar).value["album_id"]) && Truthy(Read(sidecar).value["audio_checksum"])
    requires AudioChecksum(crypto, fs, files).Success?
    requires JStr(AudioChecksum(crypto, fs, files).value) != Read(sidecar).value["audio_checksum"]
    ensures var r := CheckAlbumStatus(crypto, sidecar, fs, files, c, true);
            r.Success? && !r.value.isProcessed && !r.value.checksumMatches && !r.value.inDatabase
            && r.value.reason == "Audio files changed (checksum mismatch)"
    ensures CheckAlbumStatus(crypto, sidecar, fs, files, c, true) == CheckAlbumStatus(crypto, sidecar, fs, files, c', true)
  {
  }

  /** An album counts as processed exactly when its sidecar is valid with an
      id and checksum, the checksum (when verified) still matches, and the
      catalog has a row with both terminal paths and a successful conversion. */
  lemma ProcessedExactly(crypto: Crypto, sidecar: JsonFile, fs: Fs, files: seq<string>, c: Catalog, verify: bool)
    ensures var r := CheckAlbumStatus(crypto, sidecar, fs, files, c, verify);
      (r.Success? && r.value.isProcessed) <==>
        (Read(sidecar).Some?
         && var d := Read(sidecar).value;
         && Truthy(d["album_id"]) && Truthy(d["audio_checksum"])
         && (verify ==> AudioChecksum(crypto, fs, files).Success? && JStr(AudioChecksum(crypto, fs, files).value) == d["audio_checksum"])
         && d["album_id"].JStr? && d["album_id"].s in c.albums
         && HasValue(c.albums[d["album_id"].s], "archive_path") && HasValue(c.albums[d["album_id"].s], "playback_path")
         && HasSuccessfulConversion(c, d["album_id"].s))
  {
    if Read(sidecar).Some? {
      var d := Read(sidecar).value;
      if Truthy(d["album_id"]) && Truthy(d["audio_checksum"]) && d["album_id"].JStr? {
        assert RecordFor(c, d["album_id"]) == GetAlbumById(c, d["album_id"].s);
      }
    }
  }

  /** A processed verdict always reports a matching checksum and a catalog
      row; without verification the checksum is never computed, so the
      check cannot fail. */
  lemma ProcessedReportsMatch(crypto: Crypto, sidecar: JsonFile, fs: Fs, files: seq<string>, c: Catalog, verify: bool)
    ensures var r := CheckAlbumStatus(crypto, sidecar, fs, files, c, verify);
      r.Success? && r.value.isProcessed ==> r.value.checksumMatches && r.value.inDatabase && r.value.record.Some?
    ensures !verify ==> CheckAlbumStatus(crypto, sidecar, fs, files, c, false).Success?
  {
  }

  /** With verification off a valid sidecar's checksum is reported as
      matching, whatever the audio is now. */
  lemma UnverifiedChecksumMatches(crypto: Crypto, sidecar: JsonFile, fs: Fs, fs': Fs, files: seq<string>, c: Catalog)
    requires Read(sidecar).Some? && Truthy(Read(sidecar).value["album_id"]) && Truthy(Read(sidecar).value["audio_checksum"])
    ensures CheckAlbumStatus(crypto, sidecar, fs, files, c, false).value.checksumMatches
    ensures CheckAlbumStatus(crypto, sidecar, fs, files, c, false) == CheckAlbumStatus(crypto, sidecar, fs', files, c, false)
  {
  }

  /** A sidecar that names an album the catalog does not know gives
      not-processed, outside the catalog. */
  lemma UnknownAlbumNotInDatabase(crypto: Crypto, sidecar: JsonFile, fs: Fs, files: seq<string>, c: Catalog, verify: bool)
    requires Read(sidecar).Some? && Truthy(Read(sidecar).value["album_id"]) && Truthy(Read(sidecar).value["audio_checksum"])
    requires RecordFor(c, Read(sidecar).value["album_id"]).None?
    ensures var r := CheckAlbumStatus(crypto, sidecar, fs, files, c, verify);
            r.Success? ==> !r.value.isProcessed && !r.value.inDatabase
  {
  }

  /** `should_skip_album(album_path, audio_files, force_reprocess)`. */
  function ShouldSkip(crypto: Crypto, sidecar: JsonFile, fs: Fs, files: seq<string>, c: Catalog, verify: bool,
                      force: bool): (r: Result<(bool, string), ChecksumError>)
    ensures force ==> r == Success((false, "Force reprocess enabled"))
    ensures !force ==> (r.Failure? <==> CheckAlbumStatus(crypto, sidecar, fs, files, c, verify).Failure?)
    ensures !force && r.Success? ==>
              var s := CheckAlbumStatus(crypto, sidecar, fs, files, c, verify).value;
              (r.value.0 <==> s.isProcessed)
              && r.value.1 == (if s.isProcessed then "Already processed: " + s.reason
                               else "Not processed or needs reprocessing")
  {
    if force then Success((false, "Force reprocess enabled"))
    else
      var status :- CheckAlbumStatus(crypto, sidecar, fs, files, c, verify);
      if status.isProcessed then Success((true, "Already processed: " + status.reason))
      else Success((false, "Not processed or needs reprocessing"))
  }

  /** Forcing never consults the status, so nothing about the album or the
      catalog matters, not even audio that cannot be checksummed. */
  lemma ForceIgnoresEverything(crypto: Crypto, s1: JsonFile, s2: JsonFile, fs1: Fs, fs2: Fs, f1: seq<string>, f2: seq<string>,
                               c1: Catalog, c2: Catalog, v1: bool, v2: bool)
    ensures ShouldSkip(crypto, s1, fs1, f1, c1, v1, true) == ShouldSkip(crypto, s2, fs2, f2, c2, v2, true)
  {
  }

  datatype IdResult = IdResult(albumId: Json, sidecar: JsonFile)

  /** `get_or_create_album_id(album_path, audio_files)`: an existing valid
      sidecar's (truthy) id is returned as is; otherwise the content-derived
      id is written into a fresh sidecar with the checksum. The write's own
      failure is ignored; computing the id or checksum may raise. */
  function GetOrCreateAlbumId(crypto: Crypto, sidecar: JsonFile, fs: Fs, files: seq<string>, now: string,
                              writeOk: bool): (r: Result<IdResult, ChecksumError>)
    ensures GetAlbumId(sidecar).Some? && Truthy(GetAlbumId(sidecar).value) ==>
              r == Success(IdResult(GetAlbumId(sidecar).value, sidecar))
    ensures !(GetAlbumId(sidecar).Some? && Truthy(GetAlbumId(sidecar).value)) ==>
              && (r.Success? <==> GenerateAlbumId(crypto, fs, files).Success?)
              && (r.Success? ==> r.value.albumId == JStr(GenerateAlbumId(crypto, fs, files).value))
              && (r.Success? && writeOk ==> GetAlbumId(r.value.sidecar) == Some(r.value.albumId)
                                            && GetChecksum(r.value.sidecar) == Some(JStr(AudioChecksum(crypto, fs, files).value)))
              && (r.Success? && !writeOk ==> r.value.sidecar == sidecar)
  {
    var existing := GetAlbumId(sidecar);
    if existing.Some? && Truthy(existing.value) then Success(IdResult(existing.value, sidecar))
    else
      var id :- GenerateAlbumId(crypto, fs, files);
      var checksum := AudioChecksum(crypto, fs, files).value;
      var w := Write(sidecar, JStr(id), JStr(checksum), JNull, map[], now, writeOk);
      Success(IdResult(JStr(id), w.file))
  }

  /** Asking twice gives the same id, whether or not the first call managed
      to write the sidecar. */
  lemma GetOrCreateIsStable(crypto: Crypto, sidecar: JsonFile, fs: Fs, files: seq<string>, now: string, now': string,
                            writeOk: bool, writeOk': bool)
    requires GetOrCreateAlbumId(crypto, sidecar, fs, files, now, writeOk).Success?
    ensures var first := GetOrCreateAlbumId(crypto, sidecar, fs, files, now, writeOk).value;
            var second := GetOrCreateAlbumId(crypto, first.sidecar, fs, files, now', writeOk');
            second.Success? && second.value.albumId == first.albumId
  {
    var first := GetOrCreateAlbumId(crypto, sidecar, fs, files, now, writeOk).value;
    var existing := GetAlbumId(sidecar);
    if !(existing.Some? && Truthy(existing.value)) && writeOk {
      var id := GenerateAlbumId(crypto, fs, files).value;
      assert IsUuid5Text(id);
      assert |id| == 36;
      assert Truthy(JStr(id));
    }
  }

  /** `reconcile_moved_album(old_path, new_path, album_id)`: the first of the
      source, archive and playback columns holding `old_path` is pointed at
      `new_path`; false when the album is unknown. */
  function ReconcileMovedAlbum(c: Catalog, oldPath: string, newPath: string, id: string): (r: (bool, Catalog))
    ensures r.0 <==> id in c.albums
    ensures r.1.history == c.history && r.1.albums.Keys == c.albums.Keys
    ensures forall k | k in c.albums && k != id :: r.1.albums[k] == c.albums[k]
  {
    match GetAlbumById(c, id)
    case None => (false, c)
    case Some(row) =>
      var column :=
        if Column(row, "source_path") == Some(oldPath) then Some("source_path")
        else if Column(row, "archive_path") == Some(oldPath) then Some("archive_path")
        else if Column(row, "playback_path") == Some(oldPath) then Some("playback_path")
        else None;
      match column
      case None => (true, c)
      case Some(col) => (true, UpdateAlbum(c, id, map[col := Some(newPath)]))
  }

  /** Only the first column holding `old_path` changes, to `new_path`; a
      row that holds `old_path` nowhere is untouched. */
  lemma ReconcileMovesOneColumn(c: Catalog, oldPath: string, newPath: string, id: string)
    requires id in c.albums
    ensures var before := c.albums[id];
            var after := ReconcileMovedAlbum(c, oldPath, newPath, id).1.albums[id];
            var inSource := Column(before, "source_path") == Some(oldPath);
            var inArchive := Column(before, "archive_path") == Some(oldPath);
            var inPlayback := Column(before, "playback_path") == Some(oldPath);
            && (inSource ==> after == before["source_path" := newPath])
            && (!inSource && inArchive ==> after == before["archive_path" := newPath])
            && (!inSource && !inArchive && inPlayback ==> after == before["playback_path" := newPath])
            && (!inSource && !inArchive && !inPlayback ==> after == before)
  {
    var before := c.albums[id];
    if Column(before, "source_path") == Some(oldPath) {
      UpdateOneColumn(c, id, "source_path", newPath);
    } else if Column(before, "archive_path") == Some(oldPath) {
      UpdateOneColumn(c, id, "archive_path", newPath);
    } else if Column(before, "playback_path") == Some(oldPath) {
      UpdateOneColumn(c, id, "playback_path", newPath);
    }
  }

  const LocationColumns: set<string> := {"source_path", "archive_path", "playback_path"}

  /** The column `register_album_location` writes for a location type: the
      type itself when it is a column name, else the type with `_path`
      appended when that is one. */
  function LocationColumn(locationType: string): Option<string> {
    if locationType in LocationColumns then Some(locationType)
    else if locationType + "_path" in LocationColumns then Some(locationType + "_path")
    else None
  }

  /** `AlbumRegistry.register_album_location(album_id, location_type, path)`. */
  function RegisterAlbumLocation(c: Catalog, id: string, locationType: string, path: string): (r: (bool, Catalog))
    ensures r.0 <==> LocationColumn(locationType).Some?
    ensures !r.0 ==> r.1 == c
    ensures r.0 && id in c.albums ==>
              r.1.albums == c.albums[id := c.albums[id][LocationColumn(locationType).value := path]]
    ensures id !in c.albums ==> r.1 == c
  {
    match LocationColumn(locationType)
    case None => (false, c)
    case Some(col) =>
      if id in c.albums then
        UpdateOneColumn(c, id, col, path);
        (true, UpdateAlbum(c, id, map[col := Some(path)]))
      else (true, UpdateAlbum(c, id, map[col := Some(path)]))
  }

  /** The accepted location types are exactly the three columns and their
      short names. */
  lemma LocationTypesAccepted(locationType: string)
    ensures LocationColumn(locationType).Some? <==>
              locationType in {"source_path", "archive_path", "playback_path", "source", "archive", "playback"}
  {
    var t := locationType + "_path";
    assert locationType == t[..|locationType|];
    if t == "source_path" { assert locationType == "source_path"[..6]; }
    if t == "archive_path" { assert locationType == "archive_path"[..7]; }
    if t == "playback_path" { assert locationType == "playback_path"[..8]; }
    if locationType == "source" { assert t == "source_path"; }
    if locationType == "archive" { assert t == "archive_path"; }
    if locationType == "playback" { assert t == "playback_path"; }
  }

  datatype Locations = Locations(source: Option<string>, archive: Option<string>, playback: Option<string>)

  /** `AlbumRegistry.find_album_locations(album_id)`. */
  function FindAlbumLocations(c: Catalog, id: string): (r: Locations)
    ensures id !in c.albums ==> r == Locations(None, None, None)
    ensures id in c.albums ==>
              r == Locations(Column(c.albums[id], "source_path"), Column(c.albums[id], "archive_path"),
                             Column(c.albums[id], "playback_path"))
  {
    match GetAlbumById(c, id)
    case None => Locations(None, None, None)
    case Some(row) => Locations(Column(row, "source_path"), Column(row, "archive_path"), Column(row, "playback_path"))
  }

  /** A registered location is found again. */
  lemma RegisterThenFind(c: Catalog, id: string, locationType: string, path: string)
    requires id in c.albums && LocationColumn(locationType).Some?
    ensures var found := FindAlbumLocations(RegisterAlbumLocation(c, id, locationType, path).1, id);
            var col := LocationColumn(locationType).value;
            (col == "source_path" ==> found.source == Some(path))
            && (col == "archive_path" ==> found.archive == Some(path))
            && (col == "playback_path" ==> found.playback == Some(path))
  {
  }
}

=== FILE: filesystem.dfy ===
/** The file tree the program works on: a map from normalised absolute
    paths to nodes, and the `shutil`/`pathlib` operations the program
    applies to it. A directory's entries are the paths below it. */
module FileSystem {
  import opened Paths
  import opened Ordering

  datatype Node = File(data: seq<bv8>) | Dir

  type Fs = map<string, Node>

  predicate IsFile(fs: Fs, p: string) { p in fs && fs[p].File? }

  predicate IsDir(fs: Fs, p: string) { p in fs && fs[p].Dir? }

  /** `p.stat().st_size` of a file; directories count as zero bytes. */
  function SizeOf(fs: Fs, p: string): nat {
    if IsFile(fs, p) then |fs[p].data| else 0
  }

  /** The bytes of a file; directories and missing paths read as empty. */
  function DataOf(fs: Fs, p: string): seq<bv8> {
    if IsFile(fs, p) then fs[p].data else []
  }

  /** Every entry strictly below `dir`. */
  function Below(fs: Fs, dir: string): set<string> {
    set p | p in fs && IsUnder(dir, p)
  }

  /** Every regular file strictly below `dir` (what `os.walk` lists). */
  function FilesBelow(fs: Fs, dir: string): set<string> {
    set p | p in fs && IsUnder(dir, p) && fs[p].File?
  }

  /** The direct children of `dir` (`dir.iterdir()`). */
  function Children(fs: Fs, dir: string): set<string> {
    set p | p in fs && IsUnder(dir, p) && '/' !in Rel(dir, p)
  }

  lemma JoinInjective(src: string, dst: string, p: string, q: string)
    requires IsUnder(src, p) && IsUnder(src, q)
    requires JoinPath(dst, Rel(src, p)) == JoinPath(dst, Rel(src, q))
    ensures p == q
  {
    RelJoin(dst, Rel(src, p));
    RelJoin(dst, Rel(src, q));
    JoinRel(src, p);
    JoinRel(src, q);
  }

  /** The entries below `src`, re-rooted at `dst`. */
  function Rerooted(fs: Fs, src: string, dst: string): (m: map<string, Node>)
    ensures forall p | p in fs && IsUnder(src, p) :: JoinPath(dst, Rel(src, p)) in m && m[JoinPath(dst, Rel(src, p))] == fs[p]
    ensures forall q | q in m ::
              (IsUnder(dst, q) && JoinPath(src, Rel(dst, q)) in fs && IsUnder(src, JoinPath(src, Rel(dst, q)))
               && m[q] == fs[JoinPath(src, Rel(dst, q))])
  {
    var keys := Below(fs, src);
    forall p, q | p in keys && q in keys && JoinPath(dst, Rel(src, p)) == JoinPath(dst, Rel(src, q)) ensures p == q {
      JoinInjective(src, dst, p, q);
    }
    var m := map p | p in keys :: JoinPath(dst, Rel(src, p)) := fs[p];
    forall q | q in m ensures IsUnder(dst, q) && JoinPath(src, Rel(dst, q)) in fs && IsUnder(src, JoinPath(src, Rel(dst, q)))
      && m[q] == fs[JoinPath(src, Rel(dst, q))] {
      var p :| p in keys && q == JoinPath(dst, Rel(src, p));
      RelJoin(dst, Rel(src, p));
      JoinRel(src, p);
    }
    forall p | p in fs && IsUnder(src, p) ensures JoinPath(dst, Rel(src, p)) in m && m[JoinPath(dst, Rel(src, p))] == fs[p] {
      assert p in keys;
    }
    m
  }

  /** Copies every entry below `src` to the same relative place below `dst`,
      replacing what was there (`shutil.copy2` per file, `copytree` per
      directory). Nothing outside `dst`'s subtree changes. */
  function CopyBelow(fs: Fs, src: string, dst: string): (r: Fs)
    ensures forall p | p in fs && !IsUnder(dst, p) :: p in r && r[p] == fs[p]
    ensures forall p | p in r && !IsUnder(dst, p) :: p in fs
    ensures forall p | p in fs && IsUnder(src, p) :: JoinPath(dst, Rel(src, p)) in r && r[JoinPath(dst, Rel(src, p))] == fs[p]
    ensures forall p | p in fs :: p in r
  {
    fs + Rerooted(fs, src, dst)
  }

  /** `shutil.copytree(src, dst)` for a directory `src`: `dst` becomes a
      directory holding a copy of everything below `src`. */
  function CopyTree(fs: Fs, src: string, dst: string): (r: Fs)
    ensures IsDir(r, dst)
    ensures forall p | p in fs && !UnderOrEq(dst, p) :: p in r && r[p] == fs[p]
    ensures forall p | p in r && !UnderOrEq(dst, p) :: p in fs
  {
    (fs + Rerooted(fs, src, dst))[dst := Dir]
  }

  /** Each entry below `src` reappears at the same relative place below `dst`. */
  lemma CopyTreeCopies(fs: Fs, src: string, dst: string, p: string)
    requires p in fs && IsUnder(src, p)
    ensures JoinPath(dst, Rel(src, p)) in CopyTree(fs, src, dst)
    ensures CopyTree(fs, src, dst)[JoinPath(dst, Rel(src, p))] == fs[p]
  {
    var q := JoinPath(dst, Rel(src, p));
    RelJoin(dst, Rel(src, p));
    var m := Rerooted(fs, src, dst);
    assert q in m && m[q] == fs[p];
    assert |q| > |dst|;
    MergedEntry(fs, m, dst, q);
  }

  /** An entry of `b` other than `k` survives `(a + b)[k := Dir]`. */
  lemma MergedEntry(a: Fs, b: map<string, Node>, k: string, q: string)
    requires q in b && q != k
    ensures q in (a + b)[k := Dir] && (a + b)[k := Dir][q] == b[q]
  {
  }

  /** Each new entry below `dst` is a copy of the entry at the same relative
      place below `src`. */
  lemma CopyTreeOrigin(fs: Fs, src: string, dst: string, q: string)
    requires q in CopyTree(fs, src, dst) && IsUnder(dst, q) && q !in fs
    ensures JoinPath(src, Rel(dst, q)) in fs && IsUnder(src, JoinPath(src, Rel(dst, q)))
    ensures CopyTree(fs, src, dst)[q] == fs[JoinPath(src, Rel(dst, q))]
  {
    var m := Rerooted(fs, src, dst);
    assert q != dst;
    assert q in m;
  }

  /** `shutil.rmtree(dir)` (or `unlink` of a file): `dir` and everything
      below it disappear; nothing else changes. */
  function RemoveTree(fs: Fs, dir: string): (r: Fs)
    ensures forall p :: p in r <==> p in fs && !UnderOrEq(dir, p)
    ensures forall p | p in r :: r[p] == fs[p]
  {
    map p | p in fs && !UnderOrEq(dir, p) :: fs[p]
  }

  /** `shutil.move(src, dst)` to a fresh destination outside `src`: the tree
      moves to `dst` and disappears from `src`. */
  function MoveTree(fs: Fs, src: string, dst: string): (r: Fs)
    requires src in fs && !UnderOrEq(src, dst)
    ensures IsDir(r, dst) == IsDir(fs, src)
    ensures src !in r
    ensures forall p | p in fs && !UnderOrEq(dst, p) && !UnderOrEq(src, p) :: p in r && r[p] == fs[p]
  {
    var copied := CopyBelow(fs, src, dst)[dst := fs[src]];
    RemoveTree(copied, src)
  }

  /** `path.mkdir(exist_ok=True)`; missing parents are not created (the
      model does not require every path's parent to be present). */
  function MakeDir(fs: Fs, p: string): (r: Fs)
    ensures p in r
    ensures forall q | q != p :: (q in r <==> q in fs) && (q in fs ==> r[q] == fs[q])
  {
    if p in fs then fs else fs[p := Dir]
  }

  /** The files below `dir` in Python's `sorted()` order for paths. */
  function SortedFiles(fs: Fs, dir: string): (r: seq<string>)
    ensures forall p :: p in r <==> p in FilesBelow(fs, dir)
    ensures |r| == |FilesBelow(fs, dir)|
    ensures StrictlySorted(r, PathLe)
  {
    PathLeIsTotalOrder();
    SortSet(FilesBelow(fs, dir), PathLe)
  }

  function SumSizes(fs: Fs, ps: seq<string>): nat {
    if |ps| == 0 then 0 else SizeOf(fs, ps[0]) + SumSizes(fs, ps[1..])
  }
}

=== FILE: hashing.dfy ===
/** Message digests, their hexadecimal form, UTF-8 encoding and name-based
    (version 5) UUIDs as laid out in section 4.3 of RFC 4122.

    SHA-256, SHA-1 and MD5 themselves are not modelled: a `Crypto` value
    supplies them as functions, and every property below holds whichever
    functions it supplies. Feeding a hash object several chunks is the same
    as hashing their concatenation, so streaming is modelled by that. */
module Hashing {

  type Digest32 = s: seq<bv8> | |s| == 32 witness seq(32, _ => 0 as bv8)
  type Digest20 = s: seq<bv8> | |s| == 20 witness seq(20, _ => 0 as bv8)
  type Digest16 = s: seq<bv8> | |s| == 16 witness seq(16, _ => 0 as bv8)

  datatype Crypto = Crypto(
    sha256: seq<bv8> -> Digest32,
    sha1: seq<bv8> -> Digest20,
    md5: seq<bv8> -> Digest16)

  const HexChars: string := "0123456789abcdef"

  predicate IsHexChar(c: char) { c in HexChars }

  function HexDigit(n: bv8): (c: char)
    requires n < 16
    ensures IsHexChar(c)
  {
    HexChars[n as int]
  }

  /** The two hex characters of one byte, high nibble first. */
  function HexPair(b: bv8): (r: string)
    ensures |r| == 2
  {
    [HexDigit(b >> 4), HexDigit(b & 0x0F)]
  }

  /** `digest.hexdigest()`: two lower-case hex characters per byte. */
  function Hex(d: seq<bv8>): (r: string)
    ensures |r| == 2 * |d|
  {
    if |d| == 0 then "" else HexPair(d[0]) + Hex(d[1..])
  }

  /** Byte `i` of the digest is spelt at characters `2i` and `2i+1`. */
  lemma {:induction false} HexAt(d: seq<bv8>, i: nat)
    requires i < |d|
    ensures Hex(d)[2 * i] == HexPair(d[i])[0] && Hex(d)[2 * i + 1] == HexPair(d[i])[1]
  {
    var t := d[1..];
    assert Hex(d) == HexPair(d[0]) + Hex(t);
    if i > 0 {
      HexAt(t, i - 1);
      assert t[i - 1] == d[i];
    }
  }

  lemma HexDigitInjective(a: bv8, b: bv8)
    requires a < 16 && b < 16 && HexDigit(a) == HexDigit(b)
    ensures a == b
  {
  }

  /** Different bytes spell different hex pairs. */
  lemma HexPairInjective(a: bv8, b: bv8)
    requires HexPair(a)[0] == HexPair(b)[0] && HexPair(a)[1] == HexPair(b)[1]
    ensures a == b
  {
    HexDigitInjective(a >> 4, b >> 4);
    HexDigitInjective(a & 0x0F, b & 0x0F);
    NibblesDetermineByte(a, b);
  }

  lemma NibblesDetermineByte(a: bv8, b: bv8)
    requires a >> 4 == b >> 4 && a & 0x0F == b & 0x0F
    ensures a == b
  {
  }

  /** Comparing hex digests compares the digests themselves. */
  lemma HexInjective(a: seq<bv8>, b: seq<bv8>)
    requires |a| == |b| && Hex(a) == Hex(b)
    ensures a == b
  {
    forall i | 0 <= i < |a| ensures a[i] == b[i] {
      HexAt(a, i);
      HexAt(b, i);
      HexPairInjective(a[i], b[i]);
    }
  }

  /** The UTF-8 encoding of one character. */
  function Utf8Char(c: char): (r: seq<bv8>)
    ensures 1 <= |r| <= 4
    ensures |r| == 1 <==> c as int < 0x80
  {
    var n := c as int;
    if n < 0x80 then Utf8One(n)
    else if n < 0x800 then Utf8Two(n)
    else if n < 0x10000 then Utf8Three(n)
    else Utf8Four(n)
  }

  /** A code point below 0x80 is its own byte. */
  function Utf8One(n: nat): (r: seq<bv8>)
    requires n < 0x80
    ensures |r| == 1
  {
    [n as bv8]
  }

  /** A lead byte `110xxxxx` and one continuation byte. */
  function Utf8Two(n: nat): (r: seq<bv8>)
    requires n < 0x800
    ensures |r| == 2
  {
    [(0xC0 + n / 64) as bv8, (0x80 + n % 64) as bv8]
  }

  /** A lead byte `1110xxxx` and two continuation bytes. */
  function Utf8Three(n: nat): (r: seq<bv8>)
    requires n < 0x10000
    ensures |r| == 3
  {
    [(0xE0 + n / 4096) as bv8, (0x80 + (n / 64) % 64) as bv8, (0x80 + n % 64) as bv8]
  }

  /** A lead byte `11110xxx` and three continuation bytes. */
  function Utf8Four(n: nat): (r: seq<bv8>)
    requires n < 0x110000
    ensures |r| == 4
  {
    [(0xF0 + n / 262144) as bv8, (0x80 + (n / 4096) % 64) as bv8, (0x80 + (n / 64) % 64) as bv8, (0x80 + n % 64) as bv8]
  }

  /** `s.encode('utf-8')`. */
  function Utf8(s: string): (r: seq<bv8>)
    ensures |r| >= |s|
  {
    if |s| == 0 then [] else Utf8Char(s[0]) + Utf8(s[1..])
  }

  /** ASCII text encodes one byte per character, each byte its code point. */
  lemma {:induction false} Utf8Ascii(s: string)
    requires forall i :: 0 <= i < |s| ==> s[i] as int < 0x80
    ensures |Utf8(s)| == |s|
    ensures forall i :: 0 <= i < |s| ==> Utf8(s)[i] == Utf8One(s[i] as int)[0]
  {
    if |s| > 0 {
      var t := s[1..];
      Utf8Ascii(t);
      assert Utf8(s) == Utf8One(s[0] as int) + Utf8(t);
      assert forall i | 1 <= i < |s| :: s[i] == t[i - 1];
    }
  }

  /** `uuid.UUID('6ba7b810-9dad-11d1-80b4-00c04fd430c8').bytes`. */
  const AlbumIdNamespace: seq<bv8> :=
    [0x6b, 0xa7, 0xb8, 0x10, 0x9d, 0xad, 0x11, 0xd1, 0x80, 0xb4, 0x00, 0xc0, 0x4f, 0xd4, 0x30, 0xc8]

  /** The sixteen bytes of `uuid.uuid5(namespace, name)`: the first sixteen
      bytes of SHA-1 over namespace and name, with the version nibble set to
      5 and the variant bits to `10`. */
  function Uuid5Bytes(crypto: Crypto, namespace: seq<bv8>, name: string): (b: seq<bv8>)
    ensures |b| == 16
    ensures b[6] >> 4 == 5 && b[8] >> 6 == 2
  {
    var h := crypto.sha1(namespace + Utf8(name));
    h[..6] + [(h[6] & 0x0F) | 0x50] + [h[7]] + [(h[8] & 0x3F) | 0x80] + h[9..16]
  }

  predicate IsDashPosition(i: int) { i == 8 || i == 13 || i == 18 || i == 23 }

  /** The index among the 32 hex digits shown at text position `i`. */
  function DigitIndex(i: nat): (k: nat)
    requires i < 36 && !IsDashPosition(i)
    ensures k < 32
  {
    if i < 8 then i else if i < 13 then i - 1 else if i < 18 then i - 2 else if i < 23 then i - 3 else i - 4
  }

  /** Hex digit `k` of a byte sequence: the high nibble of byte `k / 2` when
      `k` is even, the low nibble otherwise. */
  function Nibble(b: seq<bv8>, k: nat): bv8
    requires k < 2 * |b|
  {
    if k % 2 == 0 then b[k / 2] >> 4 else b[k / 2] & 0x0F
  }

  /** `str(uuid)`: the 32 hex digits of the sixteen bytes in 8-4-4-4-12 groups. */
  function FormatUuid(b: seq<bv8>): (r: string)
    requires |b| == 16
    ensures |r| == 36
    ensures forall i :: 0 <= i < 36 ==> (r[i] == '-' <==> IsDashPosition(i))
    ensures forall i :: 0 <= i < 36 && !IsDashPosition(i) ==> IsHexChar(r[i])
  {
    seq(36, i requires 0 <= i < 36 => if IsDashPosition(i) then '-' else HexDigit(Nibble(b, DigitIndex(i))))
  }

  /** The version digit shows the high nibble of byte 6, the variant digit
      that of byte 8. */
  lemma VersionAndVariantDigits(b: seq<bv8>)
    requires |b| == 16
    ensures FormatUuid(b)[14] == HexDigit(b[6] >> 4) && FormatUuid(b)[19] == HexDigit(b[8] >> 4)
  {
    assert DigitIndex(14) == 12 && DigitIndex(19) == 16;
  }

  /** A byte whose top two bits are `10` shows 8, 9, a or b as its high digit. */
  lemma VariantDigit(x: bv8)
    requires x >> 6 == 2
    ensures HexDigit(x >> 4) in "89ab"
  {
    assert (x >> 4) >> 2 == x >> 6;
    assert x >> 4 in {8, 9, 10, 11};
  }

  /** The textual shape of a version-5 UUID. */
  predicate IsUuid5Text(r: string) {
    |r| == 36
    && (forall i :: 0 <= i < 36 ==> (r[i] == '-' <==> IsDashPosition(i)))
    && r[14] == '5' && r[19] in "89ab"
    && (forall i :: 0 <= i < 36 && !IsDashPosition(i) ==> IsHexChar(r[i]))
  }

  /** `str(uuid.uuid5(namespace, name))`. */
  function Uuid5(crypto: Crypto, namespace: seq<bv8>, name: string): (r: string)
    ensures IsUuid5Text(r)
  {
    var b := Uuid5Bytes(crypto, namespace, name);
    VariantDigit(b[8]);
    VersionAndVariantDigits(b);
    FormatUuid(b)
  }
}

=== FILE: json.dfy ===
/** JSON (and YAML) documents as the program sees them after `json.load`
    / `yaml.safe_load`, with Python's truthiness. Floating-point numbers are
    not represented. */
module Json {
  import opened Wrappers
  import Text

  datatype Json =
    | JNull
    | JBool(b: bool)
    | JInt(i: int)
    | JStr(s: string)
    | JArr(items: seq<Json>)
    | JObj(fields: map<string, Json>)

  /** `bool(v)` in Python. */
  predicate Truthy(v: Json) {
    match v
    case JNull => false
    case JBool(b) => b
    case JInt(i) => i != 0
    case JStr(s) => s != ""
    case JArr(items) => |items| > 0
    case JObj(fields) => |fields| > 0
  }

  /** `key in v` in Python: a key of a dict, an element of a list, a
      substring of a string; on a number, a boolean or `null` Python raises
      `TypeError`. */
  function Contains(v: Json, key: string): Result<bool, string> {
    match v
    case JObj(f) => Success(key in f)
    case JArr(items) => Success(JStr(key) in items)
    case JStr(s) => Success(Text.Occurs(key, s))
    case _ => Failure("TypeError: argument is not iterable")
  }

  /** A JSON file on disk: missing, present but not valid JSON, or parsed. */
  datatype JsonFile = Absent | Unparsable | Parsed(value: Json)

  /** `d.get(key)` on a dict; `None` for a missing key. */
  function Get(d: map<string, Json>, key: string): Json {
    if key in d then d[key] else JNull
  }

  /** `d.get(key, default)`. */
  function GetOr(d: map<string, Json>, key: string, default: Json): Json {
    if key in d then d[key] else default
  }

  /** A Python `Optional[str]` stored as JSON. */
  function OptStr(s: Option<string>): Json {
    match s
    case Some(v) => JStr(v)
    case None => JNull
  }

  /** `Optional[str]` read back from JSON; anything but a string reads as `None`. */
  function AsOptStr(v: Json): Option<string> {
    if v.JStr? then Some(v.s) else None
  }

  lemma AsOptStrOptStr(s: Option<string>)
    ensures AsOptStr(OptStr(s)) == s
  {
  }
}

=== FILE: metadata_enricher.dfy ===
/** The deterministic part of the metadata enricher: reading artist, album
    and year from an album directory's name, reading a track number from a
    file name, choosing the first catalogue service that answers, merging
    the answer into a FLAC file's tags, and the per-album control flow.
    What the MusicBrainz and Discogs services answer is a parameter
    (`Services`); so is each FLAC file's tag block and whether saving it
    succeeds. */
module MetadataEnricher {
  import opened Wrappers
  import opened Text
  import opened Paths

  // ---------------------------------------------------------------------
  // Regular-expression building blocks. Python's `re` backtracks; each
  // function below returns the match its backtracking order finds first.
  // ---------------------------------------------------------------------

  /** How many characters a greedy `\s*` takes at `k`. */
  function SpaceRun(s: string, k: nat): (n: nat)
    requires k <= |s|
    ensures k + n <= |s|
    ensures forall i :: k <= i < k + n ==> IsSpace(s[i])
    ensures k + n == |s| || !IsSpace(s[k + n])
    decreases |s| - k
  {
    if k < |s| && IsSpace(s[k]) then 1 + SpaceRun(s, k + 1) else 0
  }

  /** How many characters a greedy `\d+` (or `\d*`) takes at `k`. */
  function DigitRun(s: string, k: nat): (n: nat)
    requires k <= |s|
    ensures k + n <= |s|
    ensures AllDigits(s[k..k + n])
    ensures forall i :: k <= i < k + n ==> IsDigit(s[i])
    ensures k + n == |s| || !IsDigit(s[k + n])
    decreases |s| - k
  {
    if k < |s| && IsDigit(s[k]) then
      var n := DigitRun(s, k + 1);
      DigitsCons(s, k, n);
      1 + n
    else 0
  }

  /** A digit followed by a run of digits is a run of digits. */
  lemma DigitsCons(s: string, k: nat, n: nat)
    requires k + 1 + n <= |s| && IsDigit(s[k]) && AllDigits(s[k + 1..k + 1 + n])
    ensures AllDigits(s[k..k + 1 + n])
  {
    assert s[k..k + 1 + n] == [s[k]] + s[k + 1..k + 1 + n];
  }

  /** `\((\d{4})\)` matches at `p`. */
  predicate YearAt(t: string, p: nat) {
    p + 6 <= |t| && t[p] == '(' && AllDigits(t[p + 1..p + 5]) && t[p + 5] == ')'
  }

  /** `.` in Python's `re` matches every character but a newline. */
  predicate NoNewline(s: string) { '\n' !in s }

  /** `(.+?)\s*` matches `s[a..b]`: a group of at least one character, none
      of them a newline, then blanks. */
  predicate Lead(s: string, a: nat, b: nat) {
    a < b <= |s| && exists e :: a < e <= b && NoNewline(s[a..e]) && Blank(s[e..b])
  }

  /** `\s*(.+?)\s*\((\d{4})\)` matches at the start of `t`. */
  ghost predicate YearRest(t: string) {
    exists k, p :: 0 <= k <= p && YearAt(t, p) && Blank(t[..k]) && Lead(t, k, p)
  }

  /** The first position at or after `k` where `(dddd)` stands and
      `(.+?)\s*` covers the text from `a` up to it. */
  function FirstYearLead(t: string, a: nat, k: nat): (r: Option<nat>)
    ensures r.Some? ==> k <= r.value && YearAt(t, r.value) && Lead(t, a, r.value)
    ensures r.Some? ==> forall q :: k <= q < r.value ==> !(YearAt(t, q) && Lead(t, a, q))
    ensures r.None? ==> forall q :: k <= q ==> !(YearAt(t, q) && Lead(t, a, q))
    decreases |t| - k
  {
    if k >= |t| then None
    else if YearAt(t, k) && Lead(t, a, k) then Some(k)
    else FirstYearLead(t, a, k + 1)
  }

  /** Where `\s*(.+?)\s*\((\d{4})\)`, matched at the start of `t`, puts its
      opening parenthesis. The greedy `\s*` first keeps all leading blanks,
      and the lazy group then grows, never across a newline, until the year
      follows; only when no year follows does the `\s*` give back a blank
      other than a newline for the group to hold, which then leaves the
      album empty. */
  function YearParen(t: string): (r: Option<nat>)
    ensures r.Some? ==> 1 <= r.value && YearAt(t, r.value)
  {
    var m := SpaceRun(t, 0);
    match FirstYearLead(t, m, m + 1)
    case Some(p) => Some(p)
    case None => if 1 <= m && YearAt(t, m) && exists k :: 0 <= k < m && t[k] != '\n' then Some(m) else None
  }

  /** A hyphen at `i` that `(.+?)\s*` reaches from the start of `s`, and
      whose remainder holds a year. */
  predicate DashWithYear(s: string, i: nat) {
    i < |s| && s[i] == '-' && Lead(s, 0, i) && YearParen(s[i + 1..]).Some?
  }

  /** The first hyphen at or after `k` for which `DashWithYear` holds. */
  function FirstDashWithYear(s: string, k: nat): (r: Option<nat>)
    ensures r.Some? ==> k <= r.value && DashWithYear(s, r.value)
    decreases |s| - k
  {
    if k >= |s| then None
    else if DashWithYear(s, k) then Some(k)
    else FirstDashWithYear(s, k + 1)
  }

  /** A hyphen at `i` that `(.+?)\s*` reaches from the start of `s`. */
  predicate LeadDash(s: string, i: nat) {
    i < |s| && s[i] == '-' && Lead(s, 0, i)
  }

  /** The first hyphen at or after `k` that `(.+?)\s*` reaches. */
  function FirstLeadDash(s: string, k: nat): (r: Option<nat>)
    ensures r.Some? ==> k <= r.value && LeadDash(s, r.value)
    ensures r.Some? ==> forall i :: k <= i < r.value ==> !LeadDash(s, i)
    ensures r.None? ==> forall i :: k <= i ==> !LeadDash(s, i)
    decreases |s| - k
  {
    if k >= |s| then None
    else if LeadDash(s, k) then Some(k)
    else FirstLeadDash(s, k + 1)
  }

  /** Something other than a newline stands at or after `a`: what `\s*(.+)`
      needs to match. */
  predicate HasText(s: string, a: nat) {
    exists x :: a <= x < |s| && s[x] != '\n'
  }

  /** Where a greedy `.+` started at `k` stops: the first newline at or
      after `k`, or the end. */
  function LineEnd(t: string, k: nat): (n: nat)
    requires k <= |t|
    ensures k <= n <= |t| && NoNewline(t[k..n])
    ensures n == |t| || t[n] == '\n'
    decreases |t| - k
  {
    if k == |t| || t[k] == '\n' then k
    else
      var n := LineEnd(t, k + 1);
      assert t[k..n] == [t[k]] + t[k + 1..n];
      n
  }

  // ---------------------------------------------------------------------
  // _extract_album_info
  // ---------------------------------------------------------------------

  /** The search key built from an album: `None` is Python's `None`. */
  datatype AlbumInfo = AlbumInfo(album: Option<string>, artist: Option<string>, year: Option<string>)

  /** `not value` for an optional string. */
  predicate Falsy(v: Option<string>) {
    v.None? || v.value == ""
  }

  /** The directory-name parse: `Artist - Album (Year)` first, then
      `Artist - Album`, else the whole name is the album. The lazy artist
      group ends at the first hyphen after which the rest can match; no
      group crosses a newline; both groups are stripped. */
  function ParseName(name: string): (r: AlbumInfo)
    ensures r.album.Some?
    ensures r.year.Some? ==> r.artist.Some? && |r.year.value| == 4 && AllDigits(r.year.value)
  {
    match FirstDashWithYear(name, 1)
    case Some(i) => YearGroups(name, i, YearParen(name[i + 1..]).value)
    case None => DashGroups(name)
  }

  /** What each part of a parsed name is made of: the year is the four
      digits of a `(dddd)` inside the name, the artist is the stripped text
      before a hyphen the artist group reaches, and without an artist the
      whole name is the album. */
  lemma ParseNameParts(name: string)
    ensures var r := ParseName(name);
      && (r.year.Some? ==> exists p: nat :: YearAt(name, p) && r.year.value == name[p + 1..p + 5])
      && (r.artist.None? ==> r == AlbumInfo(Some(name), None, None))
      && (r.artist.Some? ==> exists i: nat :: LeadDash(name, i) && r.artist.value == Strip(name[..i]))
  {
    var w := FirstDashWithYear(name, 1);
    if w.Some? {
      var i := w.value;
      var p := YearParen(name[i + 1..]).value;
      var r := YearGroups(name, i, p);
      assert ParseName(name) == r;
      YearGroupsYear(name, i, p);
      assert LeadDash(name, i) && r.artist.value == Strip(name[..i]);
    } else {
      assert ParseName(name) == DashGroups(name);
      var d := FirstLeadDash(name, 1);
      if d.Some? && HasText(name, d.value + 1) {
        assert LeadDash(name, d.value);
      }
    }
  }

  /** The year `YearGroups` reports is a `(dddd)` of the whole name. */
  lemma YearGroupsYear(name: string, i: nat, p: nat)
    requires i < |name| && YearAt(name[i + 1..], p)
    ensures YearAt(name, i + 1 + p)
    ensures YearGroups(name, i, p).year.value == name[i + 1 + p + 1..i + 1 + p + 5]
  {
    YearAtShift(name, i + 1, p);
  }

  /** A `(dddd)` found in a suffix stands in the whole string too. */
  lemma YearAtShift(s: string, k: nat, p: nat)
    requires k <= |s| && YearAt(s[k..], p)
    ensures YearAt(s, k + p) && s[k..][p + 1..p + 5] == s[k + p + 1..k + p + 5]
  {
    assert s[k..][p + 1..p + 5] == s[k + p + 1..k + p + 5];
  }

  /** `Artist - Album`, else the whole name as the album. The lazy artist
      group ends at the first hyphen it reaches; the greedy album group runs
      to the end of the line the blanks after the hyphen lead to, and needs
      a character other than a newline there. */
  function DashGroups(name: string): (r: AlbumInfo)
    ensures r.album.Some? && r.year.None?
  {
    var d := FirstLeadDash(name, 1);
    if d.Some? && HasText(name, d.value + 1) then
      AlbumInfo(Some(LineGroup(name[d.value + 1..])), Some(Strip(name[..d.value])), None)
    else
      AlbumInfo(Some(name), None, None)
  }

  /** The album group of `\s*(.+)` matched at the start of `t`, stripped:
      the greedy `.+` runs from the first non-blank to the end of its line. */
  function LineGroup(t: string): string {
    var m := SpaceRun(t, 0);
    Strip(t[m..LineEnd(t, m)])
  }

  /** The groups of `Artist - Album (Year)` when the artist ends at the
      hyphen `i` and the year's parenthesis stands `p` characters after it. */
  function YearGroups(name: string, i: nat, p: nat): (r: AlbumInfo)
    requires i < |name| && YearAt(name[i + 1..], p)
    ensures r.year.Some? && r.year.value == name[i + 1..][p + 1..p + 5]
    ensures r.album.Some? && r.artist == Some(Strip(name[..i]))
  {
    var t := name[i + 1..];
    AlbumInfo(Some(Strip(t[..p])), Some(Strip(name[..i])), Some(t[p + 1..p + 5]))
  }

  /** The blanks `SpaceRun` counts. */
  lemma SpaceRunBlank(t: string, k: nat)
    requires k <= |t|
    ensures Blank(t[k..k + SpaceRun(t, k)])
  {
  }

  /** A remainder has a year exactly when `\s*(.+?)\s*\((\d{4})\)` matches
      at its start. */
  lemma YearParenIff(t: string)
    ensures YearParen(t).Some? <==> YearRest(t)
  {
    if YearParen(t).Some? {
      YearParenMatches(t);
    } else if YearRest(t) {
      var k, p :| 0 <= k <= p && YearAt(t, p) && Blank(t[..k]) && Lead(t, k, p);
      MatchFindsYearParen(t, k, p);
    }
  }

  /** What `YearParen` reports is a match. */
  lemma YearParenMatches(t: string)
    requires YearParen(t).Some?
    ensures YearRest(t)
  {
    var m := SpaceRun(t, 0);
    SpaceRunBlank(t, 0);
    assert t[0..m] == t[..m];
    match FirstYearLead(t, m, m + 1)
    case Some(q) =>
      assert 0 <= m <= q && YearAt(t, q) && Blank(t[..m]) && Lead(t, m, q);
    case None =>
      var k :| 0 <= k < m && t[k] != '\n';
      assert NoNewline(t[k..k + 1]);
      assert Blank(t[k + 1..m]);
      assert Lead(t, k, m);
      assert Blank(t[..k]);
      assert 0 <= k <= m && YearAt(t, m) && Blank(t[..k]) && Lead(t, k, m);
  }

  /** A match makes `YearParen` report a year. */
  lemma MatchFindsYearParen(t: string, k: nat, p: nat)
    requires k <= p && YearAt(t, p) && Blank(t[..k]) && Lead(t, k, p)
    ensures YearParen(t).Some?
  {
    var m := SpaceRun(t, 0);
    var e :| k < e <= p && NoNewline(t[k..e]) && Blank(t[e..p]);
    if e > m {
      assert forall j | 0 <= j < e - m :: t[m..e][j] == t[k..e][j + m - k];
      assert NoNewline(t[m..e]);
      assert Lead(t, m, p);
      assert FirstYearLead(t, m, m + 1).Some?;
    } else {
      assert t[k..e][0] == t[k];
      forall i | 0 <= i < p
        ensures IsSpace(t[i])
      {
        if i < k {
          assert t[..k][i] == t[i];
        } else if e <= i {
          assert t[e..p][i - e] == t[i];
        }
      }
      SpaceRunAtLeast(t, 0, p);
      assert 0 <= k < m && t[k] != '\n';
    }
  }

  /** Blanks from `k` up to `p` are all counted by `SpaceRun`. */
  lemma {:induction false} SpaceRunAtLeast(t: string, k: nat, p: nat)
    requires k <= p <= |t| && forall i | k <= i < p :: IsSpace(t[i])
    ensures p <= k + SpaceRun(t, k)
    decreases p - k
  {
    if k < p {
      SpaceRunAtLeast(t, k + 1, p);
    }
  }

  /** A reported year stands in parentheses after a hyphen that is not the
      name's first character, at least one character after it. */
  lemma ReportedYearIsInName(name: string)
    requires ParseName(name).year.Some?
    ensures exists i, p :: (1 <= i && i + 2 <= p && YearAt(name, p) && name[i] == '-'
      && ParseName(name).year.value == name[p + 1..p + 5])
  {
    var i := FirstDashWithYear(name, 1).value;
    var q := YearParen(name[i + 1..]).value;
    ReportedYearAt(name, i, q);
    var p := i + 1 + q;
    assert 1 <= i && i + 2 <= p && YearAt(name, p) && name[i] == '-'
      && ParseName(name).year.value == name[p + 1..p + 5];
  }

  lemma ReportedYearAt(name: string, i: nat, q: nat)
    requires FirstDashWithYear(name, 1) == Some(i) && YearParen(name[i + 1..]) == Some(q)
    ensures 1 <= i && i + 2 <= i + 1 + q && YearAt(name, i + 1 + q) && name[i] == '-'
    ensures ParseName(name).year.value == name[i + 1 + q + 1..i + 1 + q + 5]
  {
    assert ParseName(name) == YearGroups(name, i, q);
    YearGroupsInName(name, i, q);
  }

  lemma YearGroupsInName(name: string, i: nat, q: nat)
    requires i < |name| && YearAt(name[i + 1..], q)
    ensures YearAt(name, i + 1 + q)
    ensures YearGroups(name, i, q).year.value == name[i + 1 + q + 1..i + 1 + q + 5]
  {
    YearInSuffix(name, i + 1, q);
  }

  /** A year in a suffix of `s` is a year in `s`, with the same digits. */
  lemma YearInSuffix(s: string, k: nat, q: nat)
    requires k <= |s| && YearAt(s[k..], q)
    ensures YearAt(s, k + q) && s[k + q + 1..k + q + 5] == s[k..][q + 1..q + 5]
  {
    assert s[k + q + 1..k + q + 5] == s[k..][q + 1..q + 5];
  }

  /** Conversely, a hyphen the artist group reaches, followed by a
      remainder that matches the album and year groups, makes the first
      pattern match. */
  lemma YearInNameIsReported(name: string, i: nat)
    requires i < |name| && name[i] == '-' && Lead(name, 0, i) && YearRest(name[i + 1..])
    ensures ParseName(name).year.Some?
  {
    YearParenIff(name[i + 1..]);
    NoDashWithYear(name, 1, i);
  }

  /** A year is reported exactly when the first pattern matches: a hyphen
      that `(.+?)\s*` reaches from the start, then `\s*(.+?)\s*\((\d{4})\)`. */
  lemma ParseNameYearIff(name: string)
    ensures ParseName(name).year.Some? <==>
      exists i :: 0 <= i < |name| && name[i] == '-' && Lead(name, 0, i) && YearRest(name[i + 1..])
  {
    if ParseName(name).year.Some? {
      var i := FirstDashWithYear(name, 1).value;
      YearParenIff(name[i + 1..]);
    } else if i :| 0 <= i < |name| && name[i] == '-' && Lead(name, 0, i) && YearRest(name[i + 1..]) {
      YearInNameIsReported(name, i);
    }
  }

  /** `FirstDashWithYear` does not pass over a hyphen for which
      `DashWithYear` holds. */
  lemma {:induction false} NoDashWithYear(s: string, k: nat, i: nat)
    requires k <= i && DashWithYear(s, i)
    ensures FirstDashWithYear(s, k).Some? && FirstDashWithYear(s, k).value <= i
    decreases i - k
  {
    if !DashWithYear(s, k) {
      NoDashWithYear(s, k + 1, i);
    }
  }

  /** An artist is reported exactly when the artist group reaches a hyphen
      after which some character other than a newline stands. */
  lemma ParseNameArtistIff(name: string)
    ensures ParseName(name).artist.Some? <==>
      exists i, x :: 0 <= i < x < |name| && name[i] == '-' && name[x] != '\n' && Lead(name, 0, i)
  {
    if FirstDashWithYear(name, 1).Some? {
      YearDashInside(name);
      YearArtistWitness(name);
    } else {
      DashArtistIff(name);
    }
  }

  /** The hyphen before a year is reached by the artist group, and the
      year's parenthesis follows it. */
  lemma YearArtistWitness(name: string)
    requires FirstDashWithYear(name, 1).Some?
    ensures exists i, x :: 0 <= i < x < |name| && name[i] == '-' && name[x] != '\n' && Lead(name, 0, i)
  {
    var i := FirstDashWithYear(name, 1).value;
    var q := YearParen(name[i + 1..]).value;
    assert name[i + 1..][q] == '(';
    var x := i + 1 + q;
    assert name[x] == '(';
    assert 0 <= i < x < |name| && name[i] == '-' && name[x] != '\n' && Lead(name, 0, i);
  }

  /** The hyphen before a year always has text on both sides. */
  lemma YearDashInside(name: string)
    requires FirstDashWithYear(name, 1).Some?
    ensures ParseName(name).artist.Some?
    ensures 1 <= FirstDashWithYear(name, 1).value < |name| - 1
    ensures name[FirstDashWithYear(name, 1).value] == '-'
  {
    var i := FirstDashWithYear(name, 1).value;
    var q := YearParen(name[i + 1..]).value;
    assert |name[i + 1..]| >= q + 6;
  }

  lemma DashArtistIff(name: string)
    requires FirstDashWithYear(name, 1).None?
    ensures ParseName(name).artist.Some? <==>
      exists i, x :: 0 <= i < x < |name| && name[i] == '-' && name[x] != '\n' && Lead(name, 0, i)
  {
    var d := FirstLeadDash(name, 1);
    assert ParseName(name) == DashGroups(name);
    if i, x :| 0 <= i < x < |name| && name[i] == '-' && name[x] != '\n' && Lead(name, 0, i) {
      assert LeadDash(name, i);
      assert d.Some? && d.value <= i;
      assert HasText(name, d.value + 1);
    }
  }

  /** A name without a hyphen is all album. */
  lemma NoDashAlbumOnly(name: string)
    requires '-' !in name
    ensures ParseName(name) == AlbumInfo(Some(name), None, None)
  {
    if FirstDashWithYear(name, 1).Some? {
      assert false;
    }
    if FirstLeadDash(name, 1).Some? {
      assert false;
    }
  }

  /** Without an artist the album is the whole directory name. */
  lemma ParseNameAlbumOnly(name: string)
    requires ParseName(name).artist.None?
    ensures ParseName(name) == AlbumInfo(Some(name), None, None)
  {
  }

  /** A string with blanks only. */
  predicate Blank(s: string) {
    forall i :: 0 <= i < |s| ==> IsSpace(s[i])
  }

  /** A string that `strip()` leaves alone. */
  predicate Trimmed(s: string) {
    |s| > 0 && !IsSpace(s[0]) && !IsSpace(s[|s| - 1])
  }

  lemma {:induction false} StripLeftBlank(w: string, x: string)
    requires Blank(w) && (|x| == 0 || !IsSpace(x[0]))
    ensures StripLeft(w + x) == x
    decreases |w|
  {
    if |w| > 0 {
      assert (w + x)[1..] == w[1..] + x;
      StripLeftBlank(w[1..], x);
    }
  }

  lemma {:induction false} StripRightBlank(x: string, w: string)
    requires Blank(w) && (|x| == 0 || !IsSpace(x[|x| - 1]))
    ensures StripRight(x + w) == x
    decreases |w|
  {
    if |w| > 0 {
      assert (x + w)[..|x + w| - 1] == x + w[..|w| - 1];
      StripRightBlank(x, w[..|w| - 1]);
    } else {
      assert x + w == x;
    }
  }

  /** Blanks around a trimmed string are exactly what `strip()` removes. */
  lemma StripAround(w: string, x: string, w': string)
    requires Blank(w) && Blank(w') && Trimmed(x)
    ensures Strip(w + x + w') == x
  {
    assert w + x + w' == w + (x + w');
    StripLeftBlank(w, x + w');
    StripRightBlank(x, w');
  }

  /** The remainder ` Album (Year)` puts its parenthesis right after the album. */
  lemma StandardTail(b: string, y: string)
    requires Trimmed(b) && '(' !in b && NoNewline(b) && |y| == 4 && AllDigits(y)
    ensures YearParen(" " + b + " (" + y + ")") == Some(|b| + 2)
  {
    var t := " " + b + " (" + y + ")";
    var p := |b| + 2;
    assert t[p + 1..p + 5] == y;
    assert YearAt(t, p);
    forall q | 1 <= q < p
      ensures !YearAt(t, q)
    {
      if q < p - 1 {
        assert t[q] == b[q - 1];
      }
    }
    assert IsSpace(t[0]) && t[1] == b[0];
    assert SpaceRun(t, 1) == 0;
    assert SpaceRun(t, 0) == 1;
    assert t[1..p - 1] == b;
    assert Blank(t[p - 1..p]);
    assert Lead(t, 1, p);
    var r := FirstYearLead(t, 1, 2);
    assert r.Some? && r.value == p;
  }

  /** In `a + " - " + rest` with a hyphen-free `a`, the first hyphen after
      the first character is the separator. */
  lemma SeparatorIsFirstDash(a: string, rest: string)
    requires |a| > 0 && '-' !in a
    ensures forall j :: 1 <= j < |a| + 1 ==> (a + " - " + rest)[j] != '-'
    ensures (a + " - " + rest)[|a| + 1] == '-'
  {
    var name := a + " - " + rest;
    forall j | 1 <= j < |a| + 1
      ensures name[j] != '-'
    {
      if j < |a| {
        assert name[j] == a[j];
      }
    }
  }

  /** The artist group reaches the separator of `a + " - " + rest`. */
  lemma ArtistLead(a: string, rest: string)
    requires |a| > 0 && NoNewline(a)
    ensures Lead(a + " - " + rest, 0, |a| + 1)
  {
    var name := a + " - " + rest;
    assert name[0..|a|] == a;
    assert Blank(name[|a|..|a| + 1]);
  }

  /** The artist group of `a + " - " + rest` strips to `a`. */
  lemma ArtistPart(a: string, rest: string)
    requires Trimmed(a)
    ensures Strip((a + " - " + rest)[..|a| + 1]) == a
  {
    assert (a + " - " + rest)[..|a| + 1] == "" + a + " ";
    StripAround("", a, " ");
  }

  /** `Artist - Album (Year)` with a hyphen-free artist and a
      parenthesis-free album is read back as those three parts. */
  lemma ParseNameWithYear(a: string, b: string, y: string)
    requires Trimmed(a) && Trimmed(b) && '-' !in a && '(' !in b && NoNewline(a) && NoNewline(b)
    requires |y| == 4 && AllDigits(y)
    ensures ParseName(a + " - " + b + " (" + y + ")") == AlbumInfo(Some(b), Some(a), Some(y))
  {
    var rest := " " + b + " (" + y + ")";
    var name := a + " - " + rest[1..];
    assert name == a + " - " + b + " (" + y + ")";
    var i := |a| + 1;
    assert name[i + 1..] == rest;
    StandardTail(b, y);
    SeparatorIsFirstDash(a, rest[1..]);
    ArtistLead(a, rest[1..]);
    NoDashWithYear(name, 1, i);
    assert FirstDashWithYear(name, 1) == Some(i);
    assert ParseName(name) == YearGroups(name, i, |b| + 2);
    StandardGroups(a, b, y);
  }

  /** The groups of `Artist - Album (Year)` with the hyphen and the
      parenthesis where that name puts them. */
  lemma StandardGroups(a: string, b: string, y: string)
    requires Trimmed(a) && Trimmed(b) && |y| == 4 && AllDigits(y)
    ensures YearAt((a + " - " + b + " (" + y + ")")[|a| + 2..], |b| + 2)
    ensures YearGroups(a + " - " + b + " (" + y + ")", |a| + 1, |b| + 2)
      == AlbumInfo(Some(b), Some(a), Some(y))
  {
    var rest := " " + b + " (" + y + ")";
    var name := a + " - " + rest[1..];
    assert name == a + " - " + b + " (" + y + ")";
    assert name[|a| + 2..] == rest;
    assert rest[|b| + 3..|b| + 7] == y;
    ArtistPart(a, rest[1..]);
    assert rest[..|b| + 2] == " " + b + " ";
    StripAround(" ", b, " ");
  }

  /** A name without a parenthesis has no year. */
  lemma NoParenNoYear(name: string, k: nat)
    requires '(' !in name
    ensures FirstDashWithYear(name, k).None?
  {
    if FirstDashWithYear(name, k).Some? {
      assert false;
    }
  }

  lemma ParenFree(a: string, b: string)
    requires '(' !in a && '(' !in b
    ensures '(' !in a + " - " + b
  {
    var name := a + " - " + b;
    forall j | 0 <= j < |name|
      ensures name[j] != '('
    {
      if j < |a| {
        assert name[j] == a[j];
      } else if j >= |a| + 3 {
        assert name[j] == b[j - |a| - 3];
      }
    }
  }

  /** `Artist - Album` with a hyphen-free artist and no parenthesis anywhere
      is split at the hyphen. */
  lemma ParseNameWithoutYear(a: string, b: string)
    requires Trimmed(a) && Trimmed(b) && '-' !in a && '(' !in a && '(' !in b && NoNewline(a) && NoNewline(b)
    ensures ParseName(a + " - " + b) == AlbumInfo(Some(b), Some(a), None)
  {
    var name := a + " - " + b;
    var i := |a| + 1;
    WithoutYearGroups(a, b);
    assert ParseName(name) == AlbumInfo(Some(LineGroup(name[i + 1..])), Some(Strip(name[..i])), None) by {
      DashGroupsAt(name, i);
    }
  }

  /** The facts `ParseNameWithoutYear` combines. */
  lemma WithoutYearGroups(a: string, b: string)
    requires Trimmed(a) && Trimmed(b) && '-' !in a && '(' !in a && '(' !in b && NoNewline(a) && NoNewline(b)
    ensures FirstDashWithYear(a + " - " + b, 1).None?
    ensures FirstLeadDash(a + " - " + b, 1) == Some(|a| + 1) && HasText(a + " - " + b, |a| + 2)
    ensures Strip((a + " - " + b)[..|a| + 1]) == a
    ensures LineGroup((a + " - " + b)[|a| + 2..]) == b
  {
    WithoutYearNoYear(a, b);
    SeparatorReached(a, b);
    ArtistPart(a, b);
    WithoutYearAlbum(a, b);
  }

  lemma WithoutYearNoYear(a: string, b: string)
    requires '(' !in a && '(' !in b
    ensures FirstDashWithYear(a + " - " + b, 1).None?
  {
    ParenFree(a, b);
    NoParenNoYear(a + " - " + b, 1);
  }

  lemma WithoutYearAlbum(a: string, b: string)
    requires Trimmed(b) && NoNewline(b)
    ensures LineGroup((a + " - " + b)[|a| + 2..]) == b
  {
    assert (a + " - " + b)[|a| + 2..] == " " + b;
    PlainAlbum(b);
  }

  /** The groups of `Artist - Album` once the artist group's hyphen is known. */
  lemma DashGroupsAt(name: string, i: nat)
    requires FirstDashWithYear(name, 1).None?
    requires FirstLeadDash(name, 1) == Some(i) && HasText(name, i + 1)
    ensures ParseName(name) == AlbumInfo(Some(LineGroup(name[i + 1..])), Some(Strip(name[..i])), None)
  {
  }

  /** The artist group of `a + " - " + b` stops at the separator, and the
      album group has text after it. */
  lemma SeparatorReached(a: string, b: string)
    requires Trimmed(a) && Trimmed(b) && '-' !in a && NoNewline(a)
    ensures FirstLeadDash(a + " - " + b, 1) == Some(|a| + 1)
    ensures HasText(a + " - " + b, |a| + 2)
  {
    var name := a + " - " + b;
    var i := |a| + 1;
    SeparatorIsFirstDash(a, b);
    ArtistLead(a, b);
    assert LeadDash(name, i);
    assert name[i + 2] == b[0];
  }

  /** The album group of ` b` is `b` when `b` is trimmed and holds no newline. */
  lemma PlainAlbum(b: string)
    requires Trimmed(b) && NoNewline(b)
    ensures LineGroup(" " + b) == b
  {
    var t := " " + b;
    assert SpaceRun(t, 0) == 1 by {
      assert t[1] == b[0];
      assert SpaceRun(t, 1) == 0;
    }
    assert t[1..] == b;
    LineEndNoNewline(t, 1);
    assert Strip(b) == b by {
      StripAround("", b, "");
      assert "" + b + "" == b;
    }
  }

  /** A greedy `.+` with no newline ahead runs to the end. */
  lemma LineEndNoNewline(t: string, k: nat)
    requires k <= |t| && NoNewline(t[k..])
    ensures LineEnd(t, k) == |t|
  {
  }

  /** The names the program's own examples use. */
  lemma ParseNameWithYearExample(name: string)
    requires name == "Miles Davis - Kind of Blue (1959)"
    ensures ParseName(name) == AlbumInfo(Some("Kind of Blue"), Some("Miles Davis"), Some("1959"))
  {
    MilesParts();
    ParseNameWithYear("Miles Davis", "Kind of Blue", "1959");
  }

  lemma MilesParts()
    ensures Trimmed("Miles Davis") && Trimmed("Kind of Blue")
    ensures '-' !in "Miles Davis" && '(' !in "Kind of Blue"
    ensures NoNewline("Miles Davis") && NoNewline("Kind of Blue")
    ensures AllDigits("1959")
    ensures "Miles Davis" + " - " + "Kind of Blue" + " (" + "1959" + ")" == "Miles Davis - Kind of Blue (1959)"
  {
  }

  lemma ParseNameWithoutYearExample(name: string)
    requires name == "The Beatles - Abbey Road"
    ensures ParseName(name) == AlbumInfo(Some("Abbey Road"), Some("The Beatles"), None)
  {
    assert Trimmed("The Beatles") && Trimmed("Abbey Road");
    assert '-' !in "The Beatles";
    assert '(' !in "The Beatles" && '(' !in "Abbey Road";
    assert NoNewline("The Beatles") && NoNewline("Abbey Road");
    assert "The Beatles" + " - " + "Abbey Road" == name;
    ParseNameWithoutYear("The Beatles", "Abbey Road");
  }

  /** A newline inside the artist stops both patterns, since `.` never
      matches it: the whole name is the album. */
  lemma NewlineInArtistExample(name: string)
    requires name == "a\nb - c"
    ensures ParseName(name) == AlbumInfo(Some(name), None, None)
  {
    forall i | 0 <= i < |name| && name[i] == '-'
      ensures !Lead(name, 0, i)
    {
      assert i == 4;
      forall e | 0 < e <= i
        ensures !(NoNewline(name[0..e]) && Blank(name[e..i]))
      {
        if e >= 2 {
          assert name[0..e][1] == '\n';
        } else if i >= 3 {
          assert name[e..i][2 - e] == 'b';
        }
      }
    }
    assert FirstLeadDash(name, 1).None?;
    if FirstDashWithYear(name, 1).Some? {
      assert false;
    }
  }

  /** A newline inside the album ends the album group. */
  lemma NewlineInAlbumExample(name: string)
    requires name == "A - B\nC"
    ensures ParseName(name) == AlbumInfo(Some("B"), Some("A"), None)
  {
    assert '(' !in name;
    NoParenNoYear(name, 1);
    assert name[0..1] == "A" && Blank(name[1..2]);
    assert LeadDash(name, 2);
    assert FirstLeadDash(name, 1) == Some(2);
    assert name[4] == 'B';
    assert HasText(name, 3);
    var t := name[3..];
    assert t == " B\nC";
    assert SpaceRun(t, 1) == 0;
    assert SpaceRun(t, 0) == 1;
    assert LineEnd(t, 2) == 2;
    assert LineEnd(t, 1) == 2;
    assert t[1..2] == "B";
    assert Strip(name[..2]) == "A" by {
      assert name[..2] == "" + "A" + " ";
      StripAround("", "A", " ");
    }
    assert Strip("B") == "B" by {
      StripAround("", "B", "");
      assert "" + "B" + "" == "B";
    }
  }

  lemma ParseNameAlbumOnlyExample(name: string)
    requires name == "Some Album Name"
    ensures ParseName(name) == AlbumInfo(Some(name), None, None)
  {
    assert '-' !in name;
    NoDashAlbumOnly(name);
  }

  /** A FLAC tag block: each key maps to the list of its values. */
  type Tags = map<string, seq<string>>

  /** `audio[key][0]` when the key is present; `Failure` is the
      `IndexError` of an empty list. */
  function FirstTag(tags: Tags, key: string): Result<Option<string>, string> {
    if key !in tags then Success(None)
    else if |tags[key]| == 0 then Failure("list index out of range")
    else Success(Some(tags[key][0]))
  }

  /** `v[:n]`. */
  function Prefix(v: string, n: nat): (r: string)
    ensures |r| <= n && r <= v
  {
    if |v| <= n then v else v[..n]
  }

  /** The tag fill-in: artist, album, then year (the date's first four
      characters) are taken from the first file where the name left them
      empty. An empty tag list raises, and the bare `except` keeps what
      was filled before it. */
  function FillFromTags(info: AlbumInfo, tags: Tags): (r: AlbumInfo)
    ensures !Falsy(info.artist) ==> r.artist == info.artist
    ensures !Falsy(info.album) ==> r.album == info.album
    ensures !Falsy(info.year) ==> r.year == info.year
    ensures r.year != info.year ==> r.year.Some? && |r.year.value| <= 4
  {
    var a := if Falsy(info.artist) then FirstTag(tags, "artist") else Success(None);
    if a.Failure? then info
    else
      var i1 := if a.value.Some? then info.(artist := a.value) else info;
      var b := if Falsy(i1.album) then FirstTag(tags, "album") else Success(None);
      if b.Failure? then i1
      else
        var i2 := if b.value.Some? then i1.(album := b.value) else i1;
        var c := if Falsy(i2.year) then FirstTag(tags, "date") else Success(None);
        if c.Failure? then i2
        else if c.value.Some? then i2.(year := Some(Prefix(c.value.value, 4))) else i2
  }

  /** The album key the search uses: the name parse, then the first
      music file's tags when that file is a FLAC file that opens. `tags`
      holds the tag blocks of the FLAC files that open. */
  function ExtractAlbumInfo(albumPath: string, files: seq<string>, tags: map<string, Tags>): (r: AlbumInfo)
    ensures !Falsy(ParseName(Name(albumPath)).artist) ==> r.artist == ParseName(Name(albumPath)).artist
    ensures !Falsy(ParseName(Name(albumPath)).album) ==> r.album == ParseName(Name(albumPath)).album
  {
    var info := ParseName(Name(albumPath));
    if |files| > 0 && Ext(files[0]) == ".flac" && files[0] in tags then FillFromTags(info, tags[files[0]])
    else info
  }

  /** With no empty tag list the fill-in takes each missing field from the
      tags, the year shortened to four characters. */
  lemma FillFromTagsFills(info: AlbumInfo, tags: Tags)
    requires forall k | k in tags :: |tags[k]| > 0
    ensures Falsy(info.artist) && "artist" in tags ==> FillFromTags(info, tags).artist == Some(tags["artist"][0])
    ensures Falsy(info.album) && "album" in tags ==> FillFromTags(info, tags).album == Some(tags["album"][0])
    ensures Falsy(info.year) && "date" in tags ==> FillFromTags(info, tags).year == Some(Prefix(tags["date"][0], 4))
  {
  }

  /** An empty artist list stops the fill-in before anything is taken. */
  lemma FillFromTagsStopsAtEmptyList(info: AlbumInfo, tags: Tags)
    requires Falsy(info.artist) && "artist" in tags && |tags["artist"]| == 0
    ensures FillFromTags(info, tags) == info
  {
  }

  // ---------------------------------------------------------------------
  // _extract_track_number
  // ---------------------------------------------------------------------

  /** `c` matches the lower-case pattern letter `x` under `re.IGNORECASE`:
      either ASCII case, and for `k` also the Kelvin sign, which folds to it. */
  predicate FoldsTo(c: char, x: char) {
    LowerChar(c) == x || (x == 'k' && c == '\U{212A}')
  }

  /** `track` matches at `k`, ignoring case. */
  predicate TrackWordAt(s: string, k: nat) {
    k + 5 <= |s| && FoldsTo(s[k], 't') && FoldsTo(s[k + 1], 'r') && FoldsTo(s[k + 2], 'a')
    && FoldsTo(s[k + 3], 'c') && FoldsTo(s[k + 4], 'k')
  }

  /** `^(\d+)\s*[-.]`: the digits that open the name, when blanks and then a
      hyphen or a dot follow them. */
  function LeadingNumber(s: string): (r: Option<string>)
    ensures r.Some? ==> |r.value| >= 1 && AllDigits(r.value) && StartsWith(s, r.value)
  {
    var d := DigitRun(s, 0);
    var w := SpaceRun(s, d);
    if d >= 1 && d + w < |s| && (s[d + w] == '-' || s[d + w] == '.') then Some(s[..d]) else None
  }

  /** `track\s*(\d+)` searched from `k`: the digits after the leftmost
      `track` that blanks and at least one digit follow. */
  function TrackWordNumber(s: string, k: nat): (r: Option<string>)
    ensures r.Some? ==> |r.value| >= 1 && AllDigits(r.value)
    decreases |s| - k
  {
    if k + 5 > |s| then None
    else
      var j := k + 5 + SpaceRun(s, k + 5);
      if TrackWordAt(s, k) && DigitRun(s, j) >= 1 then Some(s[j..j + DigitRun(s, j)])
      else TrackWordNumber(s, k + 1)
  }

  /** `_(\d+)_` searched from `k`: the leftmost digits enclosed in underscores. */
  function UnderscoreNumber(s: string, k: nat): (r: Option<string>)
    ensures r.Some? ==> |r.value| >= 1 && AllDigits(r.value)
    decreases |s| - k
  {
    if k >= |s| then None
    else
      var d := DigitRun(s, k + 1);
      if s[k] == '_' && d >= 1 && k + 1 + d < |s| && s[k + 1 + d] == '_' then Some(s[k + 1..k + 1 + d])
      else UnderscoreNumber(s, k + 1)
  }

  /** The digits the first matching pattern captures, in the order the
      program tries them. */
  function NumberGroup(stem: string): (r: Option<string>)
    ensures r.Some? ==> |r.value| >= 1 && AllDigits(r.value)
  {
    if LeadingNumber(stem).Some? then LeadingNumber(stem)
    else if TrackWordNumber(stem, 0).Some? then TrackWordNumber(stem, 0)
    else UnderscoreNumber(stem, 0)
  }

  /** `s.lstrip('0')`. */
  function StripZeros(s: string): (r: string)
    ensures |r| <= |s| && r == s[|s| - |r|..]
    ensures |r| == 0 || r[0] != '0'
    ensures forall i :: 0 <= i < |s| - |r| ==> s[i] == '0'
  {
    if |s| > 0 && s[0] == '0' then StripZeros(s[1..]) else s
  }

  /** `digits.lstrip('0') or '0'`. */
  function TrackDigits(d: string): string {
    var z := StripZeros(d);
    if z == "" then "0" else z
  }

  /** The track number of a file, read from its stem. */
  function TrackNumber(path: string): (r: Option<string>)
    ensures r.Some? ==> NumberGroup(Stem(path)).Some?
    ensures r.None? <==> NumberGroup(Stem(path)).None?
  {
    match NumberGroup(Stem(path))
    case Some(g) => Some(TrackDigits(g))
    case None => None
  }

  lemma DigitCharValue(c: char)
    requires IsDigit(c)
    ensures DigitChar(DigitValue(c)) == c
  {
  }

  /** A leading zero does not change a number's value. */
  lemma {:induction false} ParseNatLeadingZero(s: string)
    requires |s| >= 2 && AllDigits(s) && s[0] == '0'
    ensures ParseNat(s) == ParseNat(s[1..])
    decreases |s|
  {
    var init := s[..|s| - 1];
    if |s| > 2 {
      ParseNatLeadingZero(init);
      assert init[1..] == s[1..][..|s| - 2];
    }
  }

  /** A string of zeros is worth zero. */
  lemma {:induction false} ParseNatZeros(s: string)
    requires |s| >= 1 && forall i :: 0 <= i < |s| ==> s[i] == '0'
    ensures ParseNat(s) == 0
    decreases |s|
  {
    if |s| > 1 {
      ParseNatZeros(s[..|s| - 1]);
    }
  }

  /** Stripping zeros keeps the value. */
  lemma {:induction false} ParseNatStripZeros(s: string)
    requires |s| >= 1 && AllDigits(s) && StripZeros(s) != ""
    ensures ParseNat(StripZeros(s)) == ParseNat(s)
    decreases |s|
  {
    if s[0] == '0' {
      ParseNatLeadingZero(s);
      ParseNatStripZeros(s[1..]);
    }
  }

  /** Digits that do not open with a zero are worth at least one. */
  lemma {:induction false} ParseNatPositive(s: string)
    requires |s| >= 1 && AllDigits(s) && s[0] != '0'
    ensures ParseNat(s) >= 1
    decreases |s|
  {
    if |s| > 1 {
      ParseNatPositive(s[..|s| - 1]);
    }
  }

  /** Digits without a leading zero are `str` of their value. */
  lemma {:induction false} NatToStringParseNat(s: string)
    requires |s| >= 1 && AllDigits(s) && (|s| > 1 ==> s[0] != '0')
    ensures NatToString(ParseNat(s)) == s
    decreases |s|
  {
    if |s| == 1 {
      DigitCharValue(s[0]);
    } else {
      var init := s[..|s| - 1];
      var n := ParseNat(s);
      ParseNatPositive(init);
      NatToStringParseNat(init);
      DigitCharValue(s[|s| - 1]);
      assert n / 10 == ParseNat(init) && n % 10 == DigitValue(s[|s| - 1]);
      assert s == init + [s[|s| - 1]];
    }
  }

  /** `lstrip('0') or '0'` is `str(int(digits))`: the track number is the
      captured number in canonical decimal form. */
  lemma TrackDigitsIsDecimal(d: string)
    requires |d| >= 1 && AllDigits(d)
    ensures TrackDigits(d) == NatToString(ParseNat(d))
  {
    var z := StripZeros(d);
    if z == "" {
      ParseNatZeros(d);
    } else {
      ParseNatStripZeros(d);
      assert AllDigits(z) by {
        assert forall i | 0 <= i < |z| :: z[i] == d[|d| - |z| + i];
      }
      NatToStringParseNat(z);
    }
  }

  /** A reported track number is the captured number without leading zeros. */
  lemma TrackNumberValue(path: string)
    requires TrackNumber(path).Some?
    ensures TrackNumber(path).value == NatToString(ParseNat(NumberGroup(Stem(path)).value))
  {
    TrackDigitsIsDecimal(NumberGroup(Stem(path)).value);
  }

  /** The first pattern wins whenever it matches. */
  lemma LeadingNumberFirst(path: string)
    requires LeadingNumber(Stem(path)).Some?
    ensures TrackNumber(path) == Some(TrackDigits(LeadingNumber(Stem(path)).value))
  {
  }

  /** Leading zeros go, a lone zero stays. */
  lemma TrackDigitsDropsZero(d: string)
    requires |d| == 2 && d[0] == '0' && IsDigit(d[1]) && d[1] != '0'
    ensures TrackDigits(d) == [d[1]]
  {
    assert d[1..] == [d[1]];
  }

  lemma TrackDigitsKeepsLoneZero(d: string)
    requires d == "00"
    ensures TrackDigits(d) == "0"
  {
    assert d[1..][1..] == "";
  }

  /** The program's own file-name examples. */
  lemma TrackNumberDashExample(stem: string)
    requires stem == "01 - Track Title"
    ensures NumberGroup(stem) == Some("01") && TrackDigits("01") == "1"
  {
    TrackDigitsDropsZero("01");
    LeadingTwoDigits(stem);
    assert SpaceRun(stem, 3) == 0;
    assert SpaceRun(stem, 2) == 1;
  }

  /** A stem opening with `01` and then a non-digit has the two-digit run `01`. */
  lemma LeadingTwoDigits(stem: string)
    requires |stem| > 2 && stem[..2] == "01" && !IsDigit(stem[2])
    ensures DigitRun(stem, 0) == 2 && stem[..DigitRun(stem, 0)] == "01"
  {
    assert DigitRun(stem, 2) == 0;
    assert DigitRun(stem, 1) == 1;
  }

  lemma TrackNumberDotExample(stem: string)
    requires stem == "01. Track Title"
    ensures NumberGroup(stem) == Some("01") && TrackDigits("01") == "1"
  {
    TrackDigitsDropsZero("01");
    LeadingTwoDigits(stem);
    assert SpaceRun(stem, 2) == 0;
  }

  lemma TrackNumberWordExample(stem: string)
    requires stem == "Track 01"
    ensures NumberGroup(stem) == Some("01") && TrackDigits("01") == "1"
  {
    TrackDigitsDropsZero("01");
    assert DigitRun(stem, 0) == 0;
    assert TrackWordAt(stem, 0);
    assert SpaceRun(stem, 6) == 0;
    assert SpaceRun(stem, 5) == 1;
    assert DigitRun(stem, 8) == 0;
    assert DigitRun(stem, 7) == 1;
    assert DigitRun(stem, 6) == 2;
    assert stem[6..8] == "01";
  }

  lemma TrackNumberLeadingZerosExample(stem: string)
    requires stem == "05 - Track"
    ensures NumberGroup(stem) == Some("05") && TrackDigits("05") == "5"
  {
    TrackDigitsDropsZero("05");
    assert DigitRun(stem, 2) == 0;
    assert DigitRun(stem, 1) == 1;
    assert DigitRun(stem, 0) == 2;
    assert SpaceRun(stem, 3) == 0;
    assert SpaceRun(stem, 2) == 1;
    assert stem[..2] == [stem[0], stem[1]];
  }

  /** A name without digits has no track number. */
  lemma NoDigitsNoNumber(stem: string)
    requires forall i :: 0 <= i < |stem| ==> !IsDigit(stem[i])
    ensures NumberGroup(stem).None?
  {
    NoDigitsNoTrackWord(stem, 0);
    NoDigitsNoUnderscore(stem, 0);
  }

  lemma {:induction false} NoDigitsNoTrackWord(s: string, k: nat)
    requires forall i :: 0 <= i < |s| ==> !IsDigit(s[i])
    ensures TrackWordNumber(s, k).None?
    decreases |s| - k
  {
    if k + 5 <= |s| {
      NoDigitsNoTrackWord(s, k + 1);
    }
  }

  lemma {:induction false} NoDigitsNoUnderscore(s: string, k: nat)
    requires forall i :: 0 <= i < |s| ==> !IsDigit(s[i])
    ensures UnderscoreNumber(s, k).None?
    decreases |s| - k
  {
    if k < |s| {
      NoDigitsNoUnderscore(s, k + 1);
    }
  }

  lemma TrackNumberNoMatchExample(stem: string)
    requires stem == "Some Title"
    ensures NumberGroup(stem).None?
  {
    NoDigitsNoNumber(stem);
  }

  // ---------------------------------------------------------------------
  // Configuration and _search_album_metadata
  // ---------------------------------------------------------------------

  /** One track of a catalogue answer; `number` is already `str(...)` of
      the service's position field. */
  datatype Track = Track(number: string, title: string)

  /** A catalogue answer. It is a non-empty dict in the program, so it is
      always truthy. */
  datatype Metadata = Metadata(
    artist: Option<string>,
    album: Option<string>,
    date: Option<string>,
    recordLabel: Option<string>,
    catalogNumber: Option<string>,
    genre: Option<string>,
    tracks: seq<Track>)

  /** What each service's search produces for the album at hand when it is
      asked: `None` when it finds nothing or its request fails. */
  datatype Services = Services(musicbrainz: Option<Metadata>, discogs: Option<Metadata>)

  datatype Enricher = Enricher(sources: seq<string>, discogsToken: Option<string>, behavior: string)

  const DefaultSources: seq<string> := ["musicbrainz", "discogs"]

  /** The constructor: `sources or ['musicbrainz', 'discogs']`. */
  function NewEnricher(sources: Option<seq<string>>, discogsToken: Option<string>, behavior: string): (e: Enricher)
    ensures |e.sources| > 0
    ensures sources.Some? && |sources.value| > 0 ==> e.sources == sources.value
    ensures sources.None? || |sources.value| == 0 ==> e.sources == DefaultSources
    ensures e.discogsToken == discogsToken && e.behavior == behavior
  {
    var s := if sources.Some? && |sources.value| > 0 then sources.value else DefaultSources;
    Enricher(s, discogsToken, behavior)
  }

  /** A Discogs client exists when Discogs is a source and a token is given. */
  predicate HasDiscogsClient(e: Enricher) {
    "discogs" in e.sources && !Falsy(e.discogsToken)
  }

  /** `_search_musicbrainz` / `_search_discogs`: nothing is asked without
      both an artist and an album. */
  function Ask(answer: Option<Metadata>, info: AlbumInfo): (r: Option<Metadata>)
    ensures r.Some? <==> answer.Some? && !Falsy(info.artist) && !Falsy(info.album)
  {
    if Falsy(info.artist) || Falsy(info.album) then None else answer
  }

  /** Whether the loop calls a search for `source`. */
  predicate Consultable(source: string, discogs: bool) {
    source == "musicbrainz" || (source == "discogs" && discogs)
  }

  /** What consulting `source` yields; `None` for a source the loop skips. */
  function Answer(source: string, discogs: bool, info: AlbumInfo, services: Services): Option<Metadata> {
    if source == "musicbrainz" then Ask(services.musicbrainz, info)
    else if source == "discogs" && discogs then Ask(services.discogs, info)
    else None
  }

  /** The sources of `sources` whose search is called, in order. */
  function ConsultableOf(sources: seq<string>, discogs: bool): (r: seq<string>)
    ensures |r| <= |sources|
    decreases |sources|
  {
    if |sources| == 0 then []
    else (if Consultable(sources[0], discogs) then [sources[0]] else []) + ConsultableOf(sources[1..], discogs)
  }

  /** A search's result and the sources whose search was called. */
  datatype SearchResult = SearchResult(found: Option<Metadata>, consulted: seq<string>)

  /** The loop of `_search_album_metadata`: the first truthy answer wins. */
  function SearchFrom(sources: seq<string>, discogs: bool, info: AlbumInfo, services: Services): (r: SearchResult)
    decreases |sources|
  {
    if |sources| == 0 then SearchResult(None, [])
    else if !Consultable(sources[0], discogs) then SearchFrom(sources[1..], discogs, info, services)
    else
      var a := Answer(sources[0], discogs, info, services);
      if a.Some? then SearchResult(a, [sources[0]])
      else
        var rest := SearchFrom(sources[1..], discogs, info, services);
        SearchResult(rest.found, [sources[0]] + rest.consulted)
  }

  function SearchAlbumMetadata(e: Enricher, info: AlbumInfo, services: Services): SearchResult {
    SearchFrom(e.sources, HasDiscogsClient(e), info, services)
  }

  /** Nothing is found exactly when no source answers; then every
      consultable source was consulted. */
  lemma {:induction false} SearchNothingIff(sources: seq<string>, discogs: bool, info: AlbumInfo, services: Services)
    ensures SearchFrom(sources, discogs, info, services).found.None? <==>
      forall k :: 0 <= k < |sources| ==> Answer(sources[k], discogs, info, services).None?
    ensures SearchFrom(sources, discogs, info, services).found.None? ==>
      SearchFrom(sources, discogs, info, services).consulted == ConsultableOf(sources, discogs)
    decreases |sources|
  {
    if |sources| > 0 {
      SearchNothingIff(sources[1..], discogs, info, services);
      assert forall k :: 1 <= k < |sources| ==> sources[k] == sources[1..][k - 1];
    }
  }

  /** A found answer is the first source's answer, and the sources
      consulted are exactly the consultable ones up to that source. */
  lemma SearchFindsFirst(sources: seq<string>, discogs: bool, info: AlbumInfo, services: Services)
    requires SearchFrom(sources, discogs, info, services).found.Some?
    ensures exists k :: (0 <= k < |sources|
      && SearchFrom(sources, discogs, info, services).found == Answer(sources[k], discogs, info, services)
      && (forall j :: 0 <= j < k ==> Answer(sources[j], discogs, info, services).None?)
      && SearchFrom(sources, discogs, info, services).consulted == ConsultableOf(sources[..k + 1], discogs))
  {
    var k := FirstAnswer(sources, discogs, info, services);
  }

  /** The source whose answer a search returns, found by induction over the list. */
  lemma {:induction false} FirstAnswer(sources: seq<string>, discogs: bool, info: AlbumInfo, services: Services) returns (k: nat)
    requires SearchFrom(sources, discogs, info, services).found.Some?
    ensures k < |sources|
    ensures SearchFrom(sources, discogs, info, services).found == Answer(sources[k], discogs, info, services)
    ensures forall j :: 0 <= j < k ==> Answer(sources[j], discogs, info, services).None?
    ensures SearchFrom(sources, discogs, info, services).consulted == ConsultableOf(sources[..k + 1], discogs)
    decreases |sources|
  {
    if Consultable(sources[0], discogs) && Answer(sources[0], discogs, info, services).Some? {
      k := 0;
      assert sources[..1][1..] == [];
    } else {
      var tail := sources[1..];
      var k' := FirstAnswer(tail, discogs, info, services);
      k := k' + 1;
      SearchSkipsHead(sources, discogs, info, services);
      assert sources[k] == tail[k'];
      assert sources[..k + 1][1..] == tail[..k' + 1];
      assert forall j :: 1 <= j < k ==> sources[j] == tail[j - 1];
    }
  }

  /** A head that does not answer leaves the search to the tail, after
      consulting the head if it is consultable. */
  lemma SearchSkipsHead(sources: seq<string>, discogs: bool, info: AlbumInfo, services: Services)
    requires |sources| > 0
    requires !(Consultable(sources[0], discogs) && Answer(sources[0], discogs, info, services).Some?)
    ensures Answer(sources[0], discogs, info, services).None?
    ensures SearchFrom(sources, discogs, info, services).found == SearchFrom(sources[1..], discogs, info, services).found
    ensures SearchFrom(sources, discogs, info, services).consulted
      == (if Consultable(sources[0], discogs) then [sources[0]] else []) + SearchFrom(sources[1..], discogs, info, services).consulted
  {
  }

  /** Only sources whose search the loop calls appear as consulted. */
  lemma {:induction false} SearchConsultsOnlyConsultable(sources: seq<string>, discogs: bool, info: AlbumInfo, services: Services)
    ensures forall c :: c in SearchFrom(sources, discogs, info, services).consulted ==> Consultable(c, discogs)
    decreases |sources|
  {
    if |sources| > 0 {
      SearchConsultsOnlyConsultable(sources[1..], discogs, info, services);
    }
  }

  /** When MusicBrainz comes first and answers, Discogs is never asked. */
  lemma MusicBrainzAnswerStopsSearch(e: Enricher, info: AlbumInfo, services: Services)
    requires e.sources == DefaultSources
    requires Ask(services.musicbrainz, info).Some?
    ensures SearchAlbumMetadata(e, info, services) == SearchResult(services.musicbrainz, ["musicbrainz"])
  {
  }

  /** Without a token, Discogs is never consulted. */
  lemma NoTokenNoDiscogs(e: Enricher, info: AlbumInfo, services: Services)
    requires Falsy(e.discogsToken)
    ensures "discogs" !in SearchAlbumMetadata(e, info, services).consulted
  {
    SearchConsultsOnlyConsultable(e.sources, HasDiscogsClient(e), info, services);
  }

  // ---------------------------------------------------------------------
  // _apply_metadata_to_flac
  // ---------------------------------------------------------------------

  /** The album-level fields, each under the tag it is written to. */
  function Fields(m: Metadata): (r: seq<(string, Option<string>)>)
    ensures |r| == 6
  {
    [("artist", m.artist), ("album", m.album), ("date", m.date),
     ("label", m.recordLabel), ("catalognumber", m.catalogNumber), ("genre", m.genre)]
  }

  /** The tag a field is written to. */
  function FieldKey(i: nat): string
    requires i < 6
  {
    ["artist", "album", "date", "label", "catalognumber", "genre"][i]
  }

  /** Every tag the enricher may write. */
  predicate Writable(key: string) {
    key in {"artist", "album", "date", "label", "catalognumber", "genre", "title", "tracknumber"}
  }

  /** `audio.get(key)`. */
  function TagValue(tags: Tags, key: string): Option<seq<string>> {
    if key in tags then Some(tags[key]) else None
  }

  /** What one tag holds after one write attempt: a truthy value replaces
      it when overwriting or when the tag is missing. */
  function Merged(before: Option<seq<string>>, v: Option<string>, overwrite: bool): Option<seq<string>> {
    if !Falsy(v) && (overwrite || before.None?) then Some([v.value]) else before
  }

  /** `audio[key] = v` when overwriting or when the tag is missing. */
  function Put(tags: Tags, key: string, v: string, overwrite: bool): Tags {
    if overwrite || key !in tags then tags[key := [v]] else tags
  }

  /** The six field writes, in order, skipping falsy values. */
  function PutFields(tags: Tags, fields: seq<(string, Option<string>)>, overwrite: bool): Tags
    decreases |fields|
  {
    if |fields| == 0 then tags
    else
      var t := if !Falsy(fields[0].1) then Put(tags, fields[0].0, fields[0].1.value, overwrite) else tags;
      PutFields(t, fields[1..], overwrite)
  }

  /** The first track whose number is `n`. */
  function MatchingTrack(tracks: seq<Track>, n: string): (r: Option<Track>)
    ensures r.Some? ==> r.value in tracks && r.value.number == n
    ensures r.None? ==> forall t :: t in tracks ==> t.number != n
    decreases |tracks|
  {
    if |tracks| == 0 then None
    else if tracks[0].number == n then Some(tracks[0])
    else MatchingTrack(tracks[1..], n)
  }

  /** The tag changes `_apply_metadata_to_flac` makes before saving: field
      writes under `overwrite` or `fill_missing`, then the title and track
      number of the first track whose number is the file's. Any other
      behaviour writes nothing. */
  function ApplyMetadata(behavior: string, tags: Tags, meta: Metadata, trackNum: Option<string>): Tags {
    if behavior != "overwrite" && behavior != "fill_missing" then tags
    else
      var overwrite := behavior == "overwrite";
      var t := PutFields(tags, Fields(meta), overwrite);
      if trackNum.Some? && trackNum.value != "" && |meta.tracks| > 0 then
        match MatchingTrack(meta.tracks, trackNum.value)
        case Some(track) => Put(Put(t, "title", track.title, overwrite), "tracknumber", trackNum.value, overwrite)
        case None => t
      else t
  }

  /** A tag no field names is left alone by the field writes. */
  lemma {:induction false} PutFieldsOther(tags: Tags, fields: seq<(string, Option<string>)>, overwrite: bool, key: string)
    requires forall i :: 0 <= i < |fields| ==> fields[i].0 != key
    ensures TagValue(PutFields(tags, fields, overwrite), key) == TagValue(tags, key)
    decreases |fields|
  {
    if |fields| > 0 {
      var t := if !Falsy(fields[0].1) then Put(tags, fields[0].0, fields[0].1.value, overwrite) else tags;
      PutFieldsOther(t, fields[1..], overwrite, key);
    }
  }

  /** With distinct tag names, each field's tag ends as `Merged` says. */
  lemma {:induction false} PutFieldsField(tags: Tags, fields: seq<(string, Option<string>)>, overwrite: bool, i: nat)
    requires i < |fields|
    requires forall j, k :: 0 <= j < k < |fields| ==> fields[j].0 != fields[k].0
    ensures TagValue(PutFields(tags, fields, overwrite), fields[i].0)
      == Merged(TagValue(tags, fields[i].0), fields[i].1, overwrite)
    decreases |fields|
  {
    var t := if !Falsy(fields[0].1) then Put(tags, fields[0].0, fields[0].1.value, overwrite) else tags;
    if i == 0 {
      PutFieldsOther(t, fields[1..], overwrite, fields[0].0);
    } else {
      PutFieldsField(t, fields[1..], overwrite, i - 1);
      assert fields[1..][i - 1] == fields[i];
    }
  }

  /** The field writes never remove a tag. */
  lemma {:induction false} PutFieldsKeeps(tags: Tags, fields: seq<(string, Option<string>)>, overwrite: bool)
    ensures tags.Keys <= PutFields(tags, fields, overwrite).Keys
    decreases |fields|
  {
    if |fields| > 0 {
      var t := if !Falsy(fields[0].1) then Put(tags, fields[0].0, fields[0].1.value, overwrite) else tags;
      PutFieldsKeeps(t, fields[1..], overwrite);
    }
  }

  lemma FieldsDistinct(m: Metadata)
    ensures forall j, k :: 0 <= j < k < 6 ==> Fields(m)[j].0 != Fields(m)[k].0
    ensures forall j :: 0 <= j < 6 ==> Fields(m)[j].0 == FieldKey(j)
  {
  }

  /** Field `i` of the answer ends in its tag as `Merged` says. */
  lemma ApplyField(behavior: string, tags: Tags, meta: Metadata, trackNum: Option<string>, i: nat)
    requires behavior == "overwrite" || behavior == "fill_missing"
    requires i < 6
    ensures TagValue(ApplyMetadata(behavior, tags, meta, trackNum), FieldKey(i))
      == Merged(TagValue(tags, FieldKey(i)), Fields(meta)[i].1, behavior == "overwrite")
  {
    FieldsDistinct(meta);
    PutFieldsField(tags, Fields(meta), behavior == "overwrite", i);
  }

  /** Only the eight writable tags can change, and no tag is removed. */
  lemma ApplyTouchesOnlyWritable(behavior: string, tags: Tags, meta: Metadata, trackNum: Option<string>, key: string)
    ensures tags.Keys <= ApplyMetadata(behavior, tags, meta, trackNum).Keys
    ensures !Writable(key) ==> TagValue(ApplyMetadata(behavior, tags, meta, trackNum), key) == TagValue(tags, key)
  {
    if behavior == "overwrite" || behavior == "fill_missing" {
      PutFieldsKeeps(tags, Fields(meta), behavior == "overwrite");
      if !Writable(key) {
        FieldsDistinct(meta);
        PutFieldsOther(tags, Fields(meta), behavior == "overwrite", key);
      }
    }
  }

  /** `fill_missing` never changes a tag the file already has. */
  lemma FillMissingKeepsExisting(tags: Tags, meta: Metadata, trackNum: Option<string>, key: string)
    requires key in tags
    ensures key in ApplyMetadata("fill_missing", tags, meta, trackNum)
    ensures ApplyMetadata("fill_missing", tags, meta, trackNum)[key] == tags[key]
  {
    FieldsDistinct(meta);
    var t := PutFields(tags, Fields(meta), false);
    PutFieldsKeeps(tags, Fields(meta), false);
    if i :| 0 <= i < 6 && Fields(meta)[i].0 == key {
      PutFieldsField(tags, Fields(meta), false, i);
    } else {
      PutFieldsOther(tags, Fields(meta), false, key);
    }
    assert TagValue(t, key) == TagValue(tags, key);
  }

  /** `overwrite` writes every truthy field. */
  lemma OverwriteWritesTruthyFields(tags: Tags, meta: Metadata, trackNum: Option<string>, i: nat)
    requires i < 6 && !Falsy(Fields(meta)[i].1)
    ensures TagValue(ApplyMetadata("overwrite", tags, meta, trackNum), FieldKey(i)) == Some([Fields(meta)[i].1.value])
  {
    ApplyField("overwrite", tags, meta, trackNum, i);
  }

  /** A falsy field never reaches the file. */
  lemma FalsyFieldNotWritten(behavior: string, tags: Tags, meta: Metadata, trackNum: Option<string>, i: nat)
    requires i < 6 && Falsy(Fields(meta)[i].1)
    ensures TagValue(ApplyMetadata(behavior, tags, meta, trackNum), FieldKey(i)) == TagValue(tags, FieldKey(i))
  {
    if behavior == "overwrite" || behavior == "fill_missing" {
      ApplyField(behavior, tags, meta, trackNum, i);
    }
  }

  /** A behaviour other than the two known ones writes nothing. */
  lemma UnknownBehaviorWritesNothing(behavior: string, tags: Tags, meta: Metadata, trackNum: Option<string>)
    requires behavior != "overwrite" && behavior != "fill_missing"
    ensures ApplyMetadata(behavior, tags, meta, trackNum) == tags
  {
  }

  /** Under `overwrite` the first track with the file's number gives the
      title, and the number itself is written. */
  lemma OverwriteWritesMatchingTrack(tags: Tags, meta: Metadata, n: string, track: Track)
    requires n != "" && MatchingTrack(meta.tracks, n) == Some(track)
    ensures ApplyMetadata("overwrite", tags, meta, Some(n))["title"] == [track.title]
    ensures ApplyMetadata("overwrite", tags, meta, Some(n))["tracknumber"] == [n]
  {
  }

  /** The track matched is the first one carrying the number. */
  lemma {:induction false} MatchingTrackIsFirst(tracks: seq<Track>, n: string)
    requires MatchingTrack(tracks, n).Some?
    ensures exists k :: (0 <= k < |tracks| && tracks[k] == MatchingTrack(tracks, n).value
      && forall j :: 0 <= j < k ==> tracks[j].number != n)
    decreases |tracks|
  {
    if tracks[0].number != n {
      MatchingTrackIsFirst(tracks[1..], n);
      var k :| 0 <= k < |tracks[1..]| && tracks[1..][k] == MatchingTrack(tracks[1..], n).value
        && forall j :: 0 <= j < k ==> tracks[1..][j].number != n;
      assert tracks[k + 1] == tracks[1..][k];
      assert forall j :: 1 <= j < k + 1 ==> tracks[j] == tracks[1..][j - 1];
    }
  }

  // ---------------------------------------------------------------------
  // enrich_album
  // ---------------------------------------------------------------------

  /** The FLAC files as the tag layer sees them: the tag block of each
      file that opens as FLAC, and the files whose save raises. */
  datatype Library = Library(tags: map<string, Tags>, unsaveable: set<string>)

  /** `_apply_metadata_to_flac` on one file: `false` when the file does not
      open or does not save, and then nothing is written. */
  function ApplyToFile(e: Enricher, lib: Library, path: string, meta: Metadata): (r: (bool, Library))
    ensures r.0 <==> path in lib.tags && path !in lib.unsaveable
    ensures r.1.tags.Keys == lib.tags.Keys && r.1.unsaveable == lib.unsaveable
    ensures forall f :: f in lib.tags && f != path ==> r.1.tags[f] == lib.tags[f]
  {
    if path !in lib.tags || path in lib.unsaveable then (false, lib)
    else (true, lib.(tags := lib.tags[path := ApplyMetadata(e.behavior, lib.tags[path], meta, TrackNumber(path))]))
  }

  /** The loop over the music files: FLAC files only, stopping at the
      first that fails. */
  function ApplyAll(e: Enricher, lib: Library, files: seq<string>, meta: Metadata): (r: (Outcome, Library))
    ensures r.1.tags.Keys == lib.tags.Keys && r.1.unsaveable == lib.unsaveable
    decreases |files|
  {
    if |files| == 0 then (Ok, lib)
    else if Ext(files[0]) != ".flac" then ApplyAll(e, lib, files[1..], meta)
    else
      var (ok, lib') := ApplyToFile(e, lib, files[0], meta);
      if !ok then (Fail("Failed to apply metadata to " + Name(files[0])), lib')
      else ApplyAll(e, lib', files[1..], meta)
  }

  /** `enrich_album`: the outcome and the tag blocks afterwards. */
  function EnrichAlbum(e: Enricher, albumPath: string, files: seq<string>, lib: Library, services: Services): (r: (Outcome, Library))
    ensures r.1.tags.Keys == lib.tags.Keys
  {
    var info := ExtractAlbumInfo(albumPath, files, lib.tags);
    var search := SearchAlbumMetadata(e, info, services);
    if search.found.None? then (Fail("No metadata found for album"), lib)
    else ApplyAll(e, lib, files, search.found.value)
  }

  /** A FLAC file in the list that cannot be opened or saved. */
  predicate Blocked(lib: Library, f: string) {
    Ext(f) == ".flac" && (f !in lib.tags || f in lib.unsaveable)
  }

  /** One step of the loop: a blocked head fails naming it; any other
      head hands the rest of the list a library with the same files. */
  lemma ApplyStep(e: Enricher, lib: Library, files: seq<string>, meta: Metadata) returns (lib': Library)
    requires |files| > 0
    ensures lib'.tags.Keys == lib.tags.Keys && lib'.unsaveable == lib.unsaveable
    ensures Blocked(lib, files[0]) ==> ApplyAll(e, lib, files, meta).0 == Fail("Failed to apply metadata to " + Name(files[0]))
    ensures !Blocked(lib, files[0]) ==> ApplyAll(e, lib, files, meta).0 == ApplyAll(e, lib', files[1..], meta).0
  {
    var r := ApplyToFile(e, lib, files[0], meta);
    lib' := if Ext(files[0]) != ".flac" then lib else r.1;
  }

  /** The loop succeeds exactly when no FLAC file in the list is blocked. */
  lemma {:induction false} ApplyAllOkIff(e: Enricher, lib: Library, files: seq<string>, meta: Metadata)
    ensures ApplyAll(e, lib, files, meta).0.Ok? <==> forall k :: 0 <= k < |files| ==> !Blocked(lib, files[k])
    decreases |files|
  {
    if |files| > 0 {
      var lib' := ApplyStep(e, lib, files, meta);
      ApplyAllOkIff(e, lib', files[1..], meta);
      SameBlocked(lib, lib');
      assert forall k :: 1 <= k < |files| ==> files[k] == files[1..][k - 1];
    }
  }

  /** A failure names the first blocked FLAC file. */
  lemma ApplyAllFailNamesFirst(e: Enricher, lib: Library, files: seq<string>, meta: Metadata)
    requires ApplyAll(e, lib, files, meta).0.Fail?
    ensures exists k :: (0 <= k < |files| && Blocked(lib, files[k])
      && (forall j :: 0 <= j < k ==> !Blocked(lib, files[j]))
      && ApplyAll(e, lib, files, meta).0 == Fail("Failed to apply metadata to " + Name(files[k])))
  {
    var k := FirstFailure(e, lib, files, meta);
  }

  /** The blocked file a failure names, found by induction over the list. */
  lemma {:induction false} FirstFailure(e: Enricher, lib: Library, files: seq<string>, meta: Metadata) returns (k: nat)
    requires ApplyAll(e, lib, files, meta).0.Fail?
    ensures k < |files| && Blocked(lib, files[k])
    ensures forall j :: 0 <= j < k ==> !Blocked(lib, files[j])
    ensures ApplyAll(e, lib, files, meta).0 == Fail("Failed to apply metadata to " + Name(files[k]))
    decreases |files|
  {
    var lib' := ApplyStep(e, lib, files, meta);
    if Blocked(lib, files[0]) {
      k := 0;
    } else {
      var k' := FirstFailure(e, lib', files[1..], meta);
      k := k' + 1;
      assert files[k] == files[1..][k'];
      ClearBeforeShift(lib, lib', files, k');
    }
  }

  /** The first blocked file of the tail, shifted past an unblocked head. */
  lemma ClearBeforeShift(lib: Library, lib': Library, files: seq<string>, k': nat)
    requires lib'.tags.Keys == lib.tags.Keys && lib'.unsaveable == lib.unsaveable
    requires |files| > 0 && !Blocked(lib, files[0]) && k' < |files| - 1
    requires forall j :: 0 <= j < k' ==> !Blocked(lib', files[1..][j])
    ensures forall j :: 0 <= j < k' + 1 ==> !Blocked(lib, files[j])
  {
    SameBlocked(lib, lib');
    forall j | 0 <= j < k' + 1 ensures !Blocked(lib, files[j]) {
      if j > 0 {
        assert files[j] == files[1..][j - 1];
      }
    }
  }

  /** Writing tags does not change which files are blocked. */
  lemma SameBlocked(lib: Library, lib': Library)
    requires lib'.tags.Keys == lib.tags.Keys && lib'.unsaveable == lib.unsaveable
    ensures forall g :: Blocked(lib', g) == Blocked(lib, g)
  {
  }

  /** Files that are not FLAC, or not in the list, keep their tags. */
  lemma {:induction false} ApplyAllLeavesOthers(e: Enricher, lib: Library, files: seq<string>, meta: Metadata, f: string)
    requires f in lib.tags && (f !in files || Ext(f) != ".flac")
    ensures ApplyAll(e, lib, files, meta).1.tags[f] == lib.tags[f]
    decreases |files|
  {
    if |files| > 0 {
      var r := ApplyToFile(e, lib, files[0], meta);
      if Ext(files[0]) != ".flac" {
        ApplyAllLeavesOthers(e, lib, files[1..], meta, f);
      } else if r.0 {
        ApplyAllLeavesOthers(e, r.1, files[1..], meta, f);
      }
    }
  }

  /** Under `fill_missing`, no file loses or changes a tag it had. */
  lemma {:induction false} ApplyAllFillMissingKeeps(e: Enricher, lib: Library, files: seq<string>, meta: Metadata, f: string, key: string)
    requires e.behavior == "fill_missing"
    requires f in lib.tags && key in lib.tags[f]
    ensures key in ApplyAll(e, lib, files, meta).1.tags[f]
    ensures ApplyAll(e, lib, files, meta).1.tags[f][key] == lib.tags[f][key]
    decreases |files|
  {
    if |files| > 0 {
      var r := ApplyToFile(e, lib, files[0], meta);
      if Ext(files[0]) != ".flac" {
        ApplyAllFillMissingKeeps(e, lib, files[1..], meta, f, key);
      } else if r.0 {
        if f == files[0] {
          FillMissingKeepsExisting(lib.tags[f], meta, TrackNumber(f), key);
        }
        ApplyAllFillMissingKeeps(e, r.1, files[1..], meta, f, key);
      }
    }
  }

  /** Without an answer nothing is written and the album fails. */
  lemma EnrichWithoutAnswer(e: Enricher, albumPath: string, files: seq<string>, lib: Library, services: Services)
    requires services.musicbrainz.None? && services.discogs.None?
    ensures EnrichAlbum(e, albumPath, files, lib, services) == (Fail("No metadata found for album"), lib)
  {
    var info := ExtractAlbumInfo(albumPath, files, lib.tags);
    SearchNothingIff(e.sources, HasDiscogsClient(e), info, services);
  }

  /** The album succeeds exactly when some source answers and no FLAC file
      in the list is blocked. */
  lemma EnrichOkIff(e: Enricher, albumPath: string, files: seq<string>, lib: Library, services: Services)
    ensures EnrichAlbum(e, albumPath, files, lib, services).0.Ok? <==>
      SearchAlbumMetadata(e, ExtractAlbumInfo(albumPath, files, lib.tags), services).found.Some?
      && forall k :: 0 <= k < |files| ==> !Blocked(lib, files[k])
  {
    var search := SearchAlbumMetadata(e, ExtractAlbumInfo(albumPath, files, lib.tags), services);
    if search.found.Some? {
      ApplyAllOkIff(e, lib, files, search.found.value);
    }
  }

  /** Enrichment under `fill_missing` never changes an existing tag. */
  lemma EnrichFillMissingKeeps(e: Enricher, albumPath: string, files: seq<string>, lib: Library, services: Services, f: string, key: string)
    requires e.behavior == "fill_missing"
    requires f in lib.tags && key in lib.tags[f]
    ensures key in EnrichAlbum(e, albumPath, files, lib, services).1.tags[f]
    ensures EnrichAlbum(e, albumPath, files, lib, services).1.tags[f][key] == lib.tags[f][key]
  {
    var search := SearchAlbumMetadata(e, ExtractAlbumInfo(albumPath, files, lib.tags), services);
    if search.found.Some? {
      ApplyAllFillMissingKeeps(e, lib, files, search.found.value, f, key);
    }
  }

  /** Enrichment touches only FLAC files of the list. */
  lemma EnrichLeavesOthers(e: Enricher, albumPath: string, files: seq<string>, lib: Library, services: Services, f: string)
    requires f in lib.tags && (f !in files || Ext(f) != ".flac")
    ensures EnrichAlbum(e, albumPath, files, lib, services).1.tags[f] == lib.tags[f]
  {
    var search := SearchAlbumMetadata(e, ExtractAlbumInfo(albumPath, files, lib.tags), services);
    if search.found.Some? {
      ApplyAllLeavesOthers(e, lib, files, search.found.value, f);
    }
  }
}

=== FILE: orchestrator.dfy ===
/** The per-album pipeline of `ConversionOrchestrator` (`src/main.py`):
    PREPARING, CONVERTING, ARCHIVING, FINALIZING, COMPLETED, with a failure
    stage for each of the first four. What the collaborators report (the
    disk check, the copies, each converter attempt, the archive copy, the
    move) is an input; what the orchestrator does is the list of `Event`s
    it issues, in order, and the boolean it returns. */
module Orchestrator {
  import opened Wrappers
  import opened Text
  import opened Paths
  import StateManager
  import Scanner
  import WorkingDirectory
  import AlbumMetadata
  import Hashing
  import FileSystem

  // ---------------------------------------------------------------------
  // Inputs
  // ---------------------------------------------------------------------

  /** The `processing.*` and path settings `_process_album` reads. */
  datatype Settings = Settings(
    maxRetries: int,
    skipOnError: bool,
    cleanupOnSuccess: bool,
    cleanupOnFailure: bool,
    removeSource: bool,
    dryRun: bool,
    mode: string,
    outputDir: string,
    archiveDir: string)

  /** What one call of the converter (and the track bookkeeping after it)
      comes to: a conversion, a skip of an existing output, a reported
      failure with its error, or an exception. */
  datatype Attempt = Converted | AlreadyConverted | AttemptFailed(error: Option<string>) | Raised(message: string)

  predicate Succeeded(a: Attempt) { a.Converted? || a.AlreadyConverted? }

  /** What the collaborators report for one album: the disk-space check,
      the working directories created, the copy into the working source,
      the processed structure, attempt `k` for each music file, the paths
      that exist, the clock text used for a clashing archive name, the
      archive copy, the move to the output, whether an enricher is
      configured, and what `calculate_audio_checksum` comes to for the
      album's music files. */
  datatype World = World(
    space: Outcome,
    dirs: Result<WorkingDirectory.WorkingDirs, string>,
    copySource: Outcome,
    structure: Outcome,
    attempt: (string, nat) -> Attempt,
    existing: set<string>,
    timestamp: string,
    archive: Outcome,
    move: Outcome,
    enricher: bool,
    checksum: Result<string, AlbumMetadata.ChecksumError>)

  /** The orchestrator-side view of a session album: the state record plus
      the working paths and stage the orchestrator passes along with every
      status update. */
  datatype Resume = Resume(
    album: StateManager.AlbumState,
    workingSource: Option<string>,
    workingProcessed: Option<string>)

  // ---------------------------------------------------------------------
  // Effects
  // ---------------------------------------------------------------------

  /** The working paths passed with a status update, when any are passed. */
  datatype PathsArg = NoPaths | WithPaths(source: Option<string>, processed: Option<string>)

  datatype Event =
    | MarkAlbum(status: StateManager.AlbumStatus, stage: string, error: Option<string>, paths: PathsArg)
    | MarkFile(file: string, fileStatus: string, fileError: Option<string>)
    | CopySource(from: string, to: string)
    | CreateStructure(from: string, to: string)
    | Convert(input: string, output: string)
    | CopyToArchive(source: Option<string>, target: string)
    | MoveToOutput(processed: Option<string>, target: string)
    | Enrich(dir: string)
    | RemoveSource(path: string)
    | Cleanup(sourceDir: Option<string>, processedDir: Option<string>)

  /** The outcome of `_process_album`: what it did and what it returned,
      or, with `raised`, that an exception left it. */
  datatype AlbumRun = AlbumRun(events: seq<Event>, result: bool, raised: bool := false)

  // ---------------------------------------------------------------------
  // The original source path
  // ---------------------------------------------------------------------

  predicate Truthy(s: Option<string>) { s.Some? && s.value != "" }

  /** The session album matches the root either as its working source or
      as its own path. */
  predicate Matches(r: Resume, root: string) {
    (Truthy(r.workingSource) && root == r.workingSource.value) || root == r.album.albumPath
  }

  /** The path to remove and to name the output after: the stored path of
      the first session album whose working source is the root being
      processed, unless an earlier (or the same) album matches the root as
      its own path. */
  function OriginalSourcePath(root: string, session: seq<Resume>): (r: string)
    ensures (forall i | 0 <= i < |session| :: !Matches(session[i], root)) ==> r == root
    ensures forall i | 0 <= i < |session| && Matches(session[i], root) && (forall j | 0 <= j < i :: !Matches(session[j], root)) ::
      r == (if Truthy(session[i].workingSource) && root == session[i].workingSource.value then session[i].album.albumPath else root)
    decreases |session|
  {
    if |session| == 0 then root
    else if Truthy(session[0].workingSource) && root == session[0].workingSource.value then session[0].album.albumPath
    else if root == session[0].album.albumPath then root
    else
      var r := OriginalSourcePath(root, session[1..]);
      assert forall i | 1 <= i < |session| :: session[1..][i - 1] == session[i];
      r
  }

  /** With no session the root itself is the original. */
  function OriginalOf(root: string, session: Option<seq<Resume>>): string {
    if session.None? then root else OriginalSourcePath(root, session.value)
  }

  // ---------------------------------------------------------------------
  // PREPARING
  // ---------------------------------------------------------------------

  datatype Prepared = Prepared(events: seq<Event>, dirs: WorkingDirectory.WorkingDirs) | PrepareFailed(events: seq<Event>)

  /** Disk check, directory creation, copy and processed structure; every
      failure marks the album failed in `failed_prepare`, and the last two
      remove both working directories first. */
  function Prepare(w: World, album: Scanner.Album): (r: Prepared)
    ensures r.PrepareFailed? <==> w.space.Fail? || w.dirs.Failure? || w.copySource.Fail? || w.structure.Fail?
    ensures r.PrepareFailed? ==> (|r.events| >= 1 && r.events[|r.events| - 1].MarkAlbum?
      && r.events[|r.events| - 1].status == StateManager.Failed && r.events[|r.events| - 1].stage == "failed_prepare")
    ensures r.PrepareFailed? && w.space.Ok? && w.dirs.Success? ==>
      |r.events| >= 2 && r.events[|r.events| - 2] == Cleanup(Some(w.dirs.value.source), Some(w.dirs.value.processed))
    ensures r.Prepared? ==> r.dirs == w.dirs.value
  {
    if w.space.Fail? then PrepareFailed([MarkAlbum(StateManager.Failed, "failed_prepare", Some(w.space.message), NoPaths)])
    else if w.dirs.Failure? then PrepareFailed([MarkAlbum(StateManager.Failed, "failed_prepare", Some(w.dirs.error), NoPaths)])
    else
      var d := w.dirs.value;
      var copy := CopySource(album.rootPath, d.source);
      var cleanup := Cleanup(Some(d.source), Some(d.processed));
      if w.copySource.Fail? then
        PrepareFailed([copy, cleanup, MarkAlbum(StateManager.Failed, "failed_prepare", Some(w.copySource.message), NoPaths)])
      else
        var structure := CreateStructure(album.rootPath, d.processed);
        if w.structure.Fail? then
          PrepareFailed([copy, structure, cleanup, MarkAlbum(StateManager.Failed, "failed_prepare", Some(w.structure.message), NoPaths)])
        else
          Prepared([copy, structure, MarkAlbum(StateManager.Converting, "converting", None, WithPaths(Some(d.source), Some(d.processed)))], d)
  }

  // ---------------------------------------------------------------------
  // CONVERTING
  // ---------------------------------------------------------------------

  /** The converter's output for a music file: below the processed working
      directory, or (in a dry run) below `output_dir / <album name>`, with
      the suffix the conversion mode produces. */
  function OutputPath(s: Settings, album: Scanner.Album, processed: Option<string>, f: Scanner.MusicFile): Result<string, string> {
    var base := if processed.Some? then JoinPath(processed.value, f.relativePath)
                else JoinPath(JoinPath(s.outputDir, Name(album.rootPath)), f.relativePath);
    if s.mode != "iso_dsf_to_flac" && s.mode != "iso_to_dsf" then Success(base)
    else if Name(base) == "" then Failure("ValueError: path has an empty name")
    else Success(WithSuffix(base, if s.mode == "iso_dsf_to_flac" then ".flac" else ".dsf"))
  }

  /** One file's attempts from attempt `k` on. */
  datatype Tries = Tries(events: seq<Event>, success: bool, failed: nat, raised: Option<string>)

  /** The number of converter calls in a list of events. */
  function Calls(events: seq<Event>): nat {
    if |events| == 0 then 0 else (if events[0].Convert? then 1 else 0) + Calls(events[1..])
  }

  lemma CallsTriple(a: Event, b: Event, c: Event)
    ensures Calls([a, b, c]) == (if a.Convert? then 1 else 0) + (if b.Convert? then 1 else 0) + (if c.Convert? then 1 else 0)
  {
    assert [a, b, c][1..] == [b, c] && [b, c][1..] == [c] && [c][1..] == [];
    assert Calls([c]) == (if c.Convert? then 1 else 0) + Calls([]);
  }

  /** Attempts `k`, `k + 1`, ... up to `max_retries`: each is preceded by
      a `'converting'` mark, the first success marks the file `'completed'`
      and ends the loop, and a failed last attempt marks it `'failed'`. */
  function Attempts(s: Settings, w: World, f: string, input: string, output: string, k: nat): (r: Tries)
    requires k >= 1
    ensures forall i | 0 <= i < |r.events| :: r.events[i].Convert? || (r.events[i].MarkFile? && r.events[i].file == f)
    ensures r.failed <= 1 && (r.failed == 1 ==> !r.success)
    ensures r.success ==> r.raised.None?
    decreases if s.maxRetries >= k then s.maxRetries - k + 1 else 0
  {
    if k > s.maxRetries then Tries([], false, 0, None)
    else
      var mark := MarkFile(f, "converting", None);
      if s.dryRun then Tries([mark], true, 0, None)
      else
        var call := Convert(input, output);
        match w.attempt(f, k)
        case Raised(msg) => Tries([mark, call], false, 0, Some(msg))
        case AttemptFailed(err) =>
          if k == s.maxRetries then Tries([mark, call, MarkFile(f, "failed", err)], false, 1, None)
          else
            var rest := Attempts(s, w, f, input, output, k + 1);
            rest.(events := [mark, call] + rest.events)
        case _ => Tries([mark, call, MarkFile(f, "completed", None)], true, 0, None)
  }

  /** The converter is called at most once per attempt left. */
  lemma {:induction false} AttemptsCallBound(s: Settings, w: World, f: string, input: string, output: string, k: nat)
    requires k >= 1
    ensures Calls(Attempts(s, w, f, input, output, k).events) <= if s.maxRetries >= k then s.maxRetries - k + 1 else 0
    decreases if s.maxRetries >= k then s.maxRetries - k + 1 else 0
  {
    var mark := MarkFile(f, "converting", None);
    var call := Convert(input, output);
    if k > s.maxRetries {
    } else if s.dryRun {
      assert [mark][1..] == [];
    } else if w.attempt(f, k).Raised? {
      assert [mark, call][1..] == [call] && [call][1..] == [];
      assert Calls([call]) == 1 + Calls([]);
      assert Calls([mark, call]) == Calls([call]);
    } else if w.attempt(f, k).AttemptFailed? && k < s.maxRetries {
      AttemptsCallBound(s, w, f, input, output, k + 1);
      AttemptFailedStep(s, w, f, input, output, k);
    } else {
      var t := Attempts(s, w, f, input, output, k).events;
      CallsTriple(t[0], t[1], t[2]);
    }
  }

  /** Every converter call is the one for this file, right after a
      `'converting'` mark. */
  lemma {:induction false} CallsFollowMarks(s: Settings, w: World, f: string, input: string, output: string, k: nat)
    requires k >= 1
    ensures CallsMarked(Attempts(s, w, f, input, output, k).events, f, input, output)
    decreases if s.maxRetries >= k then s.maxRetries - k + 1 else 0
  {
    if k <= s.maxRetries && !s.dryRun && w.attempt(f, k).AttemptFailed? && k < s.maxRetries {
      CallsFollowMarks(s, w, f, input, output, k + 1);
      AttemptFailedStep(s, w, f, input, output, k);
      CallsMarkedCons(Attempts(s, w, f, input, output, k + 1).events, f, input, output);
    }
  }

  /** Every converter call in `evs` converts `input` to `output` right
      after the file's `'converting'` mark. */
  predicate CallsMarked(evs: seq<Event>, f: string, input: string, output: string) {
    forall i | 0 <= i < |evs| && evs[i].Convert? ::
      0 < i && evs[i - 1] == MarkFile(f, "converting", None) && evs[i] == Convert(input, output)
  }

  lemma CallsMarkedCons(rest: seq<Event>, f: string, input: string, output: string)
    requires CallsMarked(rest, f, input, output)
    ensures CallsMarked([MarkFile(f, "converting", None), Convert(input, output)] + rest, f, input, output)
  {
    var evs := [MarkFile(f, "converting", None), Convert(input, output)] + rest;
    assert forall i | 2 <= i < |evs| :: evs[i] == rest[i - 2];
  }

  /** Why the file loop stopped early: an album skipped on a failed file,
      or an exception. */
  datatype Stop = SkipAlbum | Exception(message: string)

  datatype FilesRun = FilesRun(events: seq<Event>, failed: nat, stop: Option<Stop>)

  /** The loop over the album's music files. */
  function ConvertFiles(s: Settings, w: World, album: Scanner.Album, source: Option<string>, processed: Option<string>,
                        files: seq<Scanner.MusicFile>): (r: FilesRun)
    ensures forall e | e in r.events :: e.Convert? || e.MarkFile?
    ensures r.failed <= |files|
    ensures r.stop == Some(SkipAlbum) ==> s.skipOnError
    ensures r.stop.None? && s.skipOnError ==> r.failed == 0
    decreases |files|
  {
    if |files| == 0 then FilesRun([], 0, None)
    else
      var f := files[0];
      var input := if source.Some? then JoinPath(source.value, f.relativePath) else f.path;
      match OutputPath(s, album, processed, f)
      case Failure(msg) => FilesRun([], 0, Some(Exception(msg)))
      case Success(output) =>
        var t := Attempts(s, w, f.path, input, output, 1);
        assert forall e | e in t.events :: e.Convert? || e.MarkFile?;
        if t.raised.Some? then FilesRun(t.events, t.failed, Some(Exception(t.raised.value)))
        else if !t.success && s.skipOnError then FilesRun(t.events, t.failed, Some(SkipAlbum))
        else
          var rest := ConvertFiles(s, w, album, source, processed, files[1..]);
          FilesRun(t.events + rest.events, t.failed + rest.failed, rest.stop)
  }

  // ---------------------------------------------------------------------
  // The stages after PREPARING
  // ---------------------------------------------------------------------

  function Source(dirs: Option<WorkingDirectory.WorkingDirs>): Option<string> {
    if dirs.Some? then Some(dirs.value.source) else None
  }

  function Processed(dirs: Option<WorkingDirectory.WorkingDirs>): Option<string> {
    if dirs.Some? then Some(dirs.value.processed) else None
  }

  /** `archive_dir / <root name>`, or with the clock appended when that
      already exists. */
  function ArchivePath(archiveDir: string, root: string, existing: set<string>, timestamp: string): string {
    var plain := JoinPath(archiveDir, Name(root));
    if plain in existing then JoinPath(archiveDir, Name(root) + "_" + timestamp) else plain
  }

  /** The safety check before removing the original source. */
  predicate RemovalAllowed(original: string, existing: set<string>) {
    original in existing && !EndsWith(original, "_source") && !EndsWith(original, "_processed")
  }

  function Removal(s: Settings, w: World, original: string): seq<Event> {
    if s.removeSource && RemovalAllowed(original, w.existing) then [RemoveSource(original)] else []
  }

  /** Where FINALIZING puts the converted album. */
  function OutputAlbumPath(s: Settings, original: string): string {
    JoinPath(s.outputDir, Name(original))
  }

  /** The album is failed in `failed_convert`, as both the skip on a failed
      file and the `except` clause do; both working directories are
      removed when configured. */
  function CrashSteps(s: Settings, message: string, dirs: Option<WorkingDirectory.WorkingDirs>): seq<Event> {
    [MarkAlbum(StateManager.Failed, "failed_convert", Some(message), NoPaths)]
    + (if !s.dryRun && s.cleanupOnFailure then [Cleanup(Source(dirs), Processed(dirs))] else [])
  }

  function Crash(s: Settings, before: seq<Event>, message: string, dirs: Option<WorkingDirectory.WorkingDirs>): AlbumRun {
    AlbumRun(before + CrashSteps(s, message, dirs), false)
  }

  /** COMPLETED: the working source is removed when configured, then the
      album is marked completed. */
  function CompleteSteps(s: Settings, dirs: Option<WorkingDirectory.WorkingDirs>): seq<Event> {
    (if !s.dryRun && s.cleanupOnSuccess then [Cleanup(Source(dirs), None)] else [])
    + [MarkAlbum(StateManager.Completed, "completed", None, WithPaths(if s.cleanupOnSuccess then None else Source(dirs), None))]
  }

  /** The result reports whether no file failed. */
  function Complete(s: Settings, dirs: Option<WorkingDirectory.WorkingDirs>, before: seq<Event>, failed: nat): AlbumRun {
    AlbumRun(before + CompleteSteps(s, dirs), failed == 0)
  }

  /** FINALIZING: move the processed directory to the output; on failure
      remove only the working source (the processed one may be half
      moved); on success enrich and, when allowed, remove the original. */
  function FinalizeSteps(s: Settings, w: World, original: string, dirs: Option<WorkingDirectory.WorkingDirs>): seq<Event> {
    var target := OutputAlbumPath(s, original);
    [MarkAlbum(StateManager.Converting, "finalizing", None, NoPaths), MoveToOutput(Processed(dirs), target)]
    + if w.move.Fail? then
        [MarkAlbum(StateManager.Failed, "failed_finalize", Some(w.move.message), NoPaths)]
        + (if s.cleanupOnFailure then [Cleanup(Source(dirs), None)] else [])
      else (if w.enricher then [Enrich(target)] else []) + Removal(s, w, original)
  }

  function Finalize(s: Settings, w: World, original: string, dirs: Option<WorkingDirectory.WorkingDirs>,
                    before: seq<Event>, failed: nat): AlbumRun {
    var evs := before + FinalizeSteps(s, w, original, dirs);
    if w.move.Fail? then AlbumRun(evs, false) else Complete(s, dirs, evs, failed)
  }

  /** ARCHIVING: copy the working source into the archive; on failure
      remove both working directories when configured. */
  function ArchiveSteps(s: Settings, w: World, album: Scanner.Album, dirs: Option<WorkingDirectory.WorkingDirs>): seq<Event> {
    var target := ArchivePath(s.archiveDir, album.rootPath, w.existing, w.timestamp);
    [MarkAlbum(StateManager.Archiving, "archiving", None, NoPaths), CopyToArchive(Source(dirs), target)]
    + if w.archive.Fail? then
        [MarkAlbum(StateManager.Failed, "failed_archive", Some(w.archive.message), NoPaths)]
        + (if s.cleanupOnFailure then [Cleanup(Source(dirs), Processed(dirs))] else [])
      else []
  }

  function Archive(s: Settings, w: World, album: Scanner.Album, original: string, dirs: Option<WorkingDirectory.WorkingDirs>,
                   before: seq<Event>, failed: nat): AlbumRun {
    var evs := before + ArchiveSteps(s, w, album, dirs);
    if w.archive.Fail? then AlbumRun(evs, false) else Finalize(s, w, original, dirs, evs, failed)
  }

  function ConvertStage(s: Settings, w: World, album: Scanner.Album, original: string,
                        dirs: Option<WorkingDirectory.WorkingDirs>, before: seq<Event>): AlbumRun {
    var c := ConvertFiles(s, w, album, Source(dirs), Processed(dirs), album.musicFiles);
    var evs := before + c.events;
    match c.stop
    case Some(SkipAlbum) => Crash(s, evs, "File conversion failed", dirs)
    case Some(Exception(msg)) => Crash(s, evs, msg, dirs)
    case None => if s.dryRun then Complete(s, dirs, evs, c.failed) else Archive(s, w, album, original, dirs, evs, c.failed)
  }

  /** `_process_album` from the original-path lookup on, for an album whose
      id and audio checksum were computed. */
  function ProcessAlbum(s: Settings, w: World, album: Scanner.Album, session: Option<seq<Resume>>): (r: AlbumRun)
    ensures !r.raised
  {
    var original := OriginalOf(album.rootPath, session);
    var start := [MarkAlbum(StateManager.Pending, "preparing", None, NoPaths)];
    if s.dryRun then ConvertStage(s, w, album, original, None, start)
    else
      var p := Prepare(w, album);
      if p.PrepareFailed? then AlbumRun(start + p.events, false)
      else ConvertStage(s, w, album, original, Some(p.dirs), start + p.events)
  }

  /** `audio_files`: the music files' paths in the album's order. */
  function AudioFiles(album: Scanner.Album): (r: seq<string>)
    ensures |r| == |album.musicFiles|
    ensures forall i | 0 <= i < |r| :: r[i] == album.musicFiles[i].path
  {
    seq(|album.musicFiles|, i requires 0 <= i < |album.musicFiles| => album.musicFiles[i].path)
  }

  /** `_process_album` as a whole. The album id and the audio checksum are
      computed before the `try`, so when the checksum raises the exception
      leaves the method before any status is recorded or any file touched;
      otherwise the rest of the method runs. */
  function RunAlbum(s: Settings, w: World, album: Scanner.Album, session: Option<seq<Resume>>): (r: AlbumRun)
    ensures r.raised <==> w.checksum.Failure?
    ensures r.raised ==> r.events == [] && !r.result
    ensures !r.raised ==> r == ProcessAlbum(s, w, album, session)
  {
    if w.checksum.Failure? then AlbumRun([], false, true) else ProcessAlbum(s, w, album, session)
  }

  /** An album that lists an ISO image next to FLAC, DSF or DFF files
      raises before its `try`, whatever its collaborators would report. */
  lemma MixedAlbumRaises(s: Settings, w: World, album: Scanner.Album, session: Option<seq<Resume>>,
                         crypto: Hashing.Crypto, fs: FileSystem.Fs, i: nat, j: nat)
    requires w.checksum == AlbumMetadata.AudioChecksum(crypto, fs, AudioFiles(album))
    requires i < |album.musicFiles| && AlbumMetadata.IsIso(album.musicFiles[i].path)
    requires j < |album.musicFiles| && AlbumMetadata.IsTrackFormat(album.musicFiles[j].path)
    ensures RunAlbum(s, w, album, session) == AlbumRun([], false, true)
  {
    AlbumMetadata.ValidateRefusesExactlyMixed(AudioFiles(album));
  }

  // ---------------------------------------------------------------------
  // Properties of one file's attempts
  // ---------------------------------------------------------------------

  /** Attempts `k` up to (not including) `j` all reported a failure. */
  predicate FailedBetween(w: World, f: string, k: nat, j: nat) {
    forall i | k <= i < j :: w.attempt(f, i).AttemptFailed?
  }

  /** A file converts exactly when some attempt within the budget succeeds
      and every attempt before it reported a failure. */
  lemma {:induction false} AttemptsSucceedIff(s: Settings, w: World, f: string, input: string, output: string, k: nat)
    requires k >= 1 && !s.dryRun
    ensures Attempts(s, w, f, input, output, k).success <==>
      exists j | k <= j <= s.maxRetries :: Succeeded(w.attempt(f, j)) && FailedBetween(w, f, k, j)
    decreases if s.maxRetries >= k then s.maxRetries - k + 1 else 0
  {
    if k <= s.maxRetries {
      var a := w.attempt(f, k);
      if Succeeded(a) {
        assert FailedBetween(w, f, k, k);
      } else if a.AttemptFailed? && k < s.maxRetries {
        AttemptsSucceedIff(s, w, f, input, output, k + 1);
        if Attempts(s, w, f, input, output, k).success {
          var j :| k + 1 <= j <= s.maxRetries && Succeeded(w.attempt(f, j)) && FailedBetween(w, f, k + 1, j);
          assert FailedBetween(w, f, k, j);
        }
      }
    }
  }

  /** A successful file ends with one `'completed'` mark and nothing
      after it; that mark appears nowhere else. */
  lemma {:induction false} AttemptsStopAtSuccess(s: Settings, w: World, f: string, input: string, output: string, k: nat)
    requires k >= 1 && !s.dryRun
    requires Attempts(s, w, f, input, output, k).success
    ensures var evs := Attempts(s, w, f, input, output, k).events;
      |evs| >= 2 && evs[|evs| - 1] == MarkFile(f, "completed", None) && evs[|evs| - 2] == Convert(input, output)
      && forall i | 0 <= i < |evs| - 1 :: evs[i] != MarkFile(f, "completed", None)
    decreases if s.maxRetries >= k then s.maxRetries - k + 1 else 0
  {
    var a := w.attempt(f, k);
    if a.AttemptFailed? {
      AttemptsStopAtSuccess(s, w, f, input, output, k + 1);
    }
  }

  /** When every attempt reports a failure the converter is called exactly
      `max_retries` times and the file ends marked `'failed'` with the last
      attempt's error. */
  lemma {:induction false} AttemptsExhausted(s: Settings, w: World, f: string, input: string, output: string, k: nat)
    requires 1 <= k <= s.maxRetries && !s.dryRun
    requires FailedBetween(w, f, k, s.maxRetries + 1)
    ensures Exhausted(Attempts(s, w, f, input, output, k), s.maxRetries - k + 1, MarkFile(f, "failed", w.attempt(f, s.maxRetries).error))
    decreases s.maxRetries - k, 1
  {
    if k < s.maxRetries {
      ExhaustedStep(s, w, f, input, output, k);
    } else {
      assert w.attempt(f, k).AttemptFailed?;
      LastAttemptFails(s, w, f, input, output, k);
    }
  }

  lemma {:induction false} ExhaustedStep(s: Settings, w: World, f: string, input: string, output: string, k: nat)
    requires 1 <= k < s.maxRetries && !s.dryRun
    requires FailedBetween(w, f, k, s.maxRetries + 1)
    ensures Exhausted(Attempts(s, w, f, input, output, k), s.maxRetries - k + 1, MarkFile(f, "failed", w.attempt(f, s.maxRetries).error))
    decreases s.maxRetries - k, 0
  {
    assert w.attempt(f, k).AttemptFailed?;
    assert FailedBetween(w, f, k + 1, s.maxRetries + 1);
    AttemptsExhausted(s, w, f, input, output, k + 1);
    AttemptFailedStep(s, w, f, input, output, k);
    ExhaustedCons(Attempts(s, w, f, input, output, k), Attempts(s, w, f, input, output, k + 1),
      [MarkFile(f, "converting", None), Convert(input, output)],
      s.maxRetries - k, MarkFile(f, "failed", w.attempt(f, s.maxRetries).error));
  }

  /** The outcome of a run of attempts that all failed: no success, one
      failure, nothing raised, `n` converter calls, ending in `last`. */
  predicate Exhausted(t: Tries, n: nat, last: Event)
  {
    !t.success && t.failed == 1 && t.raised.None?
    && Calls(t.events) == n && |t.events| > 0 && t.events[|t.events| - 1] == last
  }

  lemma ExhaustedCons(t: Tries, rest: Tries, pre: seq<Event>, n: nat, last: Event)
    requires Exhausted(rest, n, last)
    requires t.events == pre + rest.events && Calls(t.events) == 1 + Calls(rest.events)
    requires t.success == rest.success && t.failed == rest.failed && t.raised == rest.raised
    ensures Exhausted(t, n + 1, last)
  {
    assert t.events[|t.events| - 1] == rest.events[|rest.events| - 1];
  }

  /** The last attempt failing: one mark, one call, and the `'failed'` mark. */
  lemma LastAttemptFails(s: Settings, w: World, f: string, input: string, output: string, k: nat)
    requires 1 <= k == s.maxRetries && !s.dryRun && w.attempt(f, k).AttemptFailed?
    ensures Attempts(s, w, f, input, output, k)
      == Tries([MarkFile(f, "converting", None), Convert(input, output), MarkFile(f, "failed", w.attempt(f, k).error)], false, 1, None)
    ensures Calls(Attempts(s, w, f, input, output, k).events) == 1
  {
    CallsTriple(MarkFile(f, "converting", None), Convert(input, output), MarkFile(f, "failed", w.attempt(f, k).error));
  }

  /** A failed attempt with attempts left is one mark and one call before
      the remaining attempts. */
  lemma AttemptFailedStep(s: Settings, w: World, f: string, input: string, output: string, k: nat)
    requires 1 <= k < s.maxRetries && !s.dryRun && w.attempt(f, k).AttemptFailed?
    ensures var t := Attempts(s, w, f, input, output, k);
      var rest := Attempts(s, w, f, input, output, k + 1);
      && t.events == [MarkFile(f, "converting", None), Convert(input, output)] + rest.events
      && t.success == rest.success && t.failed == rest.failed && t.raised == rest.raised
      && Calls(t.events) == 1 + Calls(rest.events)
  {
    var mark := MarkFile(f, "converting", None);
    var call := Convert(input, output);
    var rest := Attempts(s, w, f, input, output, k + 1);
    assert ([mark, call] + rest.events)[1..] == [call] + rest.events;
    assert ([call] + rest.events)[1..] == rest.events;
  }

  /** A dry run marks the file once and calls nothing. */
  lemma DryRunAttempt(s: Settings, w: World, f: string, input: string, output: string)
    requires s.dryRun && s.maxRetries >= 1
    ensures Attempts(s, w, f, input, output, 1) == Tries([MarkFile(f, "converting", None)], true, 0, None)
  {
  }

  /** No retries configured: the converter is never called and the file
      counts neither as converted nor as failed. */
  lemma NoRetriesNoAttempt(s: Settings, w: World, f: string, input: string, output: string)
    requires s.maxRetries <= 0
    ensures Attempts(s, w, f, input, output, 1) == Tries([], false, 0, None)
  {
  }

  // ---------------------------------------------------------------------
  // Properties of one album
  // ---------------------------------------------------------------------

  /** The working directories the later stages use. */
  function DirsOf(s: Settings, w: World): Option<WorkingDirectory.WorkingDirs> {
    if s.dryRun || w.dirs.Failure? then None else Some(w.dirs.value)
  }

  /** The file loop as `_process_album` runs it. */
  function Conversion(s: Settings, w: World, album: Scanner.Album): FilesRun {
    ConvertFiles(s, w, album, Source(DirsOf(s, w)), Processed(DirsOf(s, w)), album.musicFiles)
  }

  predicate ReachesConversion(s: Settings, w: World, album: Scanner.Album) {
    s.dryRun || Prepare(w, album).Prepared?
  }

  predicate ReachesArchive(s: Settings, w: World, album: Scanner.Album) {
    !s.dryRun && Prepare(w, album).Prepared? && Conversion(s, w, album).stop.None?
  }

  predicate ReachesFinalize(s: Settings, w: World, album: Scanner.Album) {
    ReachesArchive(s, w, album) && w.archive.Ok?
  }

  predicate ReachesEnd(s: Settings, w: World, album: Scanner.Album) {
    ReachesFinalize(s, w, album) && w.move.Ok?
  }

  /** The stages reported with the album's status updates, in order. */
  function Stages(events: seq<Event>): seq<string> {
    if |events| == 0 then [] else (if events[0].MarkAlbum? then [events[0].stage] else []) + Stages(events[1..])
  }

  lemma {:induction false} StagesAppend(a: seq<Event>, b: seq<Event>)
    ensures Stages(a + b) == Stages(a) + Stages(b)
    decreases |a|
  {
    if |a| > 0 {
      assert (a + b)[0] == a[0];
      assert (a + b)[1..] == a[1..] + b;
      StagesAppend(a[1..], b);
    } else {
      assert a + b == b;
    }
  }

  /** The stages of a mark followed by another event that is not a mark. */
  lemma StagesPair(m: Event, e: Event)
    requires m.MarkAlbum? && !e.MarkAlbum?
    ensures Stages([m, e]) == [m.stage]
  {
    assert [m, e][1..] == [e] && [e][1..] == [];
    assert Stages([e]) == [] + Stages([]);
  }

  lemma {:induction false} NoStages(events: seq<Event>)
    requires forall e | e in events :: !e.MarkAlbum?
    ensures Stages(events) == []
    decreases |events|
  {
    if |events| > 0 {
      assert events[0] in events;
      assert forall e | e in events[1..] :: e in events;
      NoStages(events[1..]);
    }
  }

  const Order: seq<string> := ["preparing", "converting", "archiving", "finalizing"]

  /** The stage that records a failure during `stage`. */
  function FailureOf(stage: string): string {
    if stage == "preparing" then "failed_prepare"
    else if stage == "converting" then "failed_convert"
    else if stage == "archiving" then "failed_archive"
    else "failed_finalize"
  }

  /** The stages of a real run: a prefix of the pipeline's order, then
      either the failure of the last stage entered or, after FINALIZING,
      `completed`. A dry run goes from `preparing` straight to its end. */
  predicate Progression(st: seq<string>, dryRun: bool) {
    if dryRun then st == ["preparing", "completed"] || st == ["preparing", "failed_convert"]
    else
      && 2 <= |st| <= 5
      && st[..|st| - 1] == Order[..|st| - 1]
      && (st[|st| - 1] == FailureOf(st[|st| - 2]) || (|st| == 5 && st[4] == "completed"))
  }

  /** A mark followed by events that are not marks records one stage. */
  lemma MarkThen(m: Event, tail: seq<Event>)
    requires m.MarkAlbum? && forall e | e in tail :: !e.MarkAlbum?
    ensures Stages([m] + tail) == [m.stage]
  {
    StagesAppend([m], tail);
    NoStages(tail);
    assert [m][1..] == [];
  }

  /** A mark and one more event that is not a mark, then the rest. */
  lemma PairThen(m: Event, e: Event, rest: seq<Event>)
    requires m.MarkAlbum? && !e.MarkAlbum?
    ensures Stages([m, e] + rest) == [m.stage] + Stages(rest)
  {
    StagesAppend([m, e], rest);
    StagesPair(m, e);
  }

  lemma CompleteStages(s: Settings, dirs: Option<WorkingDirectory.WorkingDirs>, before: seq<Event>, failed: nat)
    ensures Stages(Complete(s, dirs, before, failed).events) == Stages(before) + ["completed"]
  {
    var tail := (if !s.dryRun && s.cleanupOnSuccess then [Cleanup(Source(dirs), None)] else []);
    var mark := MarkAlbum(StateManager.Completed, "completed", None, WithPaths(if s.cleanupOnSuccess then None else Source(dirs), None));
    StagesAppend(before, CompleteSteps(s, dirs));
    StagesAppend(tail, [mark]);
    NoStages(tail);
    MarkThen(mark, []);
    assert [mark] + [] == [mark];
  }

  lemma FinalizeStepsStages(s: Settings, w: World, original: string, dirs: Option<WorkingDirectory.WorkingDirs>)
    ensures Stages(FinalizeSteps(s, w, original, dirs)) == ["finalizing"] + (if w.move.Fail? then ["failed_finalize"] else [])
  {
    var target := OutputAlbumPath(s, original);
    var m := MarkAlbum(StateManager.Converting, "finalizing", None, NoPaths);
    var e := MoveToOutput(Processed(dirs), target);
    if w.move.Fail? {
      var rest := [MarkAlbum(StateManager.Failed, "failed_finalize", Some(w.move.message), NoPaths)]
        + (if s.cleanupOnFailure then [Cleanup(Source(dirs), None)] else []);
      PairThen(m, e, rest);
      MarkThen(rest[0], rest[1..]);
      assert rest == [rest[0]] + rest[1..];
    } else {
      var rest := (if w.enricher then [Enrich(target)] else []) + Removal(s, w, original);
      PairThen(m, e, rest);
      NoStages(rest);
    }
  }

  lemma FinalizeStages(s: Settings, w: World, original: string, dirs: Option<WorkingDirectory.WorkingDirs>,
                       before: seq<Event>, failed: nat)
    ensures Stages(Finalize(s, w, original, dirs, before, failed).events)
      == Stages(before) + ["finalizing", if w.move.Fail? then "failed_finalize" else "completed"]
  {
    var evs := before + FinalizeSteps(s, w, original, dirs);
    StagesAppend(before, FinalizeSteps(s, w, original, dirs));
    FinalizeStepsStages(s, w, original, dirs);
    if !w.move.Fail? {
      CompleteStages(s, dirs, evs, failed);
    }
  }

  lemma ArchiveStepsStages(s: Settings, w: World, album: Scanner.Album, dirs: Option<WorkingDirectory.WorkingDirs>)
    ensures Stages(ArchiveSteps(s, w, album, dirs)) == ["archiving"] + (if w.archive.Fail? then ["failed_archive"] else [])
  {
    var target := ArchivePath(s.archiveDir, album.rootPath, w.existing, w.timestamp);
    var m := MarkAlbum(StateManager.Archiving, "archiving", None, NoPaths);
    var e := CopyToArchive(Source(dirs), target);
    if w.archive.Fail? {
      var rest := [MarkAlbum(StateManager.Failed, "failed_archive", Some(w.archive.message), NoPaths)]
        + (if s.cleanupOnFailure then [Cleanup(Source(dirs), Processed(dirs))] else []);
      PairThen(m, e, rest);
      MarkThen(rest[0], rest[1..]);
      assert rest == [rest[0]] + rest[1..];
    } else {
      PairThen(m, e, []);
      assert [m, e] + [] == [m, e];
    }
  }

  lemma ArchiveStages(s: Settings, w: World, album: Scanner.Album, original: string, dirs: Option<WorkingDirectory.WorkingDirs>,
                      before: seq<Event>, failed: nat)
    ensures Stages(Archive(s, w, album, original, dirs, before, failed).events)
      == Stages(before) + (if w.archive.Fail? then ["archiving", "failed_archive"]
                           else ["archiving", "finalizing", if w.move.Fail? then "failed_finalize" else "completed"])
  {
    var evs := before + ArchiveSteps(s, w, album, dirs);
    StagesAppend(before, ArchiveSteps(s, w, album, dirs));
    ArchiveStepsStages(s, w, album, dirs);
    if !w.archive.Fail? {
      FinalizeStages(s, w, original, dirs, evs, failed);
    }
  }

  lemma CrashStages(s: Settings, before: seq<Event>, message: string, dirs: Option<WorkingDirectory.WorkingDirs>)
    ensures Stages(Crash(s, before, message, dirs).events) == Stages(before) + ["failed_convert"]
  {
    var steps := CrashSteps(s, message, dirs);
    StagesAppend(before, steps);
    MarkThen(steps[0], steps[1..]);
    assert steps == [steps[0]] + steps[1..];
  }

  /** The file loop stopped early: the album fails in `failed_convert`. */
  lemma ConvertStageStopped(s: Settings, w: World, album: Scanner.Album, original: string,
                            dirs: Option<WorkingDirectory.WorkingDirs>, before: seq<Event>)
    requires ConvertFiles(s, w, album, Source(dirs), Processed(dirs), album.musicFiles).stop.Some?
    ensures Stages(ConvertStage(s, w, album, original, dirs, before).events)
      == Stages(before) + ["failed_convert"]
  {
    var c := ConvertFiles(s, w, album, Source(dirs), Processed(dirs), album.musicFiles);
    StagesAppend(before, c.events);
    NoStages(c.events);
    CrashStages(s, before + c.events, if c.stop.value.SkipAlbum? then "File conversion failed" else c.stop.value.message, dirs);
  }

  /** A dry run whose file loop ran to its end completes. */
  lemma ConvertStageDry(s: Settings, w: World, album: Scanner.Album, original: string,
                        dirs: Option<WorkingDirectory.WorkingDirs>, before: seq<Event>)
    requires s.dryRun && ConvertFiles(s, w, album, Source(dirs), Processed(dirs), album.musicFiles).stop.None?
    ensures Stages(ConvertStage(s, w, album, original, dirs, before).events) == Stages(before) + ["completed"]
  {
    var c := ConvertFiles(s, w, album, Source(dirs), Processed(dirs), album.musicFiles);
    StagesAppend(before, c.events);
    NoStages(c.events);
    CompleteStages(s, dirs, before + c.events, c.failed);
  }

  /** A real run whose file loop ran to its end goes on to ARCHIVING. */
  lemma ConvertStageDone(s: Settings, w: World, album: Scanner.Album, original: string,
                         dirs: Option<WorkingDirectory.WorkingDirs>, before: seq<Event>)
    requires !s.dryRun && ConvertFiles(s, w, album, Source(dirs), Processed(dirs), album.musicFiles).stop.None?
    ensures Stages(ConvertStage(s, w, album, original, dirs, before).events)
      == Stages(before) + (if w.archive.Fail? then ["archiving", "failed_archive"]
                           else ["archiving", "finalizing", if w.move.Fail? then "failed_finalize" else "completed"])
  {
    var c := ConvertFiles(s, w, album, Source(dirs), Processed(dirs), album.musicFiles);
    StagesAppend(before, c.events);
    NoStages(c.events);
    ArchiveStages(s, w, album, original, dirs, before + c.events, c.failed);
  }

  /** The stages a run records, by how far it gets. */
  function ExpectedStages(s: Settings, w: World, album: Scanner.Album): seq<string> {
    if !s.dryRun && Prepare(w, album).PrepareFailed? then ["preparing", "failed_prepare"]
    else
      var c := Conversion(s, w, album);
      (if s.dryRun then ["preparing"] else ["preparing", "converting"])
      + (if c.stop.Some? then ["failed_convert"]
         else if s.dryRun then ["completed"]
         else if w.archive.Fail? then ["archiving", "failed_archive"]
         else ["archiving", "finalizing", if w.move.Fail? then "failed_finalize" else "completed"])
  }

  lemma ProcessAlbumStageList(s: Settings, w: World, album: Scanner.Album, session: Option<seq<Resume>>)
    ensures Stages(ProcessAlbum(s, w, album, session).events) == ExpectedStages(s, w, album)
  {
    if s.dryRun {
      DryRunStageList(s, w, album, session);
    } else {
      RealRunStageList(s, w, album, session);
    }
  }

  lemma DryRunStageList(s: Settings, w: World, album: Scanner.Album, session: Option<seq<Resume>>)
    requires s.dryRun
    ensures Stages(ProcessAlbum(s, w, album, session).events) == ExpectedStages(s, w, album)
  {
    var original := OriginalOf(album.rootPath, session);
    var start := [MarkAlbum(StateManager.Pending, "preparing", None, NoPaths)];
    MarkThen(start[0], []);
    assert start + [] == start;
    if Conversion(s, w, album).stop.Some? {
      ConvertStageStopped(s, w, album, original, None, start);
    } else {
      ConvertStageDry(s, w, album, original, None, start);
    }
  }

  lemma RealRunStageList(s: Settings, w: World, album: Scanner.Album, session: Option<seq<Resume>>)
    requires !s.dryRun
    ensures Stages(ProcessAlbum(s, w, album, session).events) == ExpectedStages(s, w, album)
  {
    var start := [MarkAlbum(StateManager.Pending, "preparing", None, NoPaths)];
    MarkThen(start[0], []);
    assert start + [] == start;
    PrepareStages(w, album);
    StagesAppend(start, Prepare(w, album).events);
    if Prepare(w, album).Prepared? {
      PreparedStageList(s, w, album, session);
    }
  }

  lemma PreparedStageList(s: Settings, w: World, album: Scanner.Album, session: Option<seq<Resume>>)
    requires !s.dryRun && Prepare(w, album).Prepared?
    requires Stages([MarkAlbum(StateManager.Pending, "preparing", None, NoPaths)] + Prepare(w, album).events) == ["preparing", "converting"]
    ensures Stages(ProcessAlbum(s, w, album, session).events) == ExpectedStages(s, w, album)
  {
    var original := OriginalOf(album.rootPath, session);
    var before := [MarkAlbum(StateManager.Pending, "preparing", None, NoPaths)] + Prepare(w, album).events;
    if Conversion(s, w, album).stop.Some? {
      ConvertStageStopped(s, w, album, original, DirsOf(s, w), before);
    } else {
      ConvertStageDone(s, w, album, original, DirsOf(s, w), before);
    }
  }

  /** PREPARING records `failed_prepare` or `converting`. */
  lemma PrepareStages(w: World, album: Scanner.Album)
    ensures Stages(Prepare(w, album).events) == [if Prepare(w, album).Prepared? then "converting" else "failed_prepare"]
  {
    var evs := Prepare(w, album).events;
    var n := |evs|;
    assert evs == evs[..n - 1] + [evs[n - 1]];
    StagesAppend(evs[..n - 1], [evs[n - 1]]);
    MarkThen(evs[n - 1], []);
    assert [evs[n - 1]] + [] == [evs[n - 1]];
    NoStages(evs[..n - 1]) by {
      assert forall e | e in evs[..n - 1] :: !e.MarkAlbum?;
    }
  }

  /** Stages only move forward, a failure is the last stage recorded, and a
      run that returns true ends `completed`. */
  lemma ProcessAlbumStages(s: Settings, w: World, album: Scanner.Album, session: Option<seq<Resume>>)
    ensures var run := ProcessAlbum(s, w, album, session);
      var st := Stages(run.events);
      Progression(st, s.dryRun) && (run.result ==> st[|st| - 1] == "completed")
  {
    ProcessAlbumStageList(s, w, album, session);
    ProcessAlbumResult(s, w, album, session);
    ExpectedProgression(s, w, album);
  }

  lemma ExpectedProgression(s: Settings, w: World, album: Scanner.Album)
    ensures var st := ExpectedStages(s, w, album);
      Progression(st, s.dryRun)
      && (st[|st| - 1] == "completed" <==> Conversion(s, w, album).stop.None? && (s.dryRun || ReachesEnd(s, w, album)))
  {
    if !s.dryRun {
      RealProgressions();
    }
  }

  /** The five stage lists a real run can record are progressions. */
  lemma RealProgressions()
    ensures Progression(["preparing", "failed_prepare"], false)
    ensures Progression(["preparing", "converting", "failed_convert"], false)
    ensures Progression(["preparing", "converting", "archiving", "failed_archive"], false)
    ensures Progression(["preparing", "converting", "archiving", "finalizing", "failed_finalize"], false)
    ensures Progression(["preparing", "converting", "archiving", "finalizing", "completed"], false)
  {
    ShortProgressions();
    LongProgressions();
  }

  lemma ShortProgressions()
    ensures Progression(["preparing", "failed_prepare"], false)
    ensures Progression(["preparing", "converting", "failed_convert"], false)
    ensures Progression(["preparing", "converting", "archiving", "failed_archive"], false)
  {
    assert ["preparing", "failed_prepare"][..1] == Order[..1];
    assert ["preparing", "converting", "failed_convert"][..2] == Order[..2];
    assert ["preparing", "converting", "archiving", "failed_archive"][..3] == Order[..3];
  }

  lemma LongProgressions()
    ensures Progression(["preparing", "converting", "archiving", "finalizing", "failed_finalize"], false)
    ensures Progression(["preparing", "converting", "archiving", "finalizing", "completed"], false)
  {
    assert ["preparing", "converting", "archiving", "finalizing", "failed_finalize"][..4] == Order;
    assert ["preparing", "converting", "archiving", "finalizing", "completed"][..4] == Order;
  }

  /** `_process_album` returns true exactly when every stage it runs
      succeeds and no file failed. */
  lemma ProcessAlbumResult(s: Settings, w: World, album: Scanner.Album, session: Option<seq<Resume>>)
    ensures ProcessAlbum(s, w, album, session).result <==>
      ReachesConversion(s, w, album) && Conversion(s, w, album).stop.None? && Conversion(s, w, album).failed == 0
      && (s.dryRun || ReachesEnd(s, w, album))
  {
  }

  // ---------------------------------------------------------------------
  // What a run does, by how far it gets
  // ---------------------------------------------------------------------

  /** A failure while PREPARING returns false without converting anything,
      and the last thing recorded is `failed_prepare`. */
  lemma PrepareFailureStops(s: Settings, w: World, album: Scanner.Album, session: Option<seq<Resume>>)
    requires !s.dryRun && Prepare(w, album).PrepareFailed?
    ensures var run := ProcessAlbum(s, w, album, session);
      !run.result
      && run.events[|run.events| - 1].MarkAlbum? && run.events[|run.events| - 1].stage == "failed_prepare"
      && run.events[|run.events| - 1].status == StateManager.Failed
      && forall e | e in run.events :: !e.Convert? && !e.CopyToArchive? && !e.MoveToOutput? && !e.RemoveSource?
  {
  }

  /** The converter is only called once PREPARING has succeeded, and never
      in a dry run. */
  lemma ConvertOnlyAfterPrepare(s: Settings, w: World, album: Scanner.Album, session: Option<seq<Resume>>)
    requires exists e | e in ProcessAlbum(s, w, album, session).events :: e.Convert?
    ensures !s.dryRun && Prepare(w, album).Prepared?
  {
    if s.dryRun {
      DryRunCallsNothing(s, w, album, session);
    }
  }

  lemma {:induction false} DryRunFilesCallNothing(s: Settings, w: World, album: Scanner.Album, source: Option<string>,
                                                  processed: Option<string>, files: seq<Scanner.MusicFile>)
    requires s.dryRun
    ensures forall e | e in ConvertFiles(s, w, album, source, processed, files).events :: e.MarkFile?
    decreases |files|
  {
    if |files| > 0 {
      DryRunFilesCallNothing(s, w, album, source, processed, files[1..]);
    }
  }

  /** A dry run calls no collaborator at all: it only records statuses. */
  lemma DryRunCallsNothing(s: Settings, w: World, album: Scanner.Album, session: Option<seq<Resume>>)
    requires s.dryRun
    ensures forall e | e in ProcessAlbum(s, w, album, session).events :: e.MarkAlbum? || e.MarkFile?
  {
    DryRunFilesCallNothing(s, w, album, None, None, album.musicFiles);
  }

  /** The archive copy happens exactly when PREPARING succeeded and the file
      loop ran to its end; in particular a file that fails with
      `skip_album_on_error` set leaves no archive. */
  lemma ArchiveIff(s: Settings, w: World, album: Scanner.Album, session: Option<seq<Resume>>)
    ensures (exists e | e in ProcessAlbum(s, w, album, session).events :: e.CopyToArchive?) <==> ReachesArchive(s, w, album)
  {
    if s.dryRun {
      DryRunCallsNothing(s, w, album, session);
    } else if Prepare(w, album).PrepareFailed? {
      PrepareFailedMovesNothing(s, w, album, session);
    } else {
      PreparedEvents(s, w, album, session);
      TailArchives(s, w, album, OriginalOf(album.rootPath, session), DirsOf(s, w), Conversion(s, w, album).stop);
    }
  }

  /** The tail copies into the archive exactly when the loop ran to its end
      in a real run. */
  lemma TailArchives(s: Settings, w: World, album: Scanner.Album, original: string,
                     dirs: Option<WorkingDirectory.WorkingDirs>, stop: Option<Stop>)
    ensures (exists e | e in Tail(s, w, album, original, dirs, stop) :: e.CopyToArchive?) <==> stop.None? && !s.dryRun
  {
    if stop.None? && !s.dryRun {
      var ar := ArchiveSteps(s, w, album, dirs);
      assert ar[1] in Tail(s, w, album, original, dirs, stop);
    }
  }

  /** The skip on a failed file: with `skip_album_on_error` set and some
      file failing, the album ends in `failed_convert` and is never archived. */
  lemma SkipOnErrorStopsBeforeArchive(s: Settings, w: World, album: Scanner.Album, session: Option<seq<Resume>>)
    requires s.skipOnError && ReachesConversion(s, w, album) && Conversion(s, w, album).stop == Some(SkipAlbum)
    ensures var run := ProcessAlbum(s, w, album, session);
      !run.result
      && (forall e | e in run.events :: !e.CopyToArchive? && !e.MoveToOutput? && !e.RemoveSource?)
      && Stages(run.events)[|Stages(run.events)| - 1] == "failed_convert"
  {
    ArchiveIff(s, w, album, session);
    ProcessAlbumStageList(s, w, album, session);
    MoveIff(s, w, album, session);
    RemovalIff(s, w, album, session);
  }

  /** What follows the file loop, as a function of how the loop stopped. */
  function Tail(s: Settings, w: World, album: Scanner.Album, original: string,
                dirs: Option<WorkingDirectory.WorkingDirs>, stop: Option<Stop>): seq<Event> {
    match stop
    case Some(SkipAlbum) => CrashSteps(s, "File conversion failed", dirs)
    case Some(Exception(msg)) => CrashSteps(s, msg, dirs)
    case None =>
      if s.dryRun then CompleteSteps(s, dirs)
      else (ArchiveSteps(s, w, album, dirs)
            + (if w.archive.Fail? then []
               else FinalizeSteps(s, w, original, dirs) + (if w.move.Fail? then [] else CompleteSteps(s, dirs))))
  }

  lemma ConvertStageShape(s: Settings, w: World, album: Scanner.Album, original: string,
                          dirs: Option<WorkingDirectory.WorkingDirs>, before: seq<Event>)
    ensures var c := ConvertFiles(s, w, album, Source(dirs), Processed(dirs), album.musicFiles);
      ConvertStage(s, w, album, original, dirs, before).events == before + c.events + Tail(s, w, album, original, dirs, c.stop)
  {
    var c := ConvertFiles(s, w, album, Source(dirs), Processed(dirs), album.musicFiles);
    if c.stop.None? && !s.dryRun {
      ArchivedShape(s, w, album, original, dirs, before + c.events, c.failed);
    }
  }

  lemma ArchivedShape(s: Settings, w: World, album: Scanner.Album, original: string,
                      dirs: Option<WorkingDirectory.WorkingDirs>, evs: seq<Event>, failed: nat)
    requires !s.dryRun
    ensures Archive(s, w, album, original, dirs, evs, failed).events == evs + Tail(s, w, album, original, dirs, None)
  {
    if w.archive.Fail? {
      ArchiveFailedShape(s, w, album, original, dirs, evs, failed);
    } else if w.move.Ok? {
      MovedShape(s, w, album, original, dirs, evs, failed);
    } else {
      MoveFailedShape(s, w, album, original, dirs, evs, failed);
    }
  }

  lemma ArchiveFailedShape(s: Settings, w: World, album: Scanner.Album, original: string,
                           dirs: Option<WorkingDirectory.WorkingDirs>, evs: seq<Event>, failed: nat)
    requires !s.dryRun && w.archive.Fail?
    ensures Archive(s, w, album, original, dirs, evs, failed).events == evs + Tail(s, w, album, original, dirs, None)
  {
    var ar := ArchiveSteps(s, w, album, dirs);
    assert Tail(s, w, album, original, dirs, None) == ar + [];
    assert ar + [] == ar;
  }

  lemma MoveFailedShape(s: Settings, w: World, album: Scanner.Album, original: string,
                        dirs: Option<WorkingDirectory.WorkingDirs>, evs: seq<Event>, failed: nat)
    requires !s.dryRun && w.archive.Ok? && w.move.Fail?
    ensures Archive(s, w, album, original, dirs, evs, failed).events == evs + Tail(s, w, album, original, dirs, None)
  {
    var ar := ArchiveSteps(s, w, album, dirs);
    var fi := FinalizeSteps(s, w, original, dirs);
    assert Archive(s, w, album, original, dirs, evs, failed).events == evs + ar + fi;
    assert Tail(s, w, album, original, dirs, None) == ar + (fi + []);
    assert evs + ar + fi == evs + (ar + (fi + []));
  }

  lemma MovedShape(s: Settings, w: World, album: Scanner.Album, original: string,
                   dirs: Option<WorkingDirectory.WorkingDirs>, evs: seq<Event>, failed: nat)
    requires !s.dryRun && w.archive.Ok? && w.move.Ok?
    ensures Archive(s, w, album, original, dirs, evs, failed).events == evs + Tail(s, w, album, original, dirs, None)
  {
    var ar := ArchiveSteps(s, w, album, dirs);
    var fi := FinalizeSteps(s, w, original, dirs);
    var co := CompleteSteps(s, dirs);
    assert Archive(s, w, album, original, dirs, evs, failed) == Finalize(s, w, original, dirs, evs + ar, failed);
    FinalizeMovedEvents(s, w, original, dirs, evs + ar, failed);
    TailMoved(s, w, album, original, dirs);
    assert evs + ar + fi + co == evs + (ar + (fi + co));
  }

  lemma FinalizeMovedEvents(s: Settings, w: World, original: string, dirs: Option<WorkingDirectory.WorkingDirs>,
                            before: seq<Event>, failed: nat)
    requires w.move.Ok?
    ensures Finalize(s, w, original, dirs, before, failed).events
      == before + FinalizeSteps(s, w, original, dirs) + CompleteSteps(s, dirs)
  {
  }

  lemma TailMoved(s: Settings, w: World, album: Scanner.Album, original: string, dirs: Option<WorkingDirectory.WorkingDirs>)
    requires !s.dryRun && w.archive.Ok? && w.move.Ok?
    ensures Tail(s, w, album, original, dirs, None)
      == ArchiveSteps(s, w, album, dirs) + (FinalizeSteps(s, w, original, dirs) + CompleteSteps(s, dirs))
  {
  }

  /** A real run that got through PREPARING is the opening marks, the
      file loop's events and the tail. */
  lemma ProcessAlbumShape(s: Settings, w: World, album: Scanner.Album, session: Option<seq<Resume>>)
    requires !s.dryRun && Prepare(w, album).Prepared?
    ensures ProcessAlbum(s, w, album, session).events
      == Opening(w, album) + Conversion(s, w, album).events
         + Tail(s, w, album, OriginalOf(album.rootPath, session), DirsOf(s, w), Conversion(s, w, album).stop)
  {
    ConvertStageShape(s, w, album, OriginalOf(album.rootPath, session), DirsOf(s, w), Opening(w, album));
  }

  /** The marks and copies of PREPARING in a real run. */
  function Opening(w: World, album: Scanner.Album): seq<Event> {
    [MarkAlbum(StateManager.Pending, "preparing", None, NoPaths)] + Prepare(w, album).events
  }

  /** Events that only record statuses, prepare the working copy or convert
      a file. */
  predicate Quiet(e: Event) {
    e.MarkAlbum? || e.MarkFile? || e.CopySource? || e.CreateStructure? || e.Convert?
  }

  lemma QuietPrefix(s: Settings, w: World, album: Scanner.Album)
    requires Prepare(w, album).Prepared?
    ensures forall e | e in Opening(w, album) + Conversion(s, w, album).events :: Quiet(e)
  {
    PreparedOpening(w, album);
  }

  /** Past a prefix of quiet events, every other event lies in the rest. */
  lemma LoudInRest(pre: seq<Event>, rest: seq<Event>)
    requires forall e | e in pre :: Quiet(e)
    ensures forall e | e in pre + rest && !Quiet(e) :: e in rest
    ensures forall e | e in rest :: e in pre + rest
  {
  }

  /** In a real run that got through PREPARING, every event that is not
      quiet belongs to the tail, and the whole tail happens. */
  lemma PreparedEvents(s: Settings, w: World, album: Scanner.Album, session: Option<seq<Resume>>)
    requires !s.dryRun && Prepare(w, album).Prepared?
    ensures var t := Tail(s, w, album, OriginalOf(album.rootPath, session), DirsOf(s, w), Conversion(s, w, album).stop);
      && (forall e | e in ProcessAlbum(s, w, album, session).events && !Quiet(e) :: e in t)
      && (forall e | e in t :: e in ProcessAlbum(s, w, album, session).events)
  {
    var t := Tail(s, w, album, OriginalOf(album.rootPath, session), DirsOf(s, w), Conversion(s, w, album).stop);
    ProcessAlbumShape(s, w, album, session);
    QuietPrefix(s, w, album);
    LoudInRest(Opening(w, album) + Conversion(s, w, album).events, t);
  }

  lemma FinalizeStepsMoves(s: Settings, w: World, original: string, dirs: Option<WorkingDirectory.WorkingDirs>)
    ensures FinalizeSteps(s, w, original, dirs)[1] == MoveToOutput(Processed(dirs), OutputAlbumPath(s, original))
    ensures forall e | e in FinalizeSteps(s, w, original, dirs) && e.MoveToOutput? ::
      e == MoveToOutput(Processed(dirs), OutputAlbumPath(s, original))
    ensures forall p :: RemoveSource(p) in FinalizeSteps(s, w, original, dirs) <==>
      w.move.Ok? && s.removeSource && p == original && RemovalAllowed(original, w.existing)
  {
  }

  lemma TailMoves(s: Settings, w: World, album: Scanner.Album, original: string,
                  dirs: Option<WorkingDirectory.WorkingDirs>, stop: Option<Stop>)
    ensures (exists e | e in Tail(s, w, album, original, dirs, stop) :: e.MoveToOutput?)
      <==> stop.None? && !s.dryRun && w.archive.Ok?
    ensures forall e | e in Tail(s, w, album, original, dirs, stop) && e.MoveToOutput? ::
      e == MoveToOutput(Processed(dirs), OutputAlbumPath(s, original))
    ensures forall p :: RemoveSource(p) in Tail(s, w, album, original, dirs, stop) <==>
      stop.None? && !s.dryRun && w.archive.Ok? && w.move.Ok? && s.removeSource && p == original
      && RemovalAllowed(original, w.existing)
  {
    if stop.None? && !s.dryRun && w.archive.Ok? {
      FinalizeStepsMoves(s, w, original, dirs);
      TailHoldsFinalize(s, w, album, original, dirs);
      var fi := FinalizeSteps(s, w, original, dirs);
      assert fi[1] in Tail(s, w, album, original, dirs, stop);
    } else {
      TailWithoutFinalize(s, w, album, original, dirs, stop);
    }
  }

  /** A tail that does not reach FINALIZING neither moves nor removes. */
  lemma TailWithoutFinalize(s: Settings, w: World, album: Scanner.Album, original: string,
                            dirs: Option<WorkingDirectory.WorkingDirs>, stop: Option<Stop>)
    requires !(stop.None? && !s.dryRun && w.archive.Ok?)
    ensures forall e | e in Tail(s, w, album, original, dirs, stop) :: !e.MoveToOutput? && !e.RemoveSource?
  {
    if stop.None? && !s.dryRun {
      assert Tail(s, w, album, original, dirs, stop) == ArchiveSteps(s, w, album, dirs) + [];
    }
  }

  /** In a tail that reaches FINALIZING the moves and removals are those
      of FINALIZING, all of which happen. */
  lemma TailHoldsFinalize(s: Settings, w: World, album: Scanner.Album, original: string,
                          dirs: Option<WorkingDirectory.WorkingDirs>)
    requires !s.dryRun && w.archive.Ok?
    ensures forall e | e in Tail(s, w, album, original, dirs, None) && (e.MoveToOutput? || e.RemoveSource?) ::
      e in FinalizeSteps(s, w, original, dirs)
    ensures forall e | e in FinalizeSteps(s, w, original, dirs) :: e in Tail(s, w, album, original, dirs, None)
  {
    var ar := ArchiveSteps(s, w, album, dirs);
    var fi := FinalizeSteps(s, w, original, dirs);
    var co := if w.move.Fail? then [] else CompleteSteps(s, dirs);
    assert Tail(s, w, album, original, dirs, None) == ar + (fi + co);
    assert forall e | e in ar :: e.MarkAlbum? || e.CopyToArchive?;
    assert forall e | e in co :: e.MarkAlbum? || e.Cleanup?;
  }

  lemma PrepareFailedMovesNothing(s: Settings, w: World, album: Scanner.Album, session: Option<seq<Resume>>)
    requires !s.dryRun && Prepare(w, album).PrepareFailed?
    ensures forall e | e in ProcessAlbum(s, w, album, session).events ::
      e.MarkAlbum? || e.CopySource? || e.CreateStructure? || e.Cleanup?
  {
  }

  lemma PreparedOpening(w: World, album: Scanner.Album)
    requires Prepare(w, album).Prepared?
    ensures forall e | e in Prepare(w, album).events :: e.MarkAlbum? || e.CopySource? || e.CreateStructure?
  {
  }

  /** The move to the output happens exactly when the archive copy
      succeeded, it moves the processed working directory, and its target
      is named after the original source, never after a working directory. */
  lemma MoveIff(s: Settings, w: World, album: Scanner.Album, session: Option<seq<Resume>>)
    ensures (exists e | e in ProcessAlbum(s, w, album, session).events :: e.MoveToOutput?) <==> ReachesFinalize(s, w, album)
    ensures forall e | e in ProcessAlbum(s, w, album, session).events && e.MoveToOutput? ::
      e.target == OutputAlbumPath(s, OriginalOf(album.rootPath, session)) && e.processed == Some(w.dirs.value.processed)
  {
    if s.dryRun {
      DryRunCallsNothing(s, w, album, session);
    } else if Prepare(w, album).PrepareFailed? {
      PrepareFailedMovesNothing(s, w, album, session);
    } else {
      PreparedMoves(s, w, album, session);
    }
  }

  lemma PreparedMoves(s: Settings, w: World, album: Scanner.Album, session: Option<seq<Resume>>)
    requires !s.dryRun && Prepare(w, album).Prepared?
    ensures (exists e | e in ProcessAlbum(s, w, album, session).events :: e.MoveToOutput?) <==> ReachesFinalize(s, w, album)
    ensures forall e | e in ProcessAlbum(s, w, album, session).events && e.MoveToOutput? ::
      e.target == OutputAlbumPath(s, OriginalOf(album.rootPath, session)) && e.processed == Some(w.dirs.value.processed)
  {
    PreparedEvents(s, w, album, session);
    TailMoves(s, w, album, OriginalOf(album.rootPath, session), DirsOf(s, w), Conversion(s, w, album).stop);
  }

  /** The original source is removed exactly when the run got through
      FINALIZING, removal is configured, the path exists and it does not
      look like a working directory; nothing else is ever removed. */
  lemma RemovalIff(s: Settings, w: World, album: Scanner.Album, session: Option<seq<Resume>>)
    ensures forall p :: RemoveSource(p) in ProcessAlbum(s, w, album, session).events <==>
      ReachesEnd(s, w, album) && s.removeSource && p == OriginalOf(album.rootPath, session)
      && RemovalAllowed(p, w.existing)
  {
    if s.dryRun {
      DryRunCallsNothing(s, w, album, session);
    } else if Prepare(w, album).PrepareFailed? {
      PrepareFailedMovesNothing(s, w, album, session);
    } else {
      PreparedEvents(s, w, album, session);
      TailMoves(s, w, album, OriginalOf(album.rootPath, session), DirsOf(s, w), Conversion(s, w, album).stop);
    }
  }

  /** A failed move removes only the working source, passing no processed
      directory, and records `failed_finalize`. */
  lemma FinalizeFailureCleanup(s: Settings, w: World, album: Scanner.Album, session: Option<seq<Resume>>)
    requires ReachesFinalize(s, w, album) && w.move.Fail?
    ensures var run := ProcessAlbum(s, w, album, session);
      !run.result
      && (s.cleanupOnFailure ==> run.events[|run.events| - 1] == Cleanup(Some(w.dirs.value.source), None)
                                 && run.events[|run.events| - 2].MarkAlbum? && run.events[|run.events| - 2].stage == "failed_finalize")
      && (!s.cleanupOnFailure ==> run.events[|run.events| - 1].MarkAlbum? && run.events[|run.events| - 1].stage == "failed_finalize")
      && forall e | e in run.events :: !e.RemoveSource?
  {
    RemovalIff(s, w, album, session);
  }

  /** A failed archive copy records `failed_archive` and removes both
      working directories when configured. */
  lemma ArchiveFailureCleanup(s: Settings, w: World, album: Scanner.Album, session: Option<seq<Resume>>)
    requires ReachesArchive(s, w, album) && w.archive.Fail?
    ensures var run := ProcessAlbum(s, w, album, session);
      !run.result
      && (s.cleanupOnFailure ==> run.events[|run.events| - 1] == Cleanup(Some(w.dirs.value.source), Some(w.dirs.value.processed))
                                 && run.events[|run.events| - 2].MarkAlbum? && run.events[|run.events| - 2].stage == "failed_archive")
      && (!s.cleanupOnFailure ==> run.events[|run.events| - 1].MarkAlbum? && run.events[|run.events| - 1].stage == "failed_archive")
  {
  }
}

=== FILE: ordering.dfy ===
/** Python's ordering of `str` values (code point by code point) and of
    `pathlib` paths (component lists compared lexicographically), with a
    sort and a set-to-sorted-list conversion that are correct for any
    total order. */
module Ordering {
  import opened Text

  /** `a <= b` on Python strings. */
  predicate StrLe(a: string, b: string)
    decreases |a|
  {
    |a| == 0 || (|b| > 0 && (a[0] < b[0] || (a[0] == b[0] && StrLe(a[1..], b[1..]))))
  }

  predicate StrLt(a: string, b: string) {
    StrLe(a, b) && a != b
  }

  lemma {:induction false} StrLeAntisymmetric(a: string, b: string)
    requires StrLe(a, b) && StrLe(b, a)
    ensures a == b
    decreases |a|
  {
    if |a| > 0 {
      StrLeAntisymmetric(a[1..], b[1..]);
      assert a == [a[0]] + a[1..] && b == [b[0]] + b[1..];
    }
  }

  lemma {:induction false} StrLeTransitive(a: string, b: string, c: string)
    requires StrLe(a, b) && StrLe(b, c)
    ensures StrLe(a, c)
    decreases |a|
  {
    if |a| > 0 && a[0] == b[0] && b[0] == c[0] {
      StrLeTransitive(a[1..], b[1..], c[1..]);
    }
  }

  lemma {:induction false} StrLeTotal(a: string, b: string)
    ensures StrLe(a, b) || StrLe(b, a)
    decreases |a|
  {
    if |a| > 0 && |b| > 0 && a[0] == b[0] {
      StrLeTotal(a[1..], b[1..]);
    }
  }

  /** Lexicographic order on lists of strings, as Python compares lists:
      the first differing element decides, and a proper prefix is smaller. */
  predicate PartsLe(a: seq<string>, b: seq<string>)
    decreases |a|
  {
    |a| == 0 || (|b| > 0 && (StrLt(a[0], b[0]) || (a[0] == b[0] && PartsLe(a[1..], b[1..]))))
  }

  lemma {:induction false} PartsLeAntisymmetric(a: seq<string>, b: seq<string>)
    requires PartsLe(a, b) && PartsLe(b, a)
    ensures a == b
    decreases |a|
  {
    if |a| > 0 {
      if StrLt(a[0], b[0]) && StrLt(b[0], a[0]) {
        StrLeAntisymmetric(a[0], b[0]);
      }
      PartsLeAntisymmetric(a[1..], b[1..]);
      assert a == [a[0]] + a[1..] && b == [b[0]] + b[1..];
    }
  }

  lemma {:induction false} PartsLeTransitive(a: seq<string>, b: seq<string>, c: seq<string>)
    requires PartsLe(a, b) && PartsLe(b, c)
    ensures PartsLe(a, c)
    decreases |a|
  {
    if |a| > 0 {
      if a[0] == b[0] && b[0] == c[0] {
        PartsLeTransitive(a[1..], b[1..], c[1..]);
      } else if StrLt(a[0], b[0]) && StrLt(b[0], c[0]) {
        StrLeTransitive(a[0], b[0], c[0]);
        if a[0] == c[0] { StrLeAntisymmetric(a[0], b[0]); }
      }
    }
  }

  lemma {:induction false} PartsLeTotal(a: seq<string>, b: seq<string>)
    ensures PartsLe(a, b) || PartsLe(b, a)
    decreases |a|
  {
    if |a| > 0 && |b| > 0 {
      StrLeTotal(a[0], b[0]);
      if a[0] == b[0] {
        PartsLeTotal(a[1..], b[1..]);
      }
    }
  }

  /** `a <= b` on POSIX paths: `str(a).split('/')` against `str(b).split('/')`. */
  predicate PathLe(a: string, b: string) {
    PartsLe(Split(a, '/'), Split(b, '/'))
  }

  ghost predicate TotalOrder(le: (string, string) -> bool) {
    (forall a, b :: le(a, b) && le(b, a) ==> a == b)
    && (forall a, b, c :: le(a, b) && le(b, c) ==> le(a, c))
    && (forall a, b :: le(a, b) || le(b, a))
  }

  lemma StrLeIsTotalOrder()
    ensures TotalOrder(StrLe)
  {
    forall a, b | StrLe(a, b) && StrLe(b, a) ensures a == b { StrLeAntisymmetric(a, b); }
    forall a, b, c | StrLe(a, b) && StrLe(b, c) ensures StrLe(a, c) { StrLeTransitive(a, b, c); }
    forall a, b ensures StrLe(a, b) || StrLe(b, a) { StrLeTotal(a, b); }
  }

  lemma PathLeIsTotalOrder()
    ensures TotalOrder(PathLe)
  {
    forall a, b | PathLe(a, b) && PathLe(b, a) ensures a == b {
      PartsLeAntisymmetric(Split(a, '/'), Split(b, '/'));
      SplitInjective(a, b, '/');
    }
    forall a, b, c | PathLe(a, b) && PathLe(b, c) ensures PathLe(a, c) {
      PartsLeTransitive(Split(a, '/'), Split(b, '/'), Split(c, '/'));
    }
    forall a, b ensures PathLe(a, b) || PathLe(b, a) {
      PartsLeTotal(Split(a, '/'), Split(b, '/'));
    }
  }

  predicate Sorted(s: seq<string>, le: (string, string) -> bool) {
    forall i, j :: 0 <= i < j < |s| ==> le(s[i], s[j])
  }

  function Insert(x: string, s: seq<string>, le: (string, string) -> bool): (r: seq<string>)
    requires TotalOrder(le) && Sorted(s, le)
    ensures Sorted(r, le) && multiset(r) == multiset(s) + multiset{x}
  {
    if |s| == 0 then [x]
    else if le(x, s[0]) then
      ConsSorted(x, s, le);
      [x] + s
    else
      var tail := Insert(x, s[1..], le);
      assert s == [s[0]] + s[1..];
      assert forall y | y in tail :: le(s[0], y) by {
        forall y | y in tail ensures le(s[0], y) {
          assert y in multiset(tail);
          if y != x { assert y in s[1..]; }
        }
      }
      ConsSorted(s[0], tail, le);
      [s[0]] + tail
  }

  /** An element below the head of a sorted list, or below all of it,
      can be put in front. */
  lemma ConsSorted(h: string, t: seq<string>, le: (string, string) -> bool)
    requires TotalOrder(le) && Sorted(t, le)
    requires |t| == 0 || le(h, t[0]) || forall y | y in t :: le(h, y)
    ensures Sorted([h] + t, le)
  {
    var r := [h] + t;
    forall i, j | 0 <= i < j < |r| ensures le(r[i], r[j]) {
      if i == 0 {
        assert r[j] == t[j - 1];
        if j > 1 && !(forall y | y in t :: le(h, y)) {
          assert le(t[0], t[j - 1]);
        }
      } else {
        assert r[i] == t[i - 1] && r[j] == t[j - 1];
      }
    }
  }

  /** `sorted(s)`: insertion sort under a total order. */
  function Sort(s: seq<string>, le: (string, string) -> bool): (r: seq<string>)
    requires TotalOrder(le)
    ensures Sorted(r, le) && multiset(r) == multiset(s)
  {
    if |s| == 0 then []
    else
      assert s == s[..|s| - 1] + [s[|s| - 1]];
      Insert(s[|s| - 1], Sort(s[..|s| - 1], le), le)
  }

  lemma HeadIsLeast(a: seq<string>, le: (string, string) -> bool)
    requires TotalOrder(le) && Sorted(a, le) && |a| > 0
    ensures forall x | x in a :: le(a[0], x)
  {
    var h := a[0];
    assert le(h, h);
  }

  lemma HeadsEqual(a: seq<string>, b: seq<string>, le: (string, string) -> bool)
    requires TotalOrder(le) && Sorted(a, le) && Sorted(b, le)
    requires multiset(a) == multiset(b) && |a| > 0
    ensures |b| > 0 && a[0] == b[0]
  {
    assert a[0] in multiset(b);
    assert |b| > 0;
    assert b[0] in multiset(a);
    HeadIsLeast(a, le);
    HeadIsLeast(b, le);
  }

  lemma TailsSameMultiset(a: seq<string>, b: seq<string>)
    requires |a| > 0 && |b| > 0 && a[0] == b[0] && multiset(a) == multiset(b)
    ensures multiset(a[1..]) == multiset(b[1..])
  {
    assert a == [a[0]] + a[1..] && b == [b[0]] + b[1..];
    assert multiset(a) == multiset{a[0]} + multiset(a[1..]);
    assert multiset(b) == multiset{b[0]} + multiset(b[1..]);
    assert multiset(a[1..]) == multiset(a) - multiset{a[0]};
    assert multiset(b[1..]) == multiset(b) - multiset{b[0]};
  }

  /** Under a total order there is exactly one sorted arrangement of a
      multiset, so sorting forgets the order of its input. */
  lemma {:induction false} SortedUnique(a: seq<string>, b: seq<string>, le: (string, string) -> bool)
    requires TotalOrder(le) && Sorted(a, le) && Sorted(b, le)
    requires multiset(a) == multiset(b)
    ensures a == b
    decreases |a|
  {
    if |a| > 0 {
      HeadsEqual(a, b, le);
      TailsSameMultiset(a, b);
      SortedUnique(a[1..], b[1..], le);
      assert a == [a[0]] + a[1..] && b == [b[0]] + b[1..];
    } else {
      assert |multiset(b)| == 0;
    }
  }

  lemma SortPermutationInvariant(s: seq<string>, t: seq<string>, le: (string, string) -> bool)
    requires TotalOrder(le) && multiset(s) == multiset(t)
    ensures Sort(s, le) == Sort(t, le)
  {
    SortedUnique(Sort(s, le), Sort(t, le), le);
  }

  predicate StrictlySorted(s: seq<string>, le: (string, string) -> bool) {
    forall i, j :: 0 <= i < j < |s| ==> le(s[i], s[j]) && s[i] != s[j]
  }

  /** The least element of a non-empty finite set. */
  function Least(s: set<string>, le: (string, string) -> bool): (m: string)
    requires TotalOrder(le) && s != {}
    ensures m in s && forall y | y in s :: le(m, y)
  {
    LeastExists(s, le);
    var m :| m in s && forall y | y in s :: le(m, y);
    m
  }

  lemma {:induction false} LeastExists(s: set<string>, le: (string, string) -> bool)
    requires TotalOrder(le) && s != {}
    ensures exists m :: m in s && forall y | y in s :: le(m, y)
    ensures forall m, n | m in s && n in s && (forall y | y in s :: le(m, y)) && (forall y | y in s :: le(n, y)) :: m == n
    decreases |s|
  {
    var x :| x in s;
    if s != {x} {
      LeastExists(s - {x}, le);
      var m :| m in s - {x} && forall y | y in s - {x} :: le(m, y);
      if le(m, x) {
        assert forall y | y in s :: le(m, y);
      } else {
        assert forall y | y in s :: le(x, y);
      }
    } else {
      assert forall y | y in s :: le(x, y);
    }
  }

  /** `sorted(s)` of a set: its elements, each once, in ascending order. */
  function SortSet(s: set<string>, le: (string, string) -> bool): (r: seq<string>)
    requires TotalOrder(le)
    ensures StrictlySorted(r, le) && |r| == |s|
    ensures forall x :: x in s <==> x in r
    decreases |s|
  {
    if s == {} then []
    else
      var m := Least(s, le);
      var rest := SortSet(s - {m}, le);
      [m] + rest
  }

  /** `sorted(strings)`. */
  function SortStrings(s: seq<string>): (r: seq<string>)
    ensures Sorted(r, StrLe) && multiset(r) == multiset(s)
  {
    StrLeIsTotalOrder();
    Sort(s, StrLe)
  }

  /** Sorting strings forgets the order they came in. */
  lemma SortStringsOrderInvariant(a: seq<string>, b: seq<string>)
    requires multiset(a) == multiset(b)
    ensures SortStrings(a) == SortStrings(b)
  {
    StrLeIsTotalOrder();
    SortPermutationInvariant(a, b, StrLe);
  }
}

=== FILE: paths.dfy ===
/** POSIX paths as `/`-joined strings, with the parts of `pathlib` the
    program uses: `/`, `.name`, `.suffix`, `.stem`, `.with_suffix`,
    `.relative_to` and `.is_relative_to`. Paths are taken to be normalised
    (no trailing `/`, no empty or `.` components). */
module Paths {
  import opened Text

  /** `Path(dir) / name`. */
  function JoinPath(dir: string, name: string): string {
    dir + "/" + name
  }

  /** `p` lies strictly below `dir`. */
  predicate IsUnder(dir: string, p: string) {
    |p| > |dir| && p[..|dir|] == dir && p[|dir|] == '/'
  }

  /** `p.is_relative_to(dir)`: `p` is `dir` or lies below it. */
  predicate UnderOrEq(dir: string, p: string) {
    p == dir || IsUnder(dir, p)
  }

  /** `p.relative_to(dir)` as a string. */
  function Rel(dir: string, p: string): string
    requires IsUnder(dir, p)
  {
    p[|dir| + 1..]
  }

  lemma JoinRel(dir: string, p: string)
    requires IsUnder(dir, p)
    ensures JoinPath(dir, Rel(dir, p)) == p
  {
    assert p == p[..|dir|] + [p[|dir|]] + p[|dir| + 1..];
  }

  lemma RelJoin(dir: string, rel: string)
    ensures IsUnder(dir, JoinPath(dir, rel)) && Rel(dir, JoinPath(dir, rel)) == rel
  {
    var p := JoinPath(dir, rel);
    assert p[..|dir|] == dir;
  }

  /** Being below is transitive. */
  lemma UnderTransitive(a: string, b: string, c: string)
    requires UnderOrEq(a, b) && UnderOrEq(b, c)
    ensures UnderOrEq(a, c)
  {
    if IsUnder(a, b) && IsUnder(b, c) {
      assert c[..|b|][..|a|] == c[..|a|];
      assert c[..|b|][|a|] == c[|a|];
    }
  }

  /** Two paths neither of which contains the other have no path below both. */
  lemma DisjointTrees(a: string, t: string, p: string)
    requires !UnderOrEq(a, t) && !UnderOrEq(t, a)
    requires UnderOrEq(a, p)
    ensures !UnderOrEq(t, p)
  {
  }

  /** `p.name`: the text after the last `/`. */
  function Name(p: string): (n: string)
    ensures |n| <= |p|
    decreases |p|
  {
    if |p| == 0 || p[|p| - 1] == '/' then "" else Name(p[..|p| - 1]) + [p[|p| - 1]]
  }

  lemma NameIsLastComponent(p: string)
    ensures '/' !in Name(p) && EndsWith(p, Name(p))
    ensures |Name(p)| < |p| ==> p[|p| - |Name(p)| - 1] == '/'
  {
    NameHasNoSlash(p);
    NameIsSuffix(p);
  }

  lemma {:induction false} NameHasNoSlash(p: string)
    ensures '/' !in Name(p)
    decreases |p|
  {
    if |p| > 0 && p[|p| - 1] != '/' {
      NameHasNoSlash(p[..|p| - 1]);
    }
  }

  lemma {:induction false} NameIsSuffix(p: string)
    ensures EndsWith(p, Name(p))
    ensures |Name(p)| < |p| ==> p[|p| - |Name(p)| - 1] == '/'
    decreases |p|
  {
    if |p| > 0 && p[|p| - 1] != '/' {
      var q := p[..|p| - 1];
      NameIsSuffix(q);
      assert p == q + [p[|p| - 1]];
      assert p[|p| - |Name(p)|..] == q[|q| - |Name(q)|..] + [p[|p| - 1]];
    }
  }

  /** The name of `dir / name` is `name`. */
  lemma {:induction false} NameOfJoin(dir: string, name: string)
    requires '/' !in name
    ensures Name(JoinPath(dir, name)) == name
    decreases |name|
  {
    if |name| == 0 {
      assert JoinPath(dir, name)[|JoinPath(dir, name)| - 1] == '/';
    } else {
      var init := name[..|name| - 1];
      assert '/' !in init by { assert forall i | 0 <= i < |init| :: init[i] == name[i]; }
      assert JoinPath(dir, name)[..|JoinPath(dir, name)| - 1] == JoinPath(dir, init);
      NameOfJoin(dir, init);
    }
  }

  /** Everything before the name: `str(p.parent) + "/"` for a path with a parent. */
  function ParentPrefix(p: string): string {
    p[..|p| - |Name(p)|]
  }

  /** `Path(name).suffix` in Python 3.12: from the last `.`, unless that dot
      is the first or the last character. */
  function Suffix(name: string): (s: string)
    ensures s == "" || (s[0] == '.' && EndsWith(name, s) && |s| >= 2 && |s| < |name|)
    ensures '.' in s ==> '.' !in s[1..]
  {
    var i := LastIndex(name, '.', |name|);
    if 0 < i < |name| - 1 then
      assert name[|name| - (|name| - i)..] == name[i..];
      name[i..]
    else ""
  }

  /** The index of the last `c` in `s[..k]`, or -1. */
  function LastIndex(s: string, c: char, k: nat): (i: int)
    requires k <= |s|
    ensures -1 <= i < k
    ensures i >= 0 ==> s[i] == c
    ensures forall j :: i < j < k ==> s[j] != c
  {
    if k == 0 then -1 else if s[k - 1] == c then k - 1 else LastIndex(s, c, k - 1)
  }

  /** `p.stem`: the name without its suffix. */
  function Stem(p: string): string {
    var n := Name(p);
    n[..|n| - |Suffix(n)|]
  }

  /** `p.suffix.lower()`, the extension the program dispatches on. */
  function Ext(p: string): string {
    Lower(Suffix(Name(p)))
  }

  /** `p.with_suffix(suffix)`: the name's old suffix, if any, is replaced;
      the rest of the path is kept. Python raises for an empty name. */
  function WithSuffix(p: string, suffix: string): string
    requires Name(p) != ""
  {
    var n := Name(p);
    ParentPrefix(p) + n[..|n| - |Suffix(n)|] + suffix
  }
}

=== FILE: scanner.dfy ===
/** Finding albums under an input directory and classifying each album's
    files into music files (to convert) and other files (to copy). */
module Scanner {
  import opened Wrappers
  import opened Text
  import opened Paths
  import opened Ordering
  import opened FileSystem

  /** The two lower-cased extension sets of a `DirectoryScanner`. */
  datatype Scanner = Scanner(music: set<string>, copy: set<string>)

  const DefaultMusic: seq<string> := [".iso", ".dsf", ".dff"]
  const DefaultCopy: seq<string> := [".jpg", ".jpeg", ".png", ".pdf", ".txt", ".log", ".cue", ".m3u", ".nfo"]

  function LowerAll(exts: seq<string>): (r: set<string>)
    ensures forall e :: e in r <==> exists i | 0 <= i < |exts| :: e == Lower(exts[i])
  {
    set i | 0 <= i < |exts| :: Lower(exts[i])
  }

  /** `DirectoryScanner(music_extensions, copy_extensions)`: a missing or
      empty list falls back to the defaults. */
  function NewScanner(music: Option<seq<string>>, copy: Option<seq<string>>): (r: Scanner)
    ensures music.None? || music.value == [] ==> r.music == {".iso", ".dsf", ".dff"}
    ensures music.Some? && music.value != [] ==> r.music == LowerAll(music.value)
    ensures copy.None? || copy.value == [] ==> r.copy == LowerAll(DefaultCopy)
    ensures copy.Some? && copy.value != [] ==> r.copy == LowerAll(copy.value)
  {
    var m := if music.None? || music.value == [] then DefaultMusic else music.value;
    var c := if copy.None? || copy.value == [] then DefaultCopy else copy.value;
    LowerKeepsLowercase(".iso");
    LowerKeepsLowercase(".dsf");
    LowerKeepsLowercase(".dff");
    assert LowerAll(DefaultMusic) == {".iso", ".dsf", ".dff"} by {
      assert DefaultMusic[0] == ".iso" && DefaultMusic[1] == ".dsf" && DefaultMusic[2] == ".dff";
    }
    Scanner(LowerAll(m), LowerAll(c))
  }

  datatype MusicFile = MusicFile(path: string, relativePath: string, extension: string, size: nat)
  datatype NonMusicFile = NonMusicFile(path: string, relativePath: string, extension: string)

  datatype Album = Album(
    rootPath: string,
    name: string,
    musicFiles: seq<MusicFile>,
    nonMusicFiles: seq<NonMusicFile>,
    subdirectories: seq<string>)

  /** `Album.total_size`. */
  function TotalSize(files: seq<MusicFile>): nat {
    if |files| == 0 then 0 else files[0].size + TotalSize(files[1..])
  }

  /** `Album.file_count`. */
  function FileCount(a: Album): nat {
    |a.musicFiles|
  }

  predicate IsMusic(s: Scanner, p: string) {
    Ext(p) in s.music
  }

  /** Kept as a non-music file: a copy extension, or no extension at all. */
  predicate IsCopied(s: Scanner, p: string) {
    !IsMusic(s, p) && (Ext(p) in s.copy || Ext(p) == "")
  }

  /** `MusicFile(path, ...)`: the size of the file, 0 if it does not exist. */
  function MusicFileOf(fs: Fs, album: string, p: string): MusicFile {
    MusicFile(p, RelOf(album, p), Ext(p), SizeOf(fs, p))
  }

  function RelOf(dir: string, p: string): string {
    if IsUnder(dir, p) then Rel(dir, p) else p
  }

  /** The first component of a relative path (`parts[0]`). */
  function FirstComponent(rel: string): (r: string)
    ensures '/' !in r
  {
    if '/' in rel then
      var i := IndexOf(rel, '/');
      assert '/' !in rel[..i] by { assert forall j | 0 <= j < i :: rel[..i][j] == rel[j]; }
      rel[..i]
    else rel
  }

  function MusicPaths(fs: Fs, s: Scanner, album: string): set<string> {
    set p | p in FilesBelow(fs, album) && IsMusic(s, p)
  }

  function CopiedPaths(fs: Fs, s: Scanner, album: string): set<string> {
    set p | p in FilesBelow(fs, album) && IsCopied(s, p)
  }

  /** The first components of the directories below `album`. */
  function SubdirNames(fs: Fs, album: string): set<string> {
    set d | d in fs && fs[d].Dir? && IsUnder(album, d) :: FirstComponent(Rel(album, d))
  }

  /** The music file paths of `album`, in path-string order. */
  function SortedMusicPaths(fs: Fs, s: Scanner, album: string): (r: seq<string>)
    ensures forall p :: p in r <==> p in MusicPaths(fs, s, album)
    ensures StrictlySorted(r, StrLe)
  {
    StrLeIsTotalOrder();
    var paths := MusicPaths(fs, s, album);
    SortSet(paths, StrLe)
  }

  /** The paths of the files of `album` to copy, in path-string order. */
  function SortedCopiedPaths(fs: Fs, s: Scanner, album: string): (r: seq<string>)
    ensures forall p :: p in r <==> p in CopiedPaths(fs, s, album)
    ensures StrictlySorted(r, StrLe)
  {
    StrLeIsTotalOrder();
    var paths := CopiedPaths(fs, s, album);
    SortSet(paths, StrLe)
  }

  function MusicFilesOf(fs: Fs, album: string, paths: seq<string>): (r: seq<MusicFile>)
    ensures |r| == |paths| && forall k | 0 <= k < |r| :: r[k] == MusicFileOf(fs, album, paths[k])
  {
    seq(|paths|, k requires 0 <= k < |paths| => MusicFileOf(fs, album, paths[k]))
  }

  function NonMusicFilesOf(album: string, paths: seq<string>): (r: seq<NonMusicFile>)
    ensures |r| == |paths|
    ensures forall k | 0 <= k < |r| :: r[k] == NonMusicFile(paths[k], RelOf(album, paths[k]), Ext(paths[k]))
  {
    seq(|paths|, k requires 0 <= k < |paths| => NonMusicFile(paths[k], RelOf(album, paths[k]), Ext(paths[k])))
  }

  function SubdirectoriesOf(fs: Fs, album: string): (r: seq<string>)
    ensures forall n :: n in r <==> n in SubdirNames(fs, album)
    ensures StrictlySorted(r, StrLe)
  {
    StrLeIsTotalOrder();
    var names := SubdirNames(fs, album);
    SortSet(names, StrLe)
  }

  /** `_scan_album(album_path, root_dir)`: every file below the album is a
      music file, a copied file or dropped; both lists are sorted by path
      string; subdirectories are the distinct first components, sorted.
      Relative paths are taken against the album itself. */
  function ScanAlbum(fs: Fs, s: Scanner, album: string): Album {
    Album(album, Name(album), MusicFilesOf(fs, album, SortedMusicPaths(fs, s, album)),
          NonMusicFilesOf(album, SortedCopiedPaths(fs, s, album)), SubdirectoriesOf(fs, album))
  }

  /** The paths of a list of music files, in order. */
  function PathsOf(files: seq<MusicFile>): (r: seq<string>)
    ensures |r| == |files|
  {
    if |files| == 0 then [] else [files[0].path] + PathsOf(files[1..])
  }

  /** `total_size` adds up the sizes the files had when they were found. */
  lemma {:induction false} TotalSizeIsSumOfSizes(fs: Fs, files: seq<MusicFile>)
    requires forall k | 0 <= k < |files| :: files[k].size == SizeOf(fs, files[k].path)
    ensures TotalSize(files) == SumSizes(fs, PathsOf(files))
  {
    if |files| > 0 {
      TotalSizeIsSumOfSizes(fs, files[1..]);
      assert PathsOf(files) == [files[0].path] + PathsOf(files[1..]);
    }
  }

  /** No file is both converted and copied. */
  lemma ClassificationDisjoint(fs: Fs, s: Scanner, album: string, p: string)
    ensures !(p in MusicPaths(fs, s, album) && p in CopiedPaths(fs, s, album))
  {
  }

  // ---------------------------------------------------------------------
  // Album discovery
  // ---------------------------------------------------------------------

  /** `dir` directly holds a music file (the condition `_scan_for_albums` tests). */
  predicate HasOwnMusic(fs: Fs, s: Scanner, dir: string) {
    exists f | f in Children(fs, dir) :: fs[f].File? && IsMusic(s, f)
  }

  /** A directory `os.walk(root)` may visit: the root or a directory below
      it (a missing root is walked as empty). */
  predicate Walked(fs: Fs, root: string, d: string) {
    IsDir(fs, root) && IsDir(fs, d) && UnderOrEq(root, d)
  }

  /** `_scan_for_albums(root)`: the walk stops descending at a directory
      that holds music, so the album roots are the walked directories with
      music of their own and no walked ancestor with music of its own. */
  predicate IsAlbumRoot(fs: Fs, s: Scanner, root: string, d: string) {
    Walked(fs, root, d) && HasOwnMusic(fs, s, d)
    && forall e | e in fs && IsUnder(e, d) && Walked(fs, root, e) :: !HasOwnMusic(fs, s, e)
  }

  function AlbumRoots(fs: Fs, s: Scanner, root: string): set<string> {
    set d | d in fs && IsAlbumRoot(fs, s, root, d)
  }

  /** One album per root, in the roots' order. */
  function ScanAll(fs: Fs, s: Scanner, roots: seq<string>): (r: seq<Album>)
    ensures |r| == |roots|
  {
    seq(|roots|, k requires 0 <= k < |roots| => ScanAlbum(fs, s, roots[k]))
  }

  /** The album roots in path-string order. */
  function SortedAlbumRoots(fs: Fs, s: Scanner, root: string): (r: seq<string>)
    ensures forall d :: d in r <==> d in fs && IsAlbumRoot(fs, s, root, d)
  {
    StrLeIsTotalOrder();
    var roots := AlbumRoots(fs, s, root);
    SortSet(roots, StrLe)
  }

  /** The albums `_scan_for_albums` finds, listed by root path. */
  function ScanForAlbums(fs: Fs, s: Scanner, root: string): (r: seq<Album>)
  {
    ScanAll(fs, s, SortedAlbumRoots(fs, s, root))
  }

  /** Every album the walk finds is an album root with a music file. */
  lemma FoundAlbumsAreRoots(fs: Fs, s: Scanner, root: string, a: Album)
    requires a in ScanForAlbums(fs, s, root)
    ensures IsAlbumRoot(fs, s, root, a.rootPath) && FileCount(a) > 0
  {
    var roots := SortedAlbumRoots(fs, s, root);
    var k := ScannedRoot(fs, s, roots, a);
    OwnMusicIsCounted(fs, s, roots[k]);
  }

  /** Each album of a scan is the scan of one of the roots. */
  lemma ScannedRoot(fs: Fs, s: Scanner, roots: seq<string>, a: Album) returns (k: nat)
    requires a in ScanAll(fs, s, roots)
    ensures k < |roots| && a == ScanAlbum(fs, s, roots[k]) && roots[k] in roots
  {
    var r := ScanAll(fs, s, roots);
    k :| 0 <= k < |r| && r[k] == a;
  }

  /** Every album root is found. */
  lemma AlbumRootsAreFound(fs: Fs, s: Scanner, root: string, d: string)
    requires d in fs && IsAlbumRoot(fs, s, root, d)
    ensures exists a | a in ScanForAlbums(fs, s, root) :: a.rootPath == d
  {
    ScanAllFinds(fs, s, SortedAlbumRoots(fs, s, root), d);
  }

  /** Scanning a list of roots yields an album for each of them. */
  lemma ScanAllFinds(fs: Fs, s: Scanner, roots: seq<string>, d: string)
    requires d in roots
    ensures exists a | a in ScanAll(fs, s, roots) :: a.rootPath == d
  {
    var k :| 0 <= k < |roots| && roots[k] == d;
    assert ScanAll(fs, s, roots)[k].rootPath == d;
  }

  lemma OwnMusicIsCounted(fs: Fs, s: Scanner, d: string)
    requires HasOwnMusic(fs, s, d)
    ensures FileCount(ScanAlbum(fs, s, d)) > 0
  {
    var f :| f in Children(fs, d) && fs[f].File? && IsMusic(s, f);
    assert f in FilesBelow(fs, d);
    assert f in MusicPaths(fs, s, d);
    assert f in SortedMusicPaths(fs, s, d);
  }

  /** Albums found by the walk never nest. */
  lemma AlbumsNeverNest(fs: Fs, s: Scanner, root: string, a: string, b: string)
    requires IsAlbumRoot(fs, s, root, a) && IsAlbumRoot(fs, s, root, b)
    ensures !IsUnder(a, b)
  {
  }

  /** Every music file directly in a walked directory lies in some album
      root: the shortest walked ancestor with music of its own is one. */
  lemma MusicFileBelongsToAlbum(fs: Fs, s: Scanner, root: string, d: string, f: string)
    requires Walked(fs, root, d) && f in Children(fs, d) && fs[f].File? && IsMusic(s, f)
    ensures exists a | a in fs && IsAlbumRoot(fs, s, root, a) :: f in MusicPaths(fs, s, a)
  {
    var ancestors := set e | e in fs && Walked(fs, root, e) && UnderOrEq(e, d) && HasOwnMusic(fs, s, e);
    assert d in ancestors;
    ShortestExists(ancestors);
    var m :| m in ancestors && forall e | e in ancestors :: |m| <= |e|;
    forall e | e in fs && IsUnder(e, m) && Walked(fs, root, e) ensures !HasOwnMusic(fs, s, e) {
      UnderTransitive(e, m, d);
    }
    assert IsAlbumRoot(fs, s, root, m);
    UnderTransitive(m, d, f);
    assert f in FilesBelow(fs, m);
  }

  lemma {:induction false} ShortestExists(strs: set<string>)
    requires strs != {}
    ensures exists m | m in strs :: forall e | e in strs :: |m| <= |e|
    decreases |strs|
  {
    var x :| x in strs;
    if strs != {x} {
      ShortestExists(strs - {x});
      var m :| m in strs - {x} && forall e | e in strs - {x} :: |m| <= |e|;
      if |x| < |m| {
        assert forall e | e in strs :: |x| <= |e|;
      } else {
        assert forall e | e in strs :: |m| <= |e|;
      }
    } else {
      assert forall e | e in strs :: |x| <= |e|;
    }
  }

  // ---------------------------------------------------------------------
  // scan()
  // ---------------------------------------------------------------------

  /** `_is_album(dir)`: a music file anywhere below `dir`. */
  predicate IsAlbum(fs: Fs, s: Scanner, dir: string) {
    exists f | f in FilesBelow(fs, dir) :: IsMusic(s, f)
  }

  /** Without any music below the root the walk finds nothing. */
  lemma NoMusicNoAlbums(fs: Fs, s: Scanner, root: string)
    requires !IsAlbum(fs, s, root)
    ensures ScanForAlbums(fs, s, root) == []
  {
    if SortedAlbumRoots(fs, s, root) != [] {
      var d := SortedAlbumRoots(fs, s, root)[0];
      assert d in SortedAlbumRoots(fs, s, root);
      var f :| f in Children(fs, d) && fs[f].File? && IsMusic(s, f);
      UnderTransitive(root, d, f);
    }
  }

  /** `scan(root_dir)` as written: the root counts as one album as soon as
      any music lies anywhere below it, so the walk for separate albums is
      reached only when there is nothing to find. */
  function Scan(fs: Fs, s: Scanner, root: string): (r: Result<seq<Album>, string>)
    ensures root !in fs ==> r == Failure("Directory not found: " + root)
    ensures IsFile(fs, root) ==> r == Failure("Not a directory: " + root)
    ensures IsDir(fs, root) ==> r.Success? && |r.value| <= 1
    ensures IsDir(fs, root) && IsAlbum(fs, s, root) ==> r == Success([ScanAlbum(fs, s, root)])
    ensures IsDir(fs, root) && !IsAlbum(fs, s, root) ==> r == Success([])
  {
    if root !in fs then Failure("Directory not found: " + root)
    else if fs[root].File? then Failure("Not a directory: " + root)
    else if IsAlbum(fs, s, root) then
      var album := ScanAlbum(fs, s, root);
      var f :| f in FilesBelow(fs, root) && IsMusic(s, f);
      assert f in SortedMusicPaths(fs, s, root);
      if FileCount(album) > 0 then Success([album]) else Success([])
    else
      NoMusicNoAlbums(fs, s, root);
      Success(ScanForAlbums(fs, s, root))
  }

  /** `scan(root_dir)` as its documentation and tests describe it: the walk
      decides where albums are, so an input directory holding one album
      folder per release yields one album each. */
  function ScanAlbums(fs: Fs, s: Scanner, root: string): (r: Result<seq<Album>, string>)
    ensures root !in fs ==> r == Failure("Directory not found: " + root)
    ensures IsFile(fs, root) ==> r == Failure("Not a directory: " + root)
    ensures IsDir(fs, root) ==> r == Success(ScanForAlbums(fs, s, root))
  {
    if root !in fs then Failure("Directory not found: " + root)
    else if fs[root].File? then Failure("Not a directory: " + root)
    else Success(ScanForAlbums(fs, s, root))
  }

  /** What the corrected scan finds: album roots only, none inside another,
      and every music file directly in a walked directory inside one of
      them. */
  lemma ScanAlbumsPartitionsMusic(fs: Fs, s: Scanner, root: string, d: string, f: string)
    requires IsDir(fs, root)
    requires Walked(fs, root, d) && f in Children(fs, d) && fs[f].File? && IsMusic(s, f)
    ensures var albums := ScanAlbums(fs, s, root).value;
            && (forall a, b | a in albums && b in albums :: !IsUnder(a.rootPath, b.rootPath))
            && exists a | a in albums :: f in MusicPaths(fs, s, a.rootPath)
  {
    var albums := ScanAlbums(fs, s, root).value;
    forall a, b | a in albums && b in albums ensures !IsUnder(a.rootPath, b.rootPath) {
      FoundAlbumsAreRoots(fs, s, root, a);
      FoundAlbumsAreRoots(fs, s, root, b);
      AlbumsNeverNest(fs, s, root, a.rootPath, b.rootPath);
    }
    MusicFileBelongsToAlbum(fs, s, root, d, f);
    var r :| r in fs && IsAlbumRoot(fs, s, root, r) && f in MusicPaths(fs, s, r);
    AlbumRootsAreFound(fs, s, root, r);
    var a :| a in albums && a.rootPath == r;
  }

  /** The two-album library of the scanner's tests. */
  function TwoAlbumLibrary(): Fs {
    map["in" := Dir, "in/Album 1" := Dir, "in/Album 1/track1.iso" := File([0]),
        "in/Album 2" := Dir, "in/Album 2/track1.dsf" := File([1])]
  }

  lemma LibraryExtensions()
    ensures Ext("in/Album 1/track1.iso") == ".iso" && Ext("in/Album 2/track1.dsf") == ".dsf"
  {
    LibraryTrackPaths();
    TrackExt("in/Album 1", "track1.iso", ".iso");
    TrackExt("in/Album 2", "track1.dsf", ".dsf");
  }

  lemma LibraryTrackPaths()
    ensures JoinPath("in/Album 1", "track1.iso") == "in/Album 1/track1.iso"
    ensures JoinPath("in/Album 2", "track1.dsf") == "in/Album 2/track1.dsf"
  {
  }

  /** The extension of `dir/track1.iso` and `dir/track1.dsf`. */
  lemma TrackExt(dir: string, n: string, ext: string)
    requires (n == "track1.iso" && ext == ".iso") || (n == "track1.dsf" && ext == ".dsf")
    ensures Ext(JoinPath(dir, n)) == ext
  {
    assert '/' !in n;
    NameOfJoin(dir, n);
    if n == "track1.iso" {
      assert LastIndex("track1.iso", '.', 10) == 6;
    } else {
      assert LastIndex("track1.dsf", '.', 10) == 6;
    }
    assert Suffix(n) == ext;
    LowerKeepsLowercase(ext);
  }

  /** The input directory's children are the two album folders. */
  lemma LibraryChildren()
    ensures Children(TwoAlbumLibrary(), "in") == {"in/Album 1", "in/Album 2"}
  {
    assert IsUnder("in", "in/Album 1") && Rel("in", "in/Album 1") == "Album 1";
    assert IsUnder("in", "in/Album 2") && Rel("in", "in/Album 2") == "Album 2";
    assert Rel("in", "in/Album 1/track1.iso") == "Album 1/track1.iso";
    assert "Album 1/track1.iso"[7] == '/';
    assert Rel("in", "in/Album 2/track1.dsf") == "Album 2/track1.dsf";
    assert "Album 2/track1.dsf"[7] == '/';
  }

  /** Each album folder holds its track directly. */
  lemma LibraryTrackIsChild(d: string, f: string)
    requires (d == "in/Album 1" && f == "in/Album 1/track1.iso") || (d == "in/Album 2" && f == "in/Album 2/track1.dsf")
    ensures f in Children(TwoAlbumLibrary(), d)
  {
    LibraryTrackPaths();
    if d == "in/Album 1" {
      JoinIsChild(TwoAlbumLibrary(), d, "track1.iso");
    } else {
      JoinIsChild(TwoAlbumLibrary(), d, "track1.dsf");
    }
  }

  lemma JoinIsChild(fs: Fs, d: string, n: string)
    requires JoinPath(d, n) in fs && '/' !in n
    ensures JoinPath(d, n) in Children(fs, d)
  {
    RelJoin(d, n);
  }

  /** The library's input directory holds no music of its own. */
  lemma LibraryRootHasNoOwnMusic(s: Scanner)
    ensures !HasOwnMusic(TwoAlbumLibrary(), s, "in")
  {
    LibraryChildren();
  }

  lemma LibraryAlbumHasOwnMusic(s: Scanner, d: string, f: string)
    requires s.music == {".iso", ".dsf", ".dff"}
    requires (d == "in/Album 1" && f == "in/Album 1/track1.iso") || (d == "in/Album 2" && f == "in/Album 2/track1.dsf")
    ensures HasOwnMusic(TwoAlbumLibrary(), s, d)
  {
    LibraryExtensions();
    LibraryTrackIsChild(d, f);
    assert TwoAlbumLibrary()[f].File?;
    assert IsMusic(s, f);
  }

  /** The only directory above an album folder is the input directory. */
  lemma LibraryAncestors(d: string)
    requires d == "in/Album 1" || d == "in/Album 2"
    ensures forall e | e in TwoAlbumLibrary() && IsUnder(e, d) :: e == "in"
  {
    var fs := TwoAlbumLibrary();
    forall e | e in fs && IsUnder(e, d) ensures e == "in" {
      assert |e| < 10;
    }
  }

  /** A walked directory with music of its own whose only walked ancestor
      is a root without music of its own is an album root. */
  lemma AlbumRootBelowBareRoot(fs: Fs, s: Scanner, root: string, d: string)
    requires Walked(fs, root, d) && HasOwnMusic(fs, s, d) && !HasOwnMusic(fs, s, root)
    requires forall e | e in fs && IsUnder(e, d) :: e == root
    ensures IsAlbumRoot(fs, s, root, d)
  {
  }

  lemma LibraryAlbumRoot(s: Scanner, d: string, f: string)
    requires s.music == {".iso", ".dsf", ".dff"}
    requires (d == "in/Album 1" && f == "in/Album 1/track1.iso") || (d == "in/Album 2" && f == "in/Album 2/track1.dsf")
    ensures IsAlbumRoot(TwoAlbumLibrary(), s, "in", d)
  {
    LibraryAlbumHasOwnMusic(s, d, f);
    LibraryRootHasNoOwnMusic(s);
    LibraryAncestors(d);
    LibraryWalked(d);
    AlbumRootBelowBareRoot(TwoAlbumLibrary(), s, "in", d);
  }

  lemma LibraryWalked(d: string)
    requires d == "in/Album 1" || d == "in/Album 2"
    ensures Walked(TwoAlbumLibrary(), "in", d)
  {
    assert IsUnder("in", d);
  }

  /** Nothing else in the library is an album root: the input directory
      holds no music of its own and the tracks are not directories. */
  lemma LibraryOtherNodesAreNotRoots(s: Scanner, d: string)
    requires d in TwoAlbumLibrary() && d != "in/Album 1" && d != "in/Album 2"
    ensures !IsAlbumRoot(TwoAlbumLibrary(), s, "in", d)
  {
    if d == "in" {
      LibraryRootHasNoOwnMusic(s);
    } else {
      assert TwoAlbumLibrary()[d].File?;
    }
  }

  /** On that library the scan as written reports one album, the input
      directory itself. */
  lemma TwoAlbumLibraryScannedAsOne(s: Scanner)
    requires s.music == {".iso", ".dsf", ".dff"}
    ensures Scan(TwoAlbumLibrary(), s, "in") == Success([ScanAlbum(TwoAlbumLibrary(), s, "in")])
  {
    LibraryHasMusic(s);
    LibraryRootIsDir();
  }

  lemma LibraryRootIsDir()
    ensures IsDir(TwoAlbumLibrary(), "in")
  {
  }

  lemma LibraryHasMusic(s: Scanner)
    requires s.music == {".iso", ".dsf", ".dff"}
    ensures IsAlbum(TwoAlbumLibrary(), s, "in")
  {
    var fs := TwoAlbumLibrary();
    var f := "in/Album 1/track1.iso";
    LibraryExtensions();
    assert IsUnder("in", f);
    assert fs[f].File?;
    assert f in FilesBelow(fs, "in");
    assert IsMusic(s, f);
  }

  /** The corrected scan reports the two album folders and nothing else. */
  lemma TwoAlbumLibraryScannedAsTwo(s: Scanner)
    requires s.music == {".iso", ".dsf", ".dff"}
    ensures forall a | a in ScanAlbums(TwoAlbumLibrary(), s, "in").value ::
              a.rootPath == "in/Album 1" || a.rootPath == "in/Album 2"
    ensures exists a | a in ScanAlbums(TwoAlbumLibrary(), s, "in").value :: a.rootPath == "in/Album 1"
    ensures exists a | a in ScanAlbums(TwoAlbumLibrary(), s, "in").value :: a.rootPath == "in/Album 2"
  {
    var fs := TwoAlbumLibrary();
    LibraryAlbumRoot(s, "in/Album 1", "in/Album 1/track1.iso");
    LibraryAlbumRoot(s, "in/Album 2", "in/Album 2/track1.dsf");
    AlbumRootsAreFound(fs, s, "in", "in/Album 1");
    AlbumRootsAreFound(fs, s, "in", "in/Album 2");
    forall a | a in ScanForAlbums(fs, s, "in") ensures a.rootPath == "in/Album 1" || a.rootPath == "in/Album 2" {
      FoundAlbumsAreRoots(fs, s, "in", a);
      if a.rootPath != "in/Album 1" && a.rootPath != "in/Album 2" {
        LibraryOtherNodesAreNotRoots(s, a.rootPath);
      }
    }
  }

  // ---------------------------------------------------------------------
  // get_statistics()
  // ---------------------------------------------------------------------

  /** A Python dict of counts in insertion order. */
  type Histogram = seq<(string, nat)>

  function Lookup(h: Histogram, e: string): nat {
    if |h| == 0 then 0 else if h[0].0 == e then h[0].1 else Lookup(h[1..], e)
  }

  predicate DistinctKeys(h: Histogram) {
    forall i, j | 0 <= i < j < |h| :: h[i].0 != h[j].0
  }

  function HistTotal(h: Histogram): nat {
    if |h| == 0 then 0 else h[0].1 + HistTotal(h[1..])
  }

  /** `extensions[ext] = extensions.get(ext, 0) + 1`. */
  function Bump(h: Histogram, e: string): (r: Histogram)
    ensures |h| <= |r| <= |h| + 1
    ensures forall i | 0 <= i < |h| :: r[i].0 == h[i].0
    ensures |r| == |h| + 1 ==> r[|h|].0 == e && forall i | 0 <= i < |h| :: h[i].0 != e
  {
    if |h| == 0 then [(e, 1)]
    else if h[0].0 == e then [(e, h[0].1 + 1)] + h[1..]
    else [h[0]] + Bump(h[1..], e)
  }

  lemma {:induction false} BumpCounts(h: Histogram, e: string)
    requires DistinctKeys(h)
    ensures DistinctKeys(Bump(h, e))
    ensures Lookup(Bump(h, e), e) == Lookup(h, e) + 1
    ensures forall x | x != e :: Lookup(Bump(h, e), x) == Lookup(h, x)
    ensures HistTotal(Bump(h, e)) == HistTotal(h) + 1
  {
    BumpDistinct(h, e);
    BumpLookup(h, e);
    BumpTotal(h, e);
  }

  lemma {:induction false} BumpDistinct(h: Histogram, e: string)
    requires DistinctKeys(h)
    ensures DistinctKeys(Bump(h, e))
  {
    var r := Bump(h, e);
    if |h| > 0 && h[0].0 != e {
      BumpDistinct(h[1..], e);
      assert r[1..] == Bump(h[1..], e);
      forall i, j | 0 <= i < j < |r| ensures r[i].0 != r[j].0 {
        if i == 0 && j < |h| {
          assert r[j].0 == h[j].0;
        }
      }
    } else if |h| > 0 {
      assert r[1..] == h[1..];
    }
  }

  lemma {:induction false} BumpLookup(h: Histogram, e: string)
    requires DistinctKeys(h)
    ensures Lookup(Bump(h, e), e) == Lookup(h, e) + 1
    ensures forall x | x != e :: Lookup(Bump(h, e), x) == Lookup(h, x)
  {
    var r := Bump(h, e);
    if |h| > 0 && h[0].0 != e {
      BumpLookup(h[1..], e);
      assert r[1..] == Bump(h[1..], e);
    } else if |h| > 0 {
      assert r[1..] == h[1..];
      assert forall x | x != e :: Lookup(h, x) == Lookup(h[1..], x);
    }
  }

  lemma {:induction false} BumpTotal(h: Histogram, e: string)
    ensures HistTotal(Bump(h, e)) == HistTotal(h) + 1
  {
    var r := Bump(h, e);
    if |h| > 0 && h[0].0 != e {
      BumpTotal(h[1..], e);
      assert r[1..] == Bump(h[1..], e);
    } else if |h| > 0 {
      assert r[1..] == h[1..];
    }
  }

  /** The number of occurrences of `e`. */
  function Occurrences(exts: seq<string>, e: string): nat {
    if |exts| == 0 then 0 else Occurrences(exts[..|exts| - 1], e) + (if exts[|exts| - 1] == e then 1 else 0)
  }

  /** The histogram of a list, built left to right. */
  function HistogramOf(exts: seq<string>): Histogram {
    if |exts| == 0 then [] else Bump(HistogramOf(exts[..|exts| - 1]), exts[|exts| - 1])
  }

  /** The histogram counts every extension and every file exactly once. */
  lemma {:induction false} HistogramOfCounts(exts: seq<string>)
    ensures DistinctKeys(HistogramOf(exts))
    ensures forall e :: Lookup(HistogramOf(exts), e) == Occurrences(exts, e)
    ensures HistTotal(HistogramOf(exts)) == |exts|
  {
    if |exts| > 0 {
      HistogramOfCounts(exts[..|exts| - 1]);
      BumpCounts(HistogramOf(exts[..|exts| - 1]), exts[|exts| - 1]);
    }
  }

  function Extensions(files: seq<MusicFile>): (r: seq<string>)
    ensures |r| == |files|
  {
    if |files| == 0 then [] else [files[0].extension] + Extensions(files[1..])
  }

  function AllExtensions(albums: seq<Album>): seq<string> {
    if |albums| == 0 then [] else Extensions(albums[0].musicFiles) + AllExtensions(albums[1..])
  }

  function TotalFiles(albums: seq<Album>): nat {
    if |albums| == 0 then 0 else FileCount(albums[0]) + TotalFiles(albums[1..])
  }

  function AllSizes(albums: seq<Album>): nat {
    if |albums| == 0 then 0 else TotalSize(albums[0].musicFiles) + AllSizes(albums[1..])
  }

  datatype ScanStatistics = ScanStatistics(albumCount: nat, totalFiles: nat, totalSizeBytes: nat, extensions: Histogram)

  /** `get_statistics(albums)`; the size in GiB is a float and not kept. */
  function GetStatistics(albums: seq<Album>): (r: ScanStatistics)
    ensures r.albumCount == |albums|
    ensures r.totalFiles == HistTotal(r.extensions)
    ensures DistinctKeys(r.extensions)
    ensures forall e :: Lookup(r.extensions, e) == Occurrences(AllExtensions(albums), e)
  {
    var exts := AllExtensions(albums);
    HistogramOfCounts(exts);
    AllExtensionsCount(albums);
    ScanStatistics(|albums|, TotalFiles(albums), AllSizes(albums), HistogramOf(exts))
  }

  lemma {:induction false} AllExtensionsCount(albums: seq<Album>)
    ensures |AllExtensions(albums)| == TotalFiles(albums)
  {
    if |albums| > 0 {
      AllExtensionsCount(albums[1..]);
    }
  }
}

=== FILE: state_manager.dfy ===
/** The session state store: a conversion session with its album and file
    records, kept in memory and rewritten to the JSON state file after every
    change, plus the pause sentinel file. The clock is a parameter `now`
    (an ISO timestamp); the state file holds the JSON value `json.dump`
    would write. */
module StateManager {
  import opened Wrappers
  import opened Json

  datatype AlbumStatus = Pending | Archiving | Converting | Completed | Failed | Skipped

  /** `AlbumStatus.X.value`. */
  function StatusValue(s: AlbumStatus): string {
    match s
    case Pending => "pending"
    case Archiving => "archiving"
    case Converting => "converting"
    case Completed => "completed"
    case Failed => "failed"
    case Skipped => "skipped"
  }

  /** `AlbumStatus(value)`, `None` where Python raises `ValueError`. */
  function ParseStatus(v: string): (r: Option<AlbumStatus>)
    ensures r.Some? ==> StatusValue(r.value) == v
  {
    if v == "pending" then Some(Pending)
    else if v == "archiving" then Some(Archiving)
    else if v == "converting" then Some(Converting)
    else if v == "completed" then Some(Completed)
    else if v == "failed" then Some(Failed)
    else if v == "skipped" then Some(Skipped)
    else None
  }

  lemma ParseStatusValue(s: AlbumStatus)
    ensures ParseStatus(StatusValue(s)) == Some(s)
  {
  }

  /** The statuses that stamp an album's `completed_at`. */
  predicate IsFinal(s: AlbumStatus) {
    s == Completed || s == Failed || s == Skipped
  }

  /** `FileConversionState`; `status` is one of `pending`, `converting`,
      `completed`, `failed`. */
  datatype FileState = FileState(
    sourcePath: string,
    outputPath: string,
    status: string,
    attempts: int,
    errorMessage: Option<string>,
    completedAt: Option<string>)

  /** `AlbumConversionState`; `status` is an `AlbumStatus` value. */
  datatype AlbumState = AlbumState(
    albumPath: string,
    albumName: string,
    status: string,
    archivePath: Option<string>,
    files: seq<FileState>,
    startedAt: Option<string>,
    completedAt: Option<string>,
    errorMessage: Option<string>)

  /** `ConversionSession`. */
  datatype Session = Session(
    sessionId: string,
    inputDir: string,
    outputDir: string,
    archiveDir: string,
    conversionMode: string,
    sampleRate: int,
    bitDepth: int,
    enrichMetadata: bool,
    startedAt: string,
    completedAt: Option<string>,
    albums: seq<AlbumState>,
    paused: bool)

  /** A `StateManager`: the session in memory, the state file and whether
      the pause sentinel file exists. */
  datatype Manager = Manager(session: Option<Session>, stateFile: JsonFile, pauseSignal: bool)

  // ---------------------------------------------------------------------
  // Encoding and decoding the state file
  // ---------------------------------------------------------------------

  function EncodeFile(f: FileState): Json {
    JObj(map[
      "source_path" := JStr(f.sourcePath),
      "output_path" := JStr(f.outputPath),
      "status" := JStr(f.status),
      "attempts" := JInt(f.attempts),
      "error_message" := OptStr(f.errorMessage),
      "completed_at" := OptStr(f.completedAt)])
  }

  function EncodeFiles(fs: seq<FileState>): (r: seq<Json>)
    ensures |r| == |fs|
    ensures forall k | 0 <= k < |fs| :: r[k] == EncodeFile(fs[k])
  {
    if |fs| == 0 then [] else [EncodeFile(fs[0])] + EncodeFiles(fs[1..])
  }

  function EncodeAlbum(a: AlbumState): Json {
    JObj(map[
      "album_path" := JStr(a.albumPath),
      "album_name" := JStr(a.albumName),
      "status" := JStr(a.status),
      "archive_path" := OptStr(a.archivePath),
      "started_at" := OptStr(a.startedAt),
      "completed_at" := OptStr(a.completedAt),
      "error_message" := OptStr(a.errorMessage),
      "files" := JArr(EncodeFiles(a.files))])
  }

  function EncodeAlbums(albums: seq<AlbumState>): (r: seq<Json>)
    ensures |r| == |albums|
  {
    if |albums| == 0 then [] else [EncodeAlbum(albums[0])] + EncodeAlbums(albums[1..])
  }

  /** The dictionary `save_state` dumps. */
  function EncodeSession(s: Session): Json {
    JObj(map[
      "session_id" := JStr(s.sessionId),
      "input_dir" := JStr(s.inputDir),
      "output_dir" := JStr(s.outputDir),
      "archive_dir" := JStr(s.archiveDir),
      "conversion_mode" := JStr(s.conversionMode),
      "sample_rate" := JInt(s.sampleRate),
      "bit_depth" := JInt(s.bitDepth),
      "enrich_metadata" := JBool(s.enrichMetadata),
      "started_at" := JStr(s.startedAt),
      "completed_at" := OptStr(s.completedAt),
      "paused" := JBool(s.paused),
      "albums" := JArr(EncodeAlbums(s.albums))])
  }

  /** A required string field (`d[key]`). */
  function StrField(d: map<string, Json>, key: string): Option<string> {
    if key in d && d[key].JStr? then Some(d[key].s) else None
  }

  /** An optional string field (`d.get(key)`): missing and `null` read as
      `None`; any other non-string is malformed. */
  function OptStrField(d: map<string, Json>, key: string): Option<Option<string>> {
    if key !in d || d[key].JNull? then Some(None)
    else if d[key].JStr? then Some(Some(d[key].s))
    else None
  }

  function IntField(d: map<string, Json>, key: string): Option<int> {
    if key in d && d[key].JInt? then Some(d[key].i) else None
  }

  function BoolField(d: map<string, Json>, key: string): Option<bool> {
    if key in d && d[key].JBool? then Some(d[key].b) else None
  }

  /** The items a Python `for` loop sees when each item must then be a
      dictionary: a list's items; an empty dict or empty string yields
      nothing; anything else fails. */
  function Items(v: Json): Option<seq<Json>> {
    match v
    case JArr(items) => Some(items)
    case JObj(fields) => if |fields| == 0 then Some([]) else None
    case JStr(s) => if s == "" then Some([]) else None
    case _ => None
  }

  /** The keyword arguments `FileConversionState` accepts. */
  const FileKeys: set<string> := {"source_path", "output_path", "status", "attempts", "error_message", "completed_at"}

  /** `FileConversionState(**f)`: an unknown key or a missing required one
      raises `TypeError`. */
  function DecodeFile(v: Json): Option<FileState> {
    if !v.JObj? || !(v.fields.Keys <= FileKeys) then None
    else
      var d := v.fields;
      var source :- StrField(d, "source_path");
      var output :- StrField(d, "output_path");
      var status :- StrField(d, "status");
      var attempts :- if "attempts" in d then IntField(d, "attempts") else Some(0);
      var error :- OptStrField(d, "error_message");
      var completed :- OptStrField(d, "completed_at");
      Some(FileState(source, output, status, attempts, error, completed))
  }

  function DecodeFiles(vs: seq<Json>): (r: Option<seq<FileState>>)
    ensures r.Some? ==> |r.value| == |vs|
  {
    if |vs| == 0 then Some([])
    else
      var f :- DecodeFile(vs[0]);
      var rest :- DecodeFiles(vs[1..]);
      Some([f] + rest)
  }

  function DecodeAlbum(v: Json): Option<AlbumState> {
    if !v.JObj? then None
    else
      var d := v.fields;
      var path :- StrField(d, "album_path");
      var name :- StrField(d, "album_name");
      var status :- StrField(d, "status");
      var archive :- OptStrField(d, "archive_path");
      var items :- Items(GetOr(d, "files", JArr([])));
      var files :- DecodeFiles(items);
      var started :- OptStrField(d, "started_at");
      var completed :- OptStrField(d, "completed_at");
      var error :- OptStrField(d, "error_message");
      Some(AlbumState(path, name, status, archive, files, started, completed, error))
  }

  function DecodeAlbums(vs: seq<Json>): (r: Option<seq<AlbumState>>)
    ensures r.Some? ==> |r.value| == |vs|
  {
    if |vs| == 0 then Some([])
    else
      var a :- DecodeAlbum(vs[0]);
      var rest :- DecodeAlbums(vs[1..]);
      Some([a] + rest)
  }

  /** The reconstruction in `load_session`; `None` wherever it raises, and
      also where a field holds a JSON value of another type than the record
      declares, which Python's dataclasses would store unchecked. */
  function DecodeSession(v: Json): Option<Session> {
    if !v.JObj? then None
    else
      var d := v.fields;
      var items :- Items(GetOr(d, "albums", JArr([])));
      var albums :- DecodeAlbums(items);
      var names :- DecodeNames(d);
      var rate :- IntField(d, "sample_rate");
      var depth :- IntField(d, "bit_depth");
      var enrich :- BoolField(d, "enrich_metadata");
      var completed :- OptStrField(d, "completed_at");
      var paused :- if "paused" in d then BoolField(d, "paused") else Some(false);
      Some(Session(names.0, names.1, names.2, names.3, names.4, rate, depth, enrich, names.5, completed, albums, paused))
  }

  /** The session's required string fields, in declaration order. */
  function DecodeNames(d: map<string, Json>): Option<(string, string, string, string, string, string)> {
    var id :- StrField(d, "session_id");
    var input :- StrField(d, "input_dir");
    var output :- StrField(d, "output_dir");
    var archive :- StrField(d, "archive_dir");
    var mode :- StrField(d, "conversion_mode");
    var started :- StrField(d, "started_at");
    Some((id, input, output, archive, mode, started))
  }

  lemma DecodeEncodeFile(f: FileState)
    ensures DecodeFile(EncodeFile(f)) == Some(f)
  {
    AsOptStrOptStr(f.errorMessage);
    AsOptStrOptStr(f.completedAt);
  }

  lemma {:induction false} DecodeEncodeFiles(fs: seq<FileState>)
    ensures DecodeFiles(EncodeFiles(fs)) == Some(fs)
  {
    if |fs| > 0 {
      DecodeEncodeFile(fs[0]);
      assert EncodeFiles(fs)[1..] == EncodeFiles(fs[1..]);
      DecodeEncodeFiles(fs[1..]);
      assert [fs[0]] + fs[1..] == fs;
    }
  }

  lemma DecodeEncodeAlbum(a: AlbumState)
    ensures DecodeAlbum(EncodeAlbum(a)) == Some(a)
  {
    var d := EncodeAlbum(a).fields;
    AlbumStrings(a);
    AlbumOptionals(a);
    assert Items(GetOr(d, "files", JArr([]))) == Some(EncodeFiles(a.files));
    DecodeEncodeFiles(a.files);
  }

  lemma AlbumStrings(a: AlbumState)
    ensures var d := EncodeAlbum(a).fields;
      StrField(d, "album_path") == Some(a.albumPath) && StrField(d, "album_name") == Some(a.albumName)
      && StrField(d, "status") == Some(a.status)
  {
  }

  lemma AlbumOptionals(a: AlbumState)
    ensures var d := EncodeAlbum(a).fields;
      OptStrField(d, "archive_path") == Some(a.archivePath) && OptStrField(d, "started_at") == Some(a.startedAt)
      && OptStrField(d, "completed_at") == Some(a.completedAt) && OptStrField(d, "error_message") == Some(a.errorMessage)
  {
    var d := EncodeAlbum(a).fields;
    OptStrRoundTrip(d, "archive_path", a.archivePath);
    OptStrRoundTrip(d, "started_at", a.startedAt);
    OptStrRoundTrip(d, "completed_at", a.completedAt);
    OptStrRoundTrip(d, "error_message", a.errorMessage);
  }

  lemma OptStrRoundTrip(d: map<string, Json>, key: string, v: Option<string>)
    requires key in d && d[key] == OptStr(v)
    ensures OptStrField(d, key) == Some(v)
  {
  }

  lemma {:induction false} DecodeEncodeAlbums(albums: seq<AlbumState>)
    ensures DecodeAlbums(EncodeAlbums(albums)) == Some(albums)
  {
    if |albums| > 0 {
      DecodeEncodeAlbum(albums[0]);
      assert EncodeAlbums(albums)[1..] == EncodeAlbums(albums[1..]);
      DecodeEncodeAlbums(albums[1..]);
      assert [albums[0]] + albums[1..] == albums;
    }
  }

  /** What `save_state` writes, `load_session` reads back unchanged. */
  lemma DecodeEncodeSession(s: Session)
    ensures DecodeSession(EncodeSession(s)) == Some(s)
  {
    var d := EncodeSession(s).fields;
    assert Items(GetOr(d, "albums", JArr([]))) == Some(EncodeAlbums(s.albums));
    DecodeEncodeAlbums(s.albums);
    DecodeEncodeNames(s);
    SessionSettings(s);
  }

  lemma SessionSettings(s: Session)
    ensures var d := EncodeSession(s).fields;
      IntField(d, "sample_rate") == Some(s.sampleRate) && IntField(d, "bit_depth") == Some(s.bitDepth)
      && BoolField(d, "enrich_metadata") == Some(s.enrichMetadata)
      && OptStrField(d, "completed_at") == Some(s.completedAt) && BoolField(d, "paused") == Some(s.paused)
  {
    var d := EncodeSession(s).fields;
    OptStrRoundTrip(d, "completed_at", s.completedAt);
  }

  lemma DecodeEncodeNames(s: Session)
    ensures DecodeNames(EncodeSession(s).fields)
            == Some((s.sessionId, s.inputDir, s.outputDir, s.archiveDir, s.conversionMode, s.startedAt))
  {
    SessionPlaces(s);
    SessionStart(s);
  }

  lemma SessionPlaces(s: Session)
    ensures var d := EncodeSession(s).fields;
      StrField(d, "session_id") == Some(s.sessionId) && StrField(d, "input_dir") == Some(s.inputDir)
      && StrField(d, "output_dir") == Some(s.outputDir)
  {
  }

  lemma SessionStart(s: Session)
    ensures var d := EncodeSession(s).fields;
      StrField(d, "archive_dir") == Some(s.archiveDir) && StrField(d, "conversion_mode") == Some(s.conversionMode)
      && StrField(d, "started_at") == Some(s.startedAt)
  {
  }

  /** A state file without a `session_id` does not load. */
  lemma MissingIdDoesNotLoad(v: Json)
    requires v.JObj? && "session_id" !in v.fields
    ensures DecodeSession(v) == None
  {
  }

  /** `save_state()`: writes the session, if there is one. */
  function Save(m: Manager): (r: Manager)
    ensures r.session == m.session && r.pauseSignal == m.pauseSignal
    ensures m.session.Some? ==> r.stateFile == Parsed(EncodeSession(m.session.value))
    ensures m.session.None? ==> r == m
  {
    if m.session.Some? then m.(stateFile := Parsed(EncodeSession(m.session.value))) else m
  }

  /** `load_session()`: the session the state file holds, which also becomes
      the manager's session; a missing or unreadable file loads nothing and
      leaves the manager as it was. */
  function LoadSession(m: Manager): (r: (Manager, Option<Session>))
    ensures r.1.Some? ==> r.0 == m.(session := r.1)
    ensures r.1.None? ==> r.0 == m
    ensures !m.stateFile.Parsed? ==> r.1.None?
  {
    match m.stateFile
    case Parsed(v) =>
      var s := DecodeSession(v);
      if s.Some? then (m.(session := s), s) else (m, None)
    case _ => (m, None)
  }

  /** After any save, loading gives back the session in memory. */
  lemma SavedSessionLoads(m: Manager)
    requires m.session.Some?
    ensures LoadSession(Save(m)).1 == m.session
  {
    DecodeEncodeSession(m.session.value);
  }

  /** `create_session(...)`: a fresh session without albums, saved. */
  function CreateSession(m: Manager, sessionId: string, inputDir: string, outputDir: string, archiveDir: string,
                         mode: string, sampleRate: int, bitDepth: int, enrich: bool, now: string): (r: Manager)
    ensures r.session.Some? && r.session.value.albums == [] && !r.session.value.paused
    ensures r.session.value.sessionId == sessionId && r.session.value.startedAt == now
    ensures r.session.value.completedAt.None?
    ensures LoadSession(r).1 == r.session
  {
    var r := Save(m.(session := Some(Session(sessionId, inputDir, outputDir, archiveDir, mode, sampleRate, bitDepth,
                                           enrich, now, None, [], false))));
    SavedSessionLoads(r);
    r
  }

  // ---------------------------------------------------------------------
  // Album and file updates
  // ---------------------------------------------------------------------

  /** `add_album(album_path, album_name, music_files)`: raises without a
      session; otherwise appends one pending album with one pending file
      record per `(source, output)` pair. */
  function AddAlbum(m: Manager, path: string, name: string, pairs: seq<(string, string)>, now: string): (r: Result<Manager, string>)
    ensures m.session.None? <==> r.Failure?
    ensures r.Failure? ==> r.error == "No active session"
    ensures r.Success? ==>
      var before := m.session.value.albums;
      && r.value.session.Some?
      && var after := r.value.session.value.albums;
      && |after| == |before| + 1 && after[..|before|] == before
      && r.value.session.value.(albums := before) == m.session.value
      && var a := after[|before|];
      && a.albumPath == path && a.albumName == name && a.status == "pending"
      && a.archivePath.None? && a.completedAt.None? && a.errorMessage.None? && a.startedAt == Some(now)
      && |a.files| == |pairs|
      && (forall k | 0 <= k < |pairs| :: a.files[k] == FileState(pairs[k].0, pairs[k].1, "pending", 0, None, None))
    ensures r.Success? ==> r.value.pauseSignal == m.pauseSignal && r.value.stateFile == Parsed(EncodeSession(r.value.session.value))
  {
    if m.session.None? then Failure("No active session")
    else
      var files := seq(|pairs|, k requires 0 <= k < |pairs| => FileState(pairs[k].0, pairs[k].1, "pending", 0, None, None));
      var album := AlbumState(path, name, StatusValue(Pending), None, files, Some(now), None, None);
      var s := m.session.value;
      Success(Save(m.(session := Some(s.(albums := s.albums + [album])))))
  }

  /** The index of the first album recorded under `path`, or -1. */
  function FindAlbum(albums: seq<AlbumState>, path: string): (i: int)
    ensures -1 <= i < |albums|
    ensures i >= 0 ==> albums[i].albumPath == path
    ensures forall j | 0 <= j < |albums| && (i < 0 || j < i) :: albums[j].albumPath != path
  {
    if |albums| == 0 then -1
    else if albums[0].albumPath == path then 0
    else
      var i := FindAlbum(albums[1..], path);
      if i < 0 then -1 else i + 1
  }

  /** The index of the first file record with source `path`, or -1. */
  function FindFile(files: seq<FileState>, path: string): (i: int)
    ensures -1 <= i < |files|
    ensures i >= 0 ==> files[i].sourcePath == path
    ensures forall j | 0 <= j < |files| && (i < 0 || j < i) :: files[j].sourcePath != path
  {
    if |files| == 0 then -1
    else if files[0].sourcePath == path then 0
    else
      var i := FindFile(files[1..], path);
      if i < 0 then -1 else i + 1
  }

  /** Python's `if error_message:` on an optional string. */
  predicate Given(s: Option<string>) {
    s.Some? && s.value != ""
  }

  function StatusChanged(a: AlbumState, status: AlbumStatus, archivePath: Option<string>,
                         error: Option<string>, now: string): AlbumState {
    a.(status := StatusValue(status),
       archivePath := if archivePath.Some? then archivePath else a.archivePath,
       errorMessage := if Given(error) then error else a.errorMessage,
       completedAt := if IsFinal(status) then Some(now) else a.completedAt)
  }

  /** `update_album_status(album_path, status, archive_path, error_message)`:
      changes the first album recorded under the path (if any) and saves;
      without a session it does nothing. */
  function UpdateAlbumStatus(m: Manager, path: string, status: AlbumStatus, archivePath: Option<string>,
                             error: Option<string>, now: string): (r: Manager)
    ensures m.session.None? ==> r == m
    ensures m.session.Some? ==>
      var before := m.session.value.albums;
      var i := FindAlbum(before, path);
      && r.session.Some?
      && var after := r.session.value.albums;
      && r.session.value.(albums := before) == m.session.value
      && |after| == |before|
      && (forall j | 0 <= j < |before| && j != i :: after[j] == before[j])
      && (i >= 0 ==>
            && after[i].albumPath == before[i].albumPath && after[i].albumName == before[i].albumName
            && after[i].files == before[i].files && after[i].startedAt == before[i].startedAt
            && after[i].status == StatusValue(status)
            && (archivePath.Some? ==> after[i].archivePath == archivePath)
            && (archivePath.None? ==> after[i].archivePath == before[i].archivePath)
            && (Given(error) ==> after[i].errorMessage == error)
            && (!Given(error) ==> after[i].errorMessage == before[i].errorMessage)
            && (after[i].completedAt == if IsFinal(status) then Some(now) else before[i].completedAt))
      && r.stateFile == Parsed(EncodeSession(r.session.value))
    ensures r.pauseSignal == m.pauseSignal
  {
    if m.session.None? then m
    else
      var s := m.session.value;
      var i := FindAlbum(s.albums, path);
      var albums := if i < 0 then s.albums else s.albums[i := StatusChanged(s.albums[i], status, archivePath, error, now)];
      Save(m.(session := Some(s.(albums := albums))))
  }

  /** Only a final status stamps an album's completion time. */
  lemma OnlyFinalStatusStamps(m: Manager, path: string, status: AlbumStatus, archivePath: Option<string>,
                              error: Option<string>, now: string)
    requires m.session.Some? && FindAlbum(m.session.value.albums, path) >= 0
    ensures var i := FindAlbum(m.session.value.albums, path);
            var a := UpdateAlbumStatus(m, path, status, archivePath, error, now).session.value.albums[i];
            (a.completedAt != m.session.value.albums[i].completedAt ==> IsFinal(status))
            && (IsFinal(status) ==> a.completedAt == Some(now))
  {
  }

  function FileStatusChanged(f: FileState, status: string, error: Option<string>, now: string): FileState {
    f.(status := status,
       attempts := if status == "converting" then f.attempts + 1 else f.attempts,
       errorMessage := if Given(error) then error else f.errorMessage,
       completedAt := if status == "completed" || status == "failed" then Some(now) else f.completedAt)
  }

  /** `update_file_status(album_path, file_path, status, error_message)`:
      within the first album under `albumPath`, changes the first file with
      source `filePath`; a `'converting'` mark counts one more attempt.
      Without a session it does nothing. */
  function UpdateFileStatus(m: Manager, albumPath: string, filePath: string, status: string,
                            error: Option<string>, now: string): (r: Manager)
    ensures m.session.None? ==> r == m
    ensures m.session.Some? ==>
      var before := m.session.value.albums;
      var i := FindAlbum(before, albumPath);
      && r.session.Some?
      && var after := r.session.value.albums;
      && r.session.value.(albums := before) == m.session.value
      && |after| == |before|
      && (forall j | 0 <= j < |before| && j != i :: after[j] == before[j])
      && (i >= 0 ==> after[i].(files := before[i].files) == before[i] && |after[i].files| == |before[i].files|)
      && (i >= 0 ==>
            var k := FindFile(before[i].files, filePath);
            && (forall j | 0 <= j < |before[i].files| && j != k :: after[i].files[j] == before[i].files[j])
            && (k >= 0 ==> FileMarked(before[i].files[k], after[i].files[k], status, error, now)))
      && r.stateFile == Parsed(EncodeSession(r.session.value))
    ensures r.pauseSignal == m.pauseSignal
  {
    if m.session.None? then m
    else
      var s := m.session.value;
      var i := FindAlbum(s.albums, albumPath);
      if i < 0 then Save(m)
      else
        var a := s.albums[i];
        Save(m.(session := Some(s.(albums := s.albums[i := a.(files := MarkIn(a.files, filePath, status, error, now))]))))
  }

  /** The album's file list after marking the record for `filePath`. */
  function MarkIn(files: seq<FileState>, filePath: string, status: string, error: Option<string>, now: string): (r: seq<FileState>)
    ensures |r| == |files|
    ensures var k := FindFile(files, filePath);
      && (forall j | 0 <= j < |files| && j != k :: r[j] == files[j])
      && (k >= 0 ==> FileMarked(files[k], r[k], status, error, now))
  {
    var k := FindFile(files, filePath);
    if k < 0 then files else files[k := FileStatusChanged(files[k], status, error, now)]
  }

  /** What one status mark does to a file record. */
  predicate FileMarked(before: FileState, after: FileState, status: string, error: Option<string>, now: string) {
    && after.sourcePath == before.sourcePath && after.outputPath == before.outputPath
    && after.status == status
    && after.attempts == (if status == "converting" then before.attempts + 1 else before.attempts)
    && after.errorMessage == (if Given(error) then error else before.errorMessage)
    && (status == "completed" || status == "failed" ==> after.completedAt == Some(now))
    && (status != "completed" && status != "failed" ==> after.completedAt == before.completedAt)
  }

  /** The file record under `filePath` in the first album under `albumPath`. */
  function FileRecord(m: Manager, albumPath: string, filePath: string): Option<FileState> {
    if m.session.None? then None
    else
      var i := FindAlbum(m.session.value.albums, albumPath);
      if i < 0 then None
      else
        var k := FindFile(m.session.value.albums[i].files, filePath);
        if k < 0 then None else Some(m.session.value.albums[i].files[k])
  }

  /** Each `'converting'` mark adds exactly one attempt, and the record stays
      the one found under the same source path. */
  lemma ConvertingCountsOneAttempt(m: Manager, albumPath: string, filePath: string, now: string)
    requires FileRecord(m, albumPath, filePath).Some?
    ensures var m' := UpdateFileStatus(m, albumPath, filePath, "converting", None, now);
            FileRecord(m', albumPath, filePath).Some?
            && FileRecord(m', albumPath, filePath).value.attempts == FileRecord(m, albumPath, filePath).value.attempts + 1
            && FileRecord(m', albumPath, filePath).value.status == "converting"
  {
    var m' := UpdateFileStatus(m, albumPath, filePath, "converting", None, now);
    var i := FindAlbum(m.session.value.albums, albumPath);
    var k := FindFile(m.session.value.albums[i].files, filePath);
    FindAlbumSamePaths(m.session.value.albums, m'.session.value.albums, albumPath, i);
    FindFileSamePaths(m.session.value.albums[i].files, m'.session.value.albums[i].files, filePath, k);
  }

  /** Marking a file that is not recorded changes no record. */
  lemma UnmatchedFileChangesNothing(m: Manager, albumPath: string, filePath: string, status: string,
                                    error: Option<string>, now: string)
    requires m.session.Some? && FileRecord(m, albumPath, filePath).None?
    ensures UpdateFileStatus(m, albumPath, filePath, status, error, now).session == m.session
  {
    var s := m.session.value;
    var r := UpdateFileStatus(m, albumPath, filePath, status, error, now);
    var i := FindAlbum(s.albums, albumPath);
    if i >= 0 {
      assert r.session.value.albums[i].files == s.albums[i].files;
      assert r.session.value.albums[i] == s.albums[i];
    }
    assert r.session.value.albums == s.albums;
  }

  /** The first match is found at the same place when only records other
      than the one found change, and no path changes. */
  lemma FindAlbumSamePaths(a: seq<AlbumState>, b: seq<AlbumState>, path: string, i: int)
    requires |a| == |b| && i == FindAlbum(a, path) && i >= 0
    requires forall j | 0 <= j < |a| :: a[j].albumPath == b[j].albumPath
    ensures FindAlbum(b, path) == i
  {
  }

  lemma FindFileSamePaths(a: seq<FileState>, b: seq<FileState>, path: string, i: int)
    requires |a| == |b| && i == FindFile(a, path) && i >= 0
    requires forall j | 0 <= j < |a| :: a[j].sourcePath == b[j].sourcePath
    ensures FindFile(b, path) == i
  {
  }

  // ---------------------------------------------------------------------
  // Queries, pause and completion
  // ---------------------------------------------------------------------

  predicate Resumable(a: AlbumState) {
    a.status == "pending" || a.status == "failed"
  }

  function PendingOf(albums: seq<AlbumState>): (r: seq<AlbumState>)
    ensures forall a | a in r :: a in albums && Resumable(a)
    ensures forall a | a in albums && Resumable(a) :: a in r
    ensures |r| <= |albums|
  {
    if |albums| == 0 then []
    else if Resumable(albums[0]) then [albums[0]] + PendingOf(albums[1..])
    else PendingOf(albums[1..])
  }

  /** The filter keeps the albums' order: filtering a concatenation
      concatenates the filtered parts. */
  lemma {:induction false} PendingOfAppend(a: seq<AlbumState>, b: seq<AlbumState>)
    ensures PendingOf(a + b) == PendingOf(a) + PendingOf(b)
  {
    if |a| > 0 {
      assert (a + b)[1..] == a[1..] + b;
      PendingOfAppend(a[1..], b);
    } else {
      assert a + b == b;
    }
  }

  /** `get_pending_albums()`: the pending and failed albums in session order. */
  function GetPendingAlbums(m: Manager): (r: seq<AlbumState>)
    ensures m.session.None? ==> r == []
    ensures m.session.Some? ==> forall a :: a in r <==> a in m.session.value.albums && Resumable(a)
  {
    if m.session.None? then [] else PendingOf(m.session.value.albums)
  }

  /** Appending an album puts it last among the pending albums. */
  lemma AddedAlbumIsPendingLast(m: Manager, path: string, name: string, pairs: seq<(string, string)>, now: string)
    requires m.session.Some?
    ensures var r := AddAlbum(m, path, name, pairs, now);
            r.Success? && var p := GetPendingAlbums(r.value);
            |p| > 0 && p[..|p| - 1] == GetPendingAlbums(m) && p[|p| - 1].albumPath == path
  {
    var r := AddAlbum(m, path, name, pairs, now);
    var after := r.value.session.value.albums;
    var before := m.session.value.albums;
    assert after == before + [after[|before|]];
    PendingOfAppend(before, [after[|before|]]);
  }

  /** `check_pause_signal()`. */
  function CheckPauseSignal(m: Manager): bool {
    m.pauseSignal
  }

  /** `create_pause_signal()`: touches the sentinel and marks the session
      paused. */
  function CreatePauseSignal(m: Manager): (r: Manager)
    ensures CheckPauseSignal(r)
    ensures m.session.Some? ==> r.session == Some(m.session.value.(paused := true))
    ensures m.session.None? ==> r.session.None? && r.stateFile == m.stateFile
  {
    var m' := m.(pauseSignal := true);
    if m.session.Some? then Save(m'.(session := Some(m.session.value.(paused := true)))) else m'
  }

  /** `clear_pause_signal()`: removes the sentinel and marks the session not
      paused. */
  function ClearPauseSignal(m: Manager): (r: Manager)
    ensures !CheckPauseSignal(r)
    ensures m.session.Some? ==> r.session == Some(m.session.value.(paused := false))
    ensures m.session.None? ==> r.session.None? && r.stateFile == m.stateFile
  {
    var m' := m.(pauseSignal := false);
    if m.session.Some? then Save(m'.(session := Some(m.session.value.(paused := false)))) else m'
  }

  /** Pausing and resuming gives back the session as it was before, when it
      was not paused, and the saved session says so. */
  lemma PauseThenClear(m: Manager)
    requires m.session.Some? && !m.session.value.paused
    ensures var r := ClearPauseSignal(CreatePauseSignal(m));
            r.session == m.session && !CheckPauseSignal(r) && LoadSession(r).1 == m.session
  {
    var r := ClearPauseSignal(CreatePauseSignal(m));
    SavedSessionLoads(r);
  }

  /** `mark_completed()`. */
  function MarkCompleted(m: Manager, now: string): (r: Manager)
    ensures m.session.None? ==> r == m
    ensures m.session.Some? ==> r.session == Some(m.session.value.(completedAt := Some(now)))
    ensures m.session.Some? ==> LoadSession(r).1 == r.session
  {
    if m.session.None? then m
    else
      var r := Save(m.(session := Some(m.session.value.(completedAt := Some(now)))));
      SavedSessionLoads(r);
      r
  }

  /** `clear_state()`: deletes the state file and forgets the session. */
  function ClearState(m: Manager): (r: Manager)
    ensures r.session.None? && r.stateFile.Absent? && r.pauseSignal == m.pauseSignal
    ensures LoadSession(r).1.None?
  {
    m.(session := None, stateFile := Absent)
  }

  // ---------------------------------------------------------------------
  // Statistics
  // ---------------------------------------------------------------------

  datatype Statistics = Statistics(
    albumsTotal: int, albumsCompleted: int, albumsFailed: int, albumsSkipped: int, albumsPending: int,
    filesTotal: int, filesCompleted: int, filesFailed: int, filesPending: int)

  function CountStatus(albums: seq<AlbumState>, status: string): nat {
    if |albums| == 0 then 0
    else (if albums[0].status == status then 1 else 0) + CountStatus(albums[1..], status)
  }

  /** Albums in none of the three end states. */
  function CountOpen(albums: seq<AlbumState>): nat {
    if |albums| == 0 then 0
    else (if albums[0].status !in {"completed", "failed", "skipped"} then 1 else 0) + CountOpen(albums[1..])
  }

  function CountFileStatus(files: seq<FileState>, status: string): nat {
    if |files| == 0 then 0
    else (if files[0].status == status then 1 else 0) + CountFileStatus(files[1..], status)
  }

  /** Files neither completed nor failed. */
  function CountOpenFiles(files: seq<FileState>): nat {
    if |files| == 0 then 0
    else (if files[0].status !in {"completed", "failed"} then 1 else 0) + CountOpenFiles(files[1..])
  }

  function TotalFiles(albums: seq<AlbumState>): nat {
    if |albums| == 0 then 0 else |albums[0].files| + TotalFiles(albums[1..])
  }

  function FilesWithStatus(albums: seq<AlbumState>, status: string): nat {
    if |albums| == 0 then 0 else CountFileStatus(albums[0].files, status) + FilesWithStatus(albums[1..], status)
  }

  function OpenFiles(albums: seq<AlbumState>): nat {
    if |albums| == 0 then 0 else CountOpenFiles(albums[0].files) + OpenFiles(albums[1..])
  }

  /** `get_statistics()`; `None` stands for the empty dictionary returned
      without a session. */
  function GetStatistics(m: Manager): (r: Option<Statistics>)
    ensures r.None? <==> m.session.None?
    ensures r.Some? ==> r.value.albumsTotal == |m.session.value.albums|
    ensures r.Some? ==> r.value.albumsPending == CountOpen(m.session.value.albums)
    ensures r.Some? ==> r.value.filesPending == OpenFiles(m.session.value.albums)
    ensures r.Some? ==> r.value.albumsPending >= 0 && r.value.filesPending >= 0
  {
    if m.session.None? then None
    else
      var albums := m.session.value.albums;
      var completed := CountStatus(albums, "completed");
      var failed := CountStatus(albums, "failed");
      var skipped := CountStatus(albums, "skipped");
      var files := TotalFiles(albums);
      var filesCompleted := FilesWithStatus(albums, "completed");
      var filesFailed := FilesWithStatus(albums, "failed");
      OpenAlbumsCount(albums);
      OpenFilesCount(albums);
      Some(Statistics(|albums|, completed, failed, skipped, |albums| - completed - failed - skipped,
                      files, filesCompleted, filesFailed, files - filesCompleted - filesFailed))
  }

  /** Subtracting the three end-state counts from the total counts exactly
      the albums still open. */
  lemma {:induction false} OpenAlbumsCount(albums: seq<AlbumState>)
    ensures |albums| - CountStatus(albums, "completed") - CountStatus(albums, "failed") - CountStatus(albums, "skipped")
            == CountOpen(albums)
  {
    if |albums| > 0 {
      OpenAlbumsCount(albums[1..]);
    }
  }

  lemma {:induction false} OpenFilesOfAlbum(files: seq<FileState>)
    ensures |files| - CountFileStatus(files, "completed") - CountFileStatus(files, "failed") == CountOpenFiles(files)
  {
    if |files| > 0 {
      OpenFilesOfAlbum(files[1..]);
    }
  }

  lemma {:induction false} OpenFilesCount(albums: seq<AlbumState>)
    ensures TotalFiles(albums) - FilesWithStatus(albums, "completed") - FilesWithStatus(albums, "failed") == OpenFiles(albums)
  {
    if |albums| > 0 {
      OpenFilesOfAlbum(albums[0].files);
      OpenFilesCount(albums[1..]);
    }
  }
}

=== FILE: text.dfy ===
/** String helpers with Python's semantics: `str.lower` (ASCII letters),
    `str.isspace`/`str.strip`, `str.split(sep)`, `sep.join`, `str(int)`. */
module Text {

  function LowerChar(c: char): char {
    if 'A' <= c <= 'Z' then (c as int + 32) as char else c
  }

  /** `s.lower()` restricted to ASCII letters; every other character is kept. */
  function Lower(s: string): (r: string)
    ensures |r| == |s|
  {
    seq(|s|, i requires 0 <= i < |s| => LowerChar(s[i]))
  }

  /** A string without upper-case ASCII letters is its own lower case. */
  lemma LowerKeepsLowercase(s: string)
    requires forall i | 0 <= i < |s| :: !('A' <= s[i] <= 'Z')
    ensures Lower(s) == s
  {
  }

  /** The characters for which Python's `str.isspace()` holds, which are also
      the ones `\s` matches in a `str` regular expression. */
  predicate IsSpace(c: char) {
    c == ' ' || ('\t' <= c <= '\r') || ('\U{1c}' <= c <= '\U{1f}') || c == '\U{85}'
    || c == '\U{a0}' || c == '\U{1680}' || ('\U{2000}' <= c <= '\U{200a}') || c == '\U{2028}'
    || c == '\U{2029}' || c == '\U{202f}' || c == '\U{205f}' || c == '\U{3000}'
  }

  predicate IsDigit(c: char) { '0' <= c <= '9' }

  predicate AllDigits(s: string) { forall i :: 0 <= i < |s| ==> IsDigit(s[i]) }

  predicate StartsWith(s: string, prefix: string) {
    |prefix| <= |s| && s[..|prefix|] == prefix
  }

  /** `key in s` for strings: a substring test. */
  predicate Occurs(key: string, s: string) {
    exists i :: 0 <= i <= |s| && StartsWith(s[i..], key)
  }

  predicate EndsWith(s: string, suffix: string) {
    |suffix| <= |s| && s[|s| - |suffix|..] == suffix
  }

  function StripLeft(s: string): (r: string)
    ensures |r| <= |s| && r == s[|s| - |r|..]
    ensures |r| > 0 ==> !IsSpace(r[0])
    ensures forall i :: 0 <= i < |s| - |r| ==> IsSpace(s[i])
  {
    if |s| > 0 && IsSpace(s[0]) then StripLeft(s[1..]) else s
  }

  function StripRight(s: string): (r: string)
    ensures |r| <= |s| && r == s[..|r|]
    ensures |r| > 0 ==> !IsSpace(r[|r| - 1])
    ensures forall i :: |r| <= i < |s| ==> IsSpace(s[i])
  {
    if |s| > 0 && IsSpace(s[|s| - 1]) then StripRight(s[..|s| - 1]) else s
  }

  /** `s.strip()`: the longest infix with no surrounding whitespace. */
  function Strip(s: string): string {
    StripRight(StripLeft(s))
  }

  /** The index of the first occurrence of `c` in `s`. */
  function IndexOf(s: string, c: char): (i: nat)
    requires c in s
    ensures i < |s| && s[i] == c && c !in s[..i]
  {
    if s[0] == c then 0 else 1 + IndexOf(s[1..], c)
  }

  /** `s.split(sep)` for a one-character separator. */
  function Split(s: string, sep: char): (parts: seq<string>)
    ensures |parts| >= 1
    ensures forall i :: 0 <= i < |parts| ==> sep !in parts[i]
    decreases |s|
  {
    if sep !in s then [s]
    else
      var i := IndexOf(s, sep);
      [s[..i]] + Split(s[i + 1..], sep)
  }

  /** `sep.join(parts)`. */
  function Join(parts: seq<string>, sep: string): string {
    if |parts| == 0 then ""
    else if |parts| == 1 then parts[0]
    else parts[0] + sep + Join(parts[1..], sep)
  }

  /** Joining what was split gives back the original string. */
  lemma {:induction false} JoinSplit(s: string, sep: char)
    ensures Join(Split(s, sep), [sep]) == s
    decreases |s|
  {
    if sep in s {
      var i := IndexOf(s, sep);
      var rest := s[i + 1..];
      JoinSplit(rest, sep);
      assert Split(s, sep) == [s[..i]] + Split(rest, sep);
      assert s == s[..i] + [sep] + rest;
    }
  }

  /** Splitting what was joined gives back the parts, as long as no part
      contains the separator. */
  lemma {:induction false} SplitJoin(parts: seq<string>, sep: char)
    requires |parts| >= 1
    requires forall i :: 0 <= i < |parts| ==> sep !in parts[i]
    ensures Split(Join(parts, [sep]), sep) == parts
  {
    if |parts| > 1 {
      var s := Join(parts, [sep]);
      var tail := Join(parts[1..], [sep]);
      assert s == parts[0] + [sep] + tail;
      assert s[|parts[0]|] == sep;
      assert s[..|parts[0]|] == parts[0];
      assert sep in s;
      var i := IndexOf(s, sep);
      assert i == |parts[0]|;
      assert s[i + 1..] == tail;
      SplitJoin(parts[1..], sep);
    } else {
      assert Join(parts, [sep]) == parts[0];
    }
  }

  /** Two strings with the same split are the same string. */
  lemma SplitInjective(a: string, b: string, sep: char)
    requires Split(a, sep) == Split(b, sep)
    ensures a == b
  {
    JoinSplit(a, sep);
    JoinSplit(b, sep);
  }

  function DigitChar(d: nat): char
    requires d < 10
  {
    "0123456789"[d]
  }

  /** `str(n)` for a natural number: decimal digits, no leading zero. */
  function NatToString(n: nat): (s: string)
    ensures |s| >= 1 && AllDigits(s)
    ensures |s| > 1 ==> s[0] != '0'
    decreases n
  {
    if n < 10 then [DigitChar(n)] else NatToString(n / 10) + [DigitChar(n % 10)]
  }

  function DigitValue(c: char): nat
    requires IsDigit(c)
  {
    c as int - '0' as int
  }

  /** The value of a non-empty string of decimal digits. */
  function ParseNat(s: string): nat
    requires |s| >= 1 && AllDigits(s)
    decreases |s|
  {
    if |s| == 1 then DigitValue(s[0]) else 10 * ParseNat(s[..|s| - 1]) + DigitValue(s[|s| - 1])
  }

  lemma {:induction false} ParseNatToString(n: nat)
    ensures ParseNat(NatToString(n)) == n
    decreases n
  {
    if n >= 10 {
      var s := NatToString(n);
      assert s[..|s| - 1] == NatToString(n / 10);
      ParseNatToString(n / 10);
    }
  }

  /** `str(i)` for any integer. */
  function IntToString(i: int): (s: string)
    ensures |s| >= 1
    ensures i >= 0 <==> s[0] != '-'
  {
    if i < 0 then "-" + NatToString(-i) else NatToString(i)
  }

  /** `str(i)` never coincides for two different integers, so comparing the
      printed forms is comparing the numbers. */
  lemma IntToStringInjective(a: int, b: int)
    requires IntToString(a) == IntToString(b)
    ensures a == b
  {
    if a < 0 && b < 0 {
      NegativeToString(a);
      NegativeToString(b);
      ParseNatToString(-a);
      ParseNatToString(-b);
    } else if a >= 0 && b >= 0 {
      ParseNatToString(a);
      ParseNatToString(b);
    }
  }

  lemma NegativeToString(a: int)
    requires a < 0
    ensures IntToString(a)[1..] == NatToString(-a)
  {
  }
}

=== FILE: track_metadata.dfy ===
/** The per-track metadata merge of the orchestrator (`_extract_track_metadata`
    in `src/main.py`): SACD sidecar values first, then the FLAC tags for
    what is still empty, then the file name for a missing track number and
    title. Values are kept as JSON values because the sidecar may hold any
    JSON there; `Failure` is an exception escaping the function. */
module TrackMetadata {
  import opened Wrappers
  import opened Text
  import opened Paths
  import opened Json
  import MetadataEnricher

  /** The metadata dict the function returns. */
  datatype TrackMeta = TrackMeta(
    title: Json,
    trackNumber: Json,
    duration: Json,
    artist: Json,
    album: Json,
    date: Json,
    genre: Json,
    musicians: Json)

  const Blank := TrackMeta(JNull, JNull, JNull, JNull, JNull, JNull, JNull, JNull)

  // ---------------------------------------------------------------------
  // Priority 1: the SACD sidecar
  // ---------------------------------------------------------------------

  /** `value == n` in Python for a JSON value and an `int`; `True == 1`. */
  predicate EqualsInt(v: Json, n: int) {
    v == JInt(n) || (v == JBool(true) && n == 1) || (v == JBool(false) && n == 0)
  }

  /** An entry the search steps over: a dict whose `track_number` is not `n`. */
  predicate Passes(v: Json, n: int) {
    v.JObj? && !EqualsInt(Get(v.fields, "track_number"), n)
  }

  /** The loop over the sidecar's track list: the first entry whose
      `track_number` equals `n`. An entry that is not a dict raises on `.get`. */
  function FindTrack(items: seq<Json>, n: int): (r: Result<Option<map<string, Json>>, string>)
    ensures r.Success? && r.value.Some? ==> EqualsInt(Get(r.value.value, "track_number"), n)
    ensures r.Success? && r.value.None? <==> forall k :: 0 <= k < |items| ==> Passes(items[k], n)
    ensures r.Success? && r.value.Some? ==>
      exists k :: 0 <= k < |items| && items[k] == JObj(r.value.value) && forall j :: 0 <= j < k ==> Passes(items[j], n)
    ensures r.Failure? ==>
      exists k :: 0 <= k < |items| && !items[k].JObj? && forall j :: 0 <= j < k ==> Passes(items[j], n)
    decreases |items|
  {
    if |items| == 0 then Success(None)
    else if !items[0].JObj? then Failure("AttributeError: object has no attribute 'get'")
    else if EqualsInt(Get(items[0].fields, "track_number"), n) then Success(Some(items[0].fields))
    else FindTrack(items[1..], n)
  }

  /** Iterating the `tracks` value: a list is searched; an empty dict or
      string yields nothing; anything else raises. */
  function SacdTrack(tracks: Json, n: int): Result<Option<map<string, Json>>, string> {
    match tracks
    case JArr(items) => FindTrack(items, n)
    case JObj(f) => if |f| == 0 then Success(None) else Failure("AttributeError: 'str' object has no attribute 'get'")
    case JStr(s) => if s == "" then Success(None) else Failure("AttributeError: 'str' object has no attribute 'get'")
    case _ => Failure("TypeError: object is not iterable")
  }

  /** The values of the matched sidecar track. */
  function FromSacdTrack(m: TrackMeta, t: map<string, Json>, n: int): (r: TrackMeta)
    ensures r.trackNumber == JInt(n)
    ensures r.title == (if "title" in t then t["title"] else m.title)
    ensures r.artist == (if "artist" in t then t["artist"] else m.artist)
    ensures r.duration == (if "duration_seconds" in t then t["duration_seconds"] else m.duration)
    ensures r.album == m.album && r.date == m.date && r.genre == m.genre && r.musicians == m.musicians
  {
    var m1 := if "title" in t then m.(title := t["title"]) else m;
    var m2 := if "artist" in t then m1.(artist := t["artist"]) else m1;
    var m3 := if "duration_seconds" in t then m2.(duration := t["duration_seconds"]) else m2;
    m3.(trackNumber := JInt(n))
  }

  /** The album-level entry: `album`, or `disc` when that is falsy. */
  function SacdInfo(sacd: map<string, Json>): Json {
    var a := GetOr(sacd, "album", JObj(map[]));
    if Truthy(a) then a else GetOr(sacd, "disc", JObj(map[]))
  }

  /** The album-level values: the artist only when still empty, the album
      from `album` or else `title`, and the genre. Indexing anything but a
      dict raises. */
  function FromSacdInfo(m: TrackMeta, info: Json): (r: Result<TrackMeta, string>)
    ensures r.Success? && Truthy(m.artist) ==> r.value.artist == m.artist
    ensures r.Success? ==> r.value.title == m.title && r.value.trackNumber == m.trackNumber
  {
    var wantArtist :- if Truthy(m.artist) then Success(false) else Contains(info, "artist");
    if wantArtist && !info.JObj? then Failure("TypeError: indices must be integers")
    else
      var m1 := if wantArtist then m.(artist := info.fields["artist"]) else m;
      var hasAlbum :- Contains(info, "album");
      var hasTitle :- if hasAlbum then Success(true) else Contains(info, "title");
      if (hasAlbum || hasTitle) && !info.JObj? then Failure("AttributeError: object has no attribute 'get'")
      else
        var m2 := if hasAlbum || hasTitle then
            m1.(album := if Truthy(Get(info.fields, "album")) then Get(info.fields, "album") else Get(info.fields, "title"))
          else m1;
        var hasGenre :- Contains(info, "genre");
        if hasGenre && !info.JObj? then Failure("TypeError: indices must be integers")
        else Success(if hasGenre then m2.(genre := info.fields["genre"]) else m2)
  }

  /** Priority 1, applied only with a non-empty sidecar and a track number. */
  function FromSacd(m: TrackMeta, sacd: Option<map<string, Json>>, trackNumber: Option<int>): Result<TrackMeta, string> {
    if sacd.None? || |sacd.value| == 0 || trackNumber.None? then Success(m)
    else
      var n := trackNumber.value;
      var found :- if "tracks" in sacd.value then SacdTrack(sacd.value["tracks"], n) else Success(None);
      var m1 := if found.Some? && |found.value| > 0 then FromSacdTrack(m, found.value, n) else m;
      var info := SacdInfo(sacd.value);
      if Truthy(info) then FromSacdInfo(m1, info) else Success(m1)
  }

  // ---------------------------------------------------------------------
  // Priority 2: the FLAC tags
  // ---------------------------------------------------------------------

  /** The digits `int()` accepts after the sign: a digit first, and an
      underscore only where a digit follows it (`1_000`). */
  predicate Numeral(d: string) {
    |d| >= 1 && IsDigit(d[0]) &&
    forall i {:trigger d[i]} :: 0 <= i < |d| ==> IsDigit(d[i]) || (d[i] == '_' && i + 1 < |d| && IsDigit(d[i + 1]))
  }

  /** A numeral with its underscores dropped. */
  function NumeralDigits(d: string): (r: string)
    ensures (forall i :: 0 <= i < |d| ==> IsDigit(d[i]) || d[i] == '_') ==> AllDigits(r)
    ensures |d| >= 1 && IsDigit(d[0]) ==> |r| >= 1
    ensures AllDigits(d) ==> r == d
    decreases |d|
  {
    if |d| == 0 then ""
    else (if d[0] == '_' then "" else [d[0]]) + NumeralDigits(d[1..])
  }

  /** Python's `int(s)` on ASCII text: surrounding blanks, an optional
      sign, then a numeral; anything else raises `ValueError`. */
  function PyInt(s: string): (r: Option<int>)
    ensures |Strip(s)| >= 1 && AllDigits(Strip(s)) ==> r == Some(ParseNat(Strip(s)))
    ensures r.Some? && AllDigits(Strip(s)) ==> r.value >= 0
    ensures r.Some? ==> exists i :: 0 <= i < |Strip(s)| && IsDigit(Strip(s)[i])
  {
    var t := Strip(s);
    var signed := |t| > 0 && (t[0] == '+' || t[0] == '-');
    var d := if signed then t[1..] else t;
    if Numeral(d) then
      assert forall i :: 0 <= i < |d| ==> IsDigit(d[i]) || d[i] == '_';
      var v := ParseNat(NumeralDigits(d)) as int;
      Some(if signed && t[0] == '-' then 0 - v else v)
    else None
  }

  /** Text without blanks is left alone by `strip()`. */
  lemma StripNoBlank(s: string)
    requires forall i :: 0 <= i < |s| ==> !IsSpace(s[i])
    ensures Strip(s) == s
  {
  }

  /** `int(str(n)) == n`: the tag a tagger writes for a number reads back
      as that number. */
  lemma PyIntRoundTrip(n: int)
    ensures PyInt(IntToString(n)) == Some(n)
  {
    var m: nat := if n < 0 then -n else n;
    var digits := NatToString(m);
    ParseNatToString(m);
    assert Numeral(digits);
    StripNoBlank(IntToString(n));
    if n < 0 {
      assert IntToString(n)[1..] == digits;
    }
  }

  /** `int()` takes a single underscore between digits as grouping. */
  lemma PyIntGroupingExample()
    ensures PyInt("1_2") == Some(12)
  {
    GroupedTwelve();
  }

  /** The steps `PyInt` takes on `1_2`. */
  lemma GroupedTwelve()
    ensures Strip("1_2") == "1_2" && Numeral("1_2")
    ensures NumeralDigits("1_2") == "12" && ParseNat("12") == 12
  {
    StripNoBlank("1_2");
    TwelveNumeral("1_2");
    TwelveDigits("1_2");
    assert "12"[..1] == "1";
  }

  lemma TwelveNumeral(s: string)
    requires s == "1_2"
    ensures Numeral(s)
  {
    assert |s| == 3 && s[0] == '1' && s[1] == '_' && s[2] == '2';
  }

  lemma TwelveDigits(s: string)
    requires s == "1_2"
    ensures NumeralDigits(s) == "12"
  {
    assert s[1..] == "_2" && s[1..][1..] == "2";
    assert NumeralDigits("2") == "2";
  }

  /** Doubled, leading and trailing underscores make `int()` raise. */
  lemma PyIntBadGroupingExample()
    ensures PyInt("1__2") == None && PyInt("_12") == None && PyInt("12_") == None
  {
    StripNoBlank("1__2");
    assert !Numeral("1__2") by { assert "1__2"[1] == '_' && !IsDigit("1__2"[2]); }
    StripNoBlank("_12");
    StripNoBlank("12_");
  }

  /** `audio[key][0]`; an empty list raises. */
  function FirstValue(values: seq<string>): Result<string, string> {
    if |values| == 0 then Failure("IndexError: list index out of range") else Success(values[0])
  }

  /** Fill one string field from a tag when the field is falsy. */
  function FillField(current: Json, audio: MetadataEnricher.Tags, key: string): Result<Json, string> {
    if !Truthy(current) && key in audio then
      var v :- FirstValue(audio[key]);
      Success(JStr(v))
    else Success(current)
  }

  /** The musician entries: every value of `performer`, `composer`,
      `conductor` and `orchestra`, in that order, with its role. */
  function Musicians(audio: MetadataEnricher.Tags, roles: seq<string>): (r: seq<Json>)
    decreases |roles|
  {
    if |roles| == 0 then []
    else
      var values := if roles[0] in audio then audio[roles[0]] else [];
      RoleEntries(roles[0], values) + Musicians(audio, roles[1..])
  }

  function RoleEntries(role: string, values: seq<string>): (r: seq<Json>)
    ensures |r| == |values|
    ensures forall i :: 0 <= i < |values| ==> r[i] == JObj(map["role" := JStr(role), "name" := JStr(values[i])])
  {
    seq(|values|, i requires 0 <= i < |values| => JObj(map["role" := JStr(role), "name" := JStr(values[i])]))
  }

  const Roles: seq<string> := ["performer", "composer", "conductor", "orchestra"]

  /** Step 1: `int(audio['tracknumber'][0].split('/')[0])`. */
  function NumberStep(m: TrackMeta, audio: MetadataEnricher.Tags): Result<TrackMeta, string> {
    if !Truthy(m.trackNumber) && "tracknumber" in audio then
      var v :- FirstValue(audio["tracknumber"]);
      var n := PyInt(Split(v, '/')[0]);
      if n.None? then Failure("ValueError: invalid literal for int()")
      else Success(m.(trackNumber := JInt(n.value)))
    else Success(m)
  }

  /** Step 6: the musician list, set only when it is not empty. */
  function MusiciansStep(m: TrackMeta, audio: MetadataEnricher.Tags): TrackMeta {
    if Truthy(m.musicians) then m
    else
      var list := Musicians(audio, Roles);
      if |list| > 0 then m.(musicians := JArr(list)) else m
  }

  /** Step `step` of the tag read; `Failure` is an exception that ends it. */
  function TagStep(m: TrackMeta, audio: MetadataEnricher.Tags, step: nat): Result<TrackMeta, string>
    requires step < 7
  {
    if step == 0 then
      var v :- FillField(m.title, audio, "title");
      Success(m.(title := v))
    else if step == 1 then NumberStep(m, audio)
    else if step == 2 then
      var v :- FillField(m.artist, audio, "artist");
      Success(m.(artist := v))
    else if step == 3 then
      var v :- FillField(m.album, audio, "album");
      Success(m.(album := v))
    else if step == 4 then
      var v :- FillField(m.date, audio, "date");
      Success(m.(date := v))
    else if step == 5 then
      var v :- FillField(m.genre, audio, "genre");
      Success(m.(genre := v))
    else Success(MusiciansStep(m, audio))
  }

  /** The tag read from step `step` on; the `except` keeps what was set
      before a raising step. */
  function FromTags(m: TrackMeta, audio: MetadataEnricher.Tags, step: nat): (r: TrackMeta)
    decreases 7 - step
  {
    if step >= 7 then m
    else
      match TagStep(m, audio, step)
      case Failure(_) => m
      case Success(m') => FromTags(m', audio, step + 1)
  }

  // ---------------------------------------------------------------------
  // Priority 3: the file name
  // ---------------------------------------------------------------------

  /** `s[i..j]` is all digits. */
  predicate DigitsIn(s: string, i: nat, j: nat) {
    i <= j <= |s| && forall x | i <= x < j :: IsDigit(s[x])
  }

  /** `s[i..j]` is all blanks. */
  predicate SpacesIn(s: string, i: nat, j: nat) {
    i <= j <= |s| && forall x | i <= x < j :: IsSpace(s[x])
  }

  /** `s[i..j]` is what `[-.]?` matches: nothing, or one `-` or `.`. */
  predicate SeparatorIn(s: string, i: nat, j: nat) {
    i <= j <= |s| && (j == i || (j == i + 1 && (s[i] == '-' || s[i] == '.')))
  }

  /** `^\d+\s*[-.]?\s*` matches `s[..n]` in full: at least one digit,
      blanks, at most one separator, blanks. */
  ghost predicate NumberPrefix(s: string, n: nat) {
    exists a: nat, b: nat, c: nat :: 1 <= a && DigitsIn(s, 0, a) && SpacesIn(s, a, b) && SeparatorIn(s, b, c) && SpacesIn(s, c, n)
  }

  /** Where the greedy match of `^\d+\s*[-.]?\s*` ends: 0 when the stem
      does not start with a digit. */
  function PrefixEnd(stem: string): (e: nat)
    ensures e <= |stem|
    ensures e == 0 <==> |stem| == 0 || !IsDigit(stem[0])
  {
    var d := MetadataEnricher.DigitRun(stem, 0);
    if d == 0 then 0
    else
      var k := d + MetadataEnricher.SpaceRun(stem, d);
      var k' := if k < |stem| && (stem[k] == '-' || stem[k] == '.') then k + 1 else k;
      k' + MetadataEnricher.SpaceRun(stem, k')
  }

  /** `re.sub(r'^\d+\s*[-.]?\s*', '', stem)`: the pattern is anchored,
      so only a stem that starts with a digit loses anything. */
  function StripTrackPrefix(stem: string): (r: string)
    ensures |r| <= |stem| && r == stem[|stem| - |r|..]
    ensures (|stem| == 0 || !IsDigit(stem[0])) ==> r == stem
    ensures |stem| > 0 && IsDigit(stem[0]) ==> |r| < |stem|
  {
    stem[PrefixEnd(stem)..]
  }

  /** What `StripTrackPrefix` removes from a stem that starts with a digit
      is a match of the pattern. */
  lemma StripTrackPrefixRemovesNumber(stem: string)
    requires |stem| > 0 && IsDigit(stem[0])
    ensures NumberPrefix(stem, |stem| - |StripTrackPrefix(stem)|)
  {
    var d, k, c := PrefixEndSplit(stem);
    assert |stem| - |StripTrackPrefix(stem)| == PrefixEnd(stem);
  }

  /** Where the digits, the blanks and the separator of the greedy match end. */
  lemma PrefixEndSplit(stem: string) returns (d: nat, k: nat, c: nat)
    requires |stem| > 0 && IsDigit(stem[0])
    ensures 1 <= d && DigitsIn(stem, 0, d) && SpacesIn(stem, d, k) && SeparatorIn(stem, k, c)
    ensures SpacesIn(stem, c, PrefixEnd(stem))
  {
    d := MetadataEnricher.DigitRun(stem, 0);
    k := d + MetadataEnricher.SpaceRun(stem, d);
    c := if k < |stem| && (stem[k] == '-' || stem[k] == '.') then k + 1 else k;
    assert PrefixEnd(stem) == c + MetadataEnricher.SpaceRun(stem, c);
  }

  /** The greedy match is the longest: no longer prefix of the stem
      matches the pattern in full. */
  lemma StripTrackPrefixLongest(stem: string, n: nat)
    requires |stem| - |StripTrackPrefix(stem)| < n
    ensures !NumberPrefix(stem, n)
  {
    if NumberPrefix(stem, n) {
      var a: nat, b: nat, c: nat :| 1 <= a && DigitsIn(stem, 0, a) && SpacesIn(stem, a, b) && SeparatorIn(stem, b, c) && SpacesIn(stem, c, n);
      PrefixDigitsEnd(stem, a, b, c, n);
      assert false;
    }
  }

  /** Within a match, the digits end where the stem's leading digits end. */
  lemma PrefixDigitsEnd(stem: string, a: nat, b: nat, c: nat, n: nat)
    requires 1 <= a && DigitsIn(stem, 0, a) && SpacesIn(stem, a, b) && SeparatorIn(stem, b, c) && SpacesIn(stem, c, n)
    requires MetadataEnricher.DigitRun(stem, 0) <= n
    ensures a == MetadataEnricher.DigitRun(stem, 0)
  {
    if a < |stem| {
      assert a < MetadataEnricher.DigitRun(stem, 0) ==> IsDigit(stem[a]);
    }
  }

  /** The file-name fallback. `re` is bound only by the `import re` inside
      the track-number branch, so with `moduleRe` false (the code as
      written) the title branch raises `UnboundLocalError` when that branch
      did not run. */
  function FromName(m: TrackMeta, stem: string, moduleRe: bool): (r: Result<TrackMeta, string>)
  {
    var imported := m.trackNumber == JNull;
    var d := MetadataEnricher.DigitRun(stem, 0);
    var m1 := if imported && d >= 1 then m.(trackNumber := JInt(ParseNat(stem[..d]))) else m;
    if m1.title != JNull then Success(m1)
    else if !imported && !moduleRe then Failure("UnboundLocalError: cannot access local variable 're'")
    else
      var t := StripTrackPrefix(stem);
      Success(m1.(title := JStr(if t != "" then t else stem)))
  }

  // ---------------------------------------------------------------------
  // The whole merge
  // ---------------------------------------------------------------------

  /** What the function reads from the disk: which paths exist, the tag
      blocks of the FLAC files that open, and what the duration probe of
      the output sets (`None` when it sets nothing). */
  datatype Disk = Disk(existing: set<string>, tags: map<string, MetadataEnricher.Tags>, probed: Option<Json>)

  /** The merge with the file-name fallback parameterised as in `FromName`. */
  function Merge(source: string, output: string, isFromIso: bool, sacd: Option<map<string, Json>>,
                 trackNumber: Option<int>, disk: Disk, moduleRe: bool): Result<TrackMeta, string>
  {
    var m1 :- FromSacd(Blank, sacd, trackNumber);
    var file := if isFromIso then output else source;
    var m2 := if file in disk.existing && Ext(file) == ".flac" && file in disk.tags then FromTags(m1, disk.tags[file], 0) else m1;
    var m3 :- FromName(m2, Stem(file), moduleRe);
    var m4 := if !Truthy(m3.duration) && output in disk.existing && disk.probed.Some? then m3.(duration := disk.probed.value) else m3;
    Success(m4)
  }

  /** `_extract_track_metadata` as written. */
  function ExtractAsWritten(source: string, output: string, isFromIso: bool, sacd: Option<map<string, Json>>,
                            trackNumber: Option<int>, disk: Disk): Result<TrackMeta, string> {
    Merge(source, output, isFromIso, sacd, trackNumber, disk, false)
  }

  /** `_extract_track_metadata` with `re` imported for the whole function:
      every track gets a title. */
  function Extract(source: string, output: string, isFromIso: bool, sacd: Option<map<string, Json>>,
                   trackNumber: Option<int>, disk: Disk): Result<TrackMeta, string> {
    Merge(source, output, isFromIso, sacd, trackNumber, disk, true)
  }

  // ---------------------------------------------------------------------
  // Properties
  // ---------------------------------------------------------------------

  /** The name fallback never leaves the title unset, and it keeps a title
      already found. */
  lemma FromNameTitle(m: TrackMeta, stem: string)
    ensures FromName(m, stem, true).Success?
    ensures FromName(m, stem, true).value.title != JNull
    ensures m.title != JNull ==> FromName(m, stem, true).value.title == m.title
  {
  }

  /** The title taken from the name is the name without its leading
      number, or the whole name when nothing else is left. */
  lemma FromNameTitleIsSuffix(m: TrackMeta, stem: string)
    requires m.title == JNull
    ensures FromName(m, stem, true).value.title.JStr?
    ensures EndsWith(stem, FromName(m, stem, true).value.title.s)
    ensures stem != "" ==> FromName(m, stem, true).value.title.s != ""
  {
    var t := StripTrackPrefix(stem);
    assert stem[|stem| - |t|..] == t;
    if t == "" {
      assert stem[|stem| - |stem|..] == stem;
    }
  }

  /** A number found before the fallback is kept; a missing one comes from
      the leading digits of the name. */
  lemma FromNameTrackNumber(m: TrackMeta, stem: string, moduleRe: bool)
    requires FromName(m, stem, moduleRe).Success?
    ensures m.trackNumber != JNull ==> FromName(m, stem, moduleRe).value.trackNumber == m.trackNumber
    ensures m.trackNumber == JNull && MetadataEnricher.DigitRun(stem, 0) >= 1 ==>
      FromName(m, stem, moduleRe).value.trackNumber == JInt(ParseNat(stem[..MetadataEnricher.DigitRun(stem, 0)]))
  {
  }

  /** The two versions differ only where the code as written raises. */
  lemma AsWrittenAgreesElsewhere(m: TrackMeta, stem: string)
    requires FromName(m, stem, false).Success?
    ensures FromName(m, stem, false) == FromName(m, stem, true)
  {
  }

  /** The code as written raises exactly when a track number is known but
      no title was found. */
  lemma AsWrittenFailsIff(m: TrackMeta, stem: string)
    ensures FromName(m, stem, false).Failure? <==> m.trackNumber != JNull && m.title == JNull
  {
  }

  /** A truthy value already set is never replaced by the tag read, the
      title is read only by the first step, and the duration never. */
  lemma {:induction false} FromTagsKeepsTruthy(m: TrackMeta, audio: MetadataEnricher.Tags, step: nat)
    ensures Truthy(m.title) || step >= 1 ==> FromTags(m, audio, step).title == m.title
    ensures Truthy(m.trackNumber) ==> FromTags(m, audio, step).trackNumber == m.trackNumber
    ensures Truthy(m.artist) ==> FromTags(m, audio, step).artist == m.artist
    ensures Truthy(m.album) ==> FromTags(m, audio, step).album == m.album
    ensures Truthy(m.date) ==> FromTags(m, audio, step).date == m.date
    ensures Truthy(m.genre) ==> FromTags(m, audio, step).genre == m.genre
    ensures FromTags(m, audio, step).duration == m.duration
    decreases 7 - step
  {
    if step < 7 {
      match TagStep(m, audio, step)
      case Failure(_) =>
      case Success(m') =>
        TagStepKeepsTruthy(m, audio, step);
        FromTagsKeepsTruthy(m', audio, step + 1);
    }
  }

  /** One step of the tag read keeps what `FromTagsKeepsTruthy` says. */
  lemma TagStepKeepsTruthy(m: TrackMeta, audio: MetadataEnricher.Tags, step: nat)
    requires step < 7 && TagStep(m, audio, step).Success?
    ensures var m' := TagStep(m, audio, step).value;
      && (Truthy(m.title) || step >= 1 ==> m'.title == m.title)
      && (Truthy(m.trackNumber) ==> m'.trackNumber == m.trackNumber)
      && (Truthy(m.artist) ==> m'.artist == m.artist)
      && (Truthy(m.album) ==> m'.album == m.album)
      && (Truthy(m.date) ==> m'.date == m.date)
      && (Truthy(m.genre) ==> m'.genre == m.genre)
      && m'.duration == m.duration
      && (Truthy(m.title) ==> Truthy(m'.title))
      && (Truthy(m.trackNumber) ==> Truthy(m'.trackNumber))
      && (Truthy(m.artist) ==> Truthy(m'.artist))
      && (Truthy(m.album) ==> Truthy(m'.album))
      && (Truthy(m.date) ==> Truthy(m'.date))
      && (Truthy(m.genre) ==> Truthy(m'.genre))
  {
  }

  /** An empty title, with a title tag, takes the tag's first value. */
  lemma FromTagsFillsTitle(m: TrackMeta, audio: MetadataEnricher.Tags)
    requires !Truthy(m.title) && "title" in audio && |audio["title"]| > 0
    ensures FromTags(m, audio, 0).title == JStr(audio["title"][0])
  {
    var m1 := TagStep(m, audio, 0).value;
    FromTagsKeepsTruthy(m1, audio, 1);
  }

  /** A title tag with no value raises at the first step, so nothing at
      all is taken from the tags. */
  lemma FromTagsEmptyTitleReadsNothing(m: TrackMeta, audio: MetadataEnricher.Tags)
    requires !Truthy(m.title) && "title" in audio && |audio["title"]| == 0
    ensures FromTags(m, audio, 0) == m
  {
  }

  /** The rest of the merge keeps a truthy title found in the sidecar. */
  lemma MergeKeepsSacdTitle(source: string, output: string, isFromIso: bool, sacd: Option<map<string, Json>>,
                            trackNumber: Option<int>, disk: Disk, moduleRe: bool)
    requires FromSacd(Blank, sacd, trackNumber).Success?
    requires Truthy(FromSacd(Blank, sacd, trackNumber).value.title)
    ensures Merge(source, output, isFromIso, sacd, trackNumber, disk, moduleRe).Success?
    ensures Merge(source, output, isFromIso, sacd, trackNumber, disk, moduleRe).value.title
      == FromSacd(Blank, sacd, trackNumber).value.title
  {
    var m1 := FromSacd(Blank, sacd, trackNumber).value;
    var file := if isFromIso then output else source;
    var m2 := if file in disk.existing && Ext(file) == ".flac" && file in disk.tags then FromTags(m1, disk.tags[file], 0) else m1;
    if file in disk.existing && Ext(file) == ".flac" && file in disk.tags {
      FromTagsKeepsTruthy(m1, disk.tags[file], 0);
    }
    assert m2.title == m1.title;
    FromNameKeepsTitle(m2, Stem(file), moduleRe);
  }

  /** A title already set survives the reading of the file name. */
  lemma FromNameKeepsTitle(m: TrackMeta, stem: string, moduleRe: bool)
    requires m.title != JNull
    ensures FromName(m, stem, moduleRe).Success?
    ensures FromName(m, stem, moduleRe).value.title == m.title
  {
  }

  /** The title of a matched sidecar track survives the sidecar's album part. */
  lemma FromSacdTitle(sacd: map<string, Json>, n: int, t: map<string, Json>)
    requires |sacd| > 0 && "tracks" in sacd && SacdTrack(sacd["tracks"], n) == Success(Some(t))
    requires "title" in t
    requires FromSacd(Blank, Some(sacd), Some(n)).Success?
    ensures FromSacd(Blank, Some(sacd), Some(n)).value.title == t["title"]
    ensures FromSacd(Blank, Some(sacd), Some(n)).value.trackNumber == JInt(n)
  {
    assert |t| > 0;
  }

  /** A SACD title wins over the tags and the file name. */
  lemma SacdTitleWins(source: string, output: string, isFromIso: bool, sacd: map<string, Json>, n: int,
                      disk: Disk, t: map<string, Json>)
    requires |sacd| > 0 && "tracks" in sacd && SacdTrack(sacd["tracks"], n) == Success(Some(t))
    requires "title" in t && Truthy(t["title"])
    requires FromSacd(Blank, Some(sacd), Some(n)).Success?
    ensures Extract(source, output, isFromIso, Some(sacd), Some(n), disk).Success?
    ensures Extract(source, output, isFromIso, Some(sacd), Some(n), disk).value.title == t["title"]
  {
    FromSacdTitle(sacd, n, t);
    MergeKeepsSacdTitle(source, output, isFromIso, Some(sacd), Some(n), disk, true);
  }

  /** Without a sidecar match and without a FLAC file, the track number
      and the title come from the file name. */
  lemma NameOnly(source: string, output: string, disk: Disk)
    requires source !in disk.existing
    ensures Extract(source, output, false, None, None, disk).Success?
    ensures Extract(source, output, false, None, None, disk).value.title
      == JStr(if StripTrackPrefix(Stem(source)) != "" then StripTrackPrefix(Stem(source)) else Stem(source))
  {
    var stem := Stem(source);
    var t := StripTrackPrefix(stem);
    assert FromSacd(Blank, None, None) == Success(Blank);
    var named := FromName(Blank, stem, true);
    assert named.Success? && named.value.title == JStr(if t != "" then t else stem);
    assert Extract(source, output, false, None, None, disk) == Merge(source, output, false, None, None, disk, true);
  }

  /** The finding: a FLAC file with a track-number tag but no title tag
      makes the code as written raise, while the corrected merge names
      the track after its file. */
  lemma UnboundReExample(source: string, output: string, disk: Disk)
    requires source in disk.existing && Ext(source) == ".flac" && output !in disk.existing
    requires source in disk.tags && disk.tags[source] == map["tracknumber" := ["3"]]
    ensures ExtractAsWritten(source, output, false, None, None, disk).Failure?
    ensures Extract(source, output, false, None, None, disk) == Success(
      Blank.(trackNumber := JInt(3), title := JStr(
        if StripTrackPrefix(Stem(source)) != "" then StripTrackPrefix(Stem(source)) else Stem(source))))
  {
    var tags := disk.tags[source];
    TrackNumberTagOnly(tags);
    assert FromSacd(Blank, None, None) == Success(Blank);
  }

  /** Reading a lone `tracknumber = 3` tag sets the number and nothing else. */
  lemma TrackNumberTagOnly(tags: MetadataEnricher.Tags)
    requires tags == map["tracknumber" := ["3"]]
    ensures FromTags(Blank, tags, 0) == Blank.(trackNumber := JInt(3))
  {
    var m1 := Blank.(trackNumber := JInt(3));
    assert TagStep(Blank, tags, 0) == Success(Blank);
    NumberThree(tags);
    assert TagStep(Blank, tags, 1) == Success(m1);
    NoOtherTags(tags, m1);
  }

  lemma NumberThree(tags: MetadataEnricher.Tags)
    requires tags == map["tracknumber" := ["3"]]
    ensures NumberStep(Blank, tags) == Success(Blank.(trackNumber := JInt(3)))
  {
    SplitThree();
    PyIntThree();
    assert FirstValue(tags["tracknumber"]) == Success("3");
  }

  lemma SplitThree()
    ensures Split("3", '/') == ["3"]
  {
    assert '/' !in "3";
  }

  lemma PyIntThree()
    ensures PyInt("3") == Some(3)
  {
    assert Strip("3") == "3";
    assert AllDigits("3");
  }

  lemma NoOtherTags(tags: MetadataEnricher.Tags, m1: TrackMeta)
    requires tags == map["tracknumber" := ["3"]] && m1 == Blank.(trackNumber := JInt(3))
    ensures FromTags(m1, tags, 2) == m1
  {
    assert TagStep(m1, tags, 6) == Success(m1) by {
      assert Musicians(tags, Roles[3..]) == [];
      assert Musicians(tags, Roles[2..]) == [];
      assert Musicians(tags, Roles[1..]) == [];
      assert Musicians(tags, Roles) == [];
    }
    assert FromTags(m1, tags, 6) == m1;
    assert TagStep(m1, tags, 5) == Success(m1);
    assert FromTags(m1, tags, 5) == m1;
    assert TagStep(m1, tags, 4) == Success(m1);
    assert FromTags(m1, tags, 4) == m1;
    assert TagStep(m1, tags, 3) == Success(m1);
    assert FromTags(m1, tags, 3) == m1;
    assert TagStep(m1, tags, 2) == Success(m1);
  }

  /** A concrete path for the finding: the stem of `a/Intro.flac` is
      `Intro`, which has no leading number to strip. */
  lemma IntroPath()
    ensures Ext("a/Intro.flac") == ".flac"
    ensures StripTrackPrefix(Stem("a/Intro.flac")) == "Intro"
  {
    NameOfJoin("a", "Intro.flac");
    assert JoinPath("a", "Intro.flac") == "a/Intro.flac";
    var n := "Intro.flac";
    assert LastIndex(n, '.', 10) == 5;
    assert Suffix(n) == ".flac";
    assert Lower(".flac") == ".flac";
    assert n[..5] == "Intro";
    assert MetadataEnricher.DigitRun("Intro", 0) == 0;
  }
}

=== FILE: working_directory.dfy ===
/** The per-album working directories: a `<name>_<timestamp>_source` copy of
    the album and a `<name>_<timestamp>_processed` tree the converter writes
    into, both under the working root, plus the moves and copies that take
    them to the archive and output locations. Every operation reports
    `(success, error_message)`, here an `Outcome`. */
module WorkingDirectory {
  import opened Wrappers
  import opened Text
  import opened Paths
  import opened FileSystem
  import opened CopyVerification

  // ---------------------------------------------------------------------------
  // Names

  /** The characters `_sanitize_name` replaces with `_`. */
  predicate Unsafe(c: char) {
    c in "/\\:*?\"<>|"
  }

  const MaxNameLength: nat := 200

  /** `_sanitize_name(name)`: unsafe characters become `_`, then the name is
      cut to 200 characters. */
  function SanitizeName(name: string): (r: string)
    ensures |r| == if |name| > MaxNameLength then MaxNameLength else |name|
    ensures forall i | 0 <= i < |r| :: !Unsafe(r[i])
    ensures forall i | 0 <= i < |r| :: r[i] == if Unsafe(name[i]) then '_' else name[i]
  {
    var n := if |name| > MaxNameLength then MaxNameLength else |name|;
    seq(n, i requires 0 <= i < n => if Unsafe(name[i]) then '_' else name[i])
  }

  /** Sanitising a sanitised name changes nothing. */
  lemma SanitizeIdempotent(name: string)
    ensures SanitizeName(SanitizeName(name)) == SanitizeName(name)
  {
  }

  /** A name of safe characters within the limit is kept as it is. */
  lemma SanitizeKeepsSafeNames(name: string)
    requires |name| <= MaxNameLength && forall i | 0 <= i < |name| :: !Unsafe(name[i])
    ensures SanitizeName(name) == name
  {
  }

  datatype WorkingDirs = WorkingDirs(source: string, processed: string)

  /** The pair of directory names for an album: `album_name` if given and
      non-empty, else the album directory's name, sanitised. */
  function WorkingDirNames(root: string, albumPath: string, albumName: Option<string>, timestamp: string): WorkingDirs {
    var name := if albumName.Some? && albumName.value != "" then albumName.value else Name(albumPath);
    var base := SanitizeName(name) + "_" + timestamp;
    WorkingDirs(JoinPath(root, base + "_source"), JoinPath(root, base + "_processed"))
  }

  datatype Created = Created(fs: Fs, dirs: Result<WorkingDirs, string>)

  /** `create_working_dirs(album_path, album_name)`; `timestamp` is the
      clock's `%Y%m%d_%H%M%S`. Nothing is created when either name is taken. */
  function CreateWorkingDirs(fs: Fs, root: string, albumPath: string, albumName: Option<string>, timestamp: string): (r: Created)
    ensures var names := WorkingDirNames(root, albumPath, albumName, timestamp);
            && (r.dirs.Success? <==> names.source !in fs && names.processed !in fs)
            && (r.dirs.Failure? ==> r.fs == fs && r.dirs.error == "Working directories already exist")
            && (r.dirs.Success? ==> r.dirs.value == names && IsDir(r.fs, names.source) && IsDir(r.fs, names.processed))
            && (forall p | p != names.source && p != names.processed :: (p in r.fs <==> p in fs) && (p in fs ==> r.fs[p] == fs[p]))
  {
    var names := WorkingDirNames(root, albumPath, albumName, timestamp);
    if names.source in fs || names.processed in fs then Created(fs, Failure("Working directories already exist"))
    else Created(MakeDir(MakeDir(fs, names.source), names.processed), Success(names))
  }

  /** The two names are distinct directories directly below the root, named
      `<base>_source` and `<base>_processed` for one `<base>`. */
  lemma WorkingDirNamesShape(root: string, albumPath: string, albumName: Option<string>, timestamp: string)
    ensures var names := WorkingDirNames(root, albumPath, albumName, timestamp);
            names.source != names.processed
            && IsUnder(root, names.source) && IsUnder(root, names.processed)
            && exists base :: Rel(root, names.source) == base + "_source" && Rel(root, names.processed) == base + "_processed"
  {
    var names := WorkingDirNames(root, albumPath, albumName, timestamp);
    var name := if albumName.Some? && albumName.value != "" then albumName.value else Name(albumPath);
    var base := SanitizeName(name) + "_" + timestamp;
    RelJoin(root, base + "_source");
    RelJoin(root, base + "_processed");
    assert names.source[|names.source| - 1] == 'e';
    assert names.processed[|names.processed| - 1] == 'd';
  }

  /** `list_working_directories()`: every `<base>_source` directory directly
      below the root whose `<base>_processed` sibling exists. */
  function ListWorkingDirectories(fs: Fs, root: string): (r: set<WorkingDirs>)
    ensures forall w | w in r :: IsDir(fs, w.source) && w.processed in fs && IsUnder(root, w.source) && EndsWith(Name(w.source), "_source")
  {
    if root !in fs then {}
    else
      set s | s in Children(fs, root) && IsDir(fs, s) && EndsWith(Name(s), "_source")
                && PairedName(root, s) in fs
            :: WorkingDirs(s, PairedName(root, s))
  }

  /** The `_processed` sibling of a `_source` directory (`name[:-7]`). */
  function PairedName(root: string, s: string): string
    requires EndsWith(Name(s), "_source")
  {
    var n := Name(s);
    JoinPath(root, n[..|n| - 7] + "_processed")
  }

  /** A freshly created pair is listed, provided the timestamp holds no `/`. */
  lemma CreatedPairIsListed(fs: Fs, root: string, albumPath: string, albumName: Option<string>, timestamp: string)
    requires root in fs && '/' !in timestamp
    requires CreateWorkingDirs(fs, root, albumPath, albumName, timestamp).dirs.Success?
    ensures var r := CreateWorkingDirs(fs, root, albumPath, albumName, timestamp);
            r.dirs.value in ListWorkingDirectories(r.fs, root)
  {
    var r := CreateWorkingDirs(fs, root, albumPath, albumName, timestamp);
    var name := if albumName.Some? && albumName.value != "" then albumName.value else Name(albumPath);
    var base := SanitizeName(name) + "_" + timestamp;
    BaseHasNoSlash(name, timestamp);
    assert r.dirs.value == WorkingDirs(JoinPath(root, base + "_source"), JoinPath(root, base + "_processed"));
    PairIsListed(r.fs, root, base);
  }

  /** A sanitised name and a timestamp without `/` make a base without `/`. */
  lemma BaseHasNoSlash(name: string, timestamp: string)
    requires '/' !in timestamp
    ensures '/' !in SanitizeName(name) + "_" + timestamp + "_source"
  {
    var n := SanitizeName(name);
    var sname := n + "_" + timestamp + "_source";
    assert forall i | 0 <= i < |n| :: sname[i] == n[i];
    assert forall i | |n| + 1 <= i < |n| + 1 + |timestamp| :: sname[i] == timestamp[i - |n| - 1];
  }

  /** A `<base>_source` directory below the root with its `<base>_processed`
      sibling is listed as a pair. */
  lemma PairIsListed(fs: Fs, root: string, base: string)
    requires root in fs && '/' !in base + "_source"
    requires IsDir(fs, JoinPath(root, base + "_source")) && JoinPath(root, base + "_processed") in fs
    ensures WorkingDirs(JoinPath(root, base + "_source"), JoinPath(root, base + "_processed")) in ListWorkingDirectories(fs, root)
  {
    var sname := base + "_source";
    var src := JoinPath(root, sname);
    NameOfJoin(root, sname);
    RelJoin(root, sname);
    assert src in Children(fs, root);
    assert Name(src)[..|Name(src)| - 7] == base;
    assert EndsWith(Name(src), "_source");
    assert PairedName(root, src) == JoinPath(root, base + "_processed");
  }

  // ---------------------------------------------------------------------------
  // Space

  /** Bytes per gigabyte, as the program counts them. */
  const GiB: nat := 1024 * 1024 * 1024

  /** The default safety margin of 5.0 GB, in bytes. */
  const DefaultMarginBytes: nat := 5 * GiB

  /** Some file below the album has the extension `.iso`, in any case. */
  predicate HasIso(fs: Fs, album: string) {
    exists p | p in FilesBelow(fs, album) :: Ext(p) == ".iso"
  }

  /** The space an album needs: nothing for a missing album, otherwise its
      bytes five times over when it holds an ISO image and three times over
      when it does not. */
  function RequiredSpace(fs: Fs, album: string): nat {
    if album !in fs then 0
    else SumSizes(fs, SortedFiles(fs, album)) * (if HasIso(fs, album) then 5 else 3)
  }

  predicate AnyIso(files: seq<string>) {
    exists j | 0 <= j < |files| :: Ext(files[j]) == ".iso"
  }

  lemma AnyIsoStep(files: seq<string>, i: nat)
    requires i < |files|
    ensures AnyIso(files[i..]) <==> Ext(files[i]) == ".iso" || AnyIso(files[i + 1..])
  {
    if AnyIso(files[i..]) {
      var j :| 0 <= j < |files[i..]| && Ext(files[i..][j]) == ".iso";
      if j > 0 { assert files[i..][j] == files[i + 1..][j - 1]; }
    }
    if AnyIso(files[i + 1..]) {
      var j :| 0 <= j < |files[i + 1..]| && Ext(files[i + 1..][j]) == ".iso";
      assert files[i + 1..][j] == files[i..][j + 1];
    }
    if Ext(files[i]) == ".iso" { assert files[i..][0] == files[i]; }
  }

  lemma AnyIsoOfFiles(fs: Fs, album: string)
    ensures AnyIso(SortedFiles(fs, album)) <==> HasIso(fs, album)
  {
    var files := SortedFiles(fs, album);
    if HasIso(fs, album) {
      var p :| p in FilesBelow(fs, album) && Ext(p) == ".iso";
      assert p in files;
    }
  }

  lemma SumSizesStep(fs: Fs, files: seq<string>, i: nat)
    requires i < |files|
    ensures SumSizes(fs, files[i..]) == SizeOf(fs, files[i]) + SumSizes(fs, files[i + 1..])
  {
    assert files[i..][1..] == files[i + 1..];
  }

  /** The walk over the album's files: their total size and whether any
      of them is an ISO image. */
  method WalkFiles(fs: Fs, files: seq<string>) returns (total: nat, hasIso: bool)
    ensures total == SumSizes(fs, files)
    ensures hasIso <==> AnyIso(files)
  {
    total := 0;
    hasIso := false;
    var i := |files|;
    while i > 0
      invariant 0 <= i <= |files|
      invariant total == SumSizes(fs, files[i..])
      invariant hasIso <==> AnyIso(files[i..])
    {
      i := i - 1;
      SumSizesStep(fs, files, i);
      AnyIsoStep(files, i);
      total := total + SizeOf(fs, files[i]);
      if Ext(files[i]) == ".iso" {
        hasIso := true;
      }
    }
    assert files[0..] == files;
  }

  /** `estimate_required_space(album_path)`: walks the files, summing their
      sizes and noting any ISO image, then applies the multiplier. */
  method EstimateRequiredSpace(fs: Fs, album: string) returns (required: nat)
    ensures required == RequiredSpace(fs, album)
  {
    if album !in fs {
      return 0;
    }
    var total, hasIso := WalkFiles(fs, SortedFiles(fs, album));
    AnyIsoOfFiles(fs, album);
    return total * (if hasIso then 5 else 3);
  }

  /** `f"{n / 1024**3:.2f}"`: the gigabytes rounded half-to-even to two
      decimals, exact for sizes below 2^53 bytes. */
  function Gigabytes(n: nat): string {
    var q := (n * 100) / GiB;
    var rem := (n * 100) % GiB;
    var hundredths := if rem > GiB / 2 || (rem == GiB / 2 && q % 2 == 1) then q + 1 else q;
    var frac := hundredths % 100;
    NatToString(hundredths / 100) + "." + [DigitChar(frac / 10), DigitChar(frac % 10)]
  }

  /** `check_disk_space(album_path, safety_margin_gb)` with the margin in
      bytes and the free space of the working root as an input. */
  function CheckDiskSpace(fs: Fs, album: string, marginBytes: nat, available: nat): (r: Outcome)
    ensures r.Ok? <==> available >= RequiredSpace(fs, album) + marginBytes
    ensures r.Fail? ==> StartsWith(r.message, "Insufficient disk space. Required: ")
  {
    var required := RequiredSpace(fs, album) + marginBytes;
    if available < required then
      Fail("Insufficient disk space. Required: " + Gigabytes(required) + " GB, Available: " + Gigabytes(available) + " GB")
    else Ok
  }

  /** More free space never turns a pass into a failure. */
  lemma DiskCheckMonotone(fs: Fs, album: string, marginBytes: nat, available: nat, more: nat)
    requires CheckDiskSpace(fs, album, marginBytes, available).Ok? && more >= available
    ensures CheckDiskSpace(fs, album, marginBytes, more).Ok?
  {
  }

  // ---------------------------------------------------------------------------
  // Filling the working directories

  /** The verification step of `copy_to_source`, by count and size. */
  function VerifiedBySize(fs: Fs, src: string, dst: string): (r: Outcome)
    ensures r.Ok? <==> CopyMatches(fs, src, dst, SizeOnly)
    ensures r.Fail? ==> CopyProblem(fs, src, dst, SizeOnly).Some?
                        && r.message == "Verification failed: " + CopyProblem(fs, src, dst, SizeOnly).value
  {
    CopyProblemNoneIffMatches(fs, src, dst, SizeOnly);
    match CopyProblem(fs, src, dst, SizeOnly)
    case None => Ok
    case Some(problem) => Fail("Verification failed: " + problem)
  }

  /** `copy_to_source(album_path, source_dir)`: copies the album's entries into
      the existing source directory and, when `verify` is set, checks the
      copy by count and size. A failed verification keeps what was copied. */
  function CopyToSource(fs: Fs, album: string, sourceDir: string, verify: bool): (r: (Fs, Outcome))
    ensures album !in fs ==> r == (fs, Fail("Source album not found: " + album))
    ensures album in fs && sourceDir !in fs ==> r == (fs, Fail("Source working directory not found: " + sourceDir))
    ensures album in fs && fs[album].File? && sourceDir in fs ==>
              r == (fs, Fail("Error copying to source: [Errno 20] Not a directory: '" + album + "'"))
    ensures IsDir(fs, album) && sourceDir in fs ==>
              && r.0 == CopyBelow(fs, album, sourceDir)
              && (r.1.Ok? <==> !verify || CopyMatches(r.0, album, sourceDir, SizeOnly))
              && (r.1.Fail? ==> r.1 == VerifiedBySize(r.0, album, sourceDir))
  {
    if album !in fs then (fs, Fail("Source album not found: " + album))
    else if sourceDir !in fs then (fs, Fail("Source working directory not found: " + sourceDir))
    else if fs[album].File? then (fs, Fail("Error copying to source: [Errno 20] Not a directory: '" + album + "'"))
    else
      var copied := CopyBelow(fs, album, sourceDir);
      (copied, if verify then VerifiedBySize(copied, album, sourceDir) else Ok)
  }

  /** The default of `music_extensions`. */
  const DefaultMusicExtensions: seq<string> := [".dsf", ".dff", ".iso", ".flac", ".dsd"]

  /** The lower-cased music extensions in force. */
  function MusicExtensions(given: Option<seq<string>>): set<string> {
    var list := if given.Some? then given.value else DefaultMusicExtensions;
    set i | 0 <= i < |list| :: Lower(list[i])
  }

  /** The entries of the album that reappear in the processed tree: every
      directory, and the files whose extension is not a music one when
      non-music files are copied. */
  predicate Mirrored(fs: Fs, album: string, p: string, music: set<string>, copyNonMusic: bool)
    requires p in fs
  {
    fs[p].Dir? || (copyNonMusic && Ext(p) !in music)
  }

  /** `fs` with only the mirrored entries left below the album. */
  function MirroredPart(fs: Fs, album: string, music: set<string>, copyNonMusic: bool): (m: Fs)
    ensures forall p | p in m :: p in fs && m[p] == fs[p]
    ensures forall p | p in fs :: p in m <==> (!IsUnder(album, p) || Mirrored(fs, album, p, music, copyNonMusic))
  {
    map p | p in fs && (!IsUnder(album, p) || Mirrored(fs, album, p, music, copyNonMusic)) :: fs[p]
  }

  /** `create_processed_structure(album_path, processed_dir, copy_non_music,
      music_extensions)`. */
  function CreateProcessedStructure(fs: Fs, album: string, processedDir: string, copyNonMusic: bool,
                                    musicExtensions: Option<seq<string>>): (r: (Fs, Outcome))
    ensures album !in fs ==> r == (fs, Fail("Source album not found: " + album))
    ensures album in fs && processedDir !in fs ==> r == (fs, Fail("Processed working directory not found: " + processedDir))
    ensures album in fs && processedDir in fs ==> r.1.Ok?
    ensures forall p | p in fs && !IsUnder(processedDir, p) :: p in r.0 && r.0[p] == fs[p]
    ensures album in fs && processedDir in fs ==>
              var music := MusicExtensions(musicExtensions);
              && (forall p | p in fs && IsUnder(album, p) && fs[p].Dir? ::
                    IsDir(r.0, JoinPath(processedDir, Rel(album, p))))
              && (forall p | p in fs && IsUnder(album, p) && fs[p].File? && copyNonMusic && Ext(p) !in music ::
                    JoinPath(processedDir, Rel(album, p)) in r.0 && r.0[JoinPath(processedDir, Rel(album, p))] == fs[p])
              && (forall q | q in r.0 && q !in fs ::
                    IsUnder(processedDir, q) && JoinPath(album, Rel(processedDir, q)) in fs
                    && Mirrored(fs, album, JoinPath(album, Rel(processedDir, q)), music, copyNonMusic)
                    && r.0[q] == fs[JoinPath(album, Rel(processedDir, q))])
  {
    if album !in fs then (fs, Fail("Source album not found: " + album))
    else if processedDir !in fs then (fs, Fail("Processed working directory not found: " + processedDir))
    else
      var kept := MirroredPart(fs, album, MusicExtensions(musicExtensions), copyNonMusic);
      (fs + Rerooted(kept, album, processedDir), Ok)
  }

  // ---------------------------------------------------------------------------
  // Leaving the working directories

  /** `cleanup_working_dirs(source_dir, processed_dir)`: removes each given
      directory that exists, source first; `removalError(d)` is the error
      `rmtree(d)` raises, if any, and a failed removal leaves that directory
      in place. Errors are collected, never raised. */
  function CleanupWorkingDirs(fs: Fs, sourceDir: Option<string>, processedDir: Option<string>,
                              removalError: string -> Option<string>): (r: (Fs, Outcome))
    ensures forall p | p in r.0 :: p in fs && r.0[p] == fs[p]
    ensures r.1.Ok? <==>
              (sourceDir.None? || sourceDir.value !in fs || removalError(sourceDir.value).None?)
              && (processedDir.None? || processedDir.value !in RemoveOne(fs, sourceDir, removalError)
                  || removalError(processedDir.value).None?)
    ensures r.1.Ok? && sourceDir.Some? && sourceDir.value in fs ==> forall p | p in r.0 :: !UnderOrEq(sourceDir.value, p)
    ensures r.1.Ok? && processedDir.Some? && processedDir.value in fs ==> forall p | p in r.0 :: !UnderOrEq(processedDir.value, p)
  {
    var afterSource := RemoveOne(fs, sourceDir, removalError);
    var afterProcessed := RemoveOne(afterSource, processedDir, removalError);
    var errors :=
      (if sourceDir.Some? && sourceDir.value in fs && removalError(sourceDir.value).Some?
       then ["Failed to remove source dir: " + removalError(sourceDir.value).value] else [])
      + (if processedDir.Some? && processedDir.value in afterSource && removalError(processedDir.value).Some?
         then ["Failed to remove processed dir: " + removalError(processedDir.value).value] else []);
    (afterProcessed, if |errors| == 0 then Ok else Fail(Join(errors, "; ")))
  }

  /** One removal step of the cleanup. */
  function RemoveOne(fs: Fs, dir: Option<string>, removalError: string -> Option<string>): (r: Fs)
    ensures forall p | p in r :: p in fs && r[p] == fs[p]
    ensures dir.Some? && dir.value in fs && removalError(dir.value).None? ==> forall p | p in r :: !UnderOrEq(dir.value, p)
    ensures dir.Some? && dir.value !in fs ==> r == fs
  {
    if dir.Some? && dir.value in fs && removalError(dir.value).None? then RemoveTree(fs, dir.value) else fs
  }

  /** The four relocations of a working directory. */
  datatype Relocation = MoveToArchive | CopyToArchive | MoveToOutput | CopyToOutput {
    predicate Moves() { this == MoveToArchive || this == MoveToOutput }

    function MissingMessage(src: string): string {
      (if this == MoveToArchive || this == CopyToArchive then "Source directory not found: "
       else "Processed directory not found: ") + src
    }

    function ExistsMessage(dst: string): string {
      (if this == MoveToArchive || this == CopyToArchive then "Archive already exists: "
       else "Output already exists: ") + dst
    }

    function ErrorPrefix(): string {
      match this
      case MoveToArchive => "Error moving to archive: "
      case CopyToArchive => "Error copying to archive: "
      case MoveToOutput => "Error moving to output: "
      case CopyToOutput => "Error copying to output: "
    }
  }

  /** `move_to_archive`, `copy_to_archive`, `move_to_output` and
      `copy_to_output`: each refuses a missing source or an existing
      destination. A move renames the tree (and cannot put a directory inside
      itself); a copy is `copytree`, which needs a directory. */
  function Relocate(fs: Fs, how: Relocation, src: string, dst: string): (r: (Fs, Outcome))
    ensures src !in fs ==> r == (fs, Fail(how.MissingMessage(src)))
    ensures src in fs && dst in fs ==> r == (fs, Fail(how.ExistsMessage(dst)))
    ensures r.1.Fail? ==> r.0 == fs
    ensures r.1.Ok? ==> src in fs && dst !in fs
    ensures r.1.Ok? && how.Moves() ==>
              && !IsUnder(src, dst)
              && (forall p | p in r.0 :: !UnderOrEq(src, p))
              && dst in r.0 && r.0[dst] == fs[src]
              && (!UnderOrEq(dst, src) ==>
                    forall p | p in fs && IsUnder(src, p) :: JoinPath(dst, Rel(src, p)) in r.0
                      && r.0[JoinPath(dst, Rel(src, p))] == fs[p])
              && (forall p | p in fs && !UnderOrEq(src, p) && !UnderOrEq(dst, p) :: p in r.0 && r.0[p] == fs[p])
    ensures r.1.Ok? && !how.Moves() ==>
              && IsDir(fs, src) && IsDir(r.0, dst)
              && (!UnderOrEq(src, dst) && !UnderOrEq(dst, src) ==>
                    forall p | p in fs && UnderOrEq(src, p) :: p in r.0 && r.0[p] == fs[p])
              && (forall p | p in fs && IsUnder(src, p) :: JoinPath(dst, Rel(src, p)) in r.0
                    && r.0[JoinPath(dst, Rel(src, p))] == fs[p])
              && (forall p | p in fs && !UnderOrEq(dst, p) :: p in r.0 && r.0[p] == fs[p])
  {
    if src !in fs then (fs, Fail(how.MissingMessage(src)))
    else if dst in fs then (fs, Fail(how.ExistsMessage(dst)))
    else if how.Moves() then
      if IsUnder(src, dst) then
        (fs, Fail(how.ErrorPrefix() + "Cannot move a directory '" + src + "' into itself '" + dst + "'."))
      else
        MovedEntries(fs, src, dst);
        (MoveTree(fs, src, dst), Ok)
    else if fs[src].File? then
      (fs, Fail(how.ErrorPrefix() + "[Errno 20] Not a directory: '" + src + "'"))
    else
      CopiedEntries(fs, src, dst);
      (CopyTree(fs, src, dst), Ok)
  }

  lemma CopiedEntries(fs: Fs, src: string, dst: string)
    requires src in fs && dst !in fs
    ensures forall p | p in fs && IsUnder(src, p) :: JoinPath(dst, Rel(src, p)) in CopyTree(fs, src, dst)
              && CopyTree(fs, src, dst)[JoinPath(dst, Rel(src, p))] == fs[p]
    ensures !UnderOrEq(src, dst) && !UnderOrEq(dst, src) ==>
              forall p | p in fs && UnderOrEq(src, p) :: p in CopyTree(fs, src, dst) && CopyTree(fs, src, dst)[p] == fs[p]
  {
    forall p | p in fs && IsUnder(src, p)
      ensures JoinPath(dst, Rel(src, p)) in CopyTree(fs, src, dst) && CopyTree(fs, src, dst)[JoinPath(dst, Rel(src, p))] == fs[p]
    {
      CopyTreeCopies(fs, src, dst, p);
    }
    if !UnderOrEq(src, dst) && !UnderOrEq(dst, src) {
      forall p | p in fs && UnderOrEq(src, p) ensures !UnderOrEq(dst, p) {
        DisjointTrees(src, dst, p);
      }
    }
  }

  lemma MovedEntries(fs: Fs, src: string, dst: string)
    requires src in fs && dst !in fs && !UnderOrEq(src, dst)
    ensures forall p | p in MoveTree(fs, src, dst) :: !UnderOrEq(src, p)
    ensures dst in MoveTree(fs, src, dst) && MoveTree(fs, src, dst)[dst] == fs[src]
    ensures !UnderOrEq(dst, src) ==>
              forall p | p in fs && IsUnder(src, p) :: JoinPath(dst, Rel(src, p)) in MoveTree(fs, src, dst)
                && MoveTree(fs, src, dst)[JoinPath(dst, Rel(src, p))] == fs[p]
  {
    MovedDestination(fs, src, dst);
    if !UnderOrEq(dst, src) {
      forall p | p in fs && IsUnder(src, p)
        ensures JoinPath(dst, Rel(src, p)) in MoveTree(fs, src, dst)
                && MoveTree(fs, src, dst)[JoinPath(dst, Rel(src, p))] == fs[p]
      {
        MovedEntry(fs, src, dst, p);
      }
    }
  }

  /** The moved root lands at `dst`. */
  lemma MovedDestination(fs: Fs, src: string, dst: string)
    requires src in fs && dst !in fs && !UnderOrEq(src, dst)
    ensures dst in MoveTree(fs, src, dst) && MoveTree(fs, src, dst)[dst] == fs[src]
  {
    var copied := CopyBelow(fs, src, dst)[dst := fs[src]];
    assert dst in copied && copied[dst] == fs[src];
  }

  /** One entry below `src` lands at its relative place below `dst`. */
  lemma MovedEntry(fs: Fs, src: string, dst: string, p: string)
    requires src in fs && !UnderOrEq(src, dst) && !UnderOrEq(dst, src)
    requires p in fs && IsUnder(src, p)
    ensures JoinPath(dst, Rel(src, p)) in MoveTree(fs, src, dst)
    ensures MoveTree(fs, src, dst)[JoinPath(dst, Rel(src, p))] == fs[p]
  {
    var q := JoinPath(dst, Rel(src, p));
    RelJoin(dst, Rel(src, p));
    DisjointTrees(dst, src, q);
    var below := CopyBelow(fs, src, dst);
    assert q in below && below[q] == fs[p];
    var copied := below[dst := fs[src]];
    assert q != dst;
    assert q in copied && copied[q] == fs[p];
  }
}

=== FILE: wrappers.dfy ===
/** Failure-compatible wrappers shared by every module of the model:
    `Option` for Python's `None`-or-value returns, `Result` for an operation
    that either yields a value or raises. */
module Wrappers {

  datatype Option<+T> = None | Some(value: T) {
    predicate IsFailure() { None? }

    function PropagateFailure<U>(): Option<U>
      requires None?
    {
      None
    }

    function Extract(): T
      requires Some?
    {
      value
    }

    function GetOr(default: T): T {
      match this
      case Some(v) => v
      case None => default
    }
  }

  datatype Result<+R, +E> = Success(value: R) | Failure(error: E) {
    predicate IsFailure() { Failure? }

    function PropagateFailure<U>(): Result<U, E>
      requires Failure?
    {
      Failure(error)
    }

    function Extract(): R
      requires Success?
    {
      value
    }
  }

  /** The `(success, error_message)` pair most operations of the program return. */
  datatype Outcome = Ok | Fail(message: string) {
    predicate Succeeded() { Ok? }
  }
}
